=== FILE: README.md ===
# Operating-systems exercises: a Dafny model of their sequential cores

The repository holds three C exercises. This project models the logic of
each one that runs inside a single process, or under a single mutex.

- **Homework-2.** Readers and writers share a file of account records. A
  table of 256 `proc_info` cells in shared memory admits them by record
  range.
  - On entry, a worker claims the lowest free cell and takes a ticket as
    its priority. It then counts the older live workers whose range
    overlaps its own, where at least one of the two is a writer.
  - On exit, it decrements that count in every younger conflicting cell,
    wakes each cell whose count drops to zero, and frees its own cell.
  - Also modelled: the initial segment, the reader and writer
    command-line parsers, the integer validator, `gen_num` and the
    balance update.
  - The source tests a caller's count only after it has released the
    mutex. `SlotTable` decides the wait under the mutex, which is the
    corrected entry. `SlotRace` models the entry in the source's order, with
    the test as a step of its own, and exhibits a run in which two writers
    of the same record hold it at once (see Findings).
- **Homework-1.** Records are sorted by (surname, name, id) with merge
  sort and heapsort. The sorted outputs of child processes are merged
  pairwise, and a record range is split among the children. Also
  modelled: the comparator, the swap and the coordinator's argument
  check.
- **Homework-0.** `mvote` is a voter database built from two structures:
  - a linear-hashing table of voters, with bucket overflow chains, a
    split pointer and rounds;
  - an inverted index of postal codes, ordered by how many voters there
    have voted.

  Also modelled: the FIFO list used during redistribution, the voter
  record, the database layer that keeps the two structures consistent,
  the command interpreter (`exec_cmd` and each `cmd_*`), and the
  input-line handling of `RunDB`.

Modelling choices:
- Structures that the C code changes in place are immutable values.
  Each operation returns the new value.
- A C `exit(EXIT_FAILURE)` or a refused argument becomes an `Err`, and a
  NULL result becomes `None`.
- Console messages become constructors of a `Reply` datatype.
- Files are passed in as their parsed contents:
  - the initial voter file as `VoterLine` records;
  - the files named by `bv` as a map from file name to lines.
- `rand()` is a parameter of `gen_num`.
- Semaphores become counters, plus a set of running workers.
- Sorting works on sequence values. A method returns the array as it is
  after the call.

Files (one module each, no nesting):
`wrappers.dfy` (Option/Result), `numerals.dfy` (atoi, sscanf, the numeral
validators), `hw2_slots.dfy`, `hw2_race.dfy`, `hw2_args.dfy`, `hw2_random.dfy`,
`hw2_record.dfy`, `hw1_record.dfy`, `hw1_sorted.dfy`, `hw1_mergesort.dfy`,
`hw1_heapsort.dfy`, `hw1_merge.dfy`, `hw1_args.dfy`, `hw0_voter.dfy`,
`hw0_list.dfy`, `hw0_bucket.dfy`, `hw0_hashtable.dfy`, `hw0_index.dfy`,
`hw0_database.dfy`, `hw0_utils.dfy`, `hw0_command.dfy`.

## Model

| member | source | states |
|---|---|---|
| Numerals.PositiveIntegerShape | Homework-0/src/utils.c:55-79 | `isPositiveIntegerNumber` accepts exactly the strings that start with '+' or a non-zero digit and continue with digits only. So "+" and "+0" pass, while "", "0" and any leading '-' are refused |
| Numerals.BarePlusNotStrict | Homework-1/src/inputUtils.c:24-48 | a bare "+" passes `isPositiveIntegerNumber`, but `atoi` gives 0, so the corrected check refuses it |
| Numerals.NonZeroDigitStrict | Homework-1/src/inputUtils.c:24-48 | a single non-zero digit passes the corrected check, and `atoi` gives its value |
| Numerals.PositiveIntegerValue | Homework-1/src/inputUtils.c:24-48 | `atoi` of a string the positive-integer check accepts is never negative, and is positive unless the string starts with '+' |
| Numerals.Atoi | Homework-0/OS2023_HW0-master/src/Command.c:172 | C `atoi`; `AtoiOfNumeral` and `AtoiOfSignedNumeral` state its contract: a numeral's decimal value, negated after '-' |
| Numerals.AtoiOfNumeral | Homework-0/OS2023_HW0-master/src/Command.c:172 | `atoi` of a plain numeral is the numeral's decimal value |
| Numerals.AtoiOfSignedNumeral | Homework-2/src/common/inputUtils.c:65-77 | after one sign character, `atoi` reads the numeral that follows, negated for '-' |
| Numerals.SingleDigit | Homework-2/src/common/inputUtils.c:19-49 | a one-digit string is a valid integer under option 0, and under option 1 unless it is '0'; its `atoi` value is the digit |
| Numerals.ValidIntegerShape | Homework-2/src/common/inputUtils.c:19-49 | option -1 accepts digit strings with at most one leading '-' ("-" alone included); option 0 accepts digit strings only; option 1 also refuses a leading '0'; NULL and "" never pass |
| Numerals.ValidIntegerRefusesPlus | Homework-2/src/common/inputUtils.c:23-41 | a leading '+' is refused under every option, because the loop meant to skip it does nothing |
| Numerals.ValidIntegerValue | Homework-2/src/common/inputUtils.c:19-49 | the `atoi` value of an accepted string is at least 0 under option 0 and at least 1 under option 1 |
| Numerals.ScanInt | Homework-0/src/DataBase.c:84-88 | `sscanf(line, "%d")`; `ScanIntOfNumeral` and `ScanIntNeedsADigit` state its contract: a line starting with a numeral scans to its value, and a line with no digit does not scan |
| Numerals.ScanIntOfNumeral | Homework-0/src/DataBase.c:84 | `sscanf("%d")` of a line that starts with a numeral reads that numeral's value |
| Numerals.ScanIntNeedsADigit | Homework-0/src/DataBase.c:84-88 | a line with no digit does not scan, so the voted-file pass reports it as malformed |
| SlotTable.RangesConflict | Homework-2/src/common/synchroUtils.c:275-284 | `ranges_conflict`; `RangesConflictMeansSharedRecord` states its contract: two valid ranges conflict exactly when they share a record index |
| SlotTable.RangesConflictMeansSharedRecord | Homework-2/src/common/synchroUtils.c:275-284 | two valid ranges conflict exactly when some record index lies in both |
| SlotTable.RangesConflictSymmetric | Homework-2/src/common/synchroUtils.c:275-284 | `ranges_conflict` is symmetric |
| SlotTable.InitIndex | Homework-2/src/common/synchroUtils.c:229-245 | the claimed cell is free and every lower cell is occupied; there is none exactly when all cells are occupied |
| SlotTable.CheckRangeEntry | Homework-2/src/common/synchroUtils.c:68-93 | `blocked_by` becomes the number of other live cells whose priority is at least the caller's, whose range overlaps, and where the caller or that cell is a writer |
| SlotTable.CheckRangeExit | Homework-2/src/common/synchroUtils.c:103-146 | the scan decrements exactly the younger conflicting cells, and posts exactly those whose count was 1 |
| SlotTable.EnterPreservesCells | Homework-2/src/common/synchroUtils.c:258-270 | registering in a free cell with the current ticket keeps priorities unique and older than the ticket, keeps every count exact, and adds exactly that cell to the live set |
| SlotTable.LockNeverFails | Homework-2/src/common/synchroUtils.c:229-245 | a worker that holds an admission permit always finds a free cell, so the assert in `init_index` never fires |
| SlotTable.Lock | Homework-2/src/common/synchroUtils.c:17-36 | the corrected entry, with the count tested before the mutex is posted. `LockEffect`, `LockNeverFails` and `LockPreservesInv` state its contract, and `SlotRace.RegisterThenDecide` shows that it is the source's two steps run back to back |
| SlotTable.LockEffect | Homework-2/src/common/synchroUtils.c:17-36 | entry takes the lowest free cell, uses the ticket as its priority and decrements the ticket, leaves every other cell unchanged, and sleeps exactly when some cell blocks it. The count is tested under the mutex, as in the corrected entry |
| SlotTable.LockPreservesInv | Homework-2/src/common/synchroUtils.c:17-43 | entry keeps the invariant: every live cell's `blocked_by` equals its number of live older conflicting cells, and its semaphore is posted exactly when it sleeps with no blocker |
| SlotTable.ExitMatchesEntry | Homework-2/src/common/synchroUtils.c:115-145 | the cells the exit scan decrements are exactly those whose entry scan counted the leaver |
| SlotTable.ExitAssertsHold | Homework-2/src/common/synchroUtils.c:120-136 | under the invariant, the asserts `blocked_by > 0` and `blocked_by >= 0` of the exit scan hold, and a decremented cell is not running |
| SlotTable.LeaveCellsShape | Homework-2/src/common/synchroUtils.c:45-59 | exit frees only the caller's cell, and no other cell's range, role or priority changes |
| SlotTable.LeaveBlockers | Homework-2/src/common/synchroUtils.c:103-146 | after an exit, each remaining cell's blockers are its old blockers minus the leaver |
| SlotTable.Unlock | Homework-2/src/common/synchroUtils.c:45-60 | `check_range_and_unlock`; `UnlockEffect`, `UnlockAccounting` and `UnlockPreservesInv` state its contract |
| SlotTable.UnlockPreservesInv | Homework-2/src/common/synchroUtils.c:45-60 | exit keeps the invariant |
| SlotTable.UnlockEffect | Homework-2/src/common/synchroUtils.c:103-146 | after an exit the leaver's cell is free; a live cell loses one blocker exactly when it counted the leaver, and its semaphore is posted exactly when that was its last blocker |
| SlotTable.UnlockAccounting | Homework-2/src/common/synchroUtils.c:192-221 | `stats_exit` adds the capacity to the processed total and to the role's total, and adds one finished worker |
| SlotTable.ResumePreservesInv | Homework-2/src/common/synchroUtils.c:33-36 | a sleeper that consumes its post and runs keeps the invariant |
| SlotTable.AdmitLeavePreserveInv | Homework-2/src/reader/reader.c:44-65 | taking and returning an admission permit keeps the invariant |
| SlotTable.InitEstablishesInv | Homework-2/src/common/shmem.c:8-50 | the initial segment satisfies the invariant |
| SlotTable.InitialState | Homework-2/src/common/shmem.c:20-49 | after init: no cell is live, no cell has a waiter, and priorities and roles are unset; the first registration takes cell 0; the ticket is `n_children`; the admission counter is 256 and the mutex 1; the accountant semaphores are 0 and it has not terminated; the registry counters and message are cleared |
| SlotTable.NoOvertaking | Homework-2/src/common/synchroUtils.c:68-93 | while an older conflicting occupant is present, a worker does not run |
| SlotTable.RunningAreCompatible | Homework-2/src/common/synchroUtils.c:17-60 | two running workers never have overlapping ranges where a writer is involved |
| SlotTable.ReadersShareRecords | Homework-2/src/common/synchroUtils.c:85-91 | two readers never count each other on entry or on exit |
| SlotTable.OldestIsNeverBlocked | Homework-2/src/common/synchroUtils.c:68-93 | the oldest live occupant has no blockers and is running or posted, so the table cannot deadlock |
| SlotTable.ApplyPreservesInv | Homework-2/src/common/synchroUtils.c:17-60 | each worker action keeps the invariant; registration lowers the ticket by one, and exit raises the processed total by its capacity |
| SlotTable.RunPreservesInv | Homework-2/src/common/synchroUtils.c:17-60 | every run keeps the invariant; the ticket drops by the number of registrations, and the total rises by the reported capacities |
| SlotTable.TicketAfterAllRegistered | Homework-2/src/initlzer/initlzer.c:49 | once each of the `n` children has registered, `ticket_number` is 0 |
| SlotTable.ReachableStatesAreSafe | Homework-2/src/common/synchroUtils.c:17-60 | in every state reachable from init, running workers are pairwise compatible |
| SlotRace.RegisterThenDecide | Homework-2/src/common/synchroUtils.c:17-36 | registering and then testing the count, with no other step in between, claims the same cell and gives the same table and running set as the corrected entry; it fails exactly when that entry does |
| SlotRace.StalePostOvertakes | Homework-2/src/common/synchroUtils.c:31-36 | with the count tested after the mutex is posted, a run of four writers of record 0 ends with two of them running at once. The later one still counts the earlier one as a blocker |
| WorkerArgs.StrInit | Homework-2/src/common/inputUtils.c:51-63 | `str_init` succeeds exactly when an argument follows the flag; it returns that argument and moves the cursor by one |
| WorkerArgs.NumInit | Homework-2/src/common/inputUtils.c:65-77 | `num_init` succeeds exactly when the next argument is a valid integer under the option; it returns its `atoi` value and moves the cursor by one; the value is at least 0 under option 0 and at least 1 under option 1 |
| WorkerArgs.AcceptedValueBound | Homework-2/src/common/inputUtils.c:19-49 | an accepted string under option 0 or 1 has a value at least the option |
| WorkerArgs.RangeFlag | Homework-2/src/reader/readerUtils.c:18-33 | `-l` gives a 0-based start of at least 0; without a ", finish" part the range is the single record; a finish that is 0-based 0, or equal to the start, collapses to the start |
| WorkerArgs.ReaderLoop | Homework-2/src/reader/readerUtils.c:13-45 | a successful parse gives non-negative 0-based records and delay, with both range ends set or neither |
| WorkerArgs.ReaderArgsInit | Homework-2/src/reader/readerUtils.c:7-46 | `reader_args_init` with its lookahead guarded; `ReaderArgsContract` states its contract: the count is refused exactly when it is neither 11 nor 9, and an accepted line gives non-negative records and delay |
| WorkerArgs.ReaderArgsContract | Homework-2/src/reader/readerUtils.c:7-46 | the argument count is refused exactly when it is neither 11 nor 9 |
| WorkerArgs.ReaderLoopGuardAgrees | Homework-2/src/reader/readerUtils.c:22 | guarding the `-l` lookahead changes the result only on lines where the source reads past `argv` |
| WorkerArgs.ReaderLookaheadPastEnd | Homework-2/src/reader/readerUtils.c:22 | with `-l 5` last on a 9-argument line, the source reads `argv[9]`, while the guarded parser gives the single record 4 |
| WorkerArgs.ReaderCapacityInit | Homework-2/src/reader/readerUtils.c:48-54 | the capacity is `finish - start + 1`, which is at least 1; it is refused exactly when finish is below start, where the assert fails |
| WorkerArgs.WriterLoop | Homework-2/src/writer/writerUtils.c:13-38 | a successful parse gives a non-negative 0-based record id and delay; no flag reads past the end |
| WorkerArgs.WriterArgsInit | Homework-2/src/writer/writerUtils.c:7-39 | `writer_args_init`; `WriterArgsContract` states its contract: exactly 11 arguments are accepted, giving a non-negative record id and delay |
| WorkerArgs.WriterArgsContract | Homework-2/src/writer/writerUtils.c:7-11 | exactly 11 arguments are accepted |
| WorkerArgs.WriterRejectsUnknownFlag | Homework-2/src/writer/writerUtils.c:36-37 | an argument in flag position other than -f -l -d -v -s stops the parse with that argument |
| WorkerArgs.WriterValueMayBeNegative | Homework-2/src/writer/writerUtils.c:27-29 | `-v` accepts a negative number and reads it negated |
| RandomRange.CRem | Homework-2/src/common/processUtils.c:41 | C's `%` keeps the dividend's sign, and its magnitude is below the divisor's |
| RandomRange.GenNum | Homework-2/src/common/processUtils.c:40-42 | `gen_num`; `GenNumRange` and `GenNumReachesAll` state its contract: with `max_num >= min_num` the result lies in `[min_num, max_num]`, and every value there is produced |
| RandomRange.GenNumRange | Homework-2/src/common/processUtils.c:40-42 | with `max_num >= min_num` the result is `r % (max_num+1-min_num) + min_num`, which lies in `[min_num, max_num]` |
| RandomRange.GenNumReachesAll | Homework-2/src/common/processUtils.c:40-42 | every value of `[min_num, max_num]` is produced by some random value |
| RandomRange.GenNumFixed | Homework-2/src/common/processUtils.c:41 | `gen_num(k, k)` is k |
| RandomRange.GenNumNegativeModulus | Homework-2/src/common/processUtils.c:41 | with a negative modulus the result leaves the range: `gen_num(0, 5)` with `rand() == 1` is 6 |
| RandomRange.GeneratedReaderRange | Homework-2/src/initlzer/initlzerUtils.c:121-123 | generated reader ranges satisfy `1 <= start <= finish <= n_records` |
| BalanceRecord.BalanceUpdate | Homework-2/src/common/record.c:17-22 | the balance moves by exactly `diff`, and id, surname and name are unchanged |
| BalanceRecord.BalanceUpdateCompose | Homework-2/src/common/record.c:21-27 | updating by a and then by b equals one update by a+b, and `record_get_balance` sees the change |
| BalanceRecord.SumBalances | Homework-2/src/reader/readerUtils.c:56-62 | the sum grows by the total balance of the first `capacity` records |
| BalanceRecord.TotalAfterUpdate | Homework-2/src/common/record.c:17-22 | updating one record by `diff` moves the file's total balance by `diff` |
| SortRecord.StrCmp | Homework-1/src/record.c:33-38 | the sign of `strcmp`: 0 exactly on equal strings |
| SortRecord.StrCmpMeaning | Homework-1/src/record.c:33-38 | `strcmp` is negative, zero or positive exactly when the first string is lexicographically smaller, equal or greater |
| SortRecord.StrCmpAntisymmetric | Homework-1/src/record.c:33-38 | swapping the arguments of `strcmp` negates its sign |
| SortRecord.StrCmpTransitive | Homework-1/src/record.c:33-38 | `strcmp` order is transitive |
| SortRecord.RecordsCompare | Homework-1/src/record.c:27-40 | `records_compare`; `CompareMeaning` states its contract: 1 exactly for a greater (surname, name, id) key, -1 otherwise, never 0 |
| SortRecord.CompareMeaning | Homework-1/src/record.c:27-40 | `records_compare` answers 1 exactly when A's (surname, name, id) is lexicographically greater than B's, and -1 otherwise; it never answers 0 |
| SortRecord.CompareAntisymmetric | Homework-1/src/record.c:27-40 | distinct keys give opposite answers, and equal keys give -1 in both directions |
| SortRecord.GtStrictTotal | Homework-1/src/record.c:27-40 | "compares 1" is irreflexive, and exactly one direction holds between records with different keys |
| SortRecord.GtTransitive | Homework-1/src/record.c:27-40 | "compares 1" is transitive |
| SortRecord.LeTotal | Homework-1/src/record.c:27-40 | "not greater" is total |
| SortRecord.LeTransitive | Homework-1/src/record.c:27-40 | "not greater" is transitive |
| SortRecord.Swap | Homework-1/src/record.c:10-19 | `records_swap` exchanges the two records and leaves every other position alone |
| SortRecord.SwapTwice | Homework-1/src/record.c:10-19 | swapping twice restores both records |
| SortedMerge.MergePermutes | Homework-1/src/mergesort.c:99-129 | the stable merge is a permutation of both inputs |
| SortedMerge.MergeSorted | Homework-1/src/mergesort.c:112-121 | merging two sorted sequences gives a sorted sequence |
| SortedMerge.MergeKeepsTies | Homework-1/src/mergesort.c:113-115 | for every key, the merged records with that key are those of the first input, then those of the second, each in order |
| MergeSort.Merge | Homework-1/src/mergesort.c:99-129 | `merge` replaces `[left, right)` by the stable merge of its two halves and touches nothing outside the slice |
| MergeSort.MergeStep | Homework-1/src/mergesort.c:91-96 | sorting both halves and merging them sorts the slice stably, as a permutation, with the outside untouched |
| MergeSort.MergeSortSlice | Homework-1/src/mergesort.c:83-97 | `merge_sort(a, start, finish)` leaves the slice a sorted, stable permutation of itself and touches nothing outside it; slices of at most one record are unchanged |
| MergeSort.SortRecords | Homework-1/src/mergesort.c:61 | the whole array ends sorted; it is a permutation of the input, and records with equal keys keep their order |
| HeapSort.LargestIsLargest | Homework-1/src/heapsort.c:84-94 | the chosen `largest` is the parent or a child below `size`, and no child compares greater than it |
| HeapSort.Heapify | Homework-1/src/heapsort.c:84-100 | if the heap order holds below `index`, `heapify` restores it at `index`; it permutes only the subtree below `size` |
| HeapSort.BuildHeap | Homework-1/src/heapsort.c:106-108 | the build loop makes the first `size` records a max-heap by permutation; size 0 or 1 leaves them unchanged |
| HeapSort.SortRound | Homework-1/src/heapsort.c:111-114 | one round moves the maximum of `[0, i]` to position i, keeps the tail sorted, and keeps the heap not above the tail |
| HeapSort.DrainHeap | Homework-1/src/heapsort.c:110-114 | the second loop turns a max-heap into a sorted permutation and touches nothing past `size` |
| HeapSort.HeapSortRecords | Homework-1/src/heapsort.c:102-115 | `heap_sort` leaves the first `size` records a sorted permutation of themselves and the rest as they were; sizes 0 and 1 are unchanged |
| ChildResults.MergePair | Homework-1/src/processUtils.c:161-191 | `merge_pair` is the stable merge with `res2` as the first argument |
| ChildResults.MergePairPermutes | Homework-1/src/processUtils.c:168-188 | `merge_pair` returns cap1+cap2 records, a permutation of both inputs, sorted when both are |
| ChildResults.MergePairTies | Homework-1/src/processUtils.c:176-179 | on equal keys, the `res2` records come out ahead of the `res1` ones, each side in its own order |
| ChildResults.MergeResults | Homework-1/src/processUtils.c:133-158 | `merge_results` returns every record of every child, as many as the capacities sum to. It is sorted when every child's output is, and among equal keys a later child's records come first |
| ChildResults.SetChildRecordBounds | Homework-1/src/processUtils.c:95-101 | the child starts at `start`; a non-last child gets `parent_capacity / n_children` records, and the last gets what the others left |
| ChildResults.SplitRange | Homework-1/src/coordinator.c:77-84 | with at least one child, the children's ranges are contiguous and disjoint, none is negative, and their capacities sum to the parent's. With no children (what `-k +` gives) the loop lays out no range, so no record is assigned to anyone |
| SortArgs.ArgsLoop | Homework-1/src/inputUtils.c:57-104 | the flag loop never reports a wrong argument count |
| SortArgs.ValidArgs | Homework-1/src/inputUtils.c:53-105 | `validArgs` of the coordinator; `ValidArgsCount`, `CoordinatorReadsInside`, `KNeedsPositive` and `RejectsUnknownFlag` state its contract |
| SortArgs.ValidArgsCount | Homework-1/src/inputUtils.c:54-55 | `validArgs` fails on the count exactly when argc differs from `max_args` |
| SortArgs.OddLineStaysInside | Homework-1/src/inputUtils.c:58-100 | with an odd argc, no flag's unchecked `argv[i+1]` reads past the end |
| SortArgs.CoordinatorReadsInside | Homework-1/src/inputUtils.c:53-105 | with the coordinator's nine arguments, the parse never reads past `argv` |
| SortArgs.EvenLineReadsPastEnd | Homework-1/src/inputUtils.c:59-60 | with an even argument count, `-i` last reads past `argv` |
| SortArgs.KNeedsPositive | Homework-1/src/inputUtils.c:70-78 | `-k` not followed by a positive-integer string stops the parse |
| SortArgs.RejectsUnknownFlag | Homework-1/src/inputUtils.c:101-102 | any argument in flag position other than -i, -k, -e1 or -e2 stops the parse with that argument |
| SortArgs.ChildCountNotNegative | Homework-1/src/inputUtils.c:70-75 | a parsed child count is never negative |
| SortArgs.PlusGivesZeroChildrenOn | Homework-1/src/inputUtils.c:35-47 | every nine-argument line `-i F -k + -e1 A -e2 B` is accepted with zero children |
| SortArgs.PlusGivesZeroChildren | Homework-1/src/inputUtils.c:35-47 | "-k +" is accepted and gives zero children |
| SortArgs.StrictChildCountPositive | Homework-1/src/inputUtils.c:70-78 | with "+" and "+0" refused, a successful parse gives a child count of at least 1 |
| SortArgs.StrictRefusesPlusAfterFile | Homework-1/src/inputUtils.c:70-78 | the corrected check refuses `-k +` on every nine-argument line that starts with `-i <file>` |
| SortArgs.StrictRefusesPlusChildren | Homework-1/src/inputUtils.c:70-78 | the corrected check refuses `coordinator -i data -k + -e1 q -e2 h` |
| Voters.VoterCreate | Homework-0/src/Voter.c:18-44 | a new voter has not voted; the getters return the given pin and postal code; name and surname are the given ones |
| Voters.VoterGetPin | Homework-0/src/Voter.c:58-62 | `voter_get_pin`; `VoterCreate` and `VoterVote` state its contract: a new voter's pin is the given one, and voting keeps it |
| Voters.VoterGetZip | Homework-0/src/Voter.c:64-68 | `voter_get_zip`; `VoterCreate` and `VoterVote` state its contract: a new voter's postal code is the given one, and voting keeps it |
| Voters.VoterVote | Homework-0/src/Voter.c:52-56 | afterwards the voter has voted, and no other field changes |
| Voters.VoteIdempotent | Homework-0/src/Voter.c:52-56 | voting twice is voting once, and a voter who has voted is unchanged by voting |
| Voters.VoteForgetsOnlyTheFlag | Homework-0/src/Voter.c:52-56 | two voters that differ only in the flag are equal once both have voted |
| LinkedLists.ListCreate | Homework-0/src/LinkedList.c:23-39 | a new list is empty, with size 0 |
| LinkedLists.ListAppend | Homework-0/src/LinkedList.c:53-72 | the value becomes the new tail, the nodes before it are unchanged, and the size goes up by one |
| LinkedLists.ListRemove | Homework-0/src/LinkedList.c:85-95 | the head value is returned and dropped, and the size goes down by one |
| LinkedLists.Fifo | Homework-0/src/LinkedList.c:53-95 | removing everything from a list built by appends returns the values in order |
| LinkedLists.ListAddAsWritten | Homework-0/src/LinkedList.c:97-119 | `list_add` as written adds exactly one node |
| LinkedLists.ListAddDoubleCounts | Homework-0/src/LinkedList.c:100-118 | at or past the second-to-last position, the counter ends one above the number of nodes; from an empty list it is 2 |
| LinkedLists.ListAdd | Homework-0/src/LinkedList.c:97-119 | the corrected `list_add` keeps the counter equal to the number of nodes |
| LinkedLists.ListAddPlacesAfterIndex | Homework-0/src/LinkedList.c:103-118 | the corrected `list_add` inserts the value right after the node `index` steps from the head, or at the tail; all other nodes keep their order |
| Buckets.BucketCreate | Homework-0/OS2023_HW0-master/src/HashTable.c:62-83 | a new bucket has `bucket_size` empty cells and is well formed |
| Buckets.BucketInsert | Homework-0/OS2023_HW0-master/src/HashTable.c:115-133 | `bucket_insert`; `BucketInsertAppends` states its contract: a non-full, well-formed bucket gains the voter after its stored voters and stays well formed |
| Buckets.BucketInsertAppends | Homework-0/OS2023_HW0-master/src/HashTable.c:115-133 | inserting into a non-full bucket fills the first empty cell, appends the voter to what the bucket holds, and marks it full exactly when the last cell is filled |
| Buckets.BucketEmptyWf | Homework-0/OS2023_HW0-master/src/HashTable.c:158-164 | an emptied bucket holds nothing and is well formed |
| Buckets.FirstWithPinMeaning | Homework-0/OS2023_HW0-master/src/HashTable.c:137-147 | the voter found has the pin and is stored; there is one exactly when some stored voter has the pin |
| Buckets.BucketSearch | Homework-0/OS2023_HW0-master/src/HashTable.c:137-147 | `bucket_search` stops at the first NULL cell; a voter it returns has the pin and sits in a scanned cell, and `BucketSearchFilled` shows it is the first voter with the pin among the cells before the first NULL |
| Buckets.BucketSearchFilled | Homework-0/OS2023_HW0-master/src/HashTable.c:137-147 | searching from cell `i` returns the first voter with the pin among the voters met before the first NULL cell |
| Buckets.ChainSearchContents | Homework-0/OS2023_HW0-master/src/HashTable.c:382-399 | walking a chain finds the first voter with the pin among everything the chain holds |
| Buckets.ChainInsert | Homework-0/OS2023_HW0-master/src/HashTable.c:188-204 | the chain walk of `hash_table_simple_insert`; `ChainInsertAppends` states its contract: the chain's voters gain the new voter at the end, and the chain stays well formed |
| Buckets.ChainInsertAppends | Homework-0/OS2023_HW0-master/src/HashTable.c:188-204 | inserting into a chain appends the voter to its contents and keeps it well formed; a bucket is added exactly when every bucket was full |
| Buckets.MarkFirstOtherPin | Homework-0/OS2023_HW0-master/src/HashTable.c:428-444 | marking the first voter with one pin leaves the first voter with any other pin as it was |
| Buckets.ChainMarkContents | Homework-0/OS2023_HW0-master/src/HashTable.c:428-444 | marking through a chain marks the first voter with the pin and nothing else, and keeps the chain well formed |
| Buckets.GetKeysAreContents | Homework-0/OS2023_HW0-master/src/HashTable.c:240-257 | the redistribution list holds exactly the chain's voters, in chain order, with a correct counter |
| LinearHash.PowerOfTwo | Homework-0/OS2023_HW0-master/src/HashTable.c:41-45 | `power_of_two` is 0 below zero and 2^i otherwise |
| LinearHash.HashFunction | Homework-0/OS2023_HW0-master/src/HashTable.c:49-51 | for a non-negative key the hash lies in `[0, 2^i * m)` |
| LinearHash.HashNext | Homework-0/OS2023_HW0-master/src/HashTable.c:49-51 | the next round's hash is the current one, or the current one plus the current modulus |
| LinearHash.AddressInRange | Homework-0/OS2023_HW0-master/src/HashTable.c:349-351 | with the split pointer below the round's modulus, every address is a slot of the table |
| LinearHash.AddressOfSplitSlot | Homework-0/OS2023_HW0-master/src/HashTable.c:284-303 | a pin addressed to the split slot hashes there in the current round |
| LinearHash.HashTableCreate | Homework-0/OS2023_HW0-master/src/HashTable.c:309-340 | a new table is valid and empty, with `m` slots, round 0 and split pointer 0 |
| LinearHash.SimpleInsert | Homework-0/OS2023_HW0-master/src/HashTable.c:188-204 | `hash_table_simple_insert`; `SimpleInsertEffect` states its contract: only slot `index` changes, gaining the voter at the end, and every chain stays well formed |
| LinearHash.Split | Homework-0/OS2023_HW0-master/src/HashTable.c:216-228 | `hash_table_split`; `GrowReady` states its contract: one more slot, holding an empty bucket, and the split pointer still names the chain to redistribute, all of whose next-round slots exist |
| LinearHash.KeysRedistribute | Homework-0/OS2023_HW0-master/src/HashTable.c:269-281 | `hash_table_keys_redistribute`; `KeysRedistributeEffect` states its contract: each slot gains, in list order, exactly the listed voters that the next round's hash sends it |
| LinearHash.Redistribution | Homework-0/OS2023_HW0-master/src/HashTable.c:284-303 | `hash_table_redistribution`; `MovedIsRedistributed` states its contract: the split slot shrinks to one empty bucket, exactly its old voters are reinserted with the next round's hash, and the pointer advances |
| LinearHash.KeysRedistributeEffect | Homework-0/OS2023_HW0-master/src/HashTable.c:269-281 | moving the keys gives every slot, in list order, the keys the next round's hash sends to it; nothing is lost or duplicated |
| LinearHash.MovedIsRedistributed | Homework-0/OS2023_HW0-master/src/HashTable.c:284-303 | redistribution empties the split slot, then reinserts its voters with the next round's hash |
| LinearHash.MovedValid | Homework-0/OS2023_HW0-master/src/HashTable.c:216-303 | after a split and redistribution, the table is valid while the split pointer stays below the round's modulus |
| LinearHash.ResetP | Homework-0/OS2023_HW0-master/src/HashTable.c:231-237 | `hash_table_reset_p`; `ResetValid` states its contract: once the pointer reaches the old size, starting the next round keeps the table valid and every voter stored |
| LinearHash.ResetValid | Homework-0/OS2023_HW0-master/src/HashTable.c:231-237 | when the split pointer reaches the modulus, the next round with pointer 0 is valid |
| LinearHash.GrowValid | Homework-0/OS2023_HW0-master/src/HashTable.c:370-379 | growing keeps the table valid and every voter, and adds one slot |
| LinearHash.InsertedValid | Homework-0/OS2023_HW0-master/src/HashTable.c:342-361 | the first half of insert keeps the table valid and adds exactly the voter |
| LinearHash.HashTableSearch | Homework-0/OS2023_HW0-master/src/HashTable.c:382-399 | the answer has the pin and is stored in the table; there is none exactly when no stored voter has the pin |
| LinearHash.HashTableExists | Homework-0/OS2023_HW0-master/src/HashTable.c:401-408 | `exists` holds exactly when some stored voter has the pin |
| LinearHash.SearchAfterInsert | Homework-0/OS2023_HW0-master/src/HashTable.c:342-399 | after inserting a voter, searching its pin finds a voter |
| LinearHash.HashTableInsert | Homework-0/OS2023_HW0-master/src/HashTable.c:342-380 | the voter is added to what the table holds, and to the voted voters if it has voted; the table stays valid and the pin can be found |
| LinearHash.CountersMeaning | Homework-0/OS2023_HW0-master/src/HashTable.c:410-426 | `n_voters` counts the stored voters, and the table is empty exactly when none is stored; `n_voters_voted` counts those who voted and never exceeds `n_voters` |
| LinearHash.MarkFirstEffect | Homework-0/OS2023_HW0-master/src/HashTable.c:428-444 | marking keeps the length and every pin; the bag trades the voter for its voted copy, and searching finds the copy |
| LinearHash.MarkedValid | Homework-0/OS2023_HW0-master/src/HashTable.c:428-444 | marking a found voter that has not voted keeps the table valid and adds exactly that voter to the voted ones |
| LinearHash.HashTableMarkVoterVoted | Homework-0/OS2023_HW0-master/src/HashTable.c:428-444 | a stored voter with the pin that has not voted is marked, the voted count rises by one, and the voter is returned; otherwise nothing changes and NULL is returned |
| LinearHash.MarkedSearchOther | Homework-0/OS2023_HW0-master/src/HashTable.c:428-444 | after a fresh mark, a search for any other pin finds what it found before |
| LinearHash.MarkOnlyThePin | Homework-0/OS2023_HW0-master/src/HashTable.c:428-444 | after `hash_table_mark_voter_voted`, a search for the pin finds a voter who has voted whenever it found a voter before, and a search for any other pin is unchanged |
| LinearHash.MarkTouchesOnlyThePin | Homework-0/OS2023_HW0-master/src/HashTable.c:428-444 | in terms of the pins whose voter is waiting or has voted: no voted pin goes back, every other pin keeps its state, the pin is no longer waiting and is voted if it was waiting, which is exactly when a voter is returned |
| ZipIndex.ZipnodeCreate | Homework-0/src/InvertedIndex.c:31-45 | a new node has the code, no voters and a count of 0 |
| ZipIndex.CmpNVoters | Homework-0/src/InvertedIndex.c:63-76 | `zipnodes_cmp_n_voters` is 1, 0 or -1 exactly when the first count is greater, equal or smaller |
| ZipIndex.ZipnodeInsert | Homework-0/src/InvertedIndex.c:130-135 | the node keeps its code, gains the voter at the end of its list, and its count rises by one |
| ZipIndex.SearchZipnode | Homework-0/src/InvertedIndex.c:79-87 | the search finds the first node with the code; it finds none exactly when no node has it |
| ZipIndex.SortedInsertLeft | Homework-0/src/InvertedIndex.c:96-125 | `zipcodes_list_sorted_insert_left`; `InsertLeftLanding` states its contract: the node goes right after the nearest node at or before `start` with at least as many voters, or to the head, and every node passed has fewer voters |
| ZipIndex.InsertLeftLanding | Homework-0/src/InvertedIndex.c:96-125 | the sorted insert puts the node after every node with a count at least its own, and before the smaller ones it passed |
| ZipIndex.InvIndexCreate | Homework-0/src/InvertedIndex.c:151-163 | a new index is valid and holds no voter |
| ZipIndex.InvIndexInsert | Homework-0/src/InvertedIndex.c:171-172 | inserting a voter who has not voted changes nothing |
| ZipIndex.InsertNew | Homework-0/src/InvertedIndex.c:177-197 | a new code is appended at the tail with count 1, after nodes that all have a count of at least 1 |
| ZipIndex.InsertFound | Homework-0/src/InvertedIndex.c:201-230 | for an existing code, only that node moves; the updated node lands before every smaller count and after every count at least its own |
| ZipIndex.InsertKeepsValid | Homework-0/src/InvertedIndex.c:165-231 | after every insert, codes are unique, counts are non-increasing from head to tail, and each node's count is its number of voted voters with that code |
| ZipIndex.TotalIsSize | Homework-0/src/InvertedIndex.c:130-135 | the sum of the node counts is the number of voters in the index |
| ZipIndex.InsertCounts | Homework-0/src/InvertedIndex.c:165-231 | an insert adds exactly the voter and raises the count total by one when it has voted; otherwise nothing changes |
| ZipIndex.NVotersZipcodeComplete | Homework-0/src/InvertedIndex.c:233-241 | the report for a code lists exactly the index's voters with that code, with their number |
| ZipIndex.ZipcodesNVoters | Homework-0/src/InvertedIndex.c:243-251 | the listing has one (code, count) pair per node, in list order |
| ZipIndex.ListingSorted | Homework-0/src/InvertedIndex.c:243-251 | the listing is ordered by count, non-increasing, with distinct codes |
| VoterDatabase.DatabaseCreate | Homework-0/src/DataBase.c:18-23 | a new database is consistent and holds no voter |
| VoterDatabase.DatabaseInsert | Homework-0/src/DataBase.c:106-110 | insert adds exactly the voter to the table, leaves the index alone, keeps an unvoted insert consistent, and makes the pin findable |
| VoterDatabase.DatabaseSearch | Homework-0/src/DataBase.c:112-116 | search answers a stored voter with the pin, and none exactly when no stored voter has it |
| VoterDatabase.DatabaseExists | Homework-0/src/DataBase.c:118-122 | exists holds exactly when some stored voter has the pin |
| VoterDatabase.ExistsIffFound | Homework-0/src/DataBase.c:112-122 | exists(pin) holds exactly when search(pin) finds a voter |
| VoterDatabase.DatabaseNVotersVoted | Homework-0/src/DataBase.c:124-128 | the voted count is the number of stored voters who voted, and equals the sum of the index's per-code counts |
| VoterDatabase.DatabaseMarkVoterVoted | Homework-0/src/DataBase.c:142-156 | a found voter that has not voted is marked and added to the index, and the voted count and index total rise by one; after a fresh vote a search for the pin finds the marked voter; an absent or already-voted pin changes neither structure; the database stays consistent |
| VoterDatabase.MarkExactlyThePin | Homework-0/src/DataBase.c:142-156 | marking changes the state of the marked pin only: no pin whose voter voted goes back, every other pin is waiting exactly when it was before, and the pin is voted afterwards if its voter was waiting, which is exactly when the vote is fresh |
| VoterDatabase.ZipcodeReportExact | Homework-0/src/DataBase.c:130-134 | the report for a code lists exactly the voted voters with that code |
| VoterDatabase.ZipcodeListingExact | Homework-0/src/DataBase.c:136-140 | the listing has one entry per code with a voted voter, ordered by count, each count at least 1 |
| VoterDatabase.DatabaseInsertFile | Homework-0/src/DataBase.c:25-68 | loading either adds exactly the file's voters and stays consistent, or stops at a record whose pin is already present |
| VoterDatabase.InsertFileOkIff | Homework-0/src/DataBase.c:45-50 | loading succeeds exactly when no record's pin is already stored or repeats an earlier record's pin |
| VoterDatabase.RefusedWhenPresent | Homework-0/src/DataBase.c:45-50 | a record whose pin is present stops the load |
| VoterDatabase.MarkMessage | Homework-0/OS2023_HW0-master/src/HashTable.c:428-444 | the message printed for a pin is "does not exist" exactly when no stored voter has that pin, and "Marked Voted" otherwise, whether or not the voter had already voted |
| VoterDatabase.TradeKeepsPins | Homework-0/OS2023_HW0-master/src/HashTable.c:437-440 | swapping a voter who has not voted for its voted copy keeps the set of pins, and the voters still waiting to vote become a subset of those before |
| VoterDatabase.MarkKeepsVoters | Homework-0/src/DataBase.c:142-156 | marking keeps the set of stored pins; the waiting voters only shrink; a new vote is always for a stored voter with that pin who had not voted |
| VoterDatabase.DatabaseVotersFileVoted | Homework-0/src/DataBase.c:70-104 | the voted-file pass keeps the database consistent and stops at the first line that does not scan as a non-negative pin, reporting malformed exactly when such a line exists. Before that line it prints one message per pin: "does not exist" for a pin not stored and "Marked Voted" for a stored one. Every pin read whose voter was waiting is voted afterwards, no voted pin goes back, and a pin not read is waiting exactly when it was before. The stored pins do not change. The fresh votes are exactly the pins read whose voter was waiting, each listed once, and the voted count rises by their number |
| VoterDatabase.VotedFileRise | Homework-0/src/DataBase.c:70-104 | the voted count rises by the number of distinct pins read whose voter was waiting: a pin listed twice, or already voted, adds nothing |
| VoterDatabase.BadLineStep | Homework-0/src/DataBase.c:84-88 | the pass stops at the first malformed line |
| VoterUtils.UpTo | Homework-0/src/utils.c:21-31 | the result is the prefix before the first occurrence of the character |
| VoterUtils.TrimInput | Homework-0/src/utils.c:21-31 | `trimInput` cuts at the first '\n' and keeps everything before it |
| VoterUtils.TrimInputExact | Homework-0/src/utils.c:21-31 | without a '\n', trimming is a no-op; otherwise it keeps exactly the part before the first '\n' |
| VoterUtils.TrimInputIdempotent | Homework-0/src/utils.c:21-31 | trimming twice is trimming once |
| VoterUtils.TokensOfJoin | Homework-0/OS2023_HW0-master/src/Command.c:84 | splitting blank-joined words at blanks, as `strtok(_, " ")` does, gives back the words |
| VoterUtils.TokenCount | Homework-0/src/utils.c:38-50 | `tokenCount`; `TokenCountOfJoin` and `TokensAtMostCount` state its contract: n words joined by single blanks count as n, and the count is never below the number of `strtok` tokens |
| VoterUtils.TokenCountOfJoin | Homework-0/src/utils.c:38-50 | `tokenCount` of n blank-joined words is n |
| VoterUtils.TokensAtMostCount | Homework-0/src/utils.c:38-50 | `tokenCount` is never below the number of tokens `strtok` finds |
| VoterUtils.SingleTokenLine | Homework-0/src/utils.c:38-50 | a line that `tokenCount` counts as one token is its own single token |
| VoterUtils.ValidArgs | Homework-0/src/utils.c:92-133 | `validArgs` of `mvote`; `ValidArgsCount`, `MvoteReadsInside` and `RejectsBadFlags` state its contract |
| VoterUtils.ValidArgsCount | Homework-0/src/utils.c:93-94 | `validArgs` fails on the count exactly when argc differs from `max_args` |
| VoterUtils.OddLineStaysInside | Homework-0/src/utils.c:96-131 | with an odd argc, the unchecked read after `-f` never passes the end |
| VoterUtils.MvoteReadsInside | Homework-0/src/utils.c:96-131 | with `mvote`'s seven arguments, the parse never reads past `argv` |
| VoterUtils.RejectsBadFlags | Homework-0/src/utils.c:103-130 | `-b` or `-m` without a positive-integer string fails, and any other unknown argument fails with itself |
| VoterUtils.PlusGivesZeroSlotsOn | Homework-0/src/utils.c:103-126 | every seven-argument line `-f F -b B -m +` whose B passes the check is accepted, with bucket size `atoi(B)` and `m = 0` |
| VoterUtils.PlusGivesZeroSlots | Homework-0/src/utils.c:115-119 | `-m +` is accepted and gives `m = 0` |
| VoterUtils.StrictSizesPositive | Homework-0/src/utils.c:103-126 | with the leading '+' handled strictly, a successful parse gives a bucket size and `m` of at least 1 |
| VoterUtils.StrictRefusesPlusSlots | Homework-0/src/utils.c:103-126 | the corrected check refuses every seven-argument line `-f F -b B -m +` whose B it accepts |
| VoterUtils.StrictRefusesPlus | Homework-0/src/utils.c:115-125 | the corrected check refuses `-m +` |
| VoterCommands.TokenValue | Homework-0/OS2023_HW0-master/src/Command.c:167-172 | an accepted pin or code token has a non-negative value |
| VoterCommands.CmdL | Homework-0/OS2023_HW0-master/src/Command.c:160-181 | `l` needs 2 tokens and a positive pin ("Malformed Pin" otherwise); it shows a stored voter with the pin, or reports the pin not in the cohort exactly when none is stored |
| VoterCommands.CmdI | Homework-0/OS2023_HW0-master/src/Command.c:183-234 | `i` inserts exactly when it has 5 tokens, a positive pin that is not stored, a last and first name and a positive zip; it adds the unvoted `voter_create(pin, first, last, zip)`; every other outcome changes nothing |
| VoterCommands.CmdM | Homework-0/OS2023_HW0-master/src/Command.c:236-251 | `m` needs 2 tokens and a positive pin ("Malformed Input" otherwise, with nothing changed). It then prints "does not exist" exactly when no stored voter has the pin, and "Marked Voted" otherwise. Only a stored voter who had not voted is marked: the voted count rises by one and a search for the pin then finds that voter marked; every other pin is waiting exactly when it was before; otherwise the database is unchanged |
| VoterCommands.CmdBv | Homework-0/OS2023_HW0-master/src/Command.c:253-267 | `bv` runs the voted-file pass exactly when it has 2 tokens and the file opens; otherwise nothing changes. The pass prints one message per scanned pin, "does not exist" or "Marked Voted" as the stored pins decide. It is malformed exactly when some line does not scan and keeps the stored pins. Every pin read whose voter was waiting is voted afterwards, no voted pin goes back, and a pin not read keeps its state; the voted count rises by the number of distinct pins read whose voter was waiting, at most one per message |
| VoterCommands.CmdQuery | Homework-0/OS2023_HW0-master/src/Command.c:269-294 | `v`, `perc` and `o` need 1 token; they report the voted count, voted over stored, and one listing entry per postal code |
| VoterCommands.CmdZ | Homework-0/OS2023_HW0-master/src/Command.c:296-312 | `z` needs 2 tokens and a positive code ("Malformed Zipcode" otherwise), then reports that code |
| VoterCommands.ExecCmd | Homework-0/OS2023_HW0-master/src/Command.c:115-158 | every command keeps the database consistent, and the loop stops exactly on `exit` with one token |
| VoterCommands.UnknownCommand | Homework-0/OS2023_HW0-master/src/Command.c:156-157 | a first token that is none of the nine commands reports "Malformed Input", changes nothing, and continues |
| VoterCommands.WrongArity | Homework-0/OS2023_HW0-master/src/Command.c:160-323 | a known command with the wrong token count reports "Malformed Input", changes nothing, and continues |
| VoterCommands.OnlyUpdatesChange | Homework-0/OS2023_HW0-master/src/Command.c:115-158 | only `i`, `m` and `bv` change the database |
| VoterCommands.Step | Homework-0/OS2023_HW0-master/src/Command.c:59-99 | one turn of the loop keeps the database consistent; it stops exactly on a line that reaches `exit` with one token; a refused line changes nothing |
| VoterCommands.Buffer | Homework-0/OS2023_HW0-master/src/Command.c:62-75 | what `fgets` leaves in the input buffer; `TrimmedBuffer` and `LongLineRefused` state its contract: a line that fits trims back to itself, and a longer one never reaches `exec_cmd` |
| VoterCommands.LongLineRefused | Homework-0/OS2023_HW0-master/src/Command.c:71-75 | a line of 768 characters or more never reaches `exec_cmd` |
| VoterCommands.StopsOnlyOnExit | Homework-0/OS2023_HW0-master/src/Command.c:94-95 | the loop ends on a line exactly when the line is "exit" |
| VoterCommands.EmptyLineMalformed | Homework-0/OS2023_HW0-master/src/Command.c:65-68 | an empty line reports "Malformed Input" and changes nothing |
| VoterCommands.HandledStopsAtExit | Homework-0/OS2023_HW0-master/src/Command.c:59-99 | the loop reads every line up to and including the first "exit", and nothing after it |
| VoterCommands.RunLines | Homework-0/OS2023_HW0-master/src/Command.c:59-99 | the session keeps the database consistent and replies once per line read |
| VoterCommands.RunDB | Homework-0/OS2023_HW0-master/src/Command.c:42-103 | without an initial file the program stops; the session starts exactly when the file has no repeated pin, and then runs consistently |

## Left out

- Shared memory and semaphores are not modelled as OS primitives (`shm_open`, `mmap`, `sem_init`, blocking `sem_wait`/`sem_post`):
  - the mutex is atomicity of each transition;
  - a cell's semaphore is a counter, plus the set of running workers;
  - the admission semaphore is a counter.
- The accountant handshake, the `stats_entry` messages, the logger, and every `printf` text are not modelled. Messages become `Reply` constructors.
- Timing and the float statistics are not modelled. This covers `elapsed_time`, the waiting times, `print_stats`, the average balance and `hash_table_perc`.
- VoterCommands.CmdQuery: `perc` reports the voted and stored counts instead of the float percentage `voted / stored * 100`. With no voter stored, the source divides by zero.
- LinearHash.HashTableInsert: the float load factor `n_voters / (size * b_size) > 0.75` is the exact integer test `4 * n_voters > 3 * size * b_size`.
- File and pipe I/O are not modelled. The initial voter file arrives as parsed `VoterLine` records. `fscanf` stops at the first line that is not four fields, which ends the load like end of file.
  - A `bv` file arrives as its lines. The 256-byte `fgets` buffer, which splits longer lines, is not modelled.
  - `fopen` failure is a missing map entry.
- The end-of-input loop of `RunDB` is not modelled: it prints an error and asks again forever. `clearInput` is modelled only by its effect: the rest of a long line is discarded.
- VoterCommands.CmdI: the second `database_exists` check just before the insert is not repeated. Nothing changes between the two checks, so it always passes.
- VoterCommands.RunDB: the sizes passed in are at least one, as the corrected argument check guarantees. With the source's check a size of 0 reaches the table; see Findings.
- VoterDatabase.DatabaseInsert: the pin must be non-negative. The table's address assertion fails on a negative pin. Likewise the initial file's pins must be non-negative (`NonNegativePins`).
- Integer widths are not modelled, so `int` overflow in `atoi`, in the count difference and in `1 << i` does not occur. `power_of_two` is computed exactly.
- `list_search` is left out: its loop never advances, so it does not terminate on a miss. Nothing in the modelled core calls it.
- `list_destroy`, the `*_destroy` functions, `bytes_freed` and malloc failures are left out; they manage memory only.
- `n_zipcodes` of the inverted index is never updated by the source, and is not kept.
- Process orchestration is left out; it is OS plumbing. This covers fork/exec/wait, the pipes, `RunSplitter`/`RunMerger`, `find_first_sort_algo`, and the sorter and initializer `main`s.
- `rand`/`srand` are left out: `gen_num` takes the random value as a parameter.
- RandomRange.GenNum: requires a non-zero modulus `max_num + 1 - min_num`. `run_writer` and `run_reader` call `gen_num(n_records, 1)` (Homework-2/src/initlzer/initlzerUtils.c:112 and 121), so a data file with no records reaches `rand() % 0`. C leaves that undefined, and the model says nothing about it.
- ChildResults.MergeResults: requires at least one child. With `-k +` the source's check gives zero children (`SortArgs.PlusGivesZeroChildren`), and `merge_results` then reads `capacities_array[0]` and `records_array[0]` of empty arrays (Homework-1/src/processUtils.c:136-143). C leaves that undefined. The corrected check (`SortArgs.StrictChildCountPositive`) rules the case out; see Findings.
- SlotTable.Lock: decides whether the caller sleeps while it still holds the mutex. The source tests `blocked_by` only after posting the mutex (synchroUtils.c:31-34), so the SlotTable contracts are about the corrected entry. `SlotRace` models the entry as written, and Findings records the difference.
- SlotTable.LockEffect: "sleeps exactly when some cell blocks it" holds for the corrected entry only. With the source's order, a caller whose last blocker exits in that window runs and leaves a post on its own semaphore.
- SlotTable.LockPreservesInv: "posted exactly when it sleeps with no blocker" holds for the corrected entry only. With the source's order, a running cell can keep a post, and the cell's next occupant inherits it, since `init_proc_info` never resets `waiting_sem`.
- SlotTable.NoOvertaking: holds for the corrected entry only. In `SlotRace.StalePostOvertakes` a writer runs while an older conflicting writer is running.
- SlotTable.RunningAreCompatible: holds for the corrected entry only. `SlotRace.StalePostOvertakes` ends with two writers of the same record running.
- SlotTable.ApplyPreservesInv: the entry step is the corrected one. The source's two-step entry does not keep the invariant (`SlotRace.StalePostOvertakes`).
- SlotTable.RunPreservesInv: runs use the corrected entry. With the source's entry the invariant fails (`SlotRace.StalePostOvertakes`).
- SlotTable.ReachableStatesAreSafe: safety is proved for runs of the corrected entry. Runs of the source's entry reach an unsafe state (`SlotRace.StalePostOvertakes`).
- LinkedLists.ListAddAsWritten: two cases are excluded. On an empty list with `index < -1` the source walks from a NULL head and crashes (LinkedList.c:109-115). A list whose counter is already wrong, as `list_add` itself leaves it, can also send the walk past the last node. The model requires a counted list and, when the list is empty, `index >= -1`. `ListAdd` and `ListAddPlacesAfterIndex` share these requirements. Nothing in the modelled core calls `list_add`.

## Findings

| source | as written | input that shows it | evidently intended | confidence | as-written member | corrected member |
|---|---|---|---|---|---|---|
| Homework-2/src/reader/readerUtils.c:22 | after `-l N` the parser compares `argv[i+1]` with "," without checking that it exists | `reader -f a -d 1 -s x -l 5` (9 arguments): `strcmp(argv[9], ",")` with `argv[9] == NULL` | treat a missing next argument as "no finish part", giving the single record N | high, not executed | WorkerArgs.ReaderLookaheadPastEnd | WorkerArgs.ReaderLoopGuardAgrees |
| Homework-0/src/LinkedList.c:100-118 | the append branch of `list_add` calls `list_append`, which counts the node, then counts it again | `list_add` on an empty list with index 0: one node, `n_elements == 2` | count the new node once | high, not executed | LinkedLists.ListAddDoubleCounts | LinkedLists.ListAddPlacesAfterIndex |
| Homework-0/src/utils.c:64-67 | `isPositiveIntegerNumber` skips a leading '+', so "+" passes and `atoi` gives 0 | `mvote -f voters -b 2 -m +` gives `m = 0`; `hash_function` then takes `key % 0` | refuse "+" and "+0", so `m` and the bucket size are at least 1 | high, not executed | VoterUtils.PlusGivesZeroSlotsOn | VoterUtils.StrictSizesPositive |
| Homework-1/src/inputUtils.c:35-47 | the coordinator's `isPositiveIntegerNumber` skips a leading '+', so "+" passes and `atoi` gives 0 children | `coordinator -i data -k + -e1 q -e2 h`: the splitting loop runs zero times, so no record is assigned to a workloader, and `merge_results` reads `capacities_array[0]` of an empty array | refuse "+" and "+0", so the child count is at least 1 | high, not executed | SortArgs.PlusGivesZeroChildrenOn | SortArgs.StrictChildCountPositive |
| Homework-2/src/common/synchroUtils.c:31-36 | `check_range_and_lock` posts the mutex and only then tests `blocked_by > 0`. If the caller's last blocker exits in between, the exit posts the caller's semaphore and the caller skips `sem_wait`. The post stays on the cell, since `init_proc_info` never resets `waiting_sem` | four writers of record 0. A runs. B registers behind A, and A exits before B tests its count, so B runs and the post stays on cell 1. C takes cell 0 behind B and runs once B exits. D takes cell 1 behind C and passes `sem_wait` at once | test `blocked_by` before posting the mutex | high, not executed | SlotRace.StalePostOvertakes | SlotTable.ReachableStatesAreSafe |

=== FILE: hw0_bucket.dfy ===
/** The buckets of the Homework-0 linear-hashing table (`HashTable.c`).  A
    bucket is its array of voter cells (a NULL cell is `None`) and its
    empty/full state; the overflow chain hanging from one slot of the table
    is a sequence of buckets, the slot's own bucket first. */
module Buckets {
  import opened Wrappers
  import opened Voters
  import opened LinkedLists

  datatype BState = Empty | Full

  datatype Bucket = Bucket(cells: seq<Option<Voter>>, state: BState)

  type Chain = seq<Bucket>

  // ---------------------------------------------------------------------
  // What a scan sees
  // ---------------------------------------------------------------------

  /** The voters a scan of the cells from `i` meets before it reaches the
      end or a NULL cell. */
  function FilledFrom(cells: seq<Option<Voter>>, i: nat): seq<Voter>
    decreases |cells| - i
  {
    if i >= |cells| || cells[i].None? then [] else [cells[i].value] + FilledFrom(cells, i + 1)
  }

  function Filled(cells: seq<Option<Voter>>): seq<Voter>
  {
    FilledFrom(cells, 0)
  }

  /** The voters stored in a chain, bucket after bucket. */
  function Contents(chain: Chain): seq<Voter>
  {
    if |chain| == 0 then [] else Filled(chain[0].cells) + Contents(chain[1..])
  }

  /** The first voter of `s` with the given pin. */
  function FirstWithPin(s: seq<Voter>, pin: int): Option<Voter>
  {
    if |s| == 0 then None else if s[0].pin == pin then Some(s[0]) else FirstWithPin(s[1..], pin)
  }

  /** The number of leading cells that hold a voter. */
  function FirstEmpty(cells: seq<Option<Voter>>, i: nat): (f: nat)
    requires i <= |cells|
    ensures i <= f <= |cells|
    ensures forall k :: i <= k < f ==> cells[k].Some?
    ensures f < |cells| ==> cells[f].None?
    decreases |cells| - i
  {
    if i == |cells| || cells[i].None? then i else FirstEmpty(cells, i + 1)
  }

  /** A well-formed bucket: `bSize` cells, the voters packed at the front,
      and `full` exactly when no cell is NULL. */
  ghost predicate WfBucket(b: Bucket, bSize: nat)
  {
    && |b.cells| == bSize
    && (forall k :: FirstEmpty(b.cells, 0) <= k < bSize ==> b.cells[k].None?)
    && (b.state == Full <==> FirstEmpty(b.cells, 0) == bSize)
  }

  /** A well-formed chain: at least the slot's own bucket, every bucket
      well formed, and every bucket but the last full. */
  ghost predicate WfChain(chain: Chain, bSize: nat)
  {
    && |chain| > 0
    && (forall k :: 0 <= k < |chain| ==> WfBucket(chain[k], bSize))
    && (forall k :: 0 <= k < |chain| - 1 ==> chain[k].state == Full)
  }

  lemma {:induction false} FilledFromLength(cells: seq<Option<Voter>>, i: nat)
    requires i <= |cells|
    ensures |FilledFrom(cells, i)| == FirstEmpty(cells, i) - i
    ensures forall k :: i <= k < FirstEmpty(cells, i) ==> FilledFrom(cells, i)[k - i] == cells[k].value
    decreases |cells| - i
  {
    if i < |cells| && cells[i].Some? {
      FilledFromLength(cells, i + 1);
    }
  }

  // ---------------------------------------------------------------------
  // bucket_create, bucket_insert, bucket_empty
  // ---------------------------------------------------------------------

  /** `bucket_create`: `bSize` NULL cells, state empty. */
  function BucketCreate(bSize: nat): (b: Bucket)
    ensures |b.cells| == bSize && Filled(b.cells) == []
    ensures bSize > 0 ==> WfBucket(b, bSize) && b.state == Empty
  {
    var b := Bucket(seq(bSize, _ => None), Empty);
    assert FirstEmpty(b.cells, 0) == 0 by {
      if bSize > 0 {
        assert b.cells[0].None?;
      }
    }
    b
  }

  /** `bucket_insert`: the voter goes into the first NULL cell; when that was
      the last cell, or when there was no NULL cell at all, the bucket
      becomes full. */
  function BucketInsert(b: Bucket, v: Voter): Bucket
  {
    var f := FirstEmpty(b.cells, 0);
    if f < |b.cells| then
      Bucket(b.cells[f := Some(v)], if f + 1 == |b.cells| then Full else b.state)
    else
      b.(state := Full)
  }

  /** Inserting into a well-formed bucket that is not full appends the voter
      to what the bucket holds and keeps it well formed. */
  lemma BucketInsertAppends(b: Bucket, v: Voter, bSize: nat)
    requires WfBucket(b, bSize) && b.state != Full
    ensures WfBucket(BucketInsert(b, v), bSize)
    ensures Filled(BucketInsert(b, v).cells) == Filled(b.cells) + [v]
  {
    var f := FirstEmpty(b.cells, 0);
    var c := b.cells[f := Some(v)];
    var r := BucketInsert(b, v);
    assert r.cells == c;
    FilledFromLength(b.cells, 0);
    FilledFromLength(c, 0);
    assert FirstEmpty(c, 0) == f + 1 by {
      if FirstEmpty(c, 0) >= f + 1 && f + 1 < |c| {
        assert c[f + 1].None?;
      }
    }
    forall k | 0 <= k < f + 1
      ensures Filled(c)[k] == (Filled(b.cells) + [v])[k]
    {
      assert FilledFrom(c, 0)[k - 0] == c[k].value;
      if k < f {
        assert FilledFrom(b.cells, 0)[k - 0] == b.cells[k].value;
      }
    }
  }

  /** `bucket_empty`: every cell NULL, state empty. */
  function BucketEmpty(b: Bucket): (r: Bucket)
    ensures |r.cells| == |b.cells| && Filled(r.cells) == []
    ensures forall k :: 0 <= k < |r.cells| ==> r.cells[k].None?
  {
    var r := Bucket(seq(|b.cells|, _ => None), Empty);
    assert |r.cells| > 0 ==> r.cells[0].None?;
    r
  }

  lemma BucketEmptyWf(b: Bucket, bSize: nat)
    requires |b.cells| == bSize && bSize > 0
    ensures WfBucket(BucketEmpty(b), bSize)
    ensures WfChain([BucketEmpty(b)], bSize) && Contents([BucketEmpty(b)]) == []
  {
    var r := BucketEmpty(b);
    assert r.cells[0].None?;
    assert FirstEmpty(r.cells, 0) == 0;
    assert [r][1..] == [];
  }

  // ---------------------------------------------------------------------
  // bucket_search and the chain walks
  // ---------------------------------------------------------------------

  /** `bucket_search` from cell `i`: stops at the first NULL cell.  What it
      finds has the pin and sits in a cell from `i` on; `BucketSearchFilled`
      says which one. */
  function BucketSearch(cells: seq<Option<Voter>>, pin: int, i: nat): (r: Option<Voter>)
    ensures r.Some? ==> r.value.pin == pin && exists k :: i <= k < |cells| && cells[k] == r
    decreases |cells| - i
  {
    if i >= |cells| || cells[i].None? then None
    else if cells[i].value.pin == pin then cells[i]
    else BucketSearch(cells, pin, i + 1)
  }

  /** The search loop of `hash_table_search` over one chain. */
  function ChainSearch(chain: Chain, pin: int): Option<Voter>
  {
    if |chain| == 0 then None
    else
      var v := BucketSearch(chain[0].cells, pin, 0);
      if v.Some? then v else ChainSearch(chain[1..], pin)
  }

  lemma {:induction false} BucketSearchFilled(cells: seq<Option<Voter>>, pin: int, i: nat)
    ensures BucketSearch(cells, pin, i) == FirstWithPin(FilledFrom(cells, i), pin)
    decreases |cells| - i
  {
    if i < |cells| && cells[i].Some? {
      BucketSearchFilled(cells, pin, i + 1);
      assert ([cells[i].value] + FilledFrom(cells, i + 1))[1..] == FilledFrom(cells, i + 1);
    }
  }

  lemma {:induction false} FirstWithPinAppend(s: seq<Voter>, t: seq<Voter>, pin: int)
    ensures FirstWithPin(s + t, pin) == if FirstWithPin(s, pin).Some? then FirstWithPin(s, pin) else FirstWithPin(t, pin)
  {
    if |s| == 0 {
      assert s + t == t;
    } else {
      assert (s + t)[1..] == s[1..] + t;
      FirstWithPinAppend(s[1..], t, pin);
    }
  }

  /** The first voter with a pin is in the sequence and has that pin, and
      there is one exactly when some voter of the sequence has the pin. */
  lemma {:induction false} FirstWithPinMeaning(s: seq<Voter>, pin: int)
    ensures FirstWithPin(s, pin).Some? <==> exists k :: 0 <= k < |s| && s[k].pin == pin
    ensures FirstWithPin(s, pin).Some? ==>
      FirstWithPin(s, pin).value.pin == pin && FirstWithPin(s, pin).value in s
  {
    if |s| > 0 {
      FirstWithPinMeaning(s[1..], pin);
      if s[0].pin != pin {
        if exists k :: 0 <= k < |s| && s[k].pin == pin {
          var k :| 0 <= k < |s| && s[k].pin == pin;
          assert s[1..][k - 1].pin == pin;
        }
      }
    }
  }

  /** Walking a chain with `bucket_search` finds the first voter with the pin
      among everything the chain holds. */
  lemma {:induction false} ChainSearchContents(chain: Chain, pin: int)
    ensures ChainSearch(chain, pin) == FirstWithPin(Contents(chain), pin)
  {
    if |chain| > 0 {
      BucketSearchFilled(chain[0].cells, pin, 0);
      ChainSearchContents(chain[1..], pin);
      FirstWithPinAppend(Filled(chain[0].cells), Contents(chain[1..]), pin);
    }
  }

  // ---------------------------------------------------------------------
  // hash_table_simple_insert's walk
  // ---------------------------------------------------------------------

  /** The walk of `hash_table_simple_insert` along one chain: pass full
      buckets, hang a new bucket after the last one when every bucket is
      full, and `bucket_insert` into the bucket reached. */
  function ChainInsert(chain: Chain, v: Voter, bSize: nat): (r: Chain)
    requires |chain| > 0
    ensures |r| > 0
    decreases |chain|
  {
    if chain[0].state == Full then
      if |chain| == 1 then [chain[0], BucketInsert(BucketCreate(bSize), v)]
      else [chain[0]] + ChainInsert(chain[1..], v, bSize)
    else [BucketInsert(chain[0], v)] + chain[1..]
  }

  lemma ContentsSingle(b: Bucket)
    ensures Contents([b]) == Filled(b.cells)
  {
    assert [b][1..] == [];
  }

  lemma ContentsCons(b: Bucket, rest: Chain)
    ensures Contents([b] + rest) == Filled(b.cells) + Contents(rest)
  {
    assert ([b] + rest)[1..] == rest;
  }

  lemma NoEmptyCellAfterLast(chain: Chain, bSize: nat)
    requires WfChain(chain, bSize) && |chain| > 1
    ensures WfChain(chain[1..], bSize)
  {
    forall k | 0 <= k < |chain| - 1
      ensures WfBucket(chain[1..][k], bSize)
    {
      assert chain[1..][k] == chain[k + 1];
    }
  }

  /** A full well-formed bucket holds one voter per cell. */
  lemma FullHoldsAll(b: Bucket, bSize: nat)
    requires WfBucket(b, bSize) && b.state == Full
    ensures |Filled(b.cells)| == bSize
  {
    FilledFromLength(b.cells, 0);
  }

  /** Inserting into a well-formed chain keeps it well formed, appends the
      voter to what the chain holds, and adds a bucket exactly when every
      bucket was full. */
  lemma {:induction false} ChainInsertAppends(chain: Chain, v: Voter, bSize: nat)
    requires WfChain(chain, bSize) && bSize > 0
    ensures WfChain(ChainInsert(chain, v, bSize), bSize)
    ensures Contents(ChainInsert(chain, v, bSize)) == Contents(chain) + [v]
    decreases |chain|
  {
    var r := ChainInsert(chain, v, bSize);
    if chain[0].state == Full {
      if |chain| == 1 {
        var nb := BucketCreate(bSize);
        BucketInsertAppends(nb, v, bSize);
        ContentsCons(chain[0], [BucketInsert(nb, v)]);
        ContentsSingle(BucketInsert(nb, v));
        ContentsSingle(chain[0]);
        assert r == [chain[0], BucketInsert(nb, v)];
      } else {
        NoEmptyCellAfterLast(chain, bSize);
        ChainInsertAppends(chain[1..], v, bSize);
        ContentsCons(chain[0], ChainInsert(chain[1..], v, bSize));
        assert chain == [chain[0]] + chain[1..];
        ContentsCons(chain[0], chain[1..]);
        var rest := ChainInsert(chain[1..], v, bSize);
        forall k | 0 <= k < |r|
          ensures WfBucket(r[k], bSize)
        {
          if k > 0 {
            assert r[k] == rest[k - 1];
          }
        }
        forall k | 0 <= k < |r| - 1
          ensures r[k].state == Full
        {
          if k > 0 {
            assert r[k] == rest[k - 1];
          }
        }
      }
    } else {
      assert |chain| == 1;
      BucketInsertAppends(chain[0], v, bSize);
      ContentsSingle(chain[0]);
      assert chain[1..] == [];
      ContentsSingle(BucketInsert(chain[0], v));
      assert r == [BucketInsert(chain[0], v)];
    }
  }

  // ---------------------------------------------------------------------
  // Marking a voter through the pointer the search returned
  // ---------------------------------------------------------------------

  /** `voter_vote` applied to the voter `bucket_search` would return. */
  function BucketMark(cells: seq<Option<Voter>>, pin: int, i: nat): seq<Option<Voter>>
    decreases |cells| - i
  {
    if i >= |cells| || cells[i].None? then cells
    else if cells[i].value.pin == pin then cells[i := Some(VoterVote(cells[i].value))]
    else BucketMark(cells, pin, i + 1)
  }

  /** `voter_vote` applied to the voter `ChainSearch` would return. */
  function ChainMark(chain: Chain, pin: int): Chain
  {
    if |chain| == 0 then chain
    else if BucketSearch(chain[0].cells, pin, 0).Some? then
      [chain[0].(cells := BucketMark(chain[0].cells, pin, 0))] + chain[1..]
    else [chain[0]] + ChainMark(chain[1..], pin)
  }

  /** The first voter with the pin marked as voted, everything else as is. */
  function MarkFirst(s: seq<Voter>, pin: int): seq<Voter>
  {
    if |s| == 0 then []
    else if s[0].pin == pin then [VoterVote(s[0])] + s[1..]
    else [s[0]] + MarkFirst(s[1..], pin)
  }

  lemma {:induction false} BucketMarkShape(cells: seq<Option<Voter>>, pin: int, i: nat)
    ensures |BucketMark(cells, pin, i)| == |cells|
    ensures forall k :: 0 <= k < |cells| ==> (BucketMark(cells, pin, i)[k].Some? <==> cells[k].Some?)
    ensures FilledFrom(BucketMark(cells, pin, i), i) == MarkFirst(FilledFrom(cells, i), pin)
    ensures forall k :: 0 <= k < i && k < |cells| ==> BucketMark(cells, pin, i)[k] == cells[k]
    decreases |cells| - i
  {
    var m := BucketMark(cells, pin, i);
    if i < |cells| && cells[i].Some? {
      var s := FilledFrom(cells, i);
      assert s == [cells[i].value] + FilledFrom(cells, i + 1);
      if cells[i].value.pin == pin {
        FilledFromSame(cells, m, i + 1);
      } else {
        BucketMarkShape(cells, pin, i + 1);
        assert s[1..] == FilledFrom(cells, i + 1);
      }
    }
  }

  /** Scans from `i` agree on two cell arrays that agree from `i` on. */
  lemma {:induction false} FilledFromSame(c: seq<Option<Voter>>, d: seq<Option<Voter>>, i: nat)
    requires |c| == |d| && forall k :: i <= k < |c| ==> c[k] == d[k]
    ensures FilledFrom(c, i) == FilledFrom(d, i)
    decreases |c| - i
  {
    if i < |c| {
      FilledFromSame(c, d, i + 1);
    }
  }

  lemma {:induction false} MarkFirstAppend(s: seq<Voter>, t: seq<Voter>, pin: int)
    ensures MarkFirst(s + t, pin) == if FirstWithPin(s, pin).Some? then MarkFirst(s, pin) + t else s + MarkFirst(t, pin)
  {
    if |s| == 0 {
      assert s + t == t;
    } else {
      assert (s + t)[1..] == s[1..] + t;
      MarkFirstAppend(s[1..], t, pin);
      if s[0].pin == pin {
        assert [VoterVote(s[0])] + (s[1..] + t) == ([VoterVote(s[0])] + s[1..]) + t;
      }
    }
  }

  /** Marking one pin leaves the search for any other pin as it was. */
  lemma {:induction false} MarkFirstOtherPin(s: seq<Voter>, pin: int, q: int)
    requires q != pin
    ensures FirstWithPin(MarkFirst(s, pin), q) == FirstWithPin(s, q)
  {
    if |s| > 0 && s[0].pin != pin {
      MarkFirstOtherPin(s[1..], pin, q);
      assert ([s[0]] + MarkFirst(s[1..], pin))[1..] == MarkFirst(s[1..], pin);
    } else if |s| > 0 {
      assert ([VoterVote(s[0])] + s[1..])[1..] == s[1..];
    }
  }

  /** Marking through the chain marks the first voter with the pin among
      what the chain holds, and leaves the chain well formed. */
  lemma {:induction false} ChainMarkContents(chain: Chain, pin: int, bSize: nat)
    requires WfChain(chain, bSize)
    ensures WfChain(ChainMark(chain, pin), bSize)
    ensures Contents(ChainMark(chain, pin)) == MarkFirst(Contents(chain), pin)
    ensures |ChainMark(chain, pin)| == |chain|
  {
    ChainMarkContentsAny(chain, pin, bSize);
  }

  lemma {:induction false} ChainMarkContentsAny(chain: Chain, pin: int, bSize: nat)
    requires forall k :: 0 <= k < |chain| ==> WfBucket(chain[k], bSize)
    ensures |ChainMark(chain, pin)| == |chain|
    ensures forall k :: 0 <= k < |chain| ==> WfBucket(ChainMark(chain, pin)[k], bSize)
    ensures forall k :: 0 <= k < |chain| ==> ChainMark(chain, pin)[k].state == chain[k].state
    ensures Contents(ChainMark(chain, pin)) == MarkFirst(Contents(chain), pin)
  {
    if |chain| > 0 {
      var b := chain[0];
      var f := Filled(b.cells);
      BucketSearchFilled(b.cells, pin, 0);
      MarkFirstAppend(f, Contents(chain[1..]), pin);
      ContentsCons(b, chain[1..]);
      assert chain == [b] + chain[1..];
      if BucketSearch(b.cells, pin, 0).Some? {
        var b' := b.(cells := BucketMark(b.cells, pin, 0));
        BucketMarkShape(b.cells, pin, 0);
        SameShapeWf(b, b', bSize);
        ContentsCons(b', chain[1..]);
      } else {
        ChainMarkContentsAny(chain[1..], pin, bSize);
        ContentsCons(b, ChainMark(chain[1..], pin));
        var r := ChainMark(chain, pin);
        forall k | 0 <= k < |chain|
          ensures WfBucket(r[k], bSize) && r[k].state == chain[k].state
        {
          if k > 0 {
            assert r[k] == ChainMark(chain[1..], pin)[k - 1];
            assert chain[k] == chain[1..][k - 1];
          }
        }
      }
    }
  }

  lemma FirstEmptySame(c: seq<Option<Voter>>, d: seq<Option<Voter>>)
    requires |c| == |d| && forall k :: 0 <= k < |c| ==> (c[k].Some? <==> d[k].Some?)
    ensures FirstEmpty(c, 0) == FirstEmpty(d, 0)
  {
  }

  lemma SameShapeWf(b: Bucket, b': Bucket, bSize: nat)
    requires WfBucket(b, bSize) && b'.state == b.state
    requires |b'.cells| == |b.cells| && forall k :: 0 <= k < |b.cells| ==> (b'.cells[k].Some? <==> b.cells[k].Some?)
    ensures WfBucket(b', bSize)
  {
    FirstEmptySame(b.cells, b'.cells);
  }

  // ---------------------------------------------------------------------
  // get_keys_for_redistribution
  // ---------------------------------------------------------------------

  /** The inner loop: append the bucket's voters from cell `i` until a NULL
      cell. */
  function AppendCells(l: List<Voter>, cells: seq<Option<Voter>>, i: nat): List<Voter>
    decreases |cells| - i
  {
    if i >= |cells| || cells[i].None? then l else AppendCells(ListAppend(l, cells[i].value), cells, i + 1)
  }

  /** The outer do-while over the chain. */
  function CollectKeys(l: List<Voter>, chain: Chain): List<Voter>
    decreases |chain|
  {
    if |chain| == 0 then l else CollectKeys(AppendCells(l, chain[0].cells, 0), chain[1..])
  }

  /** `get_keys_for_redistribution` on one chain. */
  function GetKeysForRedistribution(chain: Chain): List<Voter>
  {
    CollectKeys(ListCreate(), chain)
  }

  lemma {:induction false} AppendCellsItems(l: List<Voter>, cells: seq<Option<Voter>>, i: nat)
    ensures AppendCells(l, cells, i).items == l.items + FilledFrom(cells, i)
    ensures Counted(l) ==> Counted(AppendCells(l, cells, i))
    decreases |cells| - i
  {
    if i < |cells| && cells[i].Some? {
      AppendCellsItems(ListAppend(l, cells[i].value), cells, i + 1);
    }
  }

  lemma {:induction false} CollectKeysItems(l: List<Voter>, chain: Chain)
    ensures CollectKeys(l, chain).items == l.items + Contents(chain)
    ensures Counted(l) ==> Counted(CollectKeys(l, chain))
    decreases |chain|
  {
    if |chain| > 0 {
      AppendCellsItems(l, chain[0].cells, 0);
      CollectKeysItems(AppendCells(l, chain[0].cells, 0), chain[1..]);
    }
  }

  /** The list of keys to move holds exactly the chain's voters, in chain
      order, and its counter is right. */
  lemma GetKeysAreContents(chain: Chain)
    ensures GetKeysForRedistribution(chain).items == Contents(chain)
    ensures Counted(GetKeysForRedistribution(chain))
  {
    CollectKeysItems(ListCreate(), chain);
  }
}

=== FILE: hw0_command.dfy ===
/** The interactive command loop of Homework-0 (`Command.c`).  A command
    is the line the user typed; what a command prints is its `Reply`, and
    the files `bv` can name are a map from file name to the lines in the
    file. */
module VoterCommands {
  import opened Wrappers
  import opened Numerals
  import opened Voters
  import opened LinearHash
  import opened ZipIndex
  import opened VoterDatabase
  import opened VoterUtils

  /** INPUT_SIZE of Command.c: the buffer holds this many characters. */
  const INPUT_SIZE: nat := 768

  datatype Reply =
    | MalformedInput
    | MalformedPin
    | MalformedZipcode
    | TooLong                                      // the line did not fit the buffer
    | NotInCohort(pin: int)
    | Found(voter: Voter)
    | AlreadyExists(pin: int)
    | Inserted(voter: Voter)
    | Marking(note: MarkNote)                      // "<pin> does not exist" or "<pin> Marked Voted"
    | CouldNotOpen
    | VotedFile(notes: seq<MarkNote>, malformed: bool)
    | VotedSoFar(n: int)
    | Percentage(voted: int, voters: int)          // printed as voted / voters * 100
    | Listing(counts: seq<(int, int)>)
    | ZipReport(report: Option<(int, seq<Voter>)>)
    | BytesReleased

  datatype Outcome = Outcome(db: DataBase, reply: Reply, goOn: bool)

  /** The `k`-th token `strtok` hands out, or NULL once they run out. */
  function Tok(ts: seq<string>, k: nat): Option<string>
  {
    if k < |ts| then Some(ts[k]) else None
  }

  /** `isPositiveIntegerNumber` on a token, where NULL is refused. */
  predicate PositiveToken(t: Option<string>)
  {
    t.Some? && IsPositiveIntegerNumber(t.value)
  }

  /** The value of an accepted token, which is never negative. */
  function TokenValue(t: Option<string>): (n: int)
    requires PositiveToken(t)
    ensures n >= 0 && n == Atoi(t.value)
  {
    PositiveIntegerValue(t.value);
    Atoi(t.value)
  }

  /** The number of tokens each command needs. */
  function Arity(cmd: string): Option<nat>
  {
    if cmd in {"l", "m", "bv", "z"} then Some(2)
    else if cmd == "i" then Some(5)
    else if cmd in {"v", "perc", "o", "exit"} then Some(1)
    else None
  }

  // ---------------------------------------------------------------------
  // The commands
  // ---------------------------------------------------------------------

  /** `cmd_l`: look a pin up. */
  function CmdL(DB: DataBase, ts: seq<string>, count: int): (r: Reply)
    requires Consistent(DB)
    ensures count != 2 ==> r == MalformedInput
    ensures count == 2 && !PositiveToken(Tok(ts, 1)) ==> r == MalformedPin
    ensures r.Found? ==> r.voter in All(DB.ht, false) && PositiveToken(Tok(ts, 1)) && r.voter.pin == TokenValue(Tok(ts, 1))
    ensures r.NotInCohort? ==> forall v :: v in All(DB.ht, false) ==> v.pin != r.pin
  {
    if count != 2 then MalformedInput
    else
      var t := Tok(ts, 1);
      if !PositiveToken(t) then MalformedPin
      else
        var pin := TokenValue(t);
        match DatabaseSearch(DB, pin)
        case None => NotInCohort(pin)
        case Some(v) => Found(v)
  }

  /** `cmd_i`: insert a voter given as pin, last name, first name and
      postal code.  The source checks the pin a second time just before
      inserting; nothing changes in between, so that check always passes
      and is not repeated here. */
  function CmdI(DB: DataBase, ts: seq<string>, count: int): (r: (DataBase, Reply))
    requires Consistent(DB)
    ensures Consistent(r.0)
    ensures !r.1.Inserted? ==> r.0 == DB
    ensures r.1.Inserted? <==>
      && count == 5 && PositiveToken(Tok(ts, 1)) && Tok(ts, 2).Some? && Tok(ts, 3).Some? && PositiveToken(Tok(ts, 4))
      && !DatabaseExists(DB, TokenValue(Tok(ts, 1)))
    ensures r.1.Inserted? ==>
      && r.1.voter == VoterCreate(TokenValue(Tok(ts, 1)), ts[3], ts[2], TokenValue(Tok(ts, 4)))
      && All(r.0.ht, false) == All(DB.ht, false) + multiset{r.1.voter}
      && r.0.invInd == DB.invInd
  {
    if count != 5 then (DB, MalformedInput)
    else
      var t := Tok(ts, 1);
      if !PositiveToken(t) then (DB, MalformedInput)
      else
        var pin := TokenValue(t);
        if DatabaseExists(DB, pin) then (DB, AlreadyExists(pin))
        else if Tok(ts, 2).None? || Tok(ts, 3).None? then (DB, MalformedInput)
        else
          var lname, fname := ts[2], ts[3];
          var z := Tok(ts, 4);
          if !PositiveToken(z) then (DB, MalformedInput)
          else
            var v := VoterCreate(pin, fname, lname, TokenValue(z));
            (DatabaseInsert(DB, v), Inserted(v))
  }

  /** `cmd_m`: mark a pin as having voted, printing whether it exists. */
  function CmdM(DB: DataBase, ts: seq<string>, count: int): (r: (DataBase, Reply))
    requires Consistent(DB)
    ensures Consistent(r.0)
    ensures r.1.Marking? <==> count == 2 && PositiveToken(Tok(ts, 1))
    ensures !r.1.Marking? ==> r == (DB, MalformedInput)
    ensures r.1.Marking? ==>
      var pin := TokenValue(Tok(ts, 1));
      var found := DatabaseSearch(DB, pin);
      && r.1.note == NoteFor(Pins(DB), pin)
      && (found.Some? && !VoterHasVoted(found.value) ==> DatabaseNVotersVoted(r.0) == DatabaseNVotersVoted(DB) + 1)
      && (found.Some? && !VoterHasVoted(found.value) ==> DatabaseSearch(r.0, pin) == Some(VoterVote(found.value)))
      && (!(found.Some? && !VoterHasVoted(found.value)) ==> r.0 == DB)
      && (forall q :: q != pin ==> (q in WaitingPins(r.0) <==> q in WaitingPins(DB)))
  {
    if count != 2 then (DB, MalformedInput)
    else
      var t := Tok(ts, 1);
      if !PositiveToken(t) then (DB, MalformedInput)
      else
        var pin := TokenValue(t);
        var (db, _) := DatabaseMarkVoterVoted(DB, pin);
        MarkExactlyThePin(DB, pin);
        (db, Marking(MarkMessage(DB, pin)))
  }

  /** `cmd_bv`: mark every pin listed in a file, printing one message per
      line read. */
  function CmdBv(DB: DataBase, files: map<string, seq<string>>, ts: seq<string>, count: int): (r: (DataBase, Reply))
    requires Consistent(DB)
    ensures Consistent(r.0)
    ensures !r.1.VotedFile? ==> r.0 == DB
    ensures count != 2 ==> r == (DB, MalformedInput)
    ensures r.1.VotedFile? <==> count == 2 && Tok(ts, 1).Some? && ts[1] in files
    ensures r.1.VotedFile? ==>
      var lines := files[ts[1]];
      && |r.1.notes| == |Scanned(lines)|
      && (forall k :: 0 <= k < |r.1.notes| ==> r.1.notes[k] == NoteFor(Pins(DB), Scanned(lines)[k]))
      && (r.1.malformed <==> HasBadLine(lines))
      && Pins(r.0) == Pins(DB)
      && DatabaseNVotersVoted(DB) <= DatabaseNVotersVoted(r.0) <= DatabaseNVotersVoted(DB) + |r.1.notes|
      && (forall p :: p in Scanned(lines) && p in WaitingPins(DB) ==> p in VotedPins(r.0))
      && VotedPins(DB) <= VotedPins(r.0)
      && (forall p :: p !in Scanned(lines) ==> (p in WaitingPins(r.0) <==> p in WaitingPins(DB)))
      && DatabaseNVotersVoted(r.0) == DatabaseNVotersVoted(DB) + |NewlyVoted(DB, lines)|
  {
    if count != 2 then (DB, MalformedInput)
    else if Tok(ts, 1).None? || ts[1] !in files then (DB, CouldNotOpen)
    else
      var rep := DatabaseVotersFileVoted(DB, files[ts[1]]);
      VotedFileRise(DB, files[ts[1]]);
      (rep.db, VotedFile(rep.notes, rep.malformed))
  }

  /** `cmd_v`, `cmd_perc` and `cmd_o`: the queries without arguments. */
  function CmdQuery(DB: DataBase, cmd: string, count: int): (r: Reply)
    requires Consistent(DB) && cmd in {"v", "perc", "o"}
    ensures count != 1 ==> r == MalformedInput
    ensures count == 1 && cmd == "v" ==> r == VotedSoFar(|All(DB.ht, true)|)
    ensures count == 1 && cmd == "perc" ==> r == Percentage(|All(DB.ht, true)|, |All(DB.ht, false)|)
    ensures count == 1 && cmd == "o" ==> r.Listing? && |r.counts| == |DB.invInd.nodes|
  {
    CountersMeaning(DB.ht);
    if count != 1 then MalformedInput
    else if cmd == "v" then VotedSoFar(DatabaseNVotersVoted(DB))
    else if cmd == "perc" then Percentage(HashTableNVotersVoted(DB.ht), HashTableNVoters(DB.ht))
    else Listing(DatabaseZipcodesNVoters(DB))
  }

  /** `cmd_z`: the voters who have voted in a postal code. */
  function CmdZ(DB: DataBase, ts: seq<string>, count: int): (r: Reply)
    requires Consistent(DB)
    ensures count != 2 ==> r == MalformedInput
    ensures count == 2 && !PositiveToken(Tok(ts, 1)) ==> r == MalformedZipcode
    ensures count == 2 && PositiveToken(Tok(ts, 1)) ==>
      r == ZipReport(DatabaseNVotersVotedZipcode(DB, TokenValue(Tok(ts, 1))))
  {
    if count != 2 then MalformedInput
    else if !PositiveToken(Tok(ts, 1)) then MalformedZipcode
    else ZipReport(DatabaseNVotersVotedZipcode(DB, TokenValue(Tok(ts, 1))))
  }

  /** `exec_cmd`: dispatch on the first token.  `exit` with exactly one
      token is the only way to stop; an unknown command or a wrong number
      of tokens reports "Malformed Input" and changes nothing. */
  function ExecCmd(DB: DataBase, files: map<string, seq<string>>, ts: seq<string>, count: int): (r: Outcome)
    requires Consistent(DB) && |ts| > 0
    ensures Consistent(r.db)
    ensures !r.goOn <==> ts[0] == "exit" && count == 1
  {
    var cmd := ts[0];
    if cmd == "l" then Outcome(DB, CmdL(DB, ts, count), true)
    else if cmd == "i" then var (db, rep) := CmdI(DB, ts, count); Outcome(db, rep, true)
    else if cmd == "m" then var (db, rep) := CmdM(DB, ts, count); Outcome(db, rep, true)
    else if cmd == "bv" then var (db, rep) := CmdBv(DB, files, ts, count); Outcome(db, rep, true)
    else if cmd in {"v", "perc", "o"} then Outcome(DB, CmdQuery(DB, cmd, count), true)
    else if cmd == "z" then Outcome(DB, CmdZ(DB, ts, count), true)
    else if cmd == "exit" then
      if count != 1 then Outcome(DB, MalformedInput, true) else Outcome(DB, BytesReleased, false)
    else Outcome(DB, MalformedInput, true)
  }

  /** An unknown command is refused and changes nothing. */
  lemma UnknownCommand(DB: DataBase, files: map<string, seq<string>>, ts: seq<string>, count: int)
    requires Consistent(DB) && |ts| > 0 && Arity(ts[0]).None?
    ensures ExecCmd(DB, files, ts, count) == Outcome(DB, MalformedInput, true)
  {
    var cmd := ts[0];
    assert cmd != "l" && cmd != "i" && cmd != "m" && cmd != "bv" && cmd !in {"v", "perc", "o"} && cmd != "z" && cmd != "exit";
  }

  /** A known command with the wrong number of tokens is refused and
      changes nothing. */
  lemma WrongArity(DB: DataBase, files: map<string, seq<string>>, ts: seq<string>, count: int)
    requires Consistent(DB) && |ts| > 0 && Arity(ts[0]).Some? && count != Arity(ts[0]).value
    ensures ExecCmd(DB, files, ts, count) == Outcome(DB, MalformedInput, true)
  {
    var cmd := ts[0];
    if cmd in {"l", "m", "bv", "z"} {
      WrongArityOfPinCommand(DB, files, ts, count);
    } else if cmd == "i" {
      assert ExecCmd(DB, files, ts, count) == Outcome(CmdI(DB, ts, count).0, CmdI(DB, ts, count).1, true);
    } else if cmd in {"v", "perc", "o"} {
      assert ExecCmd(DB, files, ts, count) == Outcome(DB, CmdQuery(DB, cmd, count), true);
    } else {
      assert cmd == "exit";
    }
  }

  /** The commands that take one argument, with anything but two tokens. */
  lemma WrongArityOfPinCommand(DB: DataBase, files: map<string, seq<string>>, ts: seq<string>, count: int)
    requires Consistent(DB) && |ts| > 0 && ts[0] in {"l", "m", "bv", "z"} && count != 2
    ensures ExecCmd(DB, files, ts, count) == Outcome(DB, MalformedInput, true)
  {
    var r := ExecCmd(DB, files, ts, count);
    if ts[0] == "l" {
      assert r == Outcome(DB, CmdL(DB, ts, count), true);
    } else if ts[0] == "m" {
      assert r == Outcome(CmdM(DB, ts, count).0, CmdM(DB, ts, count).1, true);
    } else if ts[0] == "bv" {
      assert r == Outcome(CmdBv(DB, files, ts, count).0, CmdBv(DB, files, ts, count).1, true);
    } else {
      assert r == Outcome(DB, CmdZ(DB, ts, count), true);
    }
  }

  /** Only `i`, `m` and `bv` can change the database. */
  lemma OnlyUpdatesChange(DB: DataBase, files: map<string, seq<string>>, ts: seq<string>, count: int)
    requires Consistent(DB) && |ts| > 0 && ts[0] !in {"i", "m", "bv"}
    ensures ExecCmd(DB, files, ts, count).db == DB
  {
  }

  // ---------------------------------------------------------------------
  // The loop of RunDB
  // ---------------------------------------------------------------------

  /** What `fgets` leaves in the buffer for a line typed without its
      '\n': the line and its '\n' when they fit, otherwise the first
      INPUT_SIZE characters. */
  function Buffer(line: string): (b: string)
  {
    if |line| < INPUT_SIZE then line + "\n" else line[..INPUT_SIZE]
  }

  /** The line reaches `exec_cmd`: it is not empty and fits the buffer. */
  predicate Reaches(line: string)
  {
    var input := Buffer(line);
    input != "\n" && '\n' in input && |Tokens(TrimInput(input))| > 0 && TokenCount(TrimInput(input)) >= 1
  }

  /** The line makes `exec_cmd` end the loop. */
  predicate StopLine(line: string)
  {
    Reaches(line) && Tokens(TrimInput(Buffer(line)))[0] == "exit" && TokenCount(TrimInput(Buffer(line))) == 1
  }

  /** One turn of the loop in `RunDB` for a line of input: an empty line
      and a line too long for the buffer are refused (the rest of a long
      line is discarded); otherwise the line is trimmed, counted and
      split into tokens, and the first token picks the command. */
  function Step(DB: DataBase, files: map<string, seq<string>>, line: string): (r: Outcome)
    requires Consistent(DB)
    ensures Consistent(r.db)
    ensures !r.goOn <==> StopLine(line)
    ensures !Reaches(line) ==> r.db == DB && r.reply in {MalformedInput, TooLong}
  {
    var input := Buffer(line);
    if input == "\n" then Outcome(DB, MalformedInput, true)
    else if '\n' !in input then Outcome(DB, TooLong, true)
    else
      var trimmed := TrimInput(input);
      var count := TokenCount(trimmed);
      var ts := Tokens(trimmed);
      if |ts| == 0 || count < 1 then Outcome(DB, MalformedInput, true)
      else ExecCmd(DB, files, ts, count)
  }

  /** A line that fits is what the loop works on once trimmed. */
  lemma TrimmedBuffer(line: string)
    requires '\n' !in line && |line| < INPUT_SIZE
    ensures TrimInput(Buffer(line)) == line
  {
    var b := Buffer(line);
    assert b[|line|] == '\n' && b[..|line|] == line;
    TrimInputExact(b);
  }

  /** A line too long for the buffer never reaches `exec_cmd`. */
  lemma LongLineRefused(line: string)
    requires '\n' !in line && |line| >= INPUT_SIZE
    ensures !Reaches(line)
  {
    assert Buffer(line) <= line;
  }

  /** "exit" ends the loop. */
  lemma ExitStops()
    ensures StopLine("exit")
  {
    var line := "exit";
    TrimmedBuffer(line);
    assert Buffer(line) == "exit\n";
    assert ' ' !in multiset(line);
    assert TokenCount(line) == 1;
    SingleTokenLine(line);
  }

  /** Nothing but "exit" ends the loop. */
  lemma StopIsExit(line: string)
    requires '\n' !in line && StopLine(line)
    ensures line == "exit"
  {
    if |line| >= INPUT_SIZE {
      LongLineRefused(line);
    }
    TrimmedBuffer(line);
    assert TokenCount(line) == 1;
    SingleTokenLine(line);
  }

  /** The loop ends on a line exactly when that line is "exit": a single
      token that is the command, with no blank anywhere. */
  lemma StopsOnlyOnExit(line: string)
    requires '\n' !in line
    ensures StopLine(line) <==> line == "exit"
  {
    if line == "exit" {
      ExitStops();
    }
    if StopLine(line) {
      StopIsExit(line);
    }
  }

  /** An empty line is refused before it is tokenised, and changes
      nothing. */
  lemma EmptyLineMalformed(DB: DataBase, files: map<string, seq<string>>)
    requires Consistent(DB)
    ensures Step(DB, files, "") == Outcome(DB, MalformedInput, true)
  {
    assert Buffer("") == "\n";
  }

  /** How many lines the loop reads: up to the first that stops it. */
  function Handled(lines: seq<string>): (n: nat)
    ensures n <= |lines|
  {
    if |lines| == 0 then 0
    else if StopLine(lines[0]) then 1
    else 1 + Handled(lines[1..])
  }

  /** The lines the loop reads are those before the first "exit" and the
      "exit" itself; without an "exit" it reads them all. */
  lemma {:induction false} HandledStopsAtExit(lines: seq<string>)
    requires forall k :: 0 <= k < |lines| ==> '\n' !in lines[k]
    ensures var n := Handled(lines);
      && (forall k :: 0 <= k < n - 1 ==> lines[k] != "exit")
      && (n < |lines| ==> n > 0 && lines[n - 1] == "exit")
      && ("exit" !in lines ==> n == |lines|)
  {
    if |lines| > 0 {
      StopsOnlyOnExit(lines[0]);
      if !StopLine(lines[0]) {
        var tl := lines[1..];
        HandledStopsAtExit(tl);
        var n := Handled(tl);
        forall k | 0 <= k < n
          ensures lines[k] != "exit"
        {
          if k > 0 {
            assert lines[k] == tl[k - 1];
          }
        }
        if "exit" !in lines {
          assert "exit" !in tl by {
            forall k | 0 <= k < |tl|
              ensures tl[k] != "exit"
            {
              assert tl[k] == lines[k + 1];
            }
          }
        }
      }
    }
  }

  /** The session after the initial load: lines are handled one by one
      until one stops the loop, with one reply per line handled. */
  function RunLines(DB: DataBase, files: map<string, seq<string>>, lines: seq<string>): (r: (DataBase, seq<Reply>))
    requires Consistent(DB)
    ensures Consistent(r.0)
    ensures |r.1| == Handled(lines)
    decreases |lines|
  {
    if |lines| == 0 then (DB, [])
    else
      var o := Step(DB, files, lines[0]);
      if !o.goOn then (o.db, [o.reply])
      else
        var rest := RunLines(o.db, files, lines[1..]);
        (rest.0, [o.reply] + rest.1)
  }

  datatype RunError = NoFile | DuplicatePin(pin: int)

  /** `RunDB`: without an initial file the program stops; the file's
      records are loaded, a pin seen twice stopping the program; then the
      command loop runs.  The sizes come from `validArgs` and are at least
      one. */
  function RunDB(records: Option<seq<VoterLine>>, m: nat, bucketSize: nat,
                 files: map<string, seq<string>>, lines: seq<string>): (r: Result<(DataBase, seq<Reply>), RunError>)
    requires m > 0 && bucketSize > 0
    requires records.Some? ==> NonNegativePins(records.value)
    ensures r == Err(NoFile) <==> records.None?
    ensures records.Some? ==> (r.Ok? <==> FreshPins(multiset{}, records.value))
    ensures r.Ok? ==> Consistent(r.value.0) && |r.value.1| == Handled(lines)
  {
    if records.None? then Err(NoFile)
    else
      var DB := DatabaseCreate(m, bucketSize);
      InsertFileOkIff(DB, records.value);
      match DatabaseInsertFile(DB, records.value)
      case Err(pin) => Err(DuplicatePin(pin))
      case Ok(db) => Ok(RunLines(db, files, lines))
  }
}

=== FILE: hw0_database.dfy ===
/** The database of Homework-0 (`DataBase.c`): the hash table of all
    voters and the inverted index of those who have voted, kept in step.
    File reading is done by the caller: loading takes the records `fscanf`
    matched, and the voted-file pass takes the lines `fgets` returned. */
module VoterDatabase {
  import opened Wrappers
  import opened Numerals
  import opened Voters
  import opened LinearHash
  import opened ZipIndex

  datatype DataBase = DataBase(ht: HashTable, invInd: InvertedIndex)

  /** The table is valid, the index is valid, and the index lists exactly
      the voters the table holds as having voted. */
  ghost predicate Consistent(DB: DataBase)
  {
    Valid(DB.ht) && IndexValid(DB.invInd) && IndexVoters(DB.invInd.nodes) == All(DB.ht, true)
  }

  /** `database_create`: an empty table of `m` slots and an empty index.
      The load threshold argument is the constant 0.75 that the table's
      split test uses. */
  function DatabaseCreate(m: nat, bucketSize: nat): (DB: DataBase)
    requires m > 0 && bucketSize > 0
    ensures Consistent(DB)
    ensures All(DB.ht, false) == multiset{} && DB.invInd.nodes == []
  {
    var ht := HashTableCreate(m, bucketSize);
    CountersMeaning(ht);
    DataBase(ht, InvIndexCreate())
  }

  /** `database_insert`: the voter goes into the table only.  The index
      stays right as long as the voter has not voted, which holds for
      every caller, since all of them insert a voter fresh from
      `voter_create`. */
  function DatabaseInsert(DB: DataBase, v: Voter): (r: DataBase)
    requires Valid(DB.ht) && v.pin >= 0
    ensures Valid(r.ht) && r.invInd == DB.invInd
    ensures All(r.ht, false) == All(DB.ht, false) + multiset{v}
    ensures Consistent(DB) && !VoterHasVoted(v) ==> Consistent(r)
    ensures DatabaseSearch(r, v.pin).Some?
  {
    DataBase(HashTableInsert(DB.ht, v), DB.invInd)
  }

  /** `database_search`: a stored voter with the pin, or none when no
      stored voter has it. */
  function DatabaseSearch(DB: DataBase, pin: int): (r: Option<Voter>)
    requires Valid(DB.ht) && pin >= 0
    ensures r.Some? ==> r.value.pin == pin && r.value in All(DB.ht, false)
    ensures r.None? <==> forall v :: v in All(DB.ht, false) ==> v.pin != pin
  {
    HashTableSearch(DB.ht, pin)
  }

  /** `database_exists`. */
  function DatabaseExists(DB: DataBase, pin: int): (b: bool)
    requires Valid(DB.ht) && pin >= 0
    ensures b <==> exists v :: v in All(DB.ht, false) && v.pin == pin
  {
    HashTableExists(DB.ht, pin)
  }

  /** Existence and search agree: a pin exists exactly when a search for
      it finds a voter. */
  lemma ExistsIffFound(DB: DataBase, pin: int)
    requires Valid(DB.ht) && pin >= 0
    ensures DatabaseExists(DB, pin) <==> DatabaseSearch(DB, pin).Some?
  {
  }

  /** `database_n_voters_voted`: the table's counter, which is both the
      number of voters the table holds as voted and the sum of the index's
      per-postal-code counts. */
  function DatabaseNVotersVoted(DB: DataBase): (n: int)
    requires Consistent(DB)
    ensures n == |All(DB.ht, true)|
    ensures n == Total(DB.invInd.nodes)
  {
    CountersMeaning(DB.ht);
    TotalIsSize(DB.invInd.nodes);
    HashTableNVotersVoted(DB.ht)
  }

  /** `database_mark_voter_voted`: the table marks the voter; only when it
      reports a fresh vote does the voter also go into the index.  An
      absent pin, or one whose voter has already voted, changes nothing. */
  function DatabaseMarkVoterVoted(DB: DataBase, pin: int): (r: (DataBase, Option<Voter>))
    requires Consistent(DB) && pin >= 0
    ensures Consistent(r.0)
    ensures var found := DatabaseSearch(DB, pin);
      && (r.1.Some? <==> found.Some? && !VoterHasVoted(found.value))
      && (r.1.None? ==> r.0 == DB)
      && (r.1.Some? ==>
            && r.1.value == VoterVote(found.value)
            && All(r.0.ht, true) == All(DB.ht, true) + multiset{r.1.value}
            && IndexVoters(r.0.invInd.nodes) == IndexVoters(DB.invInd.nodes) + multiset{r.1.value}
            && Total(r.0.invInd.nodes) == Total(DB.invInd.nodes) + 1
            && DatabaseSearch(r.0, pin) == r.1)
    ensures r.1.Some? ==>
      All(r.0.ht, false) + multiset{DatabaseSearch(DB, pin).value} == All(DB.ht, false) + multiset{r.1.value}
    ensures DatabaseNVotersVoted(r.0) == DatabaseNVotersVoted(DB) + (if r.1.Some? then 1 else 0)
  {
    var (ht, v) := HashTableMarkVoterVoted(DB.ht, pin);
    if v.None? then (DB, None)
    else
      InsertKeepsValid(DB.invInd, v.value);
      InsertCounts(DB.invInd, v.value);
      (DataBase(ht, InvIndexInsert(DB.invInd, v.value)), v)
  }

  ghost function PinsOf(m: multiset<Voter>): set<int>
  {
    set v | v in m :: v.pin
  }

  ghost function WaitingOf(m: multiset<Voter>): set<Voter>
  {
    set v | v in m && !VoterHasVoted(v)
  }

  /** The pins of the stored voters. */
  ghost function Pins(DB: DataBase): set<int>
  {
    PinsOf(All(DB.ht, false))
  }

  /** The stored voters who have not voted. */
  ghost function Unvoted(DB: DataBase): set<Voter>
  {
    WaitingOf(All(DB.ht, false))
  }

  /** What marking a pin prints: "<pin> does not exist" when no stored
      voter has it; otherwise "<pin> Marked Voted", which the table prints
      for a voter who had already voted and the database prints after a
      fresh vote. */
  datatype MarkNote = PinAbsent(pin: int) | PinMarked(pin: int)

  /** The message due for `pin` among the stored pins `pins`. */
  function NoteFor(pins: set<int>, pin: int): MarkNote
  {
    if pin in pins then PinMarked(pin) else PinAbsent(pin)
  }

  /** The line `database_mark_voter_voted` and `hash_table_mark_voter_voted`
      print between them for one pin. */
  function MarkMessage(DB: DataBase, pin: int): (m: MarkNote)
    requires Valid(DB.ht) && pin >= 0
    ensures m == NoteFor(Pins(DB), pin)
  {
    var found := DatabaseSearch(DB, pin);
    if found.None? then PinAbsent(pin)
    else
      assert found.value in All(DB.ht, false);
      PinMarked(pin)
  }

  /** Trading one waiting voter for its voted copy keeps the pins and adds
      nobody to the waiting voters. */
  lemma TradeKeepsPins(before: multiset<Voter>, after: multiset<Voter>, found: Voter)
    requires found in before && !VoterHasVoted(found)
    requires after + multiset{found} == before + multiset{VoterVote(found)}
    ensures PinsOf(after) == PinsOf(before)
    ensures WaitingOf(after) <= WaitingOf(before)
  {
    var voted := VoterVote(found);
    assert found != voted;
    assert voted in after by { assert voted in after + multiset{found}; }
    forall v | v in after
      ensures v in before || v == voted
    {
      assert v in before + multiset{voted};
    }
    forall v | v in before
      ensures v in after || v == found
    {
      assert v in after + multiset{found};
    }
    forall q | q in PinsOf(after)
      ensures q in PinsOf(before)
    {
      var v :| v in after && v.pin == q;
      if v == voted { assert found.pin == q; }
    }
    forall q | q in PinsOf(before)
      ensures q in PinsOf(after)
    {
      var v :| v in before && v.pin == q;
      if v == found { assert voted.pin == q; }
    }
  }

  /** Marking adds and removes no voter: the stored pins stay the same, the
      voters still waiting to vote are a subset of those before, and a fresh
      vote is recorded for a voter who was waiting. */
  lemma MarkKeepsVoters(DB: DataBase, pin: int)
    requires Consistent(DB) && pin >= 0
    ensures var r := DatabaseMarkVoterVoted(DB, pin);
      && Pins(r.0) == Pins(DB)
      && Unvoted(r.0) <= Unvoted(DB)
      && (r.1.Some? ==> exists v :: v in Unvoted(DB) && v.pin == pin)
  {
    var r := DatabaseMarkVoterVoted(DB, pin);
    if r.1.Some? {
      var found := DatabaseSearch(DB, pin).value;
      TradeKeepsPins(All(DB.ht, false), All(r.0.ht, false), found);
      assert found in Unvoted(DB);
    }
  }

  /** The pins for which a search finds a stored voter who has not
      voted. */
  ghost function WaitingPins(DB: DataBase): iset<int>
  {
    WaitingPinsOf(DB.ht)
  }

  /** The pins for which a search finds a stored voter who has voted. */
  ghost function VotedPins(DB: DataBase): iset<int>
  {
    VotedPinsOf(DB.ht)
  }

  /** `database_mark_voter_voted` marks the voter a search for the pin
      finds, and no other: every other pin is found as waiting exactly when
      it was before, nobody who voted is unmarked, and the pin itself is
      voted afterwards if it was waiting, which is exactly when the vote is
      fresh. */
  lemma MarkExactlyThePin(DB: DataBase, pin: int)
    requires Consistent(DB) && pin >= 0
    ensures var r := DatabaseMarkVoterVoted(DB, pin);
      OneMark(WaitingPins(DB), VotedPins(DB), WaitingPins(r.0), VotedPins(r.0), pin, r.1.Some?)
  {
    MarkTouchesOnlyThePin(DB.ht, pin);
  }

  /** `database_n_voters_voted_zipcode`: the index's node for the code. */
  function DatabaseNVotersVotedZipcode(DB: DataBase, zipcode: int): Option<(int, seq<Voter>)>
  {
    NVotersZipcode(DB.invInd, zipcode)
  }

  /** The report for a postal code lists exactly the voters of that code
      the table holds as voted, with their number; none means there are
      none. */
  lemma ZipcodeReportExact(DB: DataBase, zipcode: int)
    requires Consistent(DB)
    ensures var r := DatabaseNVotersVotedZipcode(DB, zipcode);
      && (r.Some? ==> r.value.0 == |r.value.1| >= 1)
      && (forall x :: r.Some? && x in r.value.1 ==> x.postalCode == zipcode && x in All(DB.ht, true))
      && (forall x :: x in All(DB.ht, true) && x.postalCode == zipcode ==> r.Some? && x in r.value.1)
  {
    var r := DatabaseNVotersVotedZipcode(DB, zipcode);
    forall x
      ensures r.Some? && x in r.value.1 ==> x.postalCode == zipcode && x in All(DB.ht, true)
      ensures x in All(DB.ht, true) && x.postalCode == zipcode ==> r.Some? && x in r.value.1
    {
      NVotersZipcodeComplete(DB.invInd, zipcode, x);
    }
    if r.Some? {
      assert NodeOk(DB.invInd.nodes[SearchZipnode(DB.invInd.nodes, zipcode).value]);
    }
  }

  /** `database_zipcodes_n_voters`: the index's listing of postal codes and
      counts. */
  function DatabaseZipcodesNVoters(DB: DataBase): seq<(int, int)>
  {
    ZipcodesNVoters(DB.invInd)
  }

  /** The listing names each postal code once, most voters first, and its
      counts add up to the number of voters who have voted. */
  lemma ZipcodeListingExact(DB: DataBase)
    requires Consistent(DB)
    ensures var r := DatabaseZipcodesNVoters(DB);
      && (forall i, j :: 0 <= i < j < |r| ==> r[i].1 >= r[j].1 && r[i].0 != r[j].0)
      && Total(DB.invInd.nodes) == DatabaseNVotersVoted(DB)
      && (forall i :: 0 <= i < |r| ==> r[i].1 >= 1)
  {
    ListingSorted(DB.invInd);
    var r := DatabaseZipcodesNVoters(DB);
    forall i | 0 <= i < |r|
      ensures r[i].1 >= 1
    {
      assert NodeOk(DB.invInd.nodes[i]);
    }
  }

  // ---------------------------------------------------------------------
  // database_insert_file
  // ---------------------------------------------------------------------

  /** One record as `fscanf("%d %255s %255s %d")` reads it: pin, surname,
      name, postal code. */
  datatype VoterLine = VoterLine(pin: int, surname: string, name: string, postalCode: int)

  /** The voter a record stands for; note the name and surname swap places
      between the file and `voter_create`. */
  function LineVoter(l: VoterLine): Voter
  {
    VoterCreate(l.pin, l.name, l.surname, l.postalCode)
  }

  function Created(lines: seq<VoterLine>): multiset<Voter>
  {
    if |lines| == 0 then multiset{} else multiset{LineVoter(lines[0])} + Created(lines[1..])
  }

  /** No voter in `m` has the pin. */
  ghost predicate NoPin(m: multiset<Voter>, pin: int)
  {
    forall v :: v in m ==> v.pin != pin
  }

  /** Every record's pin is new: absent from `m` and from every earlier
      record. */
  ghost predicate FreshPins(m: multiset<Voter>, lines: seq<VoterLine>)
  {
    forall i :: 0 <= i < |lines| ==>
      NoPin(m, lines[i].pin) && forall j :: 0 <= j < i ==> lines[j].pin != lines[i].pin
  }

  ghost predicate NonNegativePins(lines: seq<VoterLine>)
  {
    forall i :: 0 <= i < |lines| ==> lines[i].pin >= 0
  }

  /** `database_insert_file` on the records read: each record's pin is
      checked against the table and the program stops with that pin as
      soon as one is already there; otherwise the new voter is inserted.
      A complete load adds exactly the voters of the records. */
  function DatabaseInsertFile(DB: DataBase, lines: seq<VoterLine>): (r: Result<DataBase, int>)
    requires Consistent(DB) && NonNegativePins(lines)
    ensures LoadOutcome(DB, lines, r)
    decreases |lines|
  {
    if |lines| == 0 then Ok(DB)
    else if DatabaseExists(DB, lines[0].pin) then Err(lines[0].pin)
    else
      PinsTail(lines);
      var DB1 := DatabaseInsert(DB, LineVoter(lines[0]));
      var rest := DatabaseInsertFile(DB1, lines[1..]);
      LoadStep(DB, DB1, lines, rest);
      rest
  }

  /** What a load promises: a completed load leaves the database
      consistent with exactly the records' voters added to the table and
      the index untouched; a refused one names a pin of some record. */
  ghost predicate LoadOutcome(DB: DataBase, lines: seq<VoterLine>, r: Result<DataBase, int>)
  {
    && (r.Ok? ==> Consistent(r.value) && r.value.invInd == DB.invInd)
    && (r.Ok? ==> All(r.value.ht, false) == All(DB.ht, false) + Created(lines))
    && (r.Err? ==> exists i :: 0 <= i < |lines| && lines[i].pin == r.error)
  }

  lemma PinsTail(lines: seq<VoterLine>)
    requires |lines| > 0 && NonNegativePins(lines)
    ensures lines[0].pin >= 0 && !VoterHasVoted(LineVoter(lines[0])) && NonNegativePins(lines[1..])
  {
    assert forall i :: 0 <= i < |lines| - 1 ==> lines[1..][i] == lines[i + 1];
  }

  lemma LoadStep(DB: DataBase, DB1: DataBase, lines: seq<VoterLine>, rest: Result<DataBase, int>)
    requires |lines| > 0 && Valid(DB.ht) && Valid(DB1.ht)
    requires All(DB1.ht, false) == All(DB.ht, false) + multiset{LineVoter(lines[0])}
    requires DB1.invInd == DB.invInd
    requires LoadOutcome(DB1, lines[1..], rest)
    ensures LoadOutcome(DB, lines, rest)
  {
    if rest.Err? {
      var i :| 0 <= i < |lines| - 1 && lines[1..][i].pin == rest.error;
      assert lines[i + 1].pin == rest.error;
    }
  }

  /** The new record's pin is fresh and the rest are fresh after it,
      exactly when all of them are fresh. */
  lemma FreshPinsStep(m: multiset<Voter>, v: Voter, lines: seq<VoterLine>)
    requires |lines| > 0 && v.pin == lines[0].pin
    ensures FreshPins(m, lines) <==> NoPin(m, lines[0].pin) && FreshPins(m + multiset{v}, lines[1..])
  {
    var tl := lines[1..];
    if FreshPins(m, lines) {
      forall i | 0 <= i < |tl|
        ensures NoPin(m + multiset{v}, tl[i].pin) && forall j :: 0 <= j < i ==> tl[j].pin != tl[i].pin
      {
        assert tl[i] == lines[i + 1];
        assert lines[0].pin != lines[i + 1].pin;
        forall j | 0 <= j < i
          ensures tl[j].pin != tl[i].pin
        {
          assert tl[j] == lines[j + 1];
        }
      }
    }
    if NoPin(m, lines[0].pin) && FreshPins(m + multiset{v}, tl) {
      forall i | 0 <= i < |lines|
        ensures NoPin(m, lines[i].pin) && forall j :: 0 <= j < i ==> lines[j].pin != lines[i].pin
      {
        if i > 0 {
          assert lines[i] == tl[i - 1];
          assert NoPin(m + multiset{v}, tl[i - 1].pin);
          forall j | 0 <= j < i
            ensures lines[j].pin != lines[i].pin
          {
            if j > 0 {
              assert lines[j] == tl[j - 1];
            } else {
              assert v in m + multiset{v};
            }
          }
        }
      }
    }
  }

  lemma RefusedWhenPresent(DB: DataBase, lines: seq<VoterLine>)
    requires Consistent(DB) && NonNegativePins(lines) && |lines| > 0
    requires DatabaseExists(DB, lines[0].pin)
    ensures DatabaseInsertFile(DB, lines).Err? && !FreshPins(All(DB.ht, false), lines)
  {
    var w :| w in All(DB.ht, false) && w.pin == lines[0].pin;
    assert !NoPin(All(DB.ht, false), lines[0].pin);
  }

  lemma ContinuesWhenAbsent(DB: DataBase, lines: seq<VoterLine>)
    requires Consistent(DB) && NonNegativePins(lines) && |lines| > 0
    requires !DatabaseExists(DB, lines[0].pin)
    ensures NoPin(All(DB.ht, false), lines[0].pin)
    ensures DatabaseInsertFile(DB, lines)
         == DatabaseInsertFile(DatabaseInsert(DB, LineVoter(lines[0])), lines[1..])
  {
  }

  /** One record past the check, in terms of the rest of the file. */
  lemma AcceptedStep(DB: DataBase, lines: seq<VoterLine>)
    requires Consistent(DB) && NonNegativePins(lines) && |lines| > 0
    requires !DatabaseExists(DB, lines[0].pin)
    requires var DB1 := DatabaseInsert(DB, LineVoter(lines[0]));
      Consistent(DB1) && NonNegativePins(lines[1..]) &&
      (DatabaseInsertFile(DB1, lines[1..]).Ok? <==> FreshPins(All(DB1.ht, false), lines[1..]))
    ensures DatabaseInsertFile(DB, lines).Ok? <==> FreshPins(All(DB.ht, false), lines)
  {
    ContinuesWhenAbsent(DB, lines);
    FreshPinsStep(All(DB.ht, false), LineVoter(lines[0]), lines);
  }

  /** Loading refuses a pin already present: it completes exactly when
      every record's pin is new to the table and to the file. */
  lemma {:induction false} InsertFileOkIff(DB: DataBase, lines: seq<VoterLine>)
    requires Consistent(DB) && NonNegativePins(lines)
    ensures DatabaseInsertFile(DB, lines).Ok? <==> FreshPins(All(DB.ht, false), lines)
    decreases |lines|
  {
    if |lines| > 0 {
      if DatabaseExists(DB, lines[0].pin) {
        RefusedWhenPresent(DB, lines);
      } else {
        PinsTail(lines);
        InsertFileOkIff(DatabaseInsert(DB, LineVoter(lines[0])), lines[1..]);
        AcceptedStep(DB, lines);
      }
    }
  }

  // ---------------------------------------------------------------------
  // database_voters_file_voted
  // ---------------------------------------------------------------------

  /** A line the voted-file pass accepts: it scans to a pin of at least 0. */
  predicate PinLine(s: string)
  {
    var n := ScanInt(s);
    n.Some? && n.value >= 0
  }

  /** The pins of the leading lines that scan, up to the first that does not. */
  function Scanned(lines: seq<string>): seq<int>
  {
    if |lines| == 0 || !PinLine(lines[0]) then [] else [ScanInt(lines[0]).value] + Scanned(lines[1..])
  }

  /** What the voted-file pass leaves: the database, the message printed for
      each line read, the pins that received a fresh vote, and whether it
      stopped on "Malformed Input". */
  datatype MarkReport = MarkReport(db: DataBase, notes: seq<MarkNote>, newVotes: seq<int>, malformed: bool)

  /** `database_voters_file_voted` on the lines read: each line's pin is
      marked as in `database_mark_voter_voted`; the first line that does
      not scan to a pin of at least 0 stops the pass, keeping what the
      earlier lines did. */
  function DatabaseVotersFileVoted(DB: DataBase, lines: seq<string>): (r: MarkReport)
    requires Consistent(DB)
    ensures MarkOutcome(DB, lines, r)
    ensures MarkLines(DB, lines, r)
    ensures MarkedListed(DB, lines, r)
    decreases |lines|
  {
    if |lines| == 0 then MarkReport(DB, [], [], false)
    else if !PinLine(lines[0]) then MarkReport(DB, [], [], true)
    else
      var pin := ScanInt(lines[0]).value;
      var note := MarkMessage(DB, pin);
      var (db1, v) := DatabaseMarkVoterVoted(DB, pin);
      var rest := DatabaseVotersFileVoted(db1, lines[1..]);
      var r := MarkReport(rest.db, [note] + rest.notes, (if v.Some? then [pin] else []) + rest.newVotes, rest.malformed);
      MarkStep(DB, db1, v.Some?, lines, rest, r);
      MarkKeepsVoters(DB, pin);
      MarkLinesStep(DB, db1, v.Some?, lines, rest, r);
      MarkExactlyThePin(DB, pin);
      MarkedListedStep(DB, db1, v.Some?, lines, rest, r);
      r
  }

  /** What the pass prints and whom it marks: one message per line read,
      "does not exist" exactly for a pin no stored voter has; every freshly
      marked pin was read and belonged to a voter who had not voted; and no
      voter is added or removed. */
  ghost predicate MarkLines(DB: DataBase, lines: seq<string>, r: MarkReport)
  {
    LinesMarked(Pins(DB), Unvoted(DB), Pins(r.db), Unvoted(r.db), Scanned(lines), r.notes, r.newVotes)
  }

  /** `MarkLines` in terms of the stored pins and the waiting voters before
      (`pins`, `waiting`) and after (`pins'`, `waiting'`) the pass, and of
      the pins read. */
  ghost predicate LinesMarked(pins: set<int>, waiting: set<Voter>, pins': set<int>, waiting': set<Voter>,
                              read: seq<int>, notes: seq<MarkNote>, newVotes: seq<int>)
  {
    && pins' == pins
    && waiting' <= waiting
    && |notes| == |read|
    && (forall k :: 0 <= k < |notes| ==> notes[k] == NoteFor(pins, read[k]))
    && |newVotes| <= |notes|
    && (forall p :: p in newVotes ==> p in read && exists v :: v in waiting && v.pin == p)
  }

  /** Reading one more pin in front: its message goes first, and it joins
      the fresh votes only if a waiting voter had it. */
  lemma LinesMarkedStep(pins: set<int>, waiting: set<Voter>, waiting1: set<Voter>, pins': set<int>, waiting': set<Voter>,
                        newVote: bool, pin: int, read: seq<int>, notes: seq<MarkNote>, newVotes: seq<int>)
    requires waiting1 <= waiting
    requires newVote ==> exists v :: v in waiting && v.pin == pin
    requires LinesMarked(pins, waiting1, pins', waiting', read, notes, newVotes)
    ensures LinesMarked(pins, waiting, pins', waiting', [pin] + read,
                        [NoteFor(pins, pin)] + notes, (if newVote then [pin] else []) + newVotes)
  {
    var nv := (if newVote then [pin] else []) + newVotes;
    forall p | p in nv
      ensures p in [pin] + read && exists v :: v in waiting && v.pin == p
    {
      if p in newVotes {
        var v :| v in waiting1 && v.pin == p;
        assert v in waiting;
      }
    }
  }

  lemma MarkLinesStep(DB: DataBase, db1: DataBase, newVote: bool, lines: seq<string>, rest: MarkReport, r: MarkReport)
    requires |lines| > 0 && PinLine(lines[0])
    requires Pins(db1) == Pins(DB) && Unvoted(db1) <= Unvoted(DB)
    requires newVote ==> exists v :: v in Unvoted(DB) && v.pin == ScanInt(lines[0]).value
    requires MarkLines(db1, lines[1..], rest)
    requires r.db == rest.db
    requires r.notes == [NoteFor(Pins(DB), ScanInt(lines[0]).value)] + rest.notes
    requires r.newVotes == (if newVote then [ScanInt(lines[0]).value] else []) + rest.newVotes
    ensures MarkLines(DB, lines, r)
  {
    var pin := ScanInt(lines[0]).value;
    assert Scanned(lines) == [pin] + Scanned(lines[1..]);
    LinesMarkedStep(Pins(DB), Unvoted(DB), Unvoted(db1), Pins(rest.db), Unvoted(rest.db),
                    newVote, pin, Scanned(lines[1..]), rest.notes, rest.newVotes);
  }

  /** Whom the pass marks: every pin read whose voter was waiting now has
      a voter who voted, and nobody who voted is unmarked; a pin not read
      is waiting exactly when it was before; and the fresh votes are the
      pins read whose voter was waiting, each once. */
  ghost predicate MarkedListed(DB: DataBase, lines: seq<string>, r: MarkReport)
  {
    PinsMarked(WaitingPins(DB), VotedPins(DB), WaitingPins(r.db), VotedPins(r.db), Scanned(lines), r.newVotes)
  }

  predicate NoRepeats(s: seq<int>)
  {
    forall i, j :: 0 <= i < j < |s| ==> s[i] != s[j]
  }

  /** `MarkedListed` in terms of the waiting and voted pins before and
      after the pass, and of the pins read. */
  ghost predicate PinsMarked(waiting: iset<int>, voted: iset<int>, waiting': iset<int>, voted': iset<int>,
                             read: seq<int>, newVotes: seq<int>)
  {
    && voted <= voted'
    && (forall p :: p in read && p in waiting ==> p in voted')
    && (forall p :: p !in read ==> (p in waiting' <==> p in waiting))
    && (forall p :: p in newVotes <==> p in read && p in waiting)
    && NoRepeats(newVotes)
  }

  /** Marking one more pin in front of the rest of the pass. */
  lemma PinsMarkedStep(waiting: iset<int>, voted: iset<int>, waiting1: iset<int>, voted1: iset<int>,
                       waiting': iset<int>, voted': iset<int>, isNew: bool, pin: int, read: seq<int>, newVotes: seq<int>)
    requires OneMark(waiting, voted, waiting1, voted1, pin, isNew)
    requires PinsMarked(waiting1, voted1, waiting', voted', read, newVotes)
    ensures PinsMarked(waiting, voted, waiting', voted', [pin] + read, (if isNew then [pin] else []) + newVotes)
  {
    var nv := (if isNew then [pin] else []) + newVotes;
    assert pin !in newVotes;
    forall i, j | 0 <= i < j < |nv|
      ensures nv[i] != nv[j]
    {
      if isNew && i == 0 {
        assert nv[j] == newVotes[j - 1];
      } else if isNew {
        assert nv[i] == newVotes[i - 1] && nv[j] == newVotes[j - 1];
      }
    }
  }

  lemma MarkedListedStep(DB: DataBase, db1: DataBase, isNew: bool, lines: seq<string>, rest: MarkReport, r: MarkReport)
    requires |lines| > 0 && PinLine(lines[0])
    requires OneMark(WaitingPins(DB), VotedPins(DB), WaitingPins(db1), VotedPins(db1), ScanInt(lines[0]).value, isNew)
    requires MarkedListed(db1, lines[1..], rest)
    requires r.db == rest.db
    requires r.newVotes == (if isNew then [ScanInt(lines[0]).value] else []) + rest.newVotes
    ensures MarkedListed(DB, lines, r)
  {
    var pin := ScanInt(lines[0]).value;
    assert Scanned(lines) == [pin] + Scanned(lines[1..]);
    PinsMarkedStep(WaitingPins(DB), VotedPins(DB), WaitingPins(db1), VotedPins(db1), WaitingPins(rest.db), VotedPins(rest.db),
                   isNew, pin, Scanned(lines[1..]), rest.newVotes);
  }

  /** The pins read whose voter was waiting when the pass began. */
  ghost function NewlyVoted(DB: DataBase, lines: seq<string>): set<int>
  {
    set p | p in Scanned(lines) && p in WaitingPins(DB)
  }

  lemma {:induction false} NoRepeatsCard(s: seq<int>)
    requires NoRepeats(s)
    ensures |set p | p in s| == |s|
  {
    if |s| > 0 {
      NoRepeatsCard(s[1..]);
      assert (set p | p in s) == {s[0]} + (set p | p in s[1..]);
      forall j | 0 <= j < |s[1..]|
        ensures s[1..][j] != s[0]
      {
        assert s[1..][j] == s[j + 1];
      }
    }
  }

  /** The number of voters who have voted rises by the number of distinct
      pins read whose voter was waiting: a pin listed twice, or already
      voted, counts nothing. */
  lemma VotedFileRise(DB: DataBase, lines: seq<string>)
    requires Consistent(DB)
    ensures var r := DatabaseVotersFileVoted(DB, lines);
      DatabaseNVotersVoted(r.db) == DatabaseNVotersVoted(DB) + |NewlyVoted(DB, lines)|
  {
    var r := DatabaseVotersFileVoted(DB, lines);
    ListedCard(WaitingPins(DB), Scanned(lines), r.newVotes);
  }

  /** Pins listed once each, exactly those read that were waiting, are as
      many as the distinct such pins. */
  lemma ListedCard(waiting: iset<int>, read: seq<int>, newVotes: seq<int>)
    requires NoRepeats(newVotes)
    requires forall p :: p in newVotes <==> p in read && p in waiting
    ensures |newVotes| == |set p | p in read && p in waiting|
  {
    NoRepeatsCard(newVotes);
    assert (set p | p in newVotes) == (set p | p in read && p in waiting);
  }

  /** What the pass promises: the database stays consistent, the number
      of voters who have voted grows by the number of fresh votes, and
      the pass reports "Malformed Input" exactly when some line is not a
      pin line. */
  ghost predicate MarkOutcome(DB: DataBase, lines: seq<string>, r: MarkReport)
  {
    && Consistent(DB) && Consistent(r.db)
    && DatabaseNVotersVoted(r.db) == DatabaseNVotersVoted(DB) + |r.newVotes|
    && (r.malformed <==> HasBadLine(lines))
  }

  ghost predicate HasBadLine(lines: seq<string>)
  {
    exists i :: 0 <= i < |lines| && !PinLine(lines[i])
  }

  /** A good first line does not change whether a bad line follows. */
  lemma BadLineStep(lines: seq<string>)
    requires |lines| > 0 && PinLine(lines[0])
    ensures HasBadLine(lines) <==> HasBadLine(lines[1..])
  {
    if HasBadLine(lines[1..]) {
      var i :| 0 <= i < |lines| - 1 && !PinLine(lines[1..][i]);
      assert lines[1..][i] == lines[i + 1];
    }
    if HasBadLine(lines) {
      var i :| 0 <= i < |lines| && !PinLine(lines[i]);
      assert i != 0;
      assert lines[1..][i - 1] == lines[i];
    }
  }

  lemma MarkStep(DB: DataBase, db1: DataBase, newVote: bool, lines: seq<string>, rest: MarkReport, r: MarkReport)
    requires |lines| > 0 && PinLine(lines[0]) && Consistent(DB) && Consistent(db1)
    requires DatabaseNVotersVoted(db1) == DatabaseNVotersVoted(DB) + (if newVote then 1 else 0)
    requires MarkOutcome(db1, lines[1..], rest)
    requires r.db == rest.db && r.malformed == rest.malformed && |r.newVotes| == (if newVote then 1 else 0) + |rest.newVotes|
    ensures MarkOutcome(DB, lines, r)
  {
    BadLineStep(lines);
  }
}

=== FILE: hw0_hashtable.dfy ===
/** The linear-hashing table of Homework-0 (`HashTable.c`): `size` slots,
    each heading a chain of buckets; slots below `p_index` have already been
    split in the current round and are addressed with the next round's hash
    function. */
module LinearHash {
  import opened Wrappers
  import opened Voters
  import opened LinkedLists
  import opened Buckets

  /** `hash_table`.  The float fields `lambda` and `l_threshold` are not
      kept: the load factor is recomputed where it is tested. */
  datatype HashTable = HashTable(
    buckets: seq<Chain>,
    initSize: nat,
    size: nat,
    sizeOld: nat,
    nVotersVoted: int,
    bSize: nat,
    nVoters: int,
    pIndex: nat,
    round: nat)

  // ---------------------------------------------------------------------
  // Hashing
  // ---------------------------------------------------------------------

  function Pow2(i: nat): (r: nat)
    ensures r >= 1
  {
    if i == 0 then 1 else 2 * Pow2(i - 1)
  }

  /** `power_of_two`: 0 below zero, 2^i otherwise. */
  function PowerOfTwo(i: int): (r: int)
    ensures i < 0 ==> r == 0
    ensures i >= 0 ==> r >= 1
  {
    if i < 0 then 0 else Pow2(i)
  }

  lemma PowerOfTwoDoubles(i: nat)
    ensures PowerOfTwo(i + 1) == 2 * PowerOfTwo(i)
  {
  }

  /** `hash_function(key, i, m)`: `key mod 2^i * m`.  The source calls it
      only with a non-negative pin (it asserts so before searching, and a
      negative pin fails the slot assertion when inserting). */
  function HashFunction(key: int, i: nat, m: nat): (h: int)
    requires key >= 0 && m > 0
    ensures 0 <= h < PowerOfTwo(i) * m
  {
    PositiveProduct(PowerOfTwo(i), m);
    key % (PowerOfTwo(i) * m)
  }

  lemma PositiveProduct(a: int, b: int)
    requires a >= 1 && b >= 1
    ensures a * b >= b && a * b >= 1
  {
  }

  /** The slot a pin lives in, given round, split pointer and initial size:
      `h_round`, or `h_{round+1}` for a slot already split this round. */
  function AddressAt(pin: int, round: nat, p: nat, m: nat): int
    requires pin >= 0 && m > 0
  {
    var h := HashFunction(pin, round, m);
    if h < p then HashFunction(pin, round + 1, m) else h
  }

  function Address(H: HashTable, pin: int): int
    requires pin >= 0 && H.initSize > 0
  {
    AddressAt(pin, H.round, H.pIndex, H.initSize)
  }

  /** Uniqueness of the remainder. */
  lemma ModUnique(key: int, s: int, a: int, b: int)
    requires s > 0 && 0 <= b < s && key == a * s + b
    ensures key % s == b
  {
    var q, r := key / s, key % s;
    assert key == q * s + r;
    assert (a - q) * s == r - b;
    if a > q {
      PositiveProduct(a - q, s);
    } else if a < q {
      PositiveProduct(q - a, s);
    }
  }

  /** Doubling the modulus: the remainder either stays or moves up by the
      old modulus. */
  lemma ModDouble(key: int, s: int)
    requires key >= 0 && s > 0
    ensures key % (2 * s) == key % s || key % (2 * s) == key % s + s
  {
    var x, q := key % (2 * s), key / (2 * s);
    assert key == q * (2 * s) + x;
    if x < s {
      assert key == (2 * q) * s + x;
      ModUnique(key, s, 2 * q, x);
    } else {
      assert key == (2 * q + 1) * s + (x - s);
      ModUnique(key, s, 2 * q + 1, x - s);
    }
  }

  /** The next round's hash of a key is its current hash, or that plus the
      current modulus. */
  lemma HashNext(key: int, round: nat, m: nat)
    requires key >= 0 && m > 0
    ensures var s := PowerOfTwo(round) * m;
      HashFunction(key, round + 1, m) == HashFunction(key, round, m) ||
      HashFunction(key, round + 1, m) == HashFunction(key, round, m) + s
  {
    var s := PowerOfTwo(round) * m;
    PowerOfTwoDoubles(round);
    assert PowerOfTwo(round + 1) * m == 2 * s;
    PositiveProduct(PowerOfTwo(round), m);
    ModDouble(key, s);
  }

  /** With the split pointer below the round's modulus, every address is a
      slot of the table. */
  lemma AddressInRange(pin: int, round: nat, p: nat, m: nat)
    requires pin >= 0 && m > 0 && p < PowerOfTwo(round) * m
    ensures 0 <= AddressAt(pin, round, p, m) < PowerOfTwo(round) * m + p
  {
    HashNext(pin, round, m);
  }

  /** A pin addressed to the split pointer's slot hashes there in the
      current round. */
  lemma AddressOfSplitSlot(pin: int, round: nat, p: nat, m: nat)
    requires pin >= 0 && m > 0 && p < PowerOfTwo(round) * m
    requires AddressAt(pin, round, p, m) == p
    ensures HashFunction(pin, round, m) == p
  {
    HashNext(pin, round, m);
  }

  // ---------------------------------------------------------------------
  // Contents of the table
  // ---------------------------------------------------------------------

  /** What each slot's chain holds, slot by slot. */
  function Stored(bs: seq<Chain>): (xs: seq<seq<Voter>>)
    ensures |xs| == |bs|
  {
    if |bs| == 0 then [] else Stored(bs[..|bs| - 1]) + [Contents(bs[|bs| - 1])]
  }

  lemma {:induction false} StoredAt(bs: seq<Chain>, a: nat)
    requires a < |bs|
    ensures Stored(bs)[a] == Contents(bs[a])
  {
    if a < |bs| - 1 {
      StoredAt(bs[..|bs| - 1], a);
    }
  }

  lemma StoredUpdate(bs: seq<Chain>, a: nat, c: Chain)
    requires a < |bs|
    ensures Stored(bs[a := c]) == Stored(bs)[a := Contents(c)]
  {
    var l, r := Stored(bs[a := c]), Stored(bs)[a := Contents(c)];
    forall i | 0 <= i < |bs|
      ensures l[i] == r[i]
    {
      StoredAt(bs[a := c], i);
      StoredAt(bs, i);
    }
  }

  lemma StoredAppend(bs: seq<Chain>, c: Chain)
    ensures Stored(bs + [c]) == Stored(bs) + [Contents(c)]
  {
    assert (bs + [c])[..|bs|] == bs;
  }

  /** The voters of `s`, or only those who have voted. */
  function Picked(s: seq<Voter>, onlyVoted: bool): seq<Voter>
  {
    if |s| == 0 then []
    else (if !onlyVoted || VoterHasVoted(s[0]) then [s[0]] else []) + Picked(s[1..], onlyVoted)
  }

  lemma {:induction false} PickedAppend(s: seq<Voter>, t: seq<Voter>, onlyVoted: bool)
    ensures Picked(s + t, onlyVoted) == Picked(s, onlyVoted) + Picked(t, onlyVoted)
  {
    if |s| == 0 {
      assert s + t == t;
    } else {
      assert (s + t)[1..] == s[1..] + t;
      PickedAppend(s[1..], t, onlyVoted);
    }
  }

  lemma {:induction false} PickedAll(s: seq<Voter>)
    ensures Picked(s, false) == s
  {
    if |s| > 0 {
      PickedAll(s[1..]);
    }
  }

  lemma PickedOne(v: Voter)
    ensures Picked([v], false) == [v]
    ensures Picked([v], true) == if VoterHasVoted(v) then [v] else []
  {
    assert [v][1..] == [];
  }

  /** Every voter of the slot lists (or every one who has voted), with
      multiplicity. */
  function SumBag(xs: seq<seq<Voter>>, onlyVoted: bool): multiset<Voter>
  {
    if |xs| == 0 then multiset{}
    else SumBag(xs[..|xs| - 1], onlyVoted) + multiset(Picked(xs[|xs| - 1], onlyVoted))
  }

  /** Every voter stored in the table, or every one who has voted. */
  ghost function All(H: HashTable, onlyVoted: bool): multiset<Voter>
  {
    SumBag(Stored(H.buckets), onlyVoted)
  }

  // Multiset algebra, argued element by element.

  lemma Regroup(pre: multiset<Voter>, pre': multiset<Voter>, last: multiset<Voter>, o: multiset<Voter>, n: multiset<Voter>)
    requires pre' + o == pre + n
    ensures (pre' + last) + o == (pre + last) + n
  {
    forall x
      ensures ((pre' + last) + o)[x] == ((pre + last) + n)[x]
    {
      assert (pre' + o)[x] == (pre + n)[x];
    }
  }

  lemma Commute(pre: multiset<Voter>, o: multiset<Voter>, n: multiset<Voter>)
    ensures (pre + n) + o == (pre + o) + n
  {
    forall x
      ensures ((pre + n) + o)[x] == ((pre + o) + n)[x]
    {
    }
  }

  lemma Cancel(a: multiset<Voter>, b: multiset<Voter>, c: multiset<Voter>, d: multiset<Voter>)
    requires a + c == b + (c + d)
    ensures a == b + d
  {
    forall x
      ensures a[x] == (b + d)[x]
    {
      assert (a + c)[x] == (b + (c + d))[x];
    }
  }

  lemma Exchange(a': multiset<Voter>, a: multiset<Voter>, o: multiset<Voter>, m: multiset<Voter>, x: multiset<Voter>, y: multiset<Voter>)
    requires a' + o == a + m && m + x == o + y
    ensures a' + x == a + y
  {
    forall e
      ensures (a' + x)[e] == (a + y)[e]
    {
      assert (a' + o)[e] == (a + m)[e];
      assert (m + x)[e] == (o + y)[e];
    }
  }

  lemma SubCard(a: multiset<Voter>, b: multiset<Voter>)
    requires a <= b
    ensures |a| <= |b|
  {
    forall x
      ensures b[x] == (a + (b - a))[x]
    {
    }
    assert b == a + (b - a);
  }

  /** Replacing one slot list changes the bag by what the two lists hold. */
  lemma {:induction false} SumBagUpdate(xs: seq<seq<Voter>>, a: nat, ys: seq<Voter>, onlyVoted: bool)
    requires a < |xs|
    ensures SumBag(xs[a := ys], onlyVoted) + multiset(Picked(xs[a], onlyVoted))
         == SumBag(xs, onlyVoted) + multiset(Picked(ys, onlyVoted))
  {
    var n := |xs|;
    var xs' := xs[a := ys];
    var oldA, newA := multiset(Picked(xs[a], onlyVoted)), multiset(Picked(ys, onlyVoted));
    var last, last' := multiset(Picked(xs[n - 1], onlyVoted)), multiset(Picked(xs'[n - 1], onlyVoted));
    var pre, pre' := SumBag(xs[..n - 1], onlyVoted), SumBag(xs'[..n - 1], onlyVoted);
    assert SumBag(xs, onlyVoted) == pre + last;
    assert SumBag(xs', onlyVoted) == pre' + last';
    if a == n - 1 {
      assert xs'[..n - 1] == xs[..n - 1];
      Commute(pre, oldA, newA);
    } else {
      assert xs'[..n - 1] == xs[..n - 1][a := ys];
      assert xs[..n - 1][a] == xs[a];
      SumBagUpdate(xs[..n - 1], a, ys, onlyVoted);
      Regroup(pre, pre', last, oldA, newA);
    }
  }

  /** Appending voters to one slot list adds them to the bag. */
  lemma AddToSlot(xs: seq<seq<Voter>>, a: nat, add: seq<Voter>, onlyVoted: bool)
    requires a < |xs|
    ensures SumBag(xs[a := xs[a] + add], onlyVoted) == SumBag(xs, onlyVoted) + multiset(Picked(add, onlyVoted))
  {
    SumBagUpdate(xs, a, xs[a] + add, onlyVoted);
    PickedAppend(xs[a], add, onlyVoted);
    Cancel(SumBag(xs[a := xs[a] + add], onlyVoted), SumBag(xs, onlyVoted),
      multiset(Picked(xs[a], onlyVoted)), multiset(Picked(add, onlyVoted)));
  }

  lemma SumBagAppend(xs: seq<seq<Voter>>, ys: seq<Voter>, onlyVoted: bool)
    ensures SumBag(xs + [ys], onlyVoted) == SumBag(xs, onlyVoted) + multiset(Picked(ys, onlyVoted))
  {
    assert (xs + [ys])[..|xs|] == xs;
  }

  /** A voter is in the bag exactly when some slot list holds it. */
  lemma {:induction false} SumBagMember(xs: seq<seq<Voter>>, v: Voter)
    ensures v in SumBag(xs, false) <==> exists a :: 0 <= a < |xs| && v in xs[a]
  {
    if |xs| > 0 {
      var n := |xs|;
      SumBagMember(xs[..n - 1], v);
      PickedAll(xs[n - 1]);
      assert v in multiset(xs[n - 1]) <==> v in xs[n - 1];
      forall a | 0 <= a < n - 1
        ensures xs[..n - 1][a] == xs[a]
      {
      }
    }
  }

  lemma {:induction false} PickedSub(s: seq<Voter>)
    ensures multiset(Picked(s, true)) <= multiset(s)
  {
    if |s| > 0 {
      PickedSub(s[1..]);
      assert s == [s[0]] + s[1..];
    }
  }

  lemma {:induction false} SumBagVotedSub(xs: seq<seq<Voter>>)
    ensures SumBag(xs, true) <= SumBag(xs, false)
  {
    if |xs| > 0 {
      SumBagVotedSub(xs[..|xs| - 1]);
      PickedSub(xs[|xs| - 1]);
      PickedAll(xs[|xs| - 1]);
    }
  }

  lemma {:induction false} SumBagEmpty(xs: seq<seq<Voter>>, onlyVoted: bool)
    requires forall a :: 0 <= a < |xs| ==> xs[a] == []
    ensures SumBag(xs, onlyVoted) == multiset{}
  {
    if |xs| > 0 {
      SumBagEmpty(xs[..|xs| - 1], onlyVoted);
    }
  }

  // ---------------------------------------------------------------------
  // The invariant
  // ---------------------------------------------------------------------

  /** Voter `k` of slot `a` has a pin addressed to slot `a`. */
  ghost predicate PlacedAt(xs: seq<seq<Voter>>, a: int, k: int, round: nat, p: nat, m: nat)
  {
    m > 0 && 0 <= a < |xs| && 0 <= k < |xs[a]| && xs[a][k].pin >= 0 && AddressAt(xs[a][k].pin, round, p, m) == a
  }

  /** Every voter in slot `a` has a pin addressed to slot `a`. */
  ghost predicate PlacedIn(xs: seq<seq<Voter>>, round: nat, p: nat, m: nat)
  {
    m > 0 &&
    forall a, k :: 0 <= a < |xs| && 0 <= k < |xs[a]| ==> PlacedAt(xs, a, k, round, p, m)
  }

  /** The table's shape: `size_old` is `2^round * m`, the split pointer is
      below it, `size` counts the slots, every chain is well formed. */
  ghost predicate Shape(H: HashTable)
  {
    && H.initSize > 0 && H.bSize > 0
    && H.sizeOld == PowerOfTwo(H.round) * H.initSize
    && H.pIndex < H.sizeOld
    && H.size == H.sizeOld + H.pIndex
    && |H.buckets| == H.size
    && (forall a :: 0 <= a < |H.buckets| ==> WfChain(H.buckets[a], H.bSize))
  }

  /** Shape, placement, and counters that agree with what is stored. */
  ghost predicate Valid(H: HashTable)
  {
    && Shape(H)
    && PlacedIn(Stored(H.buckets), H.round, H.pIndex, H.initSize)
    && H.nVoters == |All(H, false)|
    && H.nVotersVoted == |All(H, true)|
  }

  // ---------------------------------------------------------------------
  // hash_table_create
  // ---------------------------------------------------------------------

  /** `hash_table_create(m, bucket_size, 0.75)`: `m` empty slots, round 0,
      split pointer 0, no voters. */
  function HashTableCreate(m: nat, bucketSize: nat): (H: HashTable)
    requires m > 0 && bucketSize > 0
    ensures Valid(H) && H.size == m
    ensures All(H, false) == multiset{} && HashTableNVoters(H) == 0
  {
    var chain := [BucketCreate(bucketSize)];
    assert WfChain(chain, bucketSize);
    ContentsSingle(chain[0]);
    var H := HashTable(seq(m, _ => chain), m, m, m, 0, bucketSize, 0, 0, 0);
    forall a | 0 <= a < m
      ensures Stored(H.buckets)[a] == []
    {
      StoredAt(H.buckets, a);
    }
    SumBagEmpty(Stored(H.buckets), false);
    SumBagEmpty(Stored(H.buckets), true);
    H
  }

  // ---------------------------------------------------------------------
  // Insertion, split, redistribution
  // ---------------------------------------------------------------------

  /** `hash_table_simple_insert(H, V, index)`. */
  function SimpleInsert(H: HashTable, v: Voter, index: int): HashTable
    requires 0 <= index < |H.buckets| && |H.buckets[index]| > 0
  {
    H.(buckets := H.buckets[index := ChainInsert(H.buckets[index], v, H.bSize)])
  }

  /** `hash_table_split_needed` after `calc_lambda`: `n_voters / (size *
      b_size)` above the 0.75 threshold the program passes in. */
  predicate SplitNeeded(H: HashTable)
  {
    4 * H.nVoters > 3 * (H.size * H.bSize)
  }

  /** `hash_table_split`: one more slot, holding a fresh bucket. */
  function Split(H: HashTable): HashTable
  {
    H.(size := H.size + 1, buckets := H.buckets + [[BucketCreate(H.bSize)]])
  }

  /** `hash_table_reset_p`. */
  function ResetP(H: HashTable): HashTable
  {
    H.(pIndex := 0, round := H.round + 1, sizeOld := H.size)
  }

  /** The voters of `keys` that the next round's hash sends to slot `a`. */
  function Route(keys: seq<Voter>, a: int, round: nat, m: nat): seq<Voter>
    requires m > 0
  {
    if |keys| == 0 then []
    else
      var here := if keys[0].pin >= 0 && HashFunction(keys[0].pin, round + 1, m) == a then [keys[0]] else [];
      here + Route(keys[1..], a, round, m)
  }

  ghost predicate Movable(H: HashTable, keys: seq<Voter>)
  {
    && H.initSize > 0
    && (forall a :: 0 <= a < |H.buckets| ==> |H.buckets[a]| > 0)
    && (forall k :: 0 <= k < |keys| ==>
          keys[k].pin >= 0 && HashFunction(keys[k].pin, H.round + 1, H.initSize) < |H.buckets|)
  }

  /** `hash_table_keys_redistribute`: remove voters from the head of the
      list and insert each at its next-round slot. */
  function KeysRedistribute(H: HashTable, l: List<Voter>): HashTable
    requires Movable(H, l.items)
    decreases |l.items|
  {
    if IsListEmpty(l) then H
    else
      var (v, rest) := ListRemove(l);
      assert rest.items == l.items[1..];
      KeysRedistribute(SimpleInsert(H, v, HashFunction(v.pin, H.round + 1, H.initSize)), rest)
  }

  /** `hash_table_redistribution`: collect the split slot's voters, empty
      its bucket and drop its overflow buckets, reinsert the voters with the
      next round's hash, advance the split pointer. */
  function Redistribution(H: HashTable): HashTable
    requires H.pIndex < |H.buckets| && |H.buckets[H.pIndex]| > 0
    requires Movable(H, Contents(H.buckets[H.pIndex]))
  {
    var chain := H.buckets[H.pIndex];
    var keys := GetKeysForRedistribution(chain);
    GetKeysAreContents(chain);
    var emptied := H.(buckets := H.buckets[H.pIndex := [BucketEmpty(chain[0])]]);
    var moved := KeysRedistribute(emptied, keys);
    moved.(pIndex := moved.pIndex + 1)
  }

  /** Inserting into one slot of a table of well-formed chains appends the
      voter to that slot's list. */
  lemma SimpleInsertEffect(H: HashTable, v: Voter, t: int)
    requires 0 <= t < |H.buckets| && |H.buckets[t]| > 0 && H.bSize > 0
    requires forall a :: 0 <= a < |H.buckets| ==> WfChain(H.buckets[a], H.bSize)
    ensures var R := SimpleInsert(H, v, t);
      && R == H.(buckets := R.buckets) && |R.buckets| == |H.buckets|
      && (forall a :: 0 <= a < |H.buckets| ==> WfChain(R.buckets[a], H.bSize))
      && Stored(R.buckets) == Stored(H.buckets)[t := Stored(H.buckets)[t] + [v]]
  {
    var c := ChainInsert(H.buckets[t], v, H.bSize);
    ChainInsertAppends(H.buckets[t], v, H.bSize);
    StoredUpdate(H.buckets, t, c);
    StoredAt(H.buckets, t);
  }

  /** One step of `hash_table_keys_redistribute`: the head voter goes to
      its next-round slot and the rest of the list follows. */
  lemma KeysStep(H: HashTable, l: List<Voter>)
    requires Movable(H, l.items) && !IsListEmpty(l) && H.bSize > 0
    requires forall a :: 0 <= a < |H.buckets| ==> WfChain(H.buckets[a], H.bSize)
    ensures var v := l.items[0]; var t := HashFunction(v.pin, H.round + 1, H.initSize);
      var H1 := SimpleInsert(H, v, t); var rest := ListRemove(l).1;
      && v.pin >= 0 && 0 <= t < |H.buckets|
      && rest.items == l.items[1..]
      && Movable(H1, rest.items)
      && KeysRedistribute(H, l) == KeysRedistribute(H1, rest)
      && H1 == H.(buckets := H1.buckets) && |H1.buckets| == |H.buckets|
      && (forall a :: 0 <= a < |H.buckets| ==> WfChain(H1.buckets[a], H.bSize))
      && Stored(H1.buckets) == Stored(H.buckets)[t := Stored(H.buckets)[t] + [v]]
  {
    var v := l.items[0];
    var t := HashFunction(v.pin, H.round + 1, H.initSize);
    SimpleInsertEffect(H, v, t);
    var H1 := SimpleInsert(H, v, t);
    forall a | 0 <= a < |H1.buckets|
      ensures |H1.buckets[a]| > 0
    {
    }
  }

  lemma RouteStep(keys: seq<Voter>, a: int, round: nat, m: nat)
    requires m > 0 && |keys| > 0 && keys[0].pin >= 0
    ensures Route(keys, a, round, m)
         == (if HashFunction(keys[0].pin, round + 1, m) == a then [keys[0]] else []) + Route(keys[1..], a, round, m)
  {
  }

  lemma CombineSlots(xs: seq<seq<Voter>>, ys: seq<seq<Voter>>, zs: seq<seq<Voter>>, t: int, keys: seq<Voter>, round: nat, m: nat)
    requires m > 0 && |keys| > 0 && keys[0].pin >= 0 && t == HashFunction(keys[0].pin, round + 1, m)
    requires 0 <= t < |xs| && ys == xs[t := xs[t] + [keys[0]]] && |zs| == |xs|
    requires forall a :: 0 <= a < |ys| ==> zs[a] == ys[a] + Route(keys[1..], a, round, m)
    ensures forall a :: 0 <= a < |xs| ==> zs[a] == xs[a] + Route(keys, a, round, m)
  {
    forall a | 0 <= a < |xs|
      ensures zs[a] == xs[a] + Route(keys, a, round, m)
    {
      RouteStep(keys, a, round, m);
      var here := if a == t then [keys[0]] else [];
      assert ys[a] == xs[a] + here;
    }
  }

  lemma PickedCons(keys: seq<Voter>, f: bool)
    requires |keys| > 0
    ensures multiset(Picked(keys, f)) == multiset(Picked([keys[0]], f)) + multiset(Picked(keys[1..], f))
  {
    assert keys == [keys[0]] + keys[1..];
    PickedAppend([keys[0]], keys[1..], f);
  }

  lemma CombineBag(xs: seq<seq<Voter>>, ys: seq<seq<Voter>>, zs: seq<seq<Voter>>, t: int, keys: seq<Voter>, f: bool)
    requires |keys| > 0 && 0 <= t < |xs| && ys == xs[t := xs[t] + [keys[0]]]
    requires SumBag(zs, f) == SumBag(ys, f) + multiset(Picked(keys[1..], f))
    ensures SumBag(zs, f) == SumBag(xs, f) + multiset(Picked(keys, f))
  {
    AddToSlot(xs, t, [keys[0]], f);
    PickedCons(keys, f);
    Chain3(SumBag(zs, f), SumBag(ys, f), SumBag(xs, f), multiset(Picked([keys[0]], f)),
      multiset(Picked(keys[1..], f)), multiset(Picked(keys, f)));
  }

  lemma Chain3(z: multiset<Voter>, y: multiset<Voter>, x: multiset<Voter>, first: multiset<Voter>, later: multiset<Voter>, whole: multiset<Voter>)
    requires z == y + later && y == x + first && whole == first + later
    ensures z == x + whole
  {
    forall e
      ensures z[e] == (x + whole)[e]
    {
    }
  }

  /** Moving a list of keys: every slot gains, in list order, the keys the
      next round's hash sends to it, and nothing is lost or duplicated. */
  lemma {:induction false} KeysRedistributeEffect(H: HashTable, l: List<Voter>)
    requires Movable(H, l.items) && H.bSize > 0
    requires forall a :: 0 <= a < |H.buckets| ==> WfChain(H.buckets[a], H.bSize)
    ensures var R := KeysRedistribute(H, l);
      && R == H.(buckets := R.buckets) && |R.buckets| == |H.buckets|
      && (forall a :: 0 <= a < |H.buckets| ==> WfChain(R.buckets[a], H.bSize))
      && (forall a :: 0 <= a < |H.buckets| ==>
            Stored(R.buckets)[a] == Stored(H.buckets)[a] + Route(l.items, a, H.round, H.initSize))
      && (forall f :: SumBag(Stored(R.buckets), f) == SumBag(Stored(H.buckets), f) + multiset(Picked(l.items, f)))
    decreases |l.items|
  {
    if IsListEmpty(l) {
      assert KeysRedistribute(H, l) == H;
    } else {
      KeysStep(H, l);
      var v := l.items[0];
      var t := HashFunction(v.pin, H.round + 1, H.initSize);
      var H1 := SimpleInsert(H, v, t);
      var rest := ListRemove(l).1;
      KeysRedistributeEffect(H1, rest);
      var R := KeysRedistribute(H1, rest);
      CombineSlots(Stored(H.buckets), Stored(H1.buckets), Stored(R.buckets), t, l.items, H.round, H.initSize);
      forall f
        ensures SumBag(Stored(R.buckets), f) == SumBag(Stored(H.buckets), f) + multiset(Picked(l.items, f))
      {
        CombineBag(Stored(H.buckets), Stored(H1.buckets), Stored(R.buckets), t, l.items, f);
      }
    }
  }

  /** What `Route` keeps is from the keys and hashes to the slot. */
  lemma {:induction false} RouteMember(keys: seq<Voter>, a: int, round: nat, m: nat, k: nat)
    requires m > 0 && k < |Route(keys, a, round, m)|
    ensures Route(keys, a, round, m)[k] in keys
    ensures Route(keys, a, round, m)[k].pin >= 0
    ensures HashFunction(Route(keys, a, round, m)[k].pin, round + 1, m) == a
  {
    var here := if keys[0].pin >= 0 && HashFunction(keys[0].pin, round + 1, m) == a then [keys[0]] else [];
    if k >= |here| {
      RouteMember(keys[1..], a, round, m, k - |here|);
    }
  }

  /** The first half of `hash_table_insert`: the voter goes into the slot
      its pin is addressed to, and the counters are updated. */
  function Inserted(H: HashTable, v: Voter): HashTable
    requires Valid(H) && v.pin >= 0
  {
    AddressInRange(v.pin, H.round, H.pIndex, H.initSize);
    var H1 := SimpleInsert(H, v, Address(H, v.pin));
    H1.(nVoters := H1.nVoters + 1,
        nVotersVoted := if VoterHasVoted(v) then H1.nVotersVoted + 1 else H1.nVotersVoted)
  }

  /** Appending a voter to the slot its pin is addressed to keeps every
      voter placed. */
  lemma PlacedAppend(xs: seq<seq<Voter>>, t: int, v: Voter, r: nat, p: nat, m: nat)
    requires PlacedIn(xs, r, p, m) && 0 <= t < |xs| && v.pin >= 0 && AddressAt(v.pin, r, p, m) == t
    ensures PlacedIn(xs[t := xs[t] + [v]], r, p, m)
  {
    var ys: seq<seq<Voter>> := xs[t := xs[t] + [v]];
    forall a: int, k: int | 0 <= a < |ys| && 0 <= k < |ys[a]|
      ensures PlacedAt(ys, a, k, r, p, m)
    {
      if a == t && k == |xs[t]| {
        assert ys[a][k] == v;
      } else {
        assert ys[a][k] == xs[a][k];
        assert PlacedAt(xs, a, k, r, p, m);
      }
    }
  }

  /** The first half keeps the table valid and adds exactly the voter. */
  lemma InsertedValid(H: HashTable, v: Voter)
    requires Valid(H) && v.pin >= 0
    ensures var R := Inserted(H, v);
      && Valid(R)
      && All(R, false) == All(H, false) + multiset{v}
      && All(R, true) == All(H, true) + (if VoterHasVoted(v) then multiset{v} else multiset{})
      && R.size == H.size && R.bSize == H.bSize && R.nVoters == H.nVoters + 1
  {
    AddressInRange(v.pin, H.round, H.pIndex, H.initSize);
    var t := Address(H, v.pin);
    var xs := Stored(H.buckets);
    SimpleInsertEffect(H, v, t);
    PlacedAppend(xs, t, v, H.round, H.pIndex, H.initSize);
    AddToSlot(xs, t, [v], false);
    AddToSlot(xs, t, [v], true);
    PickedOne(v);
  }

  /** The voters of the split slot hash, in the next round, below
      `size_old + p + 1`. */
  lemma SplitSlotKeys(xs: seq<seq<Voter>>, r: nat, p: nat, m: nat)
    requires PlacedIn(xs, r, p, m) && p < |xs| && p < PowerOfTwo(r) * m
    ensures forall k :: 0 <= k < |xs[p]| ==>
      xs[p][k].pin >= 0 && HashFunction(xs[p][k].pin, r + 1, m) < PowerOfTwo(r) * m + p + 1
  {
    forall k | 0 <= k < |xs[p]|
      ensures xs[p][k].pin >= 0 && HashFunction(xs[p][k].pin, r + 1, m) < PowerOfTwo(r) * m + p + 1
    {
      var pin := xs[p][k].pin;
      assert PlacedAt(xs, p, k, r, p, m);
      AddressOfSplitSlot(pin, r, p, m);
      HashNext(pin, r, m);
    }
  }

  /** Splitting the table leaves the split slot's voters ready to move: each
      hashes, in the next round, into the grown table. */
  lemma GrowReady(H: HashTable)
    requires Valid(H)
    ensures var X := Split(H);
      && X.pIndex < |X.buckets| && |X.buckets[X.pIndex]| > 0
      && X.buckets[X.pIndex] == H.buckets[H.pIndex]
      && Movable(X, Contents(X.buckets[X.pIndex]))
  {
    var X := Split(H);
    var xs := Stored(H.buckets);
    SplitSlotKeys(xs, H.round, H.pIndex, H.initSize);
    assert X.buckets[X.pIndex] == H.buckets[H.pIndex];
    StoredAt(H.buckets, H.pIndex);
  }

  /** The second half of `hash_table_insert`, when the load factor is over
      the threshold: split, redistribute, and start a new round once the
      table has doubled. */
  function Grow(H: HashTable): HashTable
    requires Valid(H)
  {
    var Y := Moved(H);
    if Y.size == 2 * Y.sizeOld then ResetP(Y) else Y
  }

  /** The split slot emptied, as `hash_table_redistribution` leaves it before
      moving the keys. */
  function Emptied(H: HashTable): HashTable
    requires Valid(H)
  {
    GrowReady(H);
    var X := Split(H);
    X.(buckets := X.buckets[X.pIndex := [BucketEmpty(X.buckets[X.pIndex][0])]])
  }

  lemma EmptiedWf(H: HashTable)
    requires Valid(H)
    ensures var E := Emptied(H);
      && |E.buckets| == H.size + 1 && E == Split(H).(buckets := E.buckets)
      && (forall a :: 0 <= a < |E.buckets| ==> WfChain(E.buckets[a], H.bSize) && |E.buckets[a]| > 0)
  {
    GrowReady(H);
    var p := H.pIndex;
    var E := Emptied(H);
    BucketEmptyWf(H.buckets[p][0], H.bSize);
    assert WfChain([BucketCreate(H.bSize)], H.bSize);
    forall a | 0 <= a < |E.buckets|
      ensures WfChain(E.buckets[a], H.bSize) && |E.buckets[a]| > 0
    {
      if a != p && a != H.size {
        assert E.buckets[a] == H.buckets[a];
      }
    }
  }

  lemma EmptiedShape(H: HashTable)
    requires Valid(H)
    ensures var E := Emptied(H); var xs := Stored(H.buckets);
      && |E.buckets| == H.size + 1 && E == Split(H).(buckets := E.buckets)
      && (forall a :: 0 <= a < |E.buckets| ==> WfChain(E.buckets[a], H.bSize))
      && Stored(E.buckets) == (xs + [[]])[H.pIndex := []]
      && Movable(E, xs[H.pIndex])
  {
    GrowReady(H);
    EmptiedWf(H);
    var X := Split(H);
    var p := H.pIndex;
    var nb := BucketCreate(H.bSize);
    ContentsSingle(nb);
    StoredAppend(H.buckets, [nb]);
    BucketEmptyWf(H.buckets[p][0], H.bSize);
    StoredUpdate(X.buckets, p, [BucketEmpty(H.buckets[p][0])]);
    StoredAt(H.buckets, p);
  }

  /** After the keys moved, every voter sits in the slot its pin is
      addressed to once the split pointer has advanced. */
  lemma MovedPlaced(xs: seq<seq<Voter>>, zs: seq<seq<Voter>>, r: nat, p: nat, q: nat, m: nat)
    requires PlacedIn(xs, r, p, m) && p < PowerOfTwo(r) * m && |xs| == PowerOfTwo(r) * m + p
    requires |zs| == |xs| + 1 && q == p + 1
    requires forall a :: 0 <= a < |zs| ==> zs[a] == (xs + [[]])[p := []][a] + Route(xs[p], a, r, m)
    ensures PlacedIn(zs, r, q, m)
  {
    var ys := (xs + [[]])[p := []];
    forall a: int, k: int | 0 <= a < |zs| && 0 <= k < |zs[a]|
      ensures PlacedAt(zs, a, k, r, q, m)
    {
      var w := zs[a][k];
      if k < |ys[a]| {
        assert a < |xs| && a != p && w == xs[a][k];
        assert PlacedAt(xs, a, k, r, p, m);
      } else {
        assert w == Route(xs[p], a, r, m)[k - |ys[a]|];
        RouteMember(xs[p], a, r, m, k - |ys[a]|);
        var j :| 0 <= j < |xs[p]| && xs[p][j] == w;
        assert PlacedAt(xs, p, j, r, p, m);
        AddressOfSplitSlot(w.pin, r, p, m);
      }
    }
  }

  /** Once the split pointer reaches the round's modulus, addressing with the
      next round and pointer 0 is the same. */
  lemma ResetPlaced(zs: seq<seq<Voter>>, r: nat, r': nat, s: nat, m: nat)
    requires m > 0 && r' == r + 1 && s == PowerOfTwo(r) * m && PlacedIn(zs, r, s, m)
    ensures PlacedIn(zs, r', 0, m)
  {
    forall a: int, k: int | 0 <= a < |zs| && 0 <= k < |zs[a]|
      ensures PlacedAt(zs, a, k, r', 0, m)
    {
      assert PlacedAt(zs, a, k, r, s, m);
    }
  }

  lemma BagAfterMove(xs: seq<seq<Voter>>, zs: seq<seq<Voter>>, p: nat, f: bool)
    requires p < |xs|
    requires SumBag(zs, f) == SumBag((xs + [[]])[p := []], f) + multiset(Picked(xs[p], f))
    ensures SumBag(zs, f) == SumBag(xs, f)
  {
    SumBagUpdate(xs + [[]], p, [], f);
    SumBagAppend(xs, [], f);
    assert (xs + [[]])[p] == xs[p];
  }

  /** The split slot's voters moved and the split pointer advanced, as
      `hash_table_redistribution` leaves the table. */
  function Moved(H: HashTable): HashTable
    requires Valid(H)
  {
    GrowReady(H);
    Redistribution(Split(H))
  }

  /** What `hash_table_redistribution` does, stated on the emptied table
      and the split slot's key list. */
  lemma MovedIsRedistributed(H: HashTable)
    requires Valid(H)
    ensures var E := Emptied(H); var keys := GetKeysForRedistribution(H.buckets[H.pIndex]);
      && Movable(E, keys.items) && E.bSize > 0
      && (forall a :: 0 <= a < |E.buckets| ==> WfChain(E.buckets[a], E.bSize))
      && keys.items == Stored(H.buckets)[H.pIndex]
      && var moved := KeysRedistribute(E, keys); Moved(H) == moved.(pIndex := moved.pIndex + 1)
  {
    GrowReady(H);
    EmptiedShape(H);
    var p := H.pIndex;
    var X := Split(H);
    var chain := X.buckets[p];
    assert chain == H.buckets[p];
    GetKeysAreContents(chain);
    StoredAt(H.buckets, p);
    assert Emptied(H) == X.(buckets := X.buckets[p := [BucketEmpty(chain[0])]]);
    assert Moved(H) == Redistribution(X);
  }

  /** The moved table has one more slot, the next split pointer, and well
      formed chains. */
  lemma MovedShape(H: HashTable)
    requires Valid(H)
    ensures var Y := Moved(H);
      && Y == H.(size := H.size + 1, pIndex := H.pIndex + 1, buckets := Y.buckets)
      && |Y.buckets| == H.size + 1
      && (forall a :: 0 <= a < |Y.buckets| ==> WfChain(Y.buckets[a], H.bSize))
  {
    MovedIsRedistributed(H);
    EmptiedWf(H);
    KeysRedistributeEffect(Emptied(H), GetKeysForRedistribution(H.buckets[H.pIndex]));
  }

  /** Slot by slot, the moved table holds what the emptied table held
      plus the split slot's voters that the next round sends there. */
  lemma MovedSlots(H: HashTable)
    requires Valid(H)
    ensures var Y := Moved(H); var xs := Stored(H.buckets); var p := H.pIndex;
      && |Stored(Y.buckets)| == |xs| + 1
      && (forall a :: 0 <= a < |xs| + 1 ==>
            Stored(Y.buckets)[a] == (xs + [[]])[p := []][a] + Route(xs[p], a, H.round, H.initSize))
  {
    MovedIsRedistributed(H);
    EmptiedShape(H);
    KeysRedistributeEffect(Emptied(H), GetKeysForRedistribution(H.buckets[H.pIndex]));
  }

  /** The bag of the moved table is the emptied table's plus the split
      slot's voters. */
  lemma MovedSlotBags(H: HashTable)
    requires Valid(H)
    ensures var Y := Moved(H); var xs := Stored(H.buckets); var p := H.pIndex;
      forall f :: SumBag(Stored(Y.buckets), f) == SumBag((xs + [[]])[p := []], f) + multiset(Picked(xs[p], f))
  {
    MovedIsRedistributed(H);
    EmptiedShape(H);
    KeysRedistributeEffect(Emptied(H), GetKeysForRedistribution(H.buckets[H.pIndex]));
  }

  lemma MovedPlacedAll(H: HashTable)
    requires Valid(H)
    ensures var Y := Moved(H); PlacedIn(Stored(Y.buckets), Y.round, Y.pIndex, Y.initSize)
  {
    MovedShape(H);
    MovedSlots(H);
    var Y := Moved(H);
    MovedPlaced(Stored(H.buckets), Stored(Y.buckets), Y.round, H.pIndex, Y.pIndex, Y.initSize);
  }

  lemma MovedBags(H: HashTable)
    requires Valid(H)
    ensures forall f :: SumBag(Stored(Moved(H).buckets), f) == SumBag(Stored(H.buckets), f)
  {
    MovedSlotBags(H);
    forall f
      ensures SumBag(Stored(Moved(H).buckets), f) == SumBag(Stored(H.buckets), f)
    {
      BagAfterMove(Stored(H.buckets), Stored(Moved(H).buckets), H.pIndex, f);
    }
  }

  lemma ResetSize(r: nat, r': nat, m: nat, s: nat)
    requires r' == r + 1 && s == PowerOfTwo(r) * m
    ensures PowerOfTwo(r') * m == 2 * s
  {
    PowerOfTwoDoubles(r);
    assert (2 * PowerOfTwo(r)) * m == 2 * (PowerOfTwo(r) * m);
  }

  /** The moved table is valid while the split pointer stays below the
      round's modulus. */
  lemma MovedValid(H: HashTable)
    requires Valid(H) && H.pIndex + 1 < H.sizeOld
    ensures Valid(Moved(H))
    ensures forall f :: All(Moved(H), f) == All(H, f)
  {
    MovedShape(H);
    MovedPlacedAll(H);
    MovedBags(H);
  }

  /** Once the split pointer reaches the modulus, the table with the next
      round and pointer 0 is valid. */
  lemma ResetValid(H: HashTable)
    requires Valid(H) && H.pIndex + 1 == H.sizeOld
    ensures Valid(ResetP(Moved(H)))
    ensures forall f :: All(ResetP(Moved(H)), f) == All(H, f)
  {
    MovedShape(H);
    MovedPlacedAll(H);
    MovedBags(H);
    var Y := Moved(H);
    var G := ResetP(Y);
    ResetSize(Y.round, G.round, G.initSize, Y.sizeOld);
    ResetPlaced(Stored(G.buckets), Y.round, G.round, Y.pIndex, G.initSize);
  }

  /** Growing keeps the table valid and keeps every voter, and adds one
      slot. */
  lemma GrowValid(H: HashTable)
    requires Valid(H)
    ensures var G := Grow(H);
      && Valid(G)
      && (forall f :: All(G, f) == All(H, f))
      && G.size == H.size + 1 && G.nVoters == H.nVoters && G.bSize == H.bSize
  {
    MovedShape(H);
    if H.pIndex + 1 == H.sizeOld {
      ResetValid(H);
    } else {
      MovedValid(H);
    }
  }

  // ---------------------------------------------------------------------
  // The public operations
  // ---------------------------------------------------------------------

  lemma SearchFinds(H: HashTable, pin: int)
    requires Valid(H) && pin >= 0
    ensures 0 <= Address(H, pin) < |H.buckets|
    ensures var r := ChainSearch(H.buckets[Address(H, pin)], pin);
      && (r.Some? ==> r.value.pin == pin && r.value in All(H, false))
      && (r.None? ==> forall v :: v in All(H, false) ==> v.pin != pin)
  {
    AddressInRange(pin, H.round, H.pIndex, H.initSize);
    var a := Address(H, pin);
    var xs := Stored(H.buckets);
    var s := xs[a];
    StoredAt(H.buckets, a);
    ChainSearchContents(H.buckets[a], pin);
    FirstWithPinMeaning(s, pin);
    var r := ChainSearch(H.buckets[a], pin);
    if r.Some? {
      SumBagMember(xs, r.value);
    } else {
      forall v | v in All(H, false)
        ensures v.pin != pin
      {
        SumBagMember(xs, v);
        var b :| 0 <= b < |xs| && v in xs[b];
        var k :| 0 <= k < |xs[b]| && xs[b][k] == v;
        assert PlacedAt(xs, b, k, H.round, H.pIndex, H.initSize);
      }
    }
  }

  /** `hash_table_search`: the slot the pin is addressed to is walked
      bucket by bucket.  The answer has the pin and is stored in the table,
      and there is no answer only when no stored voter has the pin. */
  function HashTableSearch(H: HashTable, pin: int): (r: Option<Voter>)
    requires Valid(H) && pin >= 0
    ensures r.Some? ==> r.value.pin == pin && r.value in All(H, false)
    ensures r.None? ==> forall v :: v in All(H, false) ==> v.pin != pin
  {
    SearchFinds(H, pin);
    ChainSearch(H.buckets[Address(H, pin)], pin)
  }

  /** `hash_table_exists`: some stored voter has the pin. */
  function HashTableExists(H: HashTable, pin: int): (b: bool)
    requires Valid(H) && pin >= 0
    ensures b <==> exists v :: v in All(H, false) && v.pin == pin
  {
    HashTableSearch(H, pin).Some?
  }

  lemma SearchAfterInsert(H: HashTable, r: HashTable, v: Voter)
    requires Valid(H) && Valid(r) && v.pin >= 0
    requires All(r, false) == All(H, false) + multiset{v}
    ensures HashTableSearch(r, v.pin).Some?
    ensures (forall w :: w in All(H, false) ==> w.pin != v.pin) ==> HashTableSearch(r, v.pin) == Some(v)
  {
    assert v in All(r, false);
  }

  lemma LoadAfterSplit(n: int, size: nat, b: nat)
    requires b >= 2 && 4 * n <= 3 * (size * b)
    ensures 4 * (n + 1) <= 3 * ((size + 1) * b)
  {
    assert (size + 1) * b == size * b + b;
  }

  /** `hash_table_insert`.  The voter is added to what the table holds
      (and to those who voted, if it has), the table stays valid, and the
      voter can be found by its pin; a table whose load factor was at most
      0.75 keeps it so when buckets hold at least two voters. */
  function HashTableInsert(H: HashTable, v: Voter): (r: HashTable)
    requires Valid(H) && v.pin >= 0
    ensures Valid(r)
    ensures All(r, false) == All(H, false) + multiset{v}
    ensures All(r, true) == All(H, true) + (if VoterHasVoted(v) then multiset{v} else multiset{})
    ensures HashTableNVoters(r) == HashTableNVoters(H) + 1
    ensures HashTableSearch(r, v.pin).Some?
    ensures (forall w :: w in All(H, false) ==> w.pin != v.pin) ==> HashTableSearch(r, v.pin) == Some(v)
    ensures r.size == H.size || r.size == H.size + 1
    ensures H.bSize >= 2 && 4 * H.nVoters <= 3 * (H.size * H.bSize) ==> 4 * r.nVoters <= 3 * (r.size * r.bSize)
  {
    InsertedValid(H, v);
    var H2 := Inserted(H, v);
    if SplitNeeded(H2) then
      GrowValid(H2);
      if H.bSize >= 2 && 4 * H.nVoters <= 3 * (H.size * H.bSize) then
        LoadAfterSplit(H.nVoters, H.size, H.bSize);
        SearchAfterInsert(H, Grow(H2), v);
        Grow(H2)
      else
        SearchAfterInsert(H, Grow(H2), v);
        Grow(H2)
    else
      SearchAfterInsert(H, H2, v);
      H2
  }

  /** `hash_table_n_voters`. */
  function HashTableNVoters(H: HashTable): int
  {
    H.nVoters
  }

  /** `is_hash_table_empty`. */
  predicate IsHashTableEmpty(H: HashTable)
  {
    H.nVoters == 0
  }

  /** `hash_table_n_voters_voted`. */
  function HashTableNVotersVoted(H: HashTable): int
  {
    H.nVotersVoted
  }

  /** The counters tell the truth: the number of voters stored, empty
      exactly when nothing is stored, and the number of those who voted,
      which never exceeds the number of voters. */
  lemma CountersMeaning(H: HashTable)
    requires Valid(H)
    ensures HashTableNVoters(H) == |All(H, false)|
    ensures IsHashTableEmpty(H) <==> All(H, false) == multiset{}
    ensures HashTableNVotersVoted(H) == |All(H, true)|
    ensures 0 <= HashTableNVotersVoted(H) <= HashTableNVoters(H)
  {
    SumBagVotedSub(Stored(H.buckets));
    SubCard(All(H, true), All(H, false));
  }

  // ---------------------------------------------------------------------
  // hash_table_mark_voter_voted
  // ---------------------------------------------------------------------

  /** Marking changes exactly the first voter with the pin. */
  lemma {:induction false} MarkFirstAt(s: seq<Voter>, pin: int, v: Voter) returns (j: nat)
    requires FirstWithPin(s, pin) == Some(v)
    ensures j < |s| && s[j] == v && v.pin == pin
    ensures MarkFirst(s, pin) == s[..j] + [VoterVote(v)] + s[j + 1..]
    ensures forall k :: 0 <= k < j ==> s[k].pin != pin
  {
    if s[0].pin == pin {
      j := 0;
      assert s[..0] == [];
    } else {
      var i := MarkFirstAt(s[1..], pin, v);
      j := i + 1;
      assert s[..j] == [s[0]] + s[1..][..i];
      assert s[j + 1..] == s[1..][i + 1..];
    }
  }

  lemma FirstWithPinAfter(pre: seq<Voter>, w: Voter, post: seq<Voter>, pin: int)
    requires w.pin == pin && forall k :: 0 <= k < |pre| ==> pre[k].pin != pin
    ensures FirstWithPin(pre + [w] + post, pin) == Some(w)
  {
    FirstWithPinMeaning(pre, pin);
    FirstWithPinAppend(pre, [w] + post, pin);
    assert ([w] + post)[0] == w;
    assert pre + [w] + post == pre + ([w] + post);
  }

  lemma SwapOne(m: multiset<Voter>, s: multiset<Voter>, pre: multiset<Voter>, post: multiset<Voter>, v: Voter, w: Voter)
    requires m == pre + multiset{w} + post && s == pre + multiset{v} + post
    ensures m + multiset{v} == s + multiset{w}
  {
    forall e
      ensures (m + multiset{v})[e] == (s + multiset{w})[e]
    {
    }
  }

  lemma SwapVoted(m: multiset<Voter>, s: multiset<Voter>, pre: multiset<Voter>, post: multiset<Voter>, w: Voter)
    requires m == pre + multiset{w} + post && s == pre + post
    ensures m == s + multiset{w}
  {
    forall e
      ensures m[e] == (s + multiset{w})[e]
    {
    }
  }

  lemma MarkFirstBag(s: seq<Voter>, pin: int, v: Voter)
    requires FirstWithPin(s, pin) == Some(v)
    ensures multiset(MarkFirst(s, pin)) + multiset{v} == multiset(s) + multiset{VoterVote(v)}
  {
    var j := MarkFirstAt(s, pin, v);
    var pre, post := s[..j], s[j + 1..];
    assert s == pre + [v] + post;
    SwapOne(multiset(MarkFirst(s, pin)), multiset(s), multiset(pre), multiset(post), v, VoterVote(v));
  }

  lemma MarkFirstVoted(s: seq<Voter>, pin: int, v: Voter)
    requires FirstWithPin(s, pin) == Some(v) && !VoterHasVoted(v)
    ensures multiset(Picked(MarkFirst(s, pin), true)) == multiset(Picked(s, true)) + multiset{VoterVote(v)}
  {
    var j := MarkFirstAt(s, pin, v);
    var w := VoterVote(v);
    var pre, post := s[..j], s[j + 1..];
    assert s == pre + [v] + post;
    PickedAppend(pre + [v], post, true);
    PickedAppend(pre, [v], true);
    PickedAppend(pre + [w], post, true);
    PickedAppend(pre, [w], true);
    PickedOne(v);
    PickedOne(w);
    SwapVoted(multiset(Picked(MarkFirst(s, pin), true)), multiset(Picked(s, true)),
      multiset(Picked(pre, true)), multiset(Picked(post, true)), w);
  }

  /** Marking the first voter with the pin: same length and pins, the bag
      trades that voter for its voted copy, those who voted gain it, and
      searching finds the voted copy. */
  lemma MarkFirstEffect(s: seq<Voter>, pin: int, v: Voter)
    requires FirstWithPin(s, pin) == Some(v)
    ensures |MarkFirst(s, pin)| == |s|
    ensures forall k :: 0 <= k < |s| ==> MarkFirst(s, pin)[k].pin == s[k].pin
    ensures multiset(MarkFirst(s, pin)) + multiset{v} == multiset(s) + multiset{VoterVote(v)}
    ensures !VoterHasVoted(v) ==> multiset(Picked(MarkFirst(s, pin), true)) == multiset(Picked(s, true)) + multiset{VoterVote(v)}
    ensures FirstWithPin(MarkFirst(s, pin), pin) == Some(VoterVote(v))
  {
    var j := MarkFirstAt(s, pin, v);
    FirstWithPinAfter(s[..j], VoterVote(v), s[j + 1..], pin);
    MarkFirstBag(s, pin, v);
    if !VoterHasVoted(v) {
      MarkFirstVoted(s, pin, v);
    }
  }

  /** The table after `voter_vote` on the found voter. */
  function Marked(H: HashTable, pin: int): HashTable
    requires Valid(H) && pin >= 0
  {
    AddressInRange(pin, H.round, H.pIndex, H.initSize);
    var a := Address(H, pin);
    H.(buckets := H.buckets[a := ChainMark(H.buckets[a], pin)], nVotersVoted := H.nVotersVoted + 1)
  }

  /** Replacing a slot list by one with the same pins, position by
      position, keeps every voter placed. */
  lemma PlacedSamePins(xs: seq<seq<Voter>>, a: int, s': seq<Voter>, r: nat, p: nat, m: nat)
    requires PlacedIn(xs, r, p, m) && 0 <= a < |xs| && |s'| == |xs[a]|
    requires forall k :: 0 <= k < |s'| ==> s'[k].pin == xs[a][k].pin
    ensures PlacedIn(xs[a := s'], r, p, m)
  {
    var ys: seq<seq<Voter>> := xs[a := s'];
    forall b: int, k: int | 0 <= b < |ys| && 0 <= k < |ys[b]|
      ensures PlacedAt(ys, b, k, r, p, m)
    {
      assert PlacedAt(xs, b, k, r, p, m);
      if b == a {
        assert ys[b][k].pin == xs[a][k].pin;
      } else {
        assert ys[b][k] == xs[b][k];
      }
    }
  }

  /** Replacing voter `v` by `w` in one slot list, `w` having voted and `v`
      not, changes the two bags accordingly. */
  lemma MarkBags(xs: seq<seq<Voter>>, a: int, s': seq<Voter>, v: Voter, w: Voter)
    requires 0 <= a < |xs|
    requires multiset(s') + multiset{v} == multiset(xs[a]) + multiset{w}
    requires multiset(Picked(s', true)) == multiset(Picked(xs[a], true)) + multiset{w}
    ensures SumBag(xs[a := s'], false) + multiset{v} == SumBag(xs, false) + multiset{w}
    ensures SumBag(xs[a := s'], true) == SumBag(xs, true) + multiset{w}
  {
    SumBagUpdate(xs, a, s', false);
    SumBagUpdate(xs, a, s', true);
    PickedAll(xs[a]);
    PickedAll(s');
    Exchange(SumBag(xs[a := s'], false), SumBag(xs, false), multiset(xs[a]), multiset(s'), multiset{v}, multiset{w});
    Cancel(SumBag(xs[a := s'], true), SumBag(xs, true), multiset(Picked(xs[a], true)), multiset{w});
  }

  lemma SameSize(a': multiset<Voter>, a: multiset<Voter>, x: Voter, y: Voter)
    requires a' + multiset{x} == a + multiset{y}
    ensures |a'| == |a|
  {
    assert |a' + multiset{x}| == |a'| + 1;
    assert |a + multiset{y}| == |a| + 1;
  }

  lemma MarkedValid(H: HashTable, pin: int)
    requires Valid(H) && pin >= 0
    requires HashTableSearch(H, pin).Some? && !VoterHasVoted(HashTableSearch(H, pin).value)
    ensures var v := HashTableSearch(H, pin).value; var R := Marked(H, pin);
      && Valid(R)
      && All(R, false) + multiset{v} == All(H, false) + multiset{VoterVote(v)}
      && All(R, true) == All(H, true) + multiset{VoterVote(v)}
      && HashTableSearch(R, pin) == Some(VoterVote(v))
  {
    AddressInRange(pin, H.round, H.pIndex, H.initSize);
    var a := Address(H, pin);
    var v := HashTableSearch(H, pin).value;
    var xs := Stored(H.buckets);
    var s := xs[a];
    var c := ChainMark(H.buckets[a], pin);
    var R := Marked(H, pin);
    StoredAt(H.buckets, a);
    ChainSearchContents(H.buckets[a], pin);
    assert FirstWithPin(s, pin) == Some(v);
    ChainMarkContents(H.buckets[a], pin, H.bSize);
    StoredUpdate(H.buckets, a, c);
    assert R.buckets == H.buckets[a := c];
    var ys := Stored(R.buckets);
    assert ys == xs[a := MarkFirst(s, pin)];
    MarkFirstEffect(s, pin, v);
    PlacedSamePins(xs, a, MarkFirst(s, pin), H.round, H.pIndex, H.initSize);
    assert PlacedIn(ys, R.round, R.pIndex, R.initSize);
    MarkBags(xs, a, MarkFirst(s, pin), v, VoterVote(v));
    SameSize(All(R, false), All(H, false), v, VoterVote(v));
    ChainSearchContents(R.buckets[a], pin);
    assert Address(R, pin) == a;
  }

  /** Marking a pin leaves the search for every other pin as it was. */
  lemma MarkedSearchOther(H: HashTable, pin: int, q: int)
    requires Valid(H) && pin >= 0 && q >= 0 && q != pin
    requires HashTableSearch(H, pin).Some? && !VoterHasVoted(HashTableSearch(H, pin).value)
    ensures Valid(Marked(H, pin))
    ensures HashTableSearch(Marked(H, pin), q) == HashTableSearch(H, q)
  {
    MarkedValid(H, pin);
    AddressInRange(pin, H.round, H.pIndex, H.initSize);
    AddressInRange(q, H.round, H.pIndex, H.initSize);
    var a := Address(H, pin);
    var R := Marked(H, pin);
    assert Address(R, q) == Address(H, q);
    if Address(H, q) == a {
      StoredAt(H.buckets, a);
      ChainMarkContents(H.buckets[a], pin, H.bSize);
      ChainSearchContents(H.buckets[a], q);
      ChainSearchContents(R.buckets[a], q);
      MarkFirstOtherPin(Contents(H.buckets[a]), pin, q);
    }
  }

  /** A search for `p` finds a stored voter who has not voted. */
  ghost predicate SearchWaiting(H: HashTable, p: int)
  {
    p >= 0 && Valid(H) && HashTableSearch(H, p).Some? && !VoterHasVoted(HashTableSearch(H, p).value)
  }

  /** A search for `p` finds a stored voter who has voted. */
  ghost predicate SearchVoted(H: HashTable, p: int)
  {
    p >= 0 && Valid(H) && HashTableSearch(H, p).Some? && VoterHasVoted(HashTableSearch(H, p).value)
  }

  ghost function WaitingPinsOf(H: HashTable): iset<int>
  {
    iset p | SearchWaiting(H, p)
  }

  ghost function VotedPinsOf(H: HashTable): iset<int>
  {
    iset p | SearchVoted(H, p)
  }

  /** The effect of marking `pin` on the pins whose voter is waiting
      (`waiting` before, `waiting'` after) and on those whose voter has
      voted: no voted pin goes back, no other pin changes, and the pin
      itself ends up no longer waiting, voted if it was waiting before,
      which is exactly when the vote is fresh. */
  ghost predicate OneMark(waiting: iset<int>, voted: iset<int>, waiting': iset<int>, voted': iset<int>, pin: int, isNew: bool)
  {
    && voted <= voted'
    && (forall p :: p != pin ==> (p in waiting' <==> p in waiting))
    && pin !in waiting'
    && (pin in waiting ==> pin in voted')
    && (isNew <==> pin in waiting)
  }

  /** After marking, a search for the pin finds a voter who has voted
      whenever it found one before, and a search for any other pin finds
      what it found before. */
  lemma MarkOnlyThePin(H: HashTable, pin: int, q: int)
    requires Valid(H) && pin >= 0 && q >= 0
    ensures var r := HashTableMarkVoterVoted(H, pin);
      && (q != pin ==> HashTableSearch(r.0, q) == HashTableSearch(H, q))
      && (HashTableSearch(H, pin).Some? ==>
            HashTableSearch(r.0, pin).Some? && VoterHasVoted(HashTableSearch(r.0, pin).value))
  {
    var found := HashTableSearch(H, pin);
    if found.Some? && !VoterHasVoted(found.value) {
      MarkedValid(H, pin);
      if q != pin {
        MarkedSearchOther(H, pin, q);
      }
    }
  }

  /** Marking in terms of the waiting and voted pins. */
  lemma MarkTouchesOnlyThePin(H: HashTable, pin: int)
    requires Valid(H) && pin >= 0
    ensures var r := HashTableMarkVoterVoted(H, pin);
      OneMark(WaitingPinsOf(H), VotedPinsOf(H), WaitingPinsOf(r.0), VotedPinsOf(r.0), pin, r.1.Some?)
  {
    var r := HashTableMarkVoterVoted(H, pin);
    forall p | p >= 0
      ensures p != pin ==> (SearchWaiting(r.0, p) <==> SearchWaiting(H, p)) && (SearchVoted(H, p) ==> SearchVoted(r.0, p))
      ensures p == pin ==> !SearchWaiting(r.0, p) && (SearchWaiting(H, p) ==> SearchVoted(r.0, p))
    {
      MarkOnlyThePin(H, pin, p);
    }
  }

  /** `hash_table_mark_voter_voted`: a stored voter with the pin who has not
      voted is marked, the voted counter goes up, and the marked voter is
      returned; otherwise (no such voter, or already voted) nothing changes
      and NULL is returned.  Only that voter's flag changes. */
  function HashTableMarkVoterVoted(H: HashTable, pin: int): (r: (HashTable, Option<Voter>))
    requires Valid(H) && pin >= 0
    ensures Valid(r.0)
    ensures var found := HashTableSearch(H, pin);
      && (r.1.Some? <==> found.Some? && !VoterHasVoted(found.value))
      && (r.1.None? ==> r.0 == H)
      && (r.1.Some? ==>
            && r.1.value == VoterVote(found.value)
            && All(r.0, false) + multiset{found.value} == All(H, false) + multiset{r.1.value}
            && All(r.0, true) == All(H, true) + multiset{r.1.value}
            && HashTableNVotersVoted(r.0) == HashTableNVotersVoted(H) + 1
            && HashTableSearch(r.0, pin) == r.1)
  {
    var found := HashTableSearch(H, pin);
    if found.None? || VoterHasVoted(found.value) then (H, None)
    else
      MarkedValid(H, pin);
      (Marked(H, pin), Some(VoterVote(found.value)))
  }
}

=== FILE: hw0_index.dfy ===
/** The inverted index of Homework-0 (`InvertedIndex.c`): one node per
    postal code in which somebody has voted, holding those voters and their
    count.  The doubly linked chain of nodes is a sequence from head to
    tail, so a node's `back` and `next` are its neighbours in the sequence
    and the tail pointer is the last element. */
module ZipIndex {
  import opened Wrappers
  import opened Voters
  import opened LinkedLists

  datatype ZipNode = ZipNode(postalCode: int, voters: List<Voter>, nVoters: int)

  datatype InvertedIndex = InvertedIndex(nodes: seq<ZipNode>)

  // ---------------------------------------------------------------------
  // Zip nodes
  // ---------------------------------------------------------------------

  /** `zipnode_create`: a node for the postal code with no voters yet. */
  function ZipnodeCreate(postalCode: int): (z: ZipNode)
    ensures z.postalCode == postalCode && z.nVoters == 0
    ensures z.voters.items == [] && Counted(z.voters)
  {
    ZipNode(postalCode, ListCreate(), 0)
  }

  /** `zipnodes_equal`: the two nodes are for the same postal code. */
  predicate ZipnodesEqual(a: ZipNode, b: ZipNode)
  {
    a.postalCode == b.postalCode
  }

  /** `zipnodes_cmp_n_voters`: the sign of the difference of the counts. */
  function CmpNVoters(a: ZipNode, b: ZipNode): (r: int)
    ensures r == 1 <==> a.nVoters > b.nVoters
    ensures r == 0 <==> a.nVoters == b.nVoters
    ensures r == -1 <==> a.nVoters < b.nVoters
  {
    var diff := a.nVoters - b.nVoters;
    if diff > 0 then 1 else if diff < 0 then -1 else 0
  }

  /** `zipnode_insert`: the voter joins the end of the node's list and the
      count goes up by one. */
  function ZipnodeInsert(z: ZipNode, v: Voter): (r: ZipNode)
    ensures r.postalCode == z.postalCode && r.nVoters == z.nVoters + 1
    ensures r.voters.items == z.voters.items + [v]
    ensures Counted(z.voters) ==> Counted(r.voters)
  {
    var l := ListAppend(z.voters, v);
    assert l.items == z.voters.items + [v];
    z.(voters := l, nVoters := z.nVoters + 1)
  }

  /** `zipcodes_list_search_zipnode` from position `i` on: the first node
      for the postal code, if there is one. */
  function SearchFrom(nodes: seq<ZipNode>, code: int, i: nat): (r: Option<nat>)
    requires i <= |nodes|
    ensures r.Some? ==> i <= r.value < |nodes| && nodes[r.value].postalCode == code
    ensures r.Some? ==> forall j :: i <= j < r.value ==> nodes[j].postalCode != code
    ensures r.None? <==> forall j :: i <= j < |nodes| ==> nodes[j].postalCode != code
    decreases |nodes| - i
  {
    if i == |nodes| then None
    else if nodes[i].postalCode == code then Some(i)
    else SearchFrom(nodes, code, i + 1)
  }

  /** `zipcodes_list_search_zipnode(head, zipcode)`. */
  function SearchZipnode(nodes: seq<ZipNode>, code: int): (r: Option<nat>)
    ensures r.Some? ==> r.value < |nodes| && nodes[r.value].postalCode == code
    ensures r.Some? ==> forall j :: 0 <= j < r.value ==> nodes[j].postalCode != code
    ensures r.None? <==> forall j :: 0 <= j < |nodes| ==> nodes[j].postalCode != code
  {
    SearchFrom(nodes, code, 0)
  }

  // ---------------------------------------------------------------------
  // Sorted insertion towards the head
  // ---------------------------------------------------------------------

  /** `zipcodes_list_sorted_insert_left(head, start, Z)` on the chain
      `nodes`, which no longer holds Z: walk back from `start` to the first
      node whose count is at least Z's and put Z right behind it; when even
      the head has fewer voters, Z becomes the new head. */
  function SortedInsertLeft(nodes: seq<ZipNode>, start: nat, z: ZipNode): seq<ZipNode>
    requires start < |nodes|
    decreases start
  {
    if CmpNVoters(nodes[start], z) >= 0 then nodes[..start + 1] + [z] + nodes[start + 1..]
    else if start == 0 then [z] + nodes
    else SortedInsertLeft(nodes, start - 1, z)
  }

  /** Where the walk puts Z: right behind the nearest node at or before
      `start` whose count is at least Z's, or at the head when there is
      none; every node it walked past has fewer voters than Z. */
  lemma {:induction false} InsertLeftLanding(nodes: seq<ZipNode>, start: nat, z: ZipNode) returns (p: nat)
    requires start < |nodes|
    ensures p <= start + 1
    ensures SortedInsertLeft(nodes, start, z) == nodes[..p] + [z] + nodes[p..]
    ensures p > 0 ==> nodes[p - 1].nVoters >= z.nVoters
    ensures forall i :: p <= i <= start ==> nodes[i].nVoters < z.nVoters
    decreases start
  {
    if CmpNVoters(nodes[start], z) >= 0 {
      p := start + 1;
    } else if start == 0 {
      p := 0;
      assert nodes[..0] + [z] + nodes[0..] == [z] + nodes;
    } else {
      p := InsertLeftLanding(nodes, start - 1, z);
    }
  }

  // ---------------------------------------------------------------------
  // The index invariant
  // ---------------------------------------------------------------------

  /** A node's count is the length of its list and at least one, and every
      voter in it has voted and lives in the node's postal code. */
  ghost predicate NodeOk(z: ZipNode)
  {
    && Counted(z.voters) && z.nVoters == |z.voters.items| && z.nVoters >= 1
    && forall k :: 0 <= k < |z.voters.items| ==>
         z.voters.items[k].postalCode == z.postalCode && VoterHasVoted(z.voters.items[k])
  }

  ghost predicate NodesOk(nodes: seq<ZipNode>)
  {
    forall i :: 0 <= i < |nodes| ==> NodeOk(nodes[i])
  }

  /** Counts never increase from head to tail. */
  ghost predicate Ordered(nodes: seq<ZipNode>)
  {
    forall i, j :: 0 <= i < j < |nodes| ==> nodes[i].nVoters >= nodes[j].nVoters
  }

  ghost predicate UniqueCodes(nodes: seq<ZipNode>)
  {
    forall i, j :: 0 <= i < j < |nodes| ==> nodes[i].postalCode != nodes[j].postalCode
  }

  ghost predicate IndexValid(I: InvertedIndex)
  {
    Ordered(I.nodes) && UniqueCodes(I.nodes) && NodesOk(I.nodes)
  }

  /** `s` without the element at `k`. */
  function Without(s: seq<ZipNode>, k: nat): (r: seq<ZipNode>)
    requires k < |s|
    ensures |r| == |s| - 1
    ensures forall i :: 0 <= i < k ==> r[i] == s[i]
    ensures forall i :: k <= i < |r| ==> r[i] == s[i + 1]
  {
    s[..k] + s[k + 1..]
  }

  /** `s` with `z` put in at position `p`. */
  function Splice(s: seq<ZipNode>, p: nat, z: ZipNode): (r: seq<ZipNode>)
    requires p <= |s|
    ensures |r| == |s| + 1 && r[p] == z
    ensures forall i :: 0 <= i < p ==> r[i] == s[i]
    ensures forall i :: p < i < |r| ==> r[i] == s[i - 1]
  {
    s[..p] + [z] + s[p..]
  }

  /** Taking a node out and putting it back at the same place. */
  lemma WithoutSplice(s: seq<ZipNode>, p: nat, z: ZipNode)
    requires p <= |s|
    ensures Without(Splice(s, p, z), p) == s
  {
  }

  lemma SpliceWithout(s: seq<ZipNode>, k: nat)
    requires k < |s|
    ensures Splice(Without(s, k), k, s[k]) == s
  {
  }

  /** Removing a node keeps the invariant of the rest. */
  lemma WithoutValid(s: seq<ZipNode>, k: nat)
    requires k < |s| && IndexValid(InvertedIndex(s))
    ensures IndexValid(InvertedIndex(Without(s, k)))
    ensures forall i :: 0 <= i < |s| - 1 ==> Without(s, k)[i].postalCode != s[k].postalCode
  {
    var w := Without(s, k);
    forall i, j | 0 <= i < j < |w|
      ensures w[i].nVoters >= w[j].nVoters && w[i].postalCode != w[j].postalCode
    {
      var i' := if i < k then i else i + 1;
      var j' := if j < k then j else j + 1;
      assert w[i] == s[i'] && w[j] == s[j'];
    }
    forall i | 0 <= i < |w|
      ensures NodeOk(w[i]) && w[i].postalCode != s[k].postalCode
    {
      var i' := if i < k then i else i + 1;
      assert w[i] == s[i'];
    }
  }

  /** Putting in a node for a new postal code, at a place where the counts
      stay non-increasing, keeps the invariant. */
  lemma SpliceValid(s: seq<ZipNode>, p: nat, z: ZipNode)
    requires p <= |s| && IndexValid(InvertedIndex(s)) && NodeOk(z)
    requires forall i :: 0 <= i < |s| ==> s[i].postalCode != z.postalCode
    requires forall i :: 0 <= i < p ==> s[i].nVoters >= z.nVoters
    requires forall i :: p <= i < |s| ==> s[i].nVoters <= z.nVoters
    ensures IndexValid(InvertedIndex(Splice(s, p, z)))
  {
    var r := Splice(s, p, z);
    forall i, j | 0 <= i < j < |r|
      ensures r[i].nVoters >= r[j].nVoters && r[i].postalCode != r[j].postalCode
    {
      if i < p {
        assert r[i] == s[i];
        if j > p {
          assert r[j] == s[j - 1];
        }
      } else if i > p {
        assert r[i] == s[i - 1] && r[j] == s[j - 1];
      } else {
        assert r[j] == s[j - 1];
      }
    }
    forall i | 0 <= i < |r|
      ensures NodeOk(r[i])
    {
      if i < p {
        assert r[i] == s[i];
      } else if i > p {
        assert r[i] == s[i - 1];
      }
    }
  }

  /** A node gaining a voter of its own postal code who has voted stays a
      well-formed node. */
  lemma ZipnodeInsertOk(z: ZipNode, v: Voter)
    requires (NodeOk(z) || (z.nVoters == 0 && z.voters.items == [] && Counted(z.voters)))
    requires v.postalCode == z.postalCode && VoterHasVoted(v)
    ensures NodeOk(ZipnodeInsert(z, v))
  {
    var r := ZipnodeInsert(z, v);
    forall k | 0 <= k < |r.voters.items|
      ensures r.voters.items[k].postalCode == r.postalCode && VoterHasVoted(r.voters.items[k])
    {
      if k < |z.voters.items| {
        assert r.voters.items[k] == z.voters.items[k];
      }
    }
  }

  // ---------------------------------------------------------------------
  // inv_index_insert
  // ---------------------------------------------------------------------

  /** `inv_index_create`. */
  function InvIndexCreate(): (I: InvertedIndex)
    ensures IndexValid(I) && IndexVoters(I.nodes) == multiset{}
  {
    InvertedIndex([])
  }

  /** `inv_index_insert(INV_INDEX, V)`.  A voter who has not voted is
      ignored.  A new postal code gets a node at the tail.  Otherwise the
      code's node gains the voter: the head simply stays; the tail, or a
      node in the middle, is unlinked and walked back towards the head
      when it now has more voters than the node before it. */
  function InvIndexInsert(I: InvertedIndex, v: Voter): (r: InvertedIndex)
    ensures !VoterHasVoted(v) ==> r == I
  {
    var nodes := I.nodes;
    var zip := VoterGetZip(v);
    if !VoterHasVoted(v) then I
    else if |nodes| == 0 then InvertedIndex([ZipnodeInsert(ZipnodeCreate(zip), v)])
    else match SearchZipnode(nodes, zip)
      case None => InvertedIndex(nodes + [ZipnodeInsert(ZipnodeCreate(zip), v)])
      case Some(k) =>
        var last := |nodes| - 1;
        if ZipnodesEqual(nodes[0], nodes[k]) then
          InvertedIndex(nodes[0 := ZipnodeInsert(nodes[0], v)])
        else if ZipnodesEqual(nodes[last], nodes[k]) then
          var tail := ZipnodeInsert(nodes[last], v);
          var beforeTail := nodes[last - 1];
          if CmpNVoters(tail, beforeTail) > 0 then
            InvertedIndex(SortedInsertLeft(nodes[..last], last - 1, tail))
          else InvertedIndex(nodes[last := tail])
        else
          var z := ZipnodeInsert(nodes[k], v);
          if CmpNVoters(z, nodes[k - 1]) > 0 then
            InvertedIndex(SortedInsertLeft(Without(nodes, k), k - 1, z))
          else InvertedIndex(nodes[k := z])
  }

  /** The case where the updated node moves: it lands at `p < k`, behind
      nodes with at least its count and ahead of nodes with fewer. */
  lemma MovedUp(nodes: seq<ZipNode>, k: nat, z: ZipNode) returns (p: nat)
    requires 0 < k < |nodes| && Ordered(nodes)
    requires z.nVoters == nodes[k].nVoters + 1 && z.nVoters > nodes[k - 1].nVoters
    ensures p < k && SortedInsertLeft(Without(nodes, k), k - 1, z) == Splice(Without(nodes, k), p, z)
    ensures forall i :: 0 <= i < p ==> Without(nodes, k)[i].nVoters >= z.nVoters
    ensures forall i :: p <= i < |nodes| - 1 ==> Without(nodes, k)[i].nVoters <= z.nVoters
  {
    var w := Without(nodes, k);
    p := InsertLeftLanding(w, k - 1, z);
    forall i | 0 <= i < p
      ensures w[i].nVoters >= z.nVoters
    {
      assert w[i] == nodes[i] && w[p - 1] == nodes[p - 1];
    }
    forall i | p <= i < |w|
      ensures w[i].nVoters <= z.nVoters
    {
      if i >= k {
        assert w[i] == nodes[i + 1];
      }
    }
  }

  /** The case where the updated node stays where it was. */
  lemma StaysPut(nodes: seq<ZipNode>, k: nat, z: ZipNode)
    requires k < |nodes| && Ordered(nodes)
    requires z.nVoters == nodes[k].nVoters + 1 && (k == 0 || z.nVoters <= nodes[k - 1].nVoters)
    ensures nodes[k := z] == Splice(Without(nodes, k), k, z)
    ensures forall i :: 0 <= i < k ==> Without(nodes, k)[i].nVoters >= z.nVoters
    ensures forall i :: k <= i < |nodes| - 1 ==> Without(nodes, k)[i].nVoters <= z.nVoters
  {
    var w := Without(nodes, k);
    forall i | 0 <= i < k
      ensures w[i].nVoters >= z.nVoters
    {
      assert w[i] == nodes[i] && nodes[k - 1].nVoters <= nodes[i].nVoters;
    }
    forall i | k <= i < |w|
      ensures w[i].nVoters <= z.nVoters
    {
      assert w[i] == nodes[i + 1];
    }
  }

  /** In the tail case the source cuts the tail off before walking back,
      which is the chain without the tail. */
  lemma TailCut(nodes: seq<ZipNode>)
    requires |nodes| > 0
    ensures nodes[..|nodes| - 1] == Without(nodes, |nodes| - 1)
  {
  }

  /** The node a new postal code starts with: its first voter. */
  function NewNode(v: Voter): ZipNode
  {
    ZipnodeInsert(ZipnodeCreate(VoterGetZip(v)), v)
  }

  /** A postal code not yet in the index gets a one-voter node at the
      tail, where no node has fewer voters. */
  lemma InsertNew(I: InvertedIndex, v: Voter)
    requires NodesOk(I.nodes) && VoterHasVoted(v) && SearchZipnode(I.nodes, v.postalCode).None?
    ensures InvIndexInsert(I, v).nodes == Splice(I.nodes, |I.nodes|, NewNode(v))
    ensures forall i :: 0 <= i < |I.nodes| ==> I.nodes[i].nVoters >= NewNode(v).nVoters
  {
    forall i | 0 <= i < |I.nodes|
      ensures I.nodes[i].nVoters >= NewNode(v).nVoters
    {
      assert NodeOk(I.nodes[i]);
    }
  }

  /** The insert takes the node at `k` out of the chain, adds the voter to
      it, and puts it back at `p <= k`, behind the nodes with at least its
      new count and ahead of those with no more. */
  ghost predicate LandsAt(I: InvertedIndex, v: Voter, k: nat, p: nat)
    requires k < |I.nodes|
  {
    var w := Without(I.nodes, k);
    var z := ZipnodeInsert(I.nodes[k], v);
    && p <= k && InvIndexInsert(I, v).nodes == Splice(w, p, z)
    && (forall i :: 0 <= i < p ==> w[i].nVoters >= z.nVoters)
    && (forall i :: p <= i < |w| ==> w[i].nVoters <= z.nVoters)
  }

  /** The code's node is the head: it gains the voter and stays put. */
  lemma InsertAtHead(I: InvertedIndex, v: Voter)
    requires Ordered(I.nodes) && VoterHasVoted(v) && SearchZipnode(I.nodes, v.postalCode) == Some(0)
    ensures LandsAt(I, v, 0, 0)
  {
    StaysPut(I.nodes, 0, ZipnodeInsert(I.nodes[0], v));
  }

  /** The code's node is the tail (and not the head): it gains the voter
      and walks back while it has more voters than the node ahead. */
  lemma InsertAtTail(I: InvertedIndex, v: Voter) returns (p: nat)
    requires IndexValid(I) && VoterHasVoted(v) && |I.nodes| > 1
    requires SearchZipnode(I.nodes, v.postalCode) == Some(|I.nodes| - 1)
    ensures LandsAt(I, v, |I.nodes| - 1, p)
  {
    var nodes := I.nodes;
    var k := |nodes| - 1;
    var z := ZipnodeInsert(nodes[k], v);
    TailCut(nodes);
    assert nodes[0].postalCode != nodes[k].postalCode;
    if CmpNVoters(z, nodes[k - 1]) > 0 {
      p := MovedUp(nodes, k, z);
    } else {
      p := k;
      StaysPut(nodes, k, z);
    }
  }

  /** The code's node is neither head nor tail: the same walk back. */
  lemma InsertInMiddle(I: InvertedIndex, v: Voter, k: nat) returns (p: nat)
    requires IndexValid(I) && VoterHasVoted(v) && 0 < k < |I.nodes| - 1
    requires SearchZipnode(I.nodes, v.postalCode) == Some(k)
    ensures LandsAt(I, v, k, p)
  {
    var nodes := I.nodes;
    var z := ZipnodeInsert(nodes[k], v);
    assert nodes[0].postalCode != nodes[k].postalCode;
    assert nodes[|nodes| - 1].postalCode != nodes[k].postalCode;
    if CmpNVoters(z, nodes[k - 1]) > 0 {
      p := MovedUp(nodes, k, z);
    } else {
      p := k;
      StaysPut(nodes, k, z);
    }
  }

  /** An insert for a postal code already in the index takes the code's
      node out, adds the voter to it, and puts it back at `p`, never
      further from the head than before and where the counts stay
      non-increasing. */
  lemma InsertFound(I: InvertedIndex, v: Voter, k: nat) returns (p: nat)
    requires IndexValid(I) && VoterHasVoted(v) && SearchZipnode(I.nodes, v.postalCode) == Some(k)
    ensures LandsAt(I, v, k, p)
  {
    if k == 0 {
      p := 0;
      InsertAtHead(I, v);
    } else if k == |I.nodes| - 1 {
      p := InsertAtTail(I, v);
    } else {
      p := InsertInMiddle(I, v, k);
    }
  }

  /** Inserting a voter who has voted keeps the index invariant: one node
      per postal code, counts matching the lists, and counts non-increasing
      from head to tail. */
  lemma InsertKeepsValid(I: InvertedIndex, v: Voter)
    requires IndexValid(I)
    ensures IndexValid(InvIndexInsert(I, v))
  {
    if VoterHasVoted(v) {
      match SearchZipnode(I.nodes, v.postalCode)
      case None =>
        InsertNew(I, v);
        ZipnodeInsertOk(ZipnodeCreate(v.postalCode), v);
        SpliceValid(I.nodes, |I.nodes|, NewNode(v));
      case Some(k) =>
        var p := InsertFound(I, v, k);
        WithoutValid(I.nodes, k);
        assert NodeOk(I.nodes[k]);
        ZipnodeInsertOk(I.nodes[k], v);
        SpliceValid(Without(I.nodes, k), p, ZipnodeInsert(I.nodes[k], v));
    }
  }

  // ---------------------------------------------------------------------
  // What the index holds
  // ---------------------------------------------------------------------

  /** Every voter listed in the index, over all nodes. */
  function IndexVoters(nodes: seq<ZipNode>): multiset<Voter>
  {
    if |nodes| == 0 then multiset{}
    else IndexVoters(nodes[..|nodes| - 1]) + multiset(nodes[|nodes| - 1].voters.items)
  }

  /** The sum of the node counts. */
  function Total(nodes: seq<ZipNode>): int
  {
    if |nodes| == 0 then 0 else Total(nodes[..|nodes| - 1]) + nodes[|nodes| - 1].nVoters
  }

  lemma {:induction false} IndexVotersAppend(a: seq<ZipNode>, b: seq<ZipNode>)
    ensures IndexVoters(a + b) == IndexVoters(a) + IndexVoters(b)
    ensures Total(a + b) == Total(a) + Total(b)
    decreases |b|
  {
    if |b| == 0 {
      assert a + b == a;
    } else {
      var b' := b[..|b| - 1];
      assert (a + b)[..|a + b| - 1] == a + b';
      IndexVotersAppend(a, b');
    }
  }

  lemma Singleton(z: ZipNode)
    ensures IndexVoters([z]) == multiset(z.voters.items) && Total([z]) == z.nVoters
  {
    assert [z][..0] == [];
  }

  lemma SpliceParts(s: seq<ZipNode>, p: nat, z: ZipNode)
    requires p <= |s|
    ensures Splice(s, p, z) == s[..p] + ([z] + s[p..]) && s == s[..p] + s[p..]
  {
  }

  /** The bag and the total of a chain with one node put in. */
  lemma SpliceCounts(s: seq<ZipNode>, p: nat, z: ZipNode)
    requires p <= |s|
    ensures IndexVoters(Splice(s, p, z)) == IndexVoters(s) + multiset(z.voters.items)
    ensures Total(Splice(s, p, z)) == Total(s) + z.nVoters
  {
    SpliceParts(s, p, z);
    var a, b := s[..p], s[p..];
    IndexVotersAppend(a, [z] + b);
    IndexVotersAppend([z], b);
    IndexVotersAppend(a, b);
    Singleton(z);
  }

  /** With every node well formed, the total is the number of voters
      listed. */
  lemma {:induction false} TotalIsSize(nodes: seq<ZipNode>)
    requires NodesOk(nodes)
    ensures Total(nodes) == |IndexVoters(nodes)|
  {
    if |nodes| > 0 {
      TotalIsSize(nodes[..|nodes| - 1]);
      assert NodeOk(nodes[|nodes| - 1]);
    }
  }

  lemma NewCodeCounts(I: InvertedIndex, v: Voter)
    requires IndexValid(I) && VoterHasVoted(v) && SearchZipnode(I.nodes, v.postalCode).None?
    ensures IndexVoters(InvIndexInsert(I, v).nodes) == IndexVoters(I.nodes) + multiset{v}
    ensures Total(InvIndexInsert(I, v).nodes) == Total(I.nodes) + 1
  {
    InsertNew(I, v);
    SpliceCounts(I.nodes, |I.nodes|, NewNode(v));
    assert multiset(NewNode(v).voters.items) == multiset{v};
  }

  lemma FoundCodeCounts(I: InvertedIndex, v: Voter, k: nat)
    requires IndexValid(I) && VoterHasVoted(v) && SearchZipnode(I.nodes, v.postalCode) == Some(k)
    ensures IndexVoters(InvIndexInsert(I, v).nodes) == IndexVoters(I.nodes) + multiset{v}
    ensures Total(InvIndexInsert(I, v).nodes) == Total(I.nodes) + 1
  {
    var p := InsertFound(I, v, k);
    var w, z := Without(I.nodes, k), ZipnodeInsert(I.nodes[k], v);
    SpliceCounts(w, p, z);
    SpliceWithout(I.nodes, k);
    SpliceCounts(w, k, I.nodes[k]);
    assert multiset(z.voters.items) == multiset(I.nodes[k].voters.items) + multiset{v};
  }

  /** Inserting a voter who has voted adds exactly that voter to the
      index, and one to the total; anyone else leaves both alone. */
  lemma InsertCounts(I: InvertedIndex, v: Voter)
    requires IndexValid(I)
    ensures var r := InvIndexInsert(I, v);
      && IndexVoters(r.nodes) == IndexVoters(I.nodes) + (if VoterHasVoted(v) then multiset{v} else multiset{})
      && Total(r.nodes) == Total(I.nodes) + (if VoterHasVoted(v) then 1 else 0)
  {
    if VoterHasVoted(v) {
      match SearchZipnode(I.nodes, v.postalCode)
      case None => NewCodeCounts(I, v);
      case Some(k) => FoundCodeCounts(I, v, k);
    }
  }

  // ---------------------------------------------------------------------
  // Queries
  // ---------------------------------------------------------------------

  /** A voter in the index sits in some node's list. */
  lemma {:induction false} InIndex(nodes: seq<ZipNode>, x: Voter) returns (i: nat)
    requires x in IndexVoters(nodes)
    ensures i < |nodes| && x in nodes[i].voters.items
  {
    var n := |nodes| - 1;
    if x in multiset(nodes[n].voters.items) {
      i := n;
    } else {
      i := InIndex(nodes[..n], x);
      assert nodes[..n][i] == nodes[i];
    }
  }

  /** `inv_index_n_voters_zipcode(INV_INDEX, zipcode)`: the count and the
      voters of the postal code's node, when it has one. */
  function NVotersZipcode(I: InvertedIndex, zipcode: int): (r: Option<(int, seq<Voter>)>)
  {
    match SearchZipnode(I.nodes, zipcode)
    case None => None
    case Some(k) => Some((I.nodes[k].nVoters, I.nodes[k].voters.items))
  }

  /** The report for a postal code lists every voter of that code in the
      index, and only those, with the count being the list's length; no
      report means nobody of that code is in the index. */
  lemma NVotersZipcodeComplete(I: InvertedIndex, zipcode: int, x: Voter)
    requires IndexValid(I)
    ensures var r := NVotersZipcode(I, zipcode);
      && (r.Some? ==> r.value.0 == |r.value.1| && (x in r.value.1 ==> x.postalCode == zipcode && x in IndexVoters(I.nodes)))
      && (x in IndexVoters(I.nodes) && x.postalCode == zipcode ==> r.Some? && x in r.value.1)
  {
    var r := NVotersZipcode(I, zipcode);
    if r.Some? {
      var k := SearchZipnode(I.nodes, zipcode).value;
      assert NodeOk(I.nodes[k]);
      if x in r.value.1 {
        var j :| 0 <= j < |r.value.1| && r.value.1[j] == x;
        SpliceWithout(I.nodes, k);
        SpliceCounts(Without(I.nodes, k), k, I.nodes[k]);
      }
    }
    if x in IndexVoters(I.nodes) && x.postalCode == zipcode {
      var i := InIndex(I.nodes, x);
      assert NodeOk(I.nodes[i]);
      var j :| 0 <= j < |I.nodes[i].voters.items| && I.nodes[i].voters.items[j] == x;
      assert I.nodes[i].postalCode == zipcode;
    }
  }

  /** `inv_index_zipcodes_n_voters`: every node's postal code and count,
      from head to tail. */
  function ZipcodesNVoters(I: InvertedIndex): (r: seq<(int, int)>)
    ensures |r| == |I.nodes|
    ensures forall i :: 0 <= i < |r| ==> r[i] == (I.nodes[i].postalCode, I.nodes[i].nVoters)
  {
    seq(|I.nodes|, i requires 0 <= i < |I.nodes| => (I.nodes[i].postalCode, I.nodes[i].nVoters))
  }

  /** The listing names each postal code once, in non-increasing order of
      the number of voters. */
  lemma ListingSorted(I: InvertedIndex)
    requires IndexValid(I)
    ensures var r := ZipcodesNVoters(I);
      forall i, j :: 0 <= i < j < |r| ==> r[i].1 >= r[j].1 && r[i].0 != r[j].0
  {
  }
}

=== FILE: hw0_list.dfy ===
/** The singly linked list of Homework-0 (`LinkedList.c`).  The node chain
    is the sequence `items`, head first; `nElements` is the separately kept
    counter that `list_size` reports. */
module LinkedLists {

  datatype List<T> = List(items: seq<T>, nElements: int)

  /** The counter agrees with the chain. */
  predicate Counted<T>(l: List<T>)
  {
    l.nElements == |l.items|
  }

  /** `list_create`. */
  function ListCreate<T>(): (l: List<T>)
    ensures Counted(l) && IsListEmpty(l) && ListSize(l) == 0
  {
    List([], 0)
  }

  /** `list_size`: the counter, whatever the chain holds. */
  function ListSize<T>(l: List<T>): int
  {
    l.nElements
  }

  /** `is_list_empty`: the head pointer is NULL. */
  predicate IsListEmpty<T>(l: List<T>)
  {
    |l.items| == 0
  }

  /** `list_append`: the value becomes the new tail and the counter goes up
      by one. */
  function ListAppend<T>(l: List<T>, value: T): (r: List<T>)
    ensures |r.items| == |l.items| + 1 && r.items[..|l.items|] == l.items && r.items[|l.items|] == value
    ensures ListSize(r) == ListSize(l) + 1
    ensures Counted(l) ==> Counted(r)
  {
    List(l.items + [value], l.nElements + 1)
  }

  /** `list_remove`: the head value is returned and dropped, and the
      counter goes down by one.  The source dereferences the head without a
      check, so the list must not be empty. */
  function ListRemove<T>(l: List<T>): (r: (T, List<T>))
    requires !IsListEmpty(l)
    ensures [r.0] + r.1.items == l.items
    ensures ListSize(r.1) == ListSize(l) - 1
    ensures Counted(l) ==> Counted(r.1)
  {
    (l.items[0], List(l.items[1..], l.nElements - 1))
  }

  /** Append every element of `xs`, in order. */
  function AppendAll<T>(l: List<T>, xs: seq<T>): List<T>
    decreases |xs|
  {
    if |xs| == 0 then l else AppendAll(ListAppend(l, xs[0]), xs[1..])
  }

  /** Remove until empty; the removed values in the order they came out. */
  function Drain<T>(l: List<T>): seq<T>
    decreases |l.items|
  {
    if IsListEmpty(l) then [] else var (v, rest) := ListRemove(l); [v] + Drain(rest)
  }

  lemma {:induction false} AppendAllItems<T>(l: List<T>, xs: seq<T>)
    ensures AppendAll(l, xs).items == l.items + xs
    ensures Counted(l) ==> Counted(AppendAll(l, xs))
    decreases |xs|
  {
    if |xs| > 0 {
      AppendAllItems(ListAppend(l, xs[0]), xs[1..]);
      assert l.items + [xs[0]] + xs[1..] == l.items + xs;
    }
  }

  lemma {:induction false} DrainItems<T>(l: List<T>)
    ensures Drain(l) == l.items
    decreases |l.items|
  {
    if !IsListEmpty(l) {
      DrainItems(ListRemove(l).1);
    }
  }

  /** First in, first out: removing everything from a list built by appends
      gives back the appended values in order. */
  lemma Fifo<T>(xs: seq<T>)
    ensures Drain(AppendAll(ListCreate<T>(), xs)) == xs
    ensures Counted(AppendAll(ListCreate<T>(), xs))
  {
    AppendAllItems(ListCreate<T>(), xs);
    DrainItems(AppendAll(ListCreate<T>(), xs));
  }

  /** The node `list_add` walks to: `index` steps from the head, none when
      `index` is negative. */
  function WalkTo(index: int): nat
  {
    if index < 0 then 0 else index
  }

  /** `list_add` as written: at or past the second-to-last position it
      calls `list_append`, which counts the new node, and then counts it a
      second time; otherwise the value goes right after the node `index`
      steps from the head.  The walk relies on the counter being right. */
  function ListAddAsWritten<T>(l: List<T>, value: T, index: int): (r: List<T>)
    requires Counted(l) && (index >= ListSize(l) - 1 || !IsListEmpty(l))
    ensures |r.items| == |l.items| + 1
  {
    if index >= ListSize(l) - 1 then
      var appended := ListAppend(l, value);
      appended.(nElements := appended.nElements + 1)
    else
      var k := WalkTo(index) + 1;
      List(l.items[..k] + [value] + l.items[k..], l.nElements + 1)
  }

  /** The defect: adding to an empty list (or at the tail) leaves a counter
      one above the number of nodes. */
  lemma ListAddDoubleCounts<T>(l: List<T>, value: T, index: int)
    requires Counted(l) && index >= ListSize(l) - 1
    ensures ListSize(ListAddAsWritten(l, value, index)) == |ListAddAsWritten(l, value, index).items| + 1
    ensures ListAddAsWritten(ListCreate<T>(), value, 0).nElements == 2
  {
  }

  /** `list_add` as evidently intended: one increment on either path. */
  function ListAdd<T>(l: List<T>, value: T, index: int): (r: List<T>)
    requires Counted(l) && (index >= ListSize(l) - 1 || !IsListEmpty(l))
    ensures Counted(r)
  {
    if index >= ListSize(l) - 1 then ListAppend(l, value)
    else
      var k := WalkTo(index) + 1;
      List(l.items[..k] + [value] + l.items[k..], l.nElements + 1)
  }

  /** The corrected `list_add` puts the value immediately after the node
      `index` steps from the head (at the tail when that is the last node
      or beyond), keeps every other node in order, and counts it once. */
  lemma ListAddPlacesAfterIndex<T>(l: List<T>, value: T, index: int)
    requires Counted(l) && (index >= ListSize(l) - 1 || !IsListEmpty(l))
    ensures var r := ListAdd(l, value, index);
      var k := if index >= |l.items| - 1 then |l.items| else WalkTo(index) + 1;
      && ListSize(r) == ListSize(l) + 1
      && r.items[k] == value
      && r.items[..k] + r.items[k + 1..] == l.items
  {
    var r := ListAdd(l, value, index);
    var k := if index >= |l.items| - 1 then |l.items| else WalkTo(index) + 1;
    assert r.items == l.items[..k] + [value] + l.items[k..];
    assert r.items[..k] == l.items[..k];
    assert r.items[k + 1..] == l.items[k..];
  }
}

=== FILE: hw0_utils.dfy ===
/** The string helpers and the command-line check of Homework-0
    (`utils.c`).  A C string is the sequence of its characters before the
    terminator; the strings handled here hold no `'\0'`. */
module VoterUtils {
  import opened Wrappers
  import opened Numerals

  // ---------------------------------------------------------------------
  // trimInput and the token helpers
  // ---------------------------------------------------------------------

  /** The part of `s` before the first `c`, or all of `s` when there is
      none. */
  function UpTo(s: string, c: char): (r: string)
    ensures r <= s && c !in r
    ensures |r| < |s| ==> s[|r|] == c
  {
    if |s| == 0 || s[0] == c then [] else [s[0]] + UpTo(s[1..], c)
  }

  /** `trimInput`: the first '\n' becomes the terminator, so the string
      ends just before it; without a '\n' nothing changes. */
  function TrimInput(s: string): (r: string)
    ensures r <= s && '\n' !in r
    ensures |r| < |s| ==> s[|r|] == '\n'
  {
    UpTo(s, '\n')
  }

  /** The cut is at the first '\n' and nowhere else. */
  lemma TrimInputExact(s: string)
    ensures '\n' !in s ==> TrimInput(s) == s
    ensures forall i :: 0 <= i < |s| && s[i] == '\n' && '\n' !in s[..i] ==> TrimInput(s) == s[..i]
  {
    var r := TrimInput(s);
    forall i | 0 <= i < |s| && s[i] == '\n' && '\n' !in s[..i]
      ensures r == s[..i]
    {
      assert r == s[..|r|];
      assert forall j :: 0 <= j < i ==> s[..i][j] == s[j];
    }
  }

  /** Trimming twice is trimming once. */
  lemma TrimInputIdempotent(s: string)
    ensures TrimInput(TrimInput(s)) == TrimInput(s)
  {
    TrimInputExact(TrimInput(s));
  }

  /** `tokenCount`: 0 for the empty string, otherwise one more than the
      number of blanks. */
  function TokenCount(s: string): (n: nat)
  {
    if |s| == 0 then 0 else 1 + multiset(s)[' ']
  }

  /** `s` without its leading blanks. */
  function DropBlanks(s: string): (t: string)
    ensures |t| <= |s| && t == s[|s| - |t|..]
    ensures |t| > 0 ==> t[0] != ' '
    ensures forall i :: 0 <= i < |s| - |t| ==> s[i] == ' '
  {
    if |s| > 0 && s[0] == ' ' then DropBlanks(s[1..]) else s
  }

  /** The tokens that repeated `strtok(_, " ")` hands out: the maximal runs
      of non-blank characters, in order. */
  function Tokens(s: string): seq<string>
    decreases |s|
  {
    var t := DropBlanks(s);
    if |t| == 0 then []
    else
      var w := UpTo(t, ' ');
      assert |w| > 0 by {
        assert UpTo(t, ' ') == [t[0]] + UpTo(t[1..], ' ');
      }
      [w] + Tokens(t[|w|..])
  }

  /** The words separated by single blanks. */
  function Join(ws: seq<string>): string
  {
    if |ws| == 0 then "" else if |ws| == 1 then ws[0] else ws[0] + " " + Join(ws[1..])
  }

  ghost predicate Words(ws: seq<string>)
  {
    forall k :: 0 <= k < |ws| ==> |ws[k]| > 0 && ' ' !in ws[k]
  }

  lemma {:induction false} UpToStops(a: string, b: string, c: char)
    requires c !in a && (|b| == 0 || b[0] == c)
    ensures UpTo(a + b, c) == a
  {
    if |a| > 0 {
      assert (a + b)[0] == a[0] && (a + b)[1..] == a[1..] + b;
      UpToStops(a[1..], b, c);
    } else {
      assert a + b == b;
    }
  }

  lemma TokensSkipBlank(s: string)
    ensures Tokens([' '] + s) == Tokens(s)
  {
    assert ([' '] + s)[1..] == s;
  }

  /** A word followed by nothing or by a blank is the first token. */
  lemma TokensStep(w: string, rest: string)
    requires |w| > 0 && ' ' !in w && (|rest| == 0 || rest[0] == ' ')
    ensures Tokens(w + rest) == [w] + Tokens(rest)
  {
    var t := w + rest;
    assert t[0] == w[0];
    assert DropBlanks(t) == t;
    UpToStops(w, rest, ' ');
    assert t[|w|..] == rest;
  }

  lemma JoinStep(ws: seq<string>)
    requires |ws| > 1
    ensures Join(ws) == ws[0] + ([' '] + Join(ws[1..]))
  {
  }

  /** Every token is non-empty and holds no blank. */
  lemma {:induction false} TokensAreWords(s: string)
    ensures Words(Tokens(s))
    decreases |s|
  {
    var t := DropBlanks(s);
    if |t| > 0 {
      var w := UpTo(t, ' ');
      assert UpTo(t, ' ') == [t[0]] + UpTo(t[1..], ' ');
      TokensAreWords(t[|w|..]);
      var ts := Tokens(s);
      assert ts == [w] + Tokens(t[|w|..]);
      forall k | 0 <= k < |ts|
        ensures |ts[k]| > 0 && ' ' !in ts[k]
      {
        if k > 0 {
          assert ts[k] == Tokens(t[|w|..])[k - 1];
        }
      }
    }
  }

  /** One word, one blank, then the rest: the word is the first token. */
  lemma TokensOfWordThenBlank(w: string, rest: string)
    requires |w| > 0 && ' ' !in w
    ensures Tokens(w + ([' '] + rest)) == [w] + Tokens(rest)
  {
    TokensStep(w, [' '] + rest);
    TokensSkipBlank(rest);
  }

  lemma TokensOfWord(w: string)
    requires |w| > 0 && ' ' !in w
    ensures Tokens(w) == [w]
  {
    TokensStep(w, "");
    assert w + "" == w;
  }

  lemma TokensOfJoinStep(ws: seq<string>)
    requires |ws| > 1 && |ws[0]| > 0 && ' ' !in ws[0]
    requires Tokens(Join(ws[1..])) == ws[1..]
    ensures Tokens(Join(ws)) == ws
  {
    var line := ws[0] + ([' '] + Join(ws[1..]));
    assert Join(ws) == line by {
      JoinStep(ws);
    }
    assert Tokens(line) == [ws[0]] + ws[1..] by {
      TokensOfWordThenBlank(ws[0], Join(ws[1..]));
    }
    assert [ws[0]] + ws[1..] == ws;
  }

  /** Splitting single-blank-separated words gives the words back. */
  lemma {:induction false} TokensOfJoin(ws: seq<string>)
    requires Words(ws)
    ensures Tokens(Join(ws)) == ws
  {
    if |ws| == 1 {
      TokensOfWord(ws[0]);
    } else if |ws| > 1 {
      assert Words(ws[1..]) by {
        assert forall k :: 0 <= k < |ws| - 1 ==> ws[1..][k] == ws[k + 1];
      }
      TokensOfJoin(ws[1..]);
      TokensOfJoinStep(ws);
    }
  }

  /** Single-blank-separated words are counted exactly. */
  lemma {:induction false} TokenCountOfJoin(ws: seq<string>)
    requires Words(ws) && |ws| > 0
    ensures TokenCount(Join(ws)) == |ws|
  {
    assert ' ' !in multiset(ws[0]);
    if |ws| > 1 {
      TokenCountOfJoin(ws[1..]);
      assert Join(ws) == ws[0] + " " + Join(ws[1..]);
    }
  }

  /** `tokenCount` never under-counts the tokens `strtok` finds: doubled,
      leading or trailing blanks only make the count larger. */
  lemma {:induction false} TokensAtMostCount(s: string)
    ensures |Tokens(s)| <= TokenCount(s)
    ensures |s| > 0 && s[0] == ' ' ==> |Tokens(s)| <= multiset(s)[' ']
    decreases |s|
  {
    if |s| > 0 {
      if s[0] == ' ' {
        assert s == [' '] + s[1..];
        TokensSkipBlank(s[1..]);
        TokensAtMostCount(s[1..]);
      } else {
        var w := UpTo(s, ' ');
        var rest := s[|w|..];
        assert DropBlanks(s) == s;
        assert s == w + rest;
        assert ' ' !in multiset(w);
        TokensAtMostCount(rest);
      }
    }
  }

  /** A line counted as a single token is that token and nothing else. */
  lemma SingleTokenLine(s: string)
    requires TokenCount(s) == 1
    ensures Tokens(s) == [s]
  {
    assert ' ' !in s by {
      assert multiset(s)[' '] == 0;
    }
    assert Join([s]) == s;
    TokensOfJoin([s]);
  }

  // ---------------------------------------------------------------------
  // validArgs
  // ---------------------------------------------------------------------

  /** TOTAL_N_ARGS of mvote.c. */
  const TOTAL_N_ARGS: nat := 7

  datatype ArgError =
    | WrongArgCount
    | NeedsPositive(flag: string)   // `-b` or `-m` without a positive-integer string after it
    | Unrecognised(arg: string)
    | ReadPastEnd                   // `argv[argc]` (a NULL pointer) handed to `strlen`

  datatype MvoteArgs = MvoteArgs(fileName: Option<string>, bucketSize: Option<int>, m: Option<int>)

  const NoArgs := MvoteArgs(None, None, None)

  /** The flag loop of `validArgs` from cursor `i`.  `-f` takes the next
      argument without checking that there is one; `-b` and `-m` check,
      and need a string `isPositiveIntegerNumber` accepts. */
  function ArgsLoop(argv: seq<string>, i: nat, acc: MvoteArgs): (r: Result<MvoteArgs, ArgError>)
    ensures r.Err? ==> r.error != WrongArgCount
    decreases |argv| - i
  {
    if i >= |argv| then Ok(acc)
    else if argv[i] == "-f" then
      if i + 1 >= |argv| then Err(ReadPastEnd)
      else ArgsLoop(argv, i + 2, acc.(fileName := Some(argv[i + 1])))
    else if argv[i] == "-b" then
      if i + 1 < |argv| && IsPositiveIntegerNumber(argv[i + 1]) then
        ArgsLoop(argv, i + 2, acc.(bucketSize := Some(Atoi(argv[i + 1]))))
      else Err(NeedsPositive("-b"))
    else if argv[i] == "-m" then
      if i + 1 < |argv| && IsPositiveIntegerNumber(argv[i + 1]) then
        ArgsLoop(argv, i + 2, acc.(m := Some(Atoi(argv[i + 1]))))
      else Err(NeedsPositive("-m"))
    else Err(Unrecognised(argv[i]))
  }

  /** `validArgs(argc, argv, ..., max_args)`, after `validNumberOfArgs`. */
  function ValidArgs(argv: seq<string>, maxArgs: int): Result<MvoteArgs, ArgError>
  {
    if |argv| != maxArgs then Err(WrongArgCount) else ArgsLoop(argv, 1, NoArgs)
  }

  /** The count check comes first and is the only source of `WrongArgCount`. */
  lemma ValidArgsCount(argv: seq<string>, maxArgs: int)
    ensures ValidArgs(argv, maxArgs) == Err(WrongArgCount) <==> |argv| != maxArgs
  {
  }

  /** Every flag consumes exactly one value, so flags sit at odd positions;
      with an odd `argc` the value after `-f` always exists. */
  lemma {:induction false} OddLineStaysInside(argv: seq<string>, i: nat, acc: MvoteArgs)
    requires |argv| % 2 == 1 && i % 2 == 1
    ensures ArgsLoop(argv, i, acc) != Err(ReadPastEnd)
    decreases |argv| - i
  {
    if i < |argv| {
      assert i + 1 < |argv|;
      if argv[i] == "-f" {
        OddLineStaysInside(argv, i + 2, acc.(fileName := Some(argv[i + 1])));
      } else if argv[i] == "-b" {
        if IsPositiveIntegerNumber(argv[i + 1]) {
          OddLineStaysInside(argv, i + 2, acc.(bucketSize := Some(Atoi(argv[i + 1]))));
        }
      } else if argv[i] == "-m" {
        if IsPositiveIntegerNumber(argv[i + 1]) {
          OddLineStaysInside(argv, i + 2, acc.(m := Some(Atoi(argv[i + 1]))));
        }
      }
    }
  }

  /** The unchecked read of `argv[i+1]` after `-f` is safe: with exactly
      seven arguments the parse never reaches past the end. */
  lemma MvoteReadsInside(argv: seq<string>)
    ensures ValidArgs(argv, TOTAL_N_ARGS) != Err(ReadPastEnd)
  {
    if |argv| == TOTAL_N_ARGS {
      OddLineStaysInside(argv, 1, NoArgs);
    }
  }

  /** `-b` or `-m` not followed by a positive-integer string stops the
      parse, and so does any argument in flag position that is not one of
      the three flags. */
  lemma RejectsBadFlags(argv: seq<string>, i: nat, acc: MvoteArgs)
    requires i < |argv|
    ensures (argv[i] == "-b" || argv[i] == "-m") && (i + 1 >= |argv| || !IsPositiveIntegerNumber(argv[i + 1]))
      ==> ArgsLoop(argv, i, acc) == Err(NeedsPositive(argv[i]))
    ensures argv[i] != "-f" && argv[i] != "-b" && argv[i] != "-m"
      ==> ArgsLoop(argv, i, acc) == Err(Unrecognised(argv[i]))
  {
  }

  /** `-m +` after a good bucket size is accepted on every line of the
      right length, and asks for zero slots. */
  lemma PlusGivesZeroSlotsOn(argv: seq<string>)
    requires |argv| == TOTAL_N_ARGS && argv[1] == "-f" && argv[3] == "-b" && argv[5] == "-m" && argv[6] == "+"
    requires IsPositiveIntegerNumber(argv[4])
    ensures ValidArgs(argv, TOTAL_N_ARGS) == Ok(MvoteArgs(Some(argv[2]), Some(Atoi(argv[4])), Some(0)))
  {
    BarePlusNotStrict(argv[6]);
    var a1 := NoArgs.(fileName := Some(argv[2]));
    var a2 := a1.(bucketSize := Some(Atoi(argv[4])));
    var a3 := a2.(m := Some(0));
    assert argv[5] != "-f" && argv[5] != "-b";
    assert argv[3] != "-f";
    assert ArgsLoop(argv, 7, a3) == Ok(a3);
    assert ArgsLoop(argv, 5, a2) == ArgsLoop(argv, 7, a3);
    assert ArgsLoop(argv, 3, a1) == ArgsLoop(argv, 5, a2);
    assert ArgsLoop(argv, 1, NoArgs) == ArgsLoop(argv, 3, a1);
  }

  /** The quirk of the positive-integer check reaches the table sizes: a
      bare "+" after `-m` is accepted and asks for a table of zero
      slots. */
  lemma PlusGivesZeroSlots()
    ensures ValidArgs(["mvote", "-f", "voters", "-b", "2", "-m", "+"], TOTAL_N_ARGS)
      == Ok(MvoteArgs(Some("voters"), Some(2), Some(0)))
  {
    var argv := ["mvote", "-f", "voters", "-b", "2", "-m", "+"];
    assert |argv| == TOTAL_N_ARGS;
    assert argv[1] == "-f" && argv[3] == "-b";
    assert argv[5] == "-m" && argv[6] == "+";
    NonZeroDigitStrict(argv[4]);
    PlusGivesZeroSlotsOn(argv);
  }

  /** `validArgs` with the strict check for `-b` and `-m`. */
  function ArgsLoopStrict(argv: seq<string>, i: nat, acc: MvoteArgs): (r: Result<MvoteArgs, ArgError>)
    decreases |argv| - i
  {
    if i >= |argv| then Ok(acc)
    else if argv[i] == "-f" then
      if i + 1 >= |argv| then Err(ReadPastEnd)
      else ArgsLoopStrict(argv, i + 2, acc.(fileName := Some(argv[i + 1])))
    else if argv[i] == "-b" then
      if i + 1 < |argv| && IsStrictlyPositive(argv[i + 1]) then
        ArgsLoopStrict(argv, i + 2, acc.(bucketSize := Some(Atoi(argv[i + 1]))))
      else Err(NeedsPositive("-b"))
    else if argv[i] == "-m" then
      if i + 1 < |argv| && IsStrictlyPositive(argv[i + 1]) then
        ArgsLoopStrict(argv, i + 2, acc.(m := Some(Atoi(argv[i + 1]))))
      else Err(NeedsPositive("-m"))
    else Err(Unrecognised(argv[i]))
  }

  function ValidArgsStrict(argv: seq<string>, maxArgs: int): Result<MvoteArgs, ArgError>
  {
    if |argv| != maxArgs then Err(WrongArgCount) else ArgsLoopStrict(argv, 1, NoArgs)
  }

  ghost predicate SizesPositive(a: MvoteArgs)
  {
    (a.bucketSize.Some? ==> a.bucketSize.value >= 1) && (a.m.Some? ==> a.m.value >= 1)
  }

  /** Every size the strict parse produces is at least one, which is what
      creating the table needs. */
  lemma {:induction false} StrictSizesPositive(argv: seq<string>, i: nat, acc: MvoteArgs)
    requires SizesPositive(acc)
    ensures ArgsLoopStrict(argv, i, acc).Ok? ==> SizesPositive(ArgsLoopStrict(argv, i, acc).value)
    decreases |argv| - i
  {
    if i < |argv| && i + 1 < |argv| {
      if argv[i] == "-f" {
        StrictSizesPositive(argv, i + 2, acc.(fileName := Some(argv[i + 1])));
      } else if argv[i] == "-b" {
        if IsStrictlyPositive(argv[i + 1]) {
          StrictSizesPositive(argv, i + 2, acc.(bucketSize := Some(Atoi(argv[i + 1]))));
        }
      } else if argv[i] == "-m" {
        if IsStrictlyPositive(argv[i + 1]) {
          StrictSizesPositive(argv, i + 2, acc.(m := Some(Atoi(argv[i + 1]))));
        }
      }
    }
  }

  /** The strict parse refuses `-m +` after a good bucket size on every
      line of the right length. */
  lemma StrictRefusesPlusSlots(argv: seq<string>)
    requires |argv| == TOTAL_N_ARGS && argv[1] == "-f" && argv[3] == "-b" && argv[5] == "-m" && argv[6] == "+"
    requires IsStrictlyPositive(argv[4])
    ensures ValidArgsStrict(argv, TOTAL_N_ARGS) == Err(NeedsPositive("-m"))
  {
    BarePlusNotStrict(argv[6]);
    var a1 := NoArgs.(fileName := Some(argv[2]));
    var a2 := a1.(bucketSize := Some(Atoi(argv[4])));
    assert argv[5] != "-f";
    assert argv[5] != "-b";
    assert ArgsLoopStrict(argv, 5, a2) == Err(NeedsPositive("-m"));
    assert argv[3] != "-f";
    assert ArgsLoopStrict(argv, 3, a1) == ArgsLoopStrict(argv, 5, a2);
    assert ArgsLoopStrict(argv, 1, NoArgs) == ArgsLoopStrict(argv, 3, a1);
  }

  /** The strict parse refuses the bare "+" that the original lets
      through. */
  lemma StrictRefusesPlus()
    ensures ValidArgsStrict(["mvote", "-f", "voters", "-b", "2", "-m", "+"], TOTAL_N_ARGS)
      == Err(NeedsPositive("-m"))
  {
    var argv := ["mvote", "-f", "voters", "-b", "2", "-m", "+"];
    assert |argv| == TOTAL_N_ARGS;
    assert argv[1] == "-f" && argv[3] == "-b";
    assert argv[5] == "-m" && argv[6] == "+";
    NonZeroDigitStrict(argv[4]);
    StrictRefusesPlusSlots(argv);
  }
}

=== FILE: hw0_voter.dfy ===
/** The voter record of Homework-0.  The source hands voters around by
    pointer; the only field ever changed after creation is `has_voted`, and
    only from 'N' to 'Y', so a value with that flag as a `bool` stands for
    the pointed-to record. */
module Voters {

  datatype Voter = Voter(pin: int, name: string, surname: string, postalCode: int, hasVoted: bool)

  /** `voter_create`: copies of the given fields, not yet voted. */
  function VoterCreate(pin: int, name: string, surname: string, postalCode: int): (v: Voter)
    ensures !VoterHasVoted(v)
    ensures VoterGetPin(v) == pin && VoterGetZip(v) == postalCode
    ensures v.name == name && v.surname == surname
  {
    Voter(pin, name, surname, postalCode, false)
  }

  /** `voter_has_voted`. */
  predicate VoterHasVoted(v: Voter)
  {
    v.hasVoted
  }

  /** `voter_vote`: afterwards the voter has voted; nothing else changes. */
  function VoterVote(v: Voter): (w: Voter)
    ensures VoterHasVoted(w)
    ensures w.pin == v.pin && w.name == v.name && w.surname == v.surname && w.postalCode == v.postalCode
  {
    v.(hasVoted := true)
  }

  /** `voter_get_pin`. */
  function VoterGetPin(v: Voter): int
  {
    v.pin
  }

  /** `voter_get_zip`. */
  function VoterGetZip(v: Voter): int
  {
    v.postalCode
  }

  /** Voting twice is voting once, and a voter who has voted is unchanged
      by voting. */
  lemma VoteIdempotent(v: Voter)
    ensures VoterVote(VoterVote(v)) == VoterVote(v)
    ensures VoterHasVoted(v) ==> VoterVote(v) == v
  {
  }

  /** Two voters agreeing on every field but the flag become equal once
      both have voted. */
  lemma VoteForgetsOnlyTheFlag(v: Voter, w: Voter)
    requires v.pin == w.pin && v.name == w.name && v.surname == w.surname && v.postalCode == w.postalCode
    ensures VoterVote(v) == VoterVote(w)
  {
  }
}

=== FILE: hw1_args.dfy ===
/** Command-line handling of the Homework-1 coordinator (`validArgs`).

    `argv` is a sequence of strings with the program name at position 0,
    so `argc` is `|argv|`.  A `false` answer becomes an `Err`; an output
    that no flag assigns stays `None`. */
module SortArgs {
  import opened Wrappers
  import opened Numerals

  /** TOTAL_N_ARGS of coordinator.c. */
  const TOTAL_N_ARGS: nat := 9

  datatype ArgError =
    | WrongArgCount
    | NeedsPositive           // `-k` without a positive-integer string after it
    | Unrecognised(arg: string)
    | ReadPastEnd             // `argv[argc]` (a NULL pointer) handed to `strlen`

  datatype CoordinatorArgs = CoordinatorArgs(
    dataFile: Option<string>,
    numOfChildren: Option<int>,
    sort1: Option<string>,
    sort2: Option<string>)

  const NoArgs := CoordinatorArgs(None, None, None, None)

  /** The flag loop of `validArgs` from cursor `i`.  `-i`, `-e1` and `-e2`
      take the next argument without checking that there is one; `-k`
      checks, and needs a string `isPositiveIntegerNumber` accepts. */
  function ArgsLoop(argv: seq<string>, i: nat, acc: CoordinatorArgs): (r: Result<CoordinatorArgs, ArgError>)
    ensures r.Err? ==> r.error != WrongArgCount
    decreases |argv| - i
  {
    if i >= |argv| then Ok(acc)
    else if argv[i] == "-i" then
      if i + 1 >= |argv| then Err(ReadPastEnd)
      else ArgsLoop(argv, i + 2, acc.(dataFile := Some(argv[i + 1])))
    else if argv[i] == "-k" then
      if i + 1 < |argv| && IsPositiveIntegerNumber(argv[i + 1]) then
        ArgsLoop(argv, i + 2, acc.(numOfChildren := Some(Atoi(argv[i + 1]))))
      else Err(NeedsPositive)
    else if argv[i] == "-e1" then
      if i + 1 >= |argv| then Err(ReadPastEnd)
      else ArgsLoop(argv, i + 2, acc.(sort1 := Some(argv[i + 1])))
    else if argv[i] == "-e2" then
      if i + 1 >= |argv| then Err(ReadPastEnd)
      else ArgsLoop(argv, i + 2, acc.(sort2 := Some(argv[i + 1])))
    else Err(Unrecognised(argv[i]))
  }

  /** `validArgs(argc, argv, ..., max_args)`. */
  function ValidArgs(argv: seq<string>, maxArgs: int): Result<CoordinatorArgs, ArgError>
  {
    if |argv| != maxArgs then Err(WrongArgCount) else ArgsLoop(argv, 1, NoArgs)
  }

  /** The count check comes first and is the only source of `WrongArgCount`. */
  lemma ValidArgsCount(argv: seq<string>, maxArgs: int)
    ensures ValidArgs(argv, maxArgs) == Err(WrongArgCount) <==> |argv| != maxArgs
  {
  }

  /** Every flag consumes exactly one value, so flags sit at odd positions;
      with an odd `argc` the value after a flag always exists. */
  lemma {:induction false} OddLineStaysInside(argv: seq<string>, i: nat, acc: CoordinatorArgs)
    requires |argv| % 2 == 1 && i % 2 == 1
    ensures ArgsLoop(argv, i, acc) != Err(ReadPastEnd)
    decreases |argv| - i
  {
    if i < |argv| {
      assert i + 1 < |argv|;
      if argv[i] == "-i" {
        OddLineStaysInside(argv, i + 2, acc.(dataFile := Some(argv[i + 1])));
      } else if argv[i] == "-k" {
        if IsPositiveIntegerNumber(argv[i + 1]) {
          OddLineStaysInside(argv, i + 2, acc.(numOfChildren := Some(Atoi(argv[i + 1]))));
        }
      } else if argv[i] == "-e1" {
        OddLineStaysInside(argv, i + 2, acc.(sort1 := Some(argv[i + 1])));
      } else if argv[i] == "-e2" {
        OddLineStaysInside(argv, i + 2, acc.(sort2 := Some(argv[i + 1])));
      }
    }
  }

  /** The coordinator's unchecked reads of `argv[i+1]` are safe: with
      exactly nine arguments the parse never reaches past the end. */
  lemma CoordinatorReadsInside(argv: seq<string>)
    ensures ValidArgs(argv, TOTAL_N_ARGS) != Err(ReadPastEnd)
  {
    if |argv| == TOTAL_N_ARGS {
      OddLineStaysInside(argv, 1, NoArgs);
    }
  }

  /** With an even `max_args` the read past the end is reachable: `-i` as
      the last argument. */
  lemma EvenLineReadsPastEnd()
    ensures ValidArgs(["coordinator", "-i"], 2) == Err(ReadPastEnd)
  {
  }

  /** `-k` not followed by a positive-integer string stops the parse. */
  lemma KNeedsPositive(argv: seq<string>, i: nat, acc: CoordinatorArgs)
    requires i < |argv| && argv[i] == "-k"
    requires i + 1 >= |argv| || !IsPositiveIntegerNumber(argv[i + 1])
    ensures ArgsLoop(argv, i, acc) == Err(NeedsPositive)
  {
  }

  /** Any argument in flag position other than -i, -k, -e1 and -e2 stops
      the parse with that argument. */
  lemma RejectsUnknownFlag(argv: seq<string>, i: nat, acc: CoordinatorArgs)
    requires i < |argv| && argv[i] != "-i" && argv[i] != "-k" && argv[i] != "-e1" && argv[i] != "-e2"
    ensures ArgsLoop(argv, i, acc) == Err(Unrecognised(argv[i]))
  {
  }

  /** A child count that a successful parse produces is never negative; it
      is zero only when the string was a bare "+" or "+0...". */
  lemma {:induction false} ChildCountNotNegative(argv: seq<string>, i: nat, acc: CoordinatorArgs)
    requires acc.numOfChildren.Some? ==> acc.numOfChildren.value >= 0
    ensures ArgsLoop(argv, i, acc).Ok? && ArgsLoop(argv, i, acc).value.numOfChildren.Some? ==>
      ArgsLoop(argv, i, acc).value.numOfChildren.value >= 0
    decreases |argv| - i
  {
    if i < |argv| && i + 1 < |argv| {
      if argv[i] == "-i" {
        ChildCountNotNegative(argv, i + 2, acc.(dataFile := Some(argv[i + 1])));
      } else if argv[i] == "-k" {
        if IsPositiveIntegerNumber(argv[i + 1]) {
          PositiveIntegerValue(argv[i + 1]);
          ChildCountNotNegative(argv, i + 2, acc.(numOfChildren := Some(Atoi(argv[i + 1]))));
        }
      } else if argv[i] == "-e1" {
        ChildCountNotNegative(argv, i + 2, acc.(sort1 := Some(argv[i + 1])));
      } else if argv[i] == "-e2" {
        ChildCountNotNegative(argv, i + 2, acc.(sort2 := Some(argv[i + 1])));
      }
    }
  }

  /** The quirk of the positive-integer check: "-k +" is accepted and gives
      zero children, on every nine-argument line that is otherwise well
      formed. */
  lemma PlusGivesZeroChildrenOn(argv: seq<string>)
    requires |argv| == TOTAL_N_ARGS && argv[1] == "-i" && argv[3] == "-k" && argv[4] == "+"
    requires argv[5] == "-e1" && argv[7] == "-e2"
    ensures ValidArgs(argv, TOTAL_N_ARGS) == Ok(CoordinatorArgs(Some(argv[2]), Some(0), Some(argv[6]), Some(argv[8])))
  {
    BarePlusNotStrict(argv[4]);
    var a1 := NoArgs.(dataFile := Some(argv[2]));
    var a2 := a1.(numOfChildren := Some(0));
    var a3 := a2.(sort1 := Some(argv[6]));
    var a4 := a3.(sort2 := Some(argv[8]));
    assert argv[7] != "-i" && argv[7] != "-k" && argv[7] != "-e1";
    assert argv[5] != "-i" && argv[5] != "-k";
    assert argv[3] != "-i";
    assert ArgsLoop(argv, 9, a4) == Ok(a4);
    assert ArgsLoop(argv, 7, a3) == ArgsLoop(argv, 9, a4);
    assert ArgsLoop(argv, 5, a2) == ArgsLoop(argv, 7, a3);
    assert ArgsLoop(argv, 3, a1) == ArgsLoop(argv, 5, a2);
    assert ArgsLoop(argv, 1, NoArgs) == ArgsLoop(argv, 3, a1);
  }

  /** The same on a concrete line. */
  lemma PlusGivesZeroChildren()
    ensures ValidArgs(["coordinator", "-i", "data", "-k", "+", "-e1", "q", "-e2", "h"], TOTAL_N_ARGS)
      == Ok(CoordinatorArgs(Some("data"), Some(0), Some("q"), Some("h")))
  {
    var argv := ["coordinator", "-i", "data", "-k", "+", "-e1", "q", "-e2", "h"];
    assert |argv| == TOTAL_N_ARGS;
    assert argv[1] == "-i" && argv[3] == "-k" && argv[4] == "+";
    assert argv[5] == "-e1" && argv[7] == "-e2";
    PlusGivesZeroChildrenOn(argv);
  }

  /** `validArgs` with the strict check for `-k`: the value must be at
      least one, so "+" and "+0" are refused. */
  function ArgsLoopStrict(argv: seq<string>, i: nat, acc: CoordinatorArgs): (r: Result<CoordinatorArgs, ArgError>)
    decreases |argv| - i
  {
    if i >= |argv| then Ok(acc)
    else if argv[i] == "-i" then
      if i + 1 >= |argv| then Err(ReadPastEnd)
      else ArgsLoopStrict(argv, i + 2, acc.(dataFile := Some(argv[i + 1])))
    else if argv[i] == "-k" then
      if i + 1 < |argv| && IsStrictlyPositive(argv[i + 1]) then
        ArgsLoopStrict(argv, i + 2, acc.(numOfChildren := Some(Atoi(argv[i + 1]))))
      else Err(NeedsPositive)
    else if argv[i] == "-e1" then
      if i + 1 >= |argv| then Err(ReadPastEnd)
      else ArgsLoopStrict(argv, i + 2, acc.(sort1 := Some(argv[i + 1])))
    else if argv[i] == "-e2" then
      if i + 1 >= |argv| then Err(ReadPastEnd)
      else ArgsLoopStrict(argv, i + 2, acc.(sort2 := Some(argv[i + 1])))
    else Err(Unrecognised(argv[i]))
  }

  function ValidArgsStrict(argv: seq<string>, maxArgs: int): Result<CoordinatorArgs, ArgError>
  {
    if |argv| != maxArgs then Err(WrongArgCount) else ArgsLoopStrict(argv, 1, NoArgs)
  }

  ghost predicate ChildCountPositive(a: CoordinatorArgs)
  {
    a.numOfChildren.Some? ==> a.numOfChildren.value >= 1
  }

  /** Every child count the strict parse produces is at least one, which
      is what splitting the records and merging the children's results
      need. */
  lemma {:induction false} StrictChildCountPositive(argv: seq<string>, i: nat, acc: CoordinatorArgs)
    requires ChildCountPositive(acc)
    ensures ArgsLoopStrict(argv, i, acc).Ok? ==> ChildCountPositive(ArgsLoopStrict(argv, i, acc).value)
    decreases |argv| - i
  {
    if i < |argv| && i + 1 < |argv| {
      if argv[i] == "-i" {
        StrictChildCountPositive(argv, i + 2, acc.(dataFile := Some(argv[i + 1])));
      } else if argv[i] == "-k" {
        if IsStrictlyPositive(argv[i + 1]) {
          StrictChildCountPositive(argv, i + 2, acc.(numOfChildren := Some(Atoi(argv[i + 1]))));
        }
      } else if argv[i] == "-e1" {
        StrictChildCountPositive(argv, i + 2, acc.(sort1 := Some(argv[i + 1])));
      } else if argv[i] == "-e2" {
        StrictChildCountPositive(argv, i + 2, acc.(sort2 := Some(argv[i + 1])));
      }
    }
  }

  /** The strict parse refuses `-k +` wherever it stands on a line of the
      right length: the cursor reaches it on every line that starts with
      `-i <file>`. */
  lemma StrictRefusesPlusAfterFile(argv: seq<string>)
    requires |argv| == TOTAL_N_ARGS && argv[1] == "-i" && argv[3] == "-k" && argv[4] == "+"
    ensures ValidArgsStrict(argv, TOTAL_N_ARGS) == Err(NeedsPositive)
  {
    BarePlusNotStrict(argv[4]);
    var a1 := NoArgs.(dataFile := Some(argv[2]));
    assert ArgsLoopStrict(argv, 3, a1) == Err(NeedsPositive);
  }

  /** The strict parse refuses the `-k +` that the original lets through. */
  lemma StrictRefusesPlusChildren()
    ensures ValidArgsStrict(["coordinator", "-i", "data", "-k", "+", "-e1", "q", "-e2", "h"], TOTAL_N_ARGS)
      == Err(NeedsPositive)
  {
    StrictRefusesPlusAfterFile(["coordinator", "-i", "data", "-k", "+", "-e1", "q", "-e2", "h"]);
  }
}

=== FILE: hw1_heapsort.dfy ===
/** `heapify` and `heap_sort` of Homework-1.  The array is a sequence value:
    each method returns the array as it is after the call. */
module HeapSort {
  import opened SortRecord
  import opened SortedMerge

  /** Index of the parent of cell `c` in the array-embedded binary tree. */
  function Parent(c: nat): nat
  {
    if c == 0 then 0 else (c - 1) / 2
  }

  /** Cell `c` does not compare greater than its parent. */
  ghost predicate HeapPair(s: seq<Record>, c: nat)
    requires c < |s|
  {
    Le(s[c], s[Parent(c)])
  }

  /** Max-heap order below `size` for every parent at least `lo` other than
      `skip`: no child compares greater than its parent. */
  ghost predicate HeapFrom(s: seq<Record>, size: nat, lo: nat, skip: int)
    requires size <= |s|
  {
    forall c: nat :: 0 < c < size && Parent(c) >= lo && Parent(c) != skip ==> HeapPair(s, c)
  }

  /** The choice of `largest` in `heapify`: the parent, replaced by the left
      child if that compares greater, then by the right child if that
      compares greater than the choice so far. */
  function Largest(s: seq<Record>, size: nat, index: nat): nat
    requires size <= |s|
  {
    var l, r := 2 * index + 1, 2 * index + 2;
    var m := if l < size && Gt(s[l], s[index]) then l else index;
    if r < size && Gt(s[r], s[m]) then r else m
  }

  /** The chosen cell is the parent or one of its children below `size`, and
      neither child compares greater than it. */
  lemma LargestIsLargest(s: seq<Record>, size: nat, index: nat)
    requires size <= |s| && index < size
    ensures var m := Largest(s, size, index);
      && (m == index || ((m == 2 * index + 1 || m == 2 * index + 2) && m < size))
      && (m != index ==> Gt(s[m], s[index]))
      && (2 * index + 1 < size ==> Le(s[2 * index + 1], s[m]))
      && (2 * index + 2 < size ==> Le(s[2 * index + 2], s[m]))
  {
    var l, r := 2 * index + 1, 2 * index + 2;
    var m1 := if l < size && Gt(s[l], s[index]) then l else index;
    GtStrictTotal(s[index], s[index]);
    if l < size {
      GtStrictTotal(s[l], s[index]);
    }
    if r < size {
      GtStrictTotal(s[r], s[m1]);
      if Gt(s[r], s[m1]) {
        if m1 == l {
          GtTransitive(s[r], s[l], s[index]);
        } else if l < size {
          if Gt(s[l], s[r]) {
            GtTransitive(s[l], s[r], s[index]);
          }
        }
      }
    }
  }

  /** After swapping the parent with its larger child, the heap order holds
      everywhere except below that child, as the recursive call needs. */
  lemma SwapDown(s: seq<Record>, size: nat, index: nat, lo: nat, m: nat)
    requires size <= |s| && lo <= index < m < size
    requires HeapFrom(s, size, lo, index)
    requires index > 0 && Parent(index) >= lo ==>
      (2 * index + 1 < size ==> Le(s[2 * index + 1], s[Parent(index)])) &&
      (2 * index + 2 < size ==> Le(s[2 * index + 2], s[Parent(index)]))
    requires m == 2 * index + 1 || m == 2 * index + 2
    requires Gt(s[m], s[index])
    requires 2 * index + 1 < size ==> Le(s[2 * index + 1], s[m])
    requires 2 * index + 2 < size ==> Le(s[2 * index + 2], s[m])
    ensures var u := Swap(s, index, m);
      && HeapFrom(u, size, lo, m)
      && (2 * m + 1 < size ==> Le(u[2 * m + 1], u[Parent(m)]))
      && (2 * m + 2 < size ==> Le(u[2 * m + 2], u[Parent(m)]))
  {
    var u := Swap(s, index, m);
    GtStrictTotal(s[m], s[index]);
    assert Parent(m) == index;
    forall c: nat | 0 < c < size && Parent(c) >= lo && Parent(c) != m
      ensures HeapPair(u, c)
    {
      var p := Parent(c);
      if p == index {
        assert c == 2 * index + 1 || c == 2 * index + 2;
      } else if c == index {
        assert p < index;
        assert u[c] == s[m] && u[p] == s[p];
      } else {
        assert c != m;
        assert HeapPair(s, c);
        assert u[c] == s[c] && u[p] == s[p];
      }
    }
    if 2 * m + 1 < size {
      assert Parent(2 * m + 1) == m && HeapPair(s, 2 * m + 1);
    }
    if 2 * m + 2 < size {
      assert Parent(2 * m + 2) == m && HeapPair(s, 2 * m + 2);
    }
  }

  /** When no child of `index` compares greater than it, the heap order
      holds at `index` too. */
  lemma StaysPut(s: seq<Record>, size: nat, index: nat, lo: nat)
    requires size <= |s| && lo <= index
    requires HeapFrom(s, size, lo, index)
    requires 2 * index + 1 < size ==> Le(s[2 * index + 1], s[index])
    requires 2 * index + 2 < size ==> Le(s[2 * index + 2], s[index])
    ensures HeapFrom(s, size, lo, -1)
  {
    forall c: nat | 0 < c < size && Parent(c) >= lo
      ensures HeapPair(s, c)
    {
      if Parent(c) == index {
        assert c == 2 * index + 1 || c == 2 * index + 2;
      }
    }
  }

  /** `heapify(records, size, index)`: when the heap order holds everywhere
      from `lo` on except at `index`, and the children of `index` do not
      exceed its parent, the heap order is restored from `lo` on.  Only the
      subtree of `index` below `size` is touched. */
  method Heapify(s: seq<Record>, size: nat, index: nat, ghost lo: nat) returns (t: seq<Record>)
    requires size <= |s| && lo <= index
    requires HeapFrom(s, size, lo, index)
    requires index > 0 && Parent(index) >= lo ==>
      (2 * index + 1 < size ==> Le(s[2 * index + 1], s[Parent(index)])) &&
      (2 * index + 2 < size ==> Le(s[2 * index + 2], s[Parent(index)]))
    ensures |t| == |s| && multiset(t) == multiset(s)
    ensures HeapFrom(t, size, lo, -1)
    ensures forall k :: 0 <= k < |s| && (k < index || k >= size) ==> t[k] == s[k]
    decreases size - index
  {
    var largest := index;
    var left, right := 2 * index + 1, 2 * index + 2;
    if left < size && RecordsCompare(s[left], s[largest]) > 0 {
      largest := left;
    }
    if right < size && RecordsCompare(s[right], s[largest]) > 0 {
      largest := right;
    }
    assert largest == Largest(s, size, index);
    if index < size {
      LargestIsLargest(s, size, index);
    }
    if largest != index {
      SwapDown(s, size, index, lo, largest);
      var u := Swap(s, index, largest);
      t := Heapify(u, size, largest, lo);
    } else {
      t := s;
      StaysPut(s, size, index, lo);
    }
  }

  /** In a heap the root is not below any element. */
  lemma {:induction false} HeapRoot(s: seq<Record>, n: nat, k: nat)
    requires n <= |s| && HeapFrom(s, n, 0, -1) && k < n
    ensures Le(s[k], s[0])
    decreases k
  {
    GtStrictTotal(s[0], s[0]);
    if k > 0 {
      var p := Parent(k);
      assert HeapPair(s, k);
      HeapRoot(s, n, p);
      LeTransitive(s[k], s[p], s[0]);
    }
  }

  /** Before the build loop, no cell at or after `size / 2` has a child. */
  lemma NoParentsAbove(s: seq<Record>, size: nat)
    requires size <= |s|
    ensures HeapFrom(s, size, size / 2, -1)
  {
    forall c: nat | 0 < c < size
      ensures Parent(c) < size / 2
    {
    }
  }

  /** Elements of a permutation of `y` inherit an upper bound that holds for `y`. */
  lemma BoundByPermutation(x: seq<Record>, y: seq<Record>, m: Record)
    requires multiset(x) == multiset(y)
    requires forall k :: 0 <= k < |y| ==> Le(y[k], m)
    ensures forall k :: 0 <= k < |x| ==> Le(x[k], m)
  {
    forall k | 0 <= k < |x|
      ensures Le(x[k], m)
    {
      assert x[k] in multiset(y);
      var j :| 0 <= j < |y| && y[j] == x[k];
    }
  }

  lemma PrefixPermutation(x: seq<Record>, y: seq<Record>, n: nat)
    requires |x| == |y| && n <= |x|
    requires multiset(x) == multiset(y) && x[n..] == y[n..]
    ensures multiset(x[..n]) == multiset(y[..n])
  {
    assert x == x[..n] + x[n..];
    assert y == y[..n] + y[n..];
    assert multiset(x) == multiset(x[..n]) + multiset(x[n..]);
    assert multiset(y) == multiset(y[..n]) + multiset(y[n..]);
    assert multiset(x[..n]) == multiset(x) - multiset(x[n..]);
  }

  /** Moving the root out to position `i` leaves a heap on `[0, i)` except
      at the new root. */
  lemma SwapRootOut(t: seq<Record>, i: nat)
    requires i < |t| && HeapFrom(t, i + 1, 0, -1)
    ensures HeapFrom(Swap(t, 0, i), i, 0, 0)
  {
    var u := Swap(t, 0, i);
    forall c: nat | 0 < c < i && Parent(c) != 0
      ensures HeapPair(u, c)
    {
      assert HeapPair(t, c);
    }
  }

  /** An upper bound of `t[..i + 1]` bounds whatever the heap on `[0, i)`
      holds after the root was swapped out and sifted. */
  lemma BoundAfterRound(t: seq<Record>, u: seq<Record>, v: seq<Record>, i: nat, m: Record)
    requires i < |t| && u == Swap(t, 0, i) && |v| == |u|
    requires multiset(v[..i]) == multiset(u[..i])
    requires forall k :: 0 <= k <= i ==> Le(t[k], m)
    ensures forall a :: 0 <= a < i ==> Le(v[a], m)
  {
    forall k | 0 <= k < i
      ensures Le(u[..i][k], m)
    {
      assert u[..i][k] == (if k == 0 then t[i] else t[k]);
    }
    BoundByPermutation(v[..i], u[..i], m);
    forall a | 0 <= a < i
      ensures Le(v[a], m)
    {
      assert v[a] == v[..i][a];
    }
  }

  /** No element of `s[..i]` compares greater than an element of `s[i..size]`. */
  ghost predicate Split(s: seq<Record>, i: nat, size: nat)
    requires i <= size <= |s|
  {
    forall b :: i <= b < size ==> forall a :: 0 <= a < i ==> Le(s[a], s[b])
  }

  /** The root of a heap on `[0, i]` is its largest element. */
  lemma RootIsMax(t: seq<Record>, i: nat)
    requires i < |t| && HeapFrom(t, i + 1, 0, -1)
    ensures forall k :: 0 <= k <= i ==> Le(t[k], t[0])
  {
    forall k | 0 <= k <= i
      ensures Le(t[k], t[0])
    {
      HeapRoot(t, i + 1, k);
    }
  }

  /** After a round nothing left in the heap exceeds the tail from `i`. */
  lemma SplitAfterRound(t: seq<Record>, u: seq<Record>, v: seq<Record>, i: nat, size: nat)
    requires i < size <= |t|
    requires forall k :: 0 <= k <= i ==> Le(t[k], t[0])
    requires Split(t, i + 1, size)
    requires u == Swap(t, 0, i)
    requires |v| == |u| && multiset(v) == multiset(u)
    requires forall k :: 0 <= k < |u| && k >= i ==> v[k] == u[k]
    ensures Split(v, i, size)
  {
    assert v[i..] == u[i..];
    PrefixPermutation(v, u, i);
    forall b | i <= b < size
      ensures forall a :: 0 <= a < i ==> Le(v[a], v[b])
    {
      if b == i {
        BoundAfterRound(t, u, v, i, t[0]);
      } else {
        assert forall k :: 0 <= k <= i ==> Le(t[k], t[b]);
        BoundAfterRound(t, u, v, i, t[b]);
      }
    }
  }

  /** After a round the tail from `i` is the old root followed by the old
      sorted tail, hence sorted. */
  lemma SortedAfterRound(t: seq<Record>, u: seq<Record>, v: seq<Record>, i: nat, size: nat)
    requires i < size <= |t|
    requires Sorted(t[i + 1..size]) && Split(t, i + 1, size)
    requires u == Swap(t, 0, i) && |v| == |u|
    requires forall k :: 0 <= k < |u| && k >= i ==> v[k] == u[k]
    ensures Sorted(v[i..size])
  {
    var rest := t[i + 1..size];
    assert AllAbove(t[0], rest) by {
      forall k | 0 <= k < |rest|
        ensures Le(t[0], rest[k])
      {
        assert rest[k] == t[i + 1 + k];
      }
    }
    SortedCons(t[0], rest);
    assert v[i..size] == [t[0]] + rest;
  }

  /** One round of the sort loop: the root (the maximum of `[0, i]`) moves
      to position `i` and the heap on `[0, i)` is restored. */
  lemma SortRound(t: seq<Record>, u: seq<Record>, v: seq<Record>, i: nat, size: nat)
    requires i < size <= |t|
    requires HeapFrom(t, i + 1, 0, -1)
    requires Sorted(t[i + 1..size]) && Split(t, i + 1, size)
    requires u == Swap(t, 0, i)
    requires |v| == |u| && multiset(v) == multiset(u)
    requires forall k :: 0 <= k < |u| && k >= i ==> v[k] == u[k]
    ensures Sorted(v[i..size]) && Split(v, i, size)
  {
    RootIsMax(t, i);
    SplitAfterRound(t, u, v, i, size);
    SortedAfterRound(t, u, v, i, size);
  }

  /** What a sort round leaves alone: the cells from `size` on and, for a
      one-element heap, everything. */
  lemma RoundFrame(t: seq<Record>, u: seq<Record>, v: seq<Record>, i: nat, size: nat)
    requires i < size <= |t| && u == Swap(t, 0, i)
    requires |v| == |u| && multiset(v) == multiset(u)
    requires forall k :: 0 <= k < |u| && k >= i ==> v[k] == u[k]
    ensures multiset(v) == multiset(t)
    ensures forall k :: size <= k < |t| ==> v[k] == t[k]
    ensures i == 0 ==> v == t
  {
    if i == 0 {
      assert u == t;
    }
  }

  /** The first loop of `heap_sort`: sift down every parent, last one
      first, until the whole prefix of length `size` is a max-heap. */
  method BuildHeap(s: seq<Record>, size: nat) returns (t: seq<Record>)
    requires size <= |s|
    ensures |t| == |s| && multiset(t) == multiset(s)
    ensures forall k :: size <= k < |s| ==> t[k] == s[k]
    ensures HeapFrom(t, size, 0, -1)
    ensures size <= 1 ==> t == s
  {
    t := s;
    var i: int := size / 2 - 1;
    NoParentsAbove(s, size);
    while i >= 0
      invariant -1 <= i <= size / 2 - 1
      invariant |t| == |s| && multiset(t) == multiset(s)
      invariant forall k :: size <= k < |s| ==> t[k] == s[k]
      invariant HeapFrom(t, size, i + 1, -1)
      invariant size <= 1 ==> t == s
    {
      assert Parent(i) < i || i == 0;
      t := Heapify(t, size, i, i);
      i := i - 1;
    }
  }

  /** The state the second loop of `heap_sort` keeps: a heap on `[0, i]`,
      a sorted tail `(i, size)` that nothing in the heap exceeds, a
      permutation of the input and the cells past `size` untouched. */
  ghost predicate Draining(h: seq<Record>, t: seq<Record>, i: int, size: nat)
  {
    && -1 <= i < size <= |h| && |t| == |h|
    && multiset(t) == multiset(h)
    && (forall k :: size <= k < |h| ==> t[k] == h[k])
    && HeapFrom(t, i + 1, 0, -1)
    && Sorted(t[i + 1..size]) && Split(t, i + 1, size)
    && (size <= 1 ==> t == h)
  }

  /** One round of the second loop keeps `Draining` with one cell fewer in
      the heap. */
  lemma DrainStep(h: seq<Record>, t: seq<Record>, u: seq<Record>, v: seq<Record>, i: nat, size: nat)
    requires Draining(h, t, i, size)
    requires u == Swap(t, 0, i)
    requires |v| == |u| && multiset(v) == multiset(u) && HeapFrom(v, i, 0, -1)
    requires forall k :: 0 <= k < |u| && (k < 0 || k >= i) ==> v[k] == u[k]
    ensures Draining(h, v, i - 1, size)
  {
    SortRound(t, u, v, i, size);
    RoundFrame(t, u, v, i, size);
  }

  /** The second loop of `heap_sort`: swap the root behind the shrinking
      heap and sift the new root down. */
  method DrainHeap(h: seq<Record>, size: nat) returns (t: seq<Record>)
    requires size <= |h| && HeapFrom(h, size, 0, -1)
    ensures |t| == |h| && multiset(t) == multiset(h)
    ensures forall k :: size <= k < |h| ==> t[k] == h[k]
    ensures Sorted(t[..size])
    ensures size <= 1 ==> t == h
  {
    t := h;
    var i: int := size - 1;
    assert t[i + 1..size] == [];
    while i >= 0
      invariant -1 <= i
      invariant Draining(h, t, i, size)
    {
      SwapRootOut(t, i);
      var u := Swap(t, 0, i);
      var v := Heapify(u, i, 0, 0);
      DrainStep(h, t, u, v, i, size);
      t := v;
      i := i - 1;
    }
    assert t[0..size] == t[..size];
  }

  /** `heap_sort(records, size)`: build the max-heap bottom-up, then move the
      root to the end of the shrinking heap.  The first `size` records end
      up a sorted permutation of what they were; sizes 0 and 1 are left as
      they are. */
  method HeapSortRecords(s: seq<Record>, size: nat) returns (t: seq<Record>)
    requires size <= |s|
    ensures |t| == |s| && t[size..] == s[size..]
    ensures Sorted(t[..size]) && multiset(t[..size]) == multiset(s[..size])
    ensures size <= 1 ==> t == s
  {
    var h := BuildHeap(s, size);
    t := DrainHeap(h, size);
    assert t[size..] == s[size..];
    PrefixPermutation(t, s, size);
  }
}

=== FILE: hw1_merge.dfy ===
/** How Homework-1 splits a record range among child processes and merges
    their sorted outputs (`set_child_record_bounds`, `merge_pair`,
    `merge_results`).  Record arrays are sequences; the pipes they travel
    through are not modelled. */
module ChildResults {
  import opened SortRecord
  import opened SortedMerge

  // ---------------------------------------------------------------------
  // merge_pair
  // ---------------------------------------------------------------------

  lemma TakeFirst(xs: seq<Record>, i: nat, ys: seq<Record>, j: nat)
    requires i < |xs| && j <= |ys|
    requires j == |ys| || Le(xs[i], ys[j])
    ensures MergeStable(xs[i..], ys[j..]) == [xs[i]] + MergeStable(xs[i + 1..], ys[j..])
  {
    MergeUnfold(xs[i..], ys[j..]);
    assert xs[i..][1..] == xs[i + 1..];
  }

  lemma TakeSecond(xs: seq<Record>, i: nat, ys: seq<Record>, j: nat)
    requires i <= |xs| && j < |ys|
    requires i == |xs| || Gt(xs[i], ys[j])
    ensures MergeStable(xs[i..], ys[j..]) == [ys[j]] + MergeStable(xs[i..], ys[j + 1..])
  {
    MergeUnfold(xs[i..], ys[j..]);
    assert ys[j..][1..] == ys[j + 1..];
  }

  /** `merge_pair(res1, cap1, res2, cap2)`: while both arrays have records,
      emit `res1[i]` when `res2[j]` compares greater and `res2[j]`
      otherwise; then copy what is left.  That is the stable merge with
      `res2` as the first argument, so on a tie the `res2` record comes
      first. */
  method MergePair(res1: seq<Record>, res2: seq<Record>) returns (result: seq<Record>)
    ensures result == MergeStable(res2, res1)
  {
    ghost var whole := MergeStable(res2, res1);
    var i, j := 0, 0;
    result := [];
    while i < |res1| && j < |res2|
      invariant i <= |res1| && j <= |res2|
      invariant result + MergeStable(res2[j..], res1[i..]) == whole
      decreases |res1| + |res2| - i - j
    {
      ghost var rest := MergeStable(res2[j..], res1[i..]);
      if RecordsCompare(res2[j], res1[i]) > 0 {
        TakeSecond(res2, j, res1, i);
        Extend(result, res1[i], rest, MergeStable(res2[j..], res1[i + 1..]), whole);
        result := result + [res1[i]];
        i := i + 1;
      } else {
        TakeFirst(res2, j, res1, i);
        Extend(result, res2[j], rest, MergeStable(res2[j + 1..], res1[i..]), whole);
        result := result + [res2[j]];
        j := j + 1;
      }
    }
    while i < |res1|
      invariant i <= |res1| && j <= |res2| && (i < |res1| ==> j == |res2|)
      invariant result + MergeStable(res2[j..], res1[i..]) == whole
      decreases |res1| - i
    {
      ghost var rest := MergeStable(res2[j..], res1[i..]);
      TakeSecond(res2, j, res1, i);
      Extend(result, res1[i], rest, MergeStable(res2[j..], res1[i + 1..]), whole);
      result := result + [res1[i]];
      i := i + 1;
    }
    while j < |res2|
      invariant i == |res1| && j <= |res2|
      invariant result + MergeStable(res2[j..], res1[i..]) == whole
      decreases |res2| - j
    {
      ghost var rest := MergeStable(res2[j..], res1[i..]);
      TakeFirst(res2, j, res1, i);
      Extend(result, res2[j], rest, MergeStable(res2[j + 1..], res1[i..]), whole);
      result := result + [res2[j]];
      j := j + 1;
    }
    assert res2[j..] == [] && res1[i..] == [];
  }

  /** `merge_pair` returns `cap1 + cap2` records forming a permutation of
      both inputs, sorted when both inputs are. */
  lemma MergePairPermutes(res1: seq<Record>, res2: seq<Record>)
    ensures |MergeStable(res2, res1)| == |res1| + |res2|
    ensures multiset(MergeStable(res2, res1)) == multiset(res1) + multiset(res2)
    ensures Sorted(res1) && Sorted(res2) ==> Sorted(MergeStable(res2, res1))
  {
    MergePermutes(res2, res1);
    if Sorted(res1) && Sorted(res2) {
      MergeSorted(res2, res1);
    }
  }

  /** On equal keys `merge_pair` emits the `res2` records ahead of the
      `res1` ones, each side in its own order. */
  lemma MergePairTies(res1: seq<Record>, res2: seq<Record>, k: (string, string, int))
    requires Sorted(res2)
    ensures KeyRun(MergeStable(res2, res1), k) == KeyRun(res2, k) + KeyRun(res1, k)
  {
    MergeKeepsTies(res2, res1, k);
  }

  // ---------------------------------------------------------------------
  // merge_results
  // ---------------------------------------------------------------------

  /** Total number of records over all children. */
  function TotalRecords(rs: seq<seq<Record>>): nat
  {
    if |rs| == 0 then 0 else TotalRecords(rs[..|rs| - 1]) + |rs[|rs| - 1]|
  }

  /** All records over all children, as a multiset. */
  function AllRecords(rs: seq<seq<Record>>): multiset<Record>
  {
    if |rs| == 0 then multiset{} else AllRecords(rs[..|rs| - 1]) + multiset(rs[|rs| - 1])
  }

  /** The records with key `k`, taken child by child from the last child to
      the first. */
  function LaterChildFirst(rs: seq<seq<Record>>, k: (string, string, int)): seq<Record>
  {
    if |rs| == 0 then [] else KeyRun(rs[|rs| - 1], k) + LaterChildFirst(rs[..|rs| - 1], k)
  }

  predicate AllSorted(rs: seq<seq<Record>>)
  {
    forall c :: 0 <= c < |rs| ==> Sorted(rs[c])
  }

  /** `merge_results(records_array, capacities_array, n_children)`: start
      from the first child's records and fold every later child with a
      non-zero capacity in through `merge_pair`.  A child's capacity is the
      length of its sequence.  The result holds every record of every child,
      is sorted when every child's output is, and among records with equal
      keys the later child's come first. */
  method MergeResults(rs: seq<seq<Record>>) returns (r: seq<Record>)
    requires |rs| > 0
    ensures |r| == TotalRecords(rs)
    ensures multiset(r) == AllRecords(rs)
    ensures AllSorted(rs) ==> Sorted(r)
    ensures AllSorted(rs) ==> forall k :: KeyRun(r, k) == LaterChildFirst(rs, k)
  {
    r := rs[0];
    assert rs[..1][..0] == [];
    assert forall k :: LaterChildFirst(rs[..1], k) == KeyRun(rs[0], k) by {
      forall k
        ensures LaterChildFirst(rs[..1], k) == KeyRun(rs[0], k)
      {
        assert LaterChildFirst(rs[..1][..0], k) == [];
      }
    }
    for child := 1 to |rs|
      invariant |r| == TotalRecords(rs[..child])
      invariant multiset(r) == AllRecords(rs[..child])
      invariant AllSorted(rs) ==> Sorted(r)
      invariant AllSorted(rs) ==> forall k :: KeyRun(r, k) == LaterChildFirst(rs[..child], k)
    {
      assert rs[..child + 1][..child] == rs[..child];
      assert rs[..child + 1][child] == rs[child];
      if |rs[child]| == 0 {
        forall k
          ensures KeyRun(rs[child], k) == []
        {
        }
        continue;
      }
      ghost var before := r;
      r := MergePair(r, rs[child]);
      MergePairPermutes(before, rs[child]);
      if AllSorted(rs) {
        forall k
          ensures KeyRun(r, k) == KeyRun(rs[child], k) + KeyRun(before, k)
        {
          MergePairTies(before, rs[child], k);
        }
      }
    }
    assert rs[..|rs|] == rs;
  }

  // ---------------------------------------------------------------------
  // set_child_record_bounds and the loops that call it
  // ---------------------------------------------------------------------

  /** `set_child_record_bounds`: the child starts at `start`; every child
      but the last gets `parent_capacity / n_children` records and the last
      gets what the earlier ones left (`parent_capacity - sum_n_records`).
      Answers (child_start, child_capacity). */
  function SetChildRecordBounds(child: int, start: int, parentCapacity: int, nChildren: int, sumAssigned: int): (r: (int, int))
    requires parentCapacity >= 0 && nChildren > 0
    ensures r.0 == start
    ensures child != nChildren - 1 ==> r.1 * nChildren <= parentCapacity < (r.1 + 1) * nChildren
    ensures child == nChildren - 1 ==> sumAssigned + r.1 == parentCapacity
  {
    (start, if child != nChildren - 1 then parentCapacity / nChildren else parentCapacity - sumAssigned)
  }

  function Sum(xs: seq<int>): int
  {
    if |xs| == 0 then 0 else Sum(xs[..|xs| - 1]) + xs[|xs| - 1]
  }

  /** The children's ranges tile `[start, start + capacity)`: they are
      contiguous (so pairwise disjoint), none is negative, the capacities
      add up to the parent's, every child but the last has `capacity / n`
      records and the last one the remainder on top. */
  ghost predicate Tiles(starts: seq<int>, caps: seq<int>, start: int, capacity: int, n: nat)
  {
    && |starts| == n && |caps| == n && n > 0
    && starts[0] == start
    && (forall c :: 0 <= c < n - 1 ==> starts[c + 1] == starts[c] + caps[c])
    && (forall c :: 0 <= c < n ==> caps[c] >= 0)
    && Sum(caps) == capacity
    && starts[n - 1] + caps[n - 1] == start + capacity
    && (forall c :: 0 <= c < n - 1 ==> caps[c] == capacity / n)
    && caps[n - 1] == capacity / n + capacity % n
  }

  /** The first `child` ranges as the splitting loop has laid them out:
      contiguous from `start`, none negative, all but the last child's of
      length `q`. */
  ghost predicate LaidOut(starts: seq<int>, caps: seq<int>, start: int, q: int, n: nat, child: nat)
  {
    && |starts| == child && |caps| == child
    && (child > 0 ==> starts[0] == start)
    && (forall c :: 0 <= c < child - 1 ==> starts[c + 1] == starts[c] + caps[c])
    && (forall c :: 0 <= c < child && c < n - 1 ==> caps[c] == q)
    && (forall c :: 0 <= c < child ==> caps[c] >= 0)
  }

  lemma LaidOutExtend(starts: seq<int>, caps: seq<int>, start: int, q: int, n: nat, child: nat, next: int, cap: int)
    requires LaidOut(starts, caps, start, q, n, child)
    requires child == 0 ==> next == start
    requires child > 0 ==> next == starts[child - 1] + caps[child - 1]
    requires cap >= 0 && (child < n - 1 ==> cap == q)
    ensures LaidOut(starts + [next], caps + [cap], start, q, n, child + 1)
  {
  }

  /** The splitting loop of `coordinator.c` and `workloader.c`: for each
      child, take its bounds, then advance the start and the running sum of
      assigned records by its capacity.  With no children the loop never
      runs and no record is assigned to anyone. */
  method SplitRange(start: int, capacity: int, n: nat) returns (starts: seq<int>, caps: seq<int>)
    requires capacity >= 0
    ensures n > 0 ==> Tiles(starts, caps, start, capacity, n)
    ensures n == 0 ==> starts == [] && caps == [] && Sum(caps) == 0
  {
    ghost var q := if n > 0 then capacity / n else 0;
    if n > 0 {
      ShareSigns(capacity, n);
    }
    var next := start;
    var nAssigned := 0;
    starts, caps := [], [];
    for child := 0 to n
      invariant LaidOut(starts, caps, start, q, n, child)
      invariant child < n ==> nAssigned == Times(child, q)
      invariant next == start + nAssigned && nAssigned == Sum(caps)
      invariant child > 0 ==> next == starts[child - 1] + caps[child - 1]
      invariant 0 < n == child ==> caps[n - 1] == q + capacity % n && nAssigned == capacity
    {
      var bounds := SetChildRecordBounds(child, next, capacity, n, nAssigned);
      if child == n - 1 {
        LastShare(capacity, n, child);
      }
      LaidOutExtend(starts, caps, start, q, n, child, bounds.0, bounds.1);
      SumAppend(caps, bounds.1);
      starts := starts + [bounds.0];
      caps := caps + [bounds.1];
      next := next + bounds.1;
      nAssigned := nAssigned + bounds.1;
    }
    if n > 0 {
      LaidOutTiles(starts, caps, start, capacity, n);
    }
  }

  /** The loop's layout after the last child is a tiling. */
  lemma LaidOutTiles(starts: seq<int>, caps: seq<int>, start: int, capacity: int, n: nat)
    requires n > 0 && LaidOut(starts, caps, start, capacity / n, n, n)
    requires Sum(caps) == capacity && starts[n - 1] + caps[n - 1] == start + capacity
    requires caps[n - 1] == capacity / n + capacity % n
    ensures Tiles(starts, caps, start, capacity, n)
  {
  }

  lemma ShareFacts(capacity: int, n: nat)
    requires capacity >= 0 && n > 0
    ensures capacity / n >= 0 && capacity % n >= 0
    ensures capacity == n * (capacity / n) + capacity % n
  {
  }

  lemma ShareSigns(capacity: int, n: nat)
    requires capacity >= 0 && n > 0
    ensures capacity / n >= 0 && capacity % n >= 0
  {
  }

  /** `c * q` by repeated addition, so that the loop above does no
      multiplication of two variables. */
  function Times(c: nat, q: int): int
  {
    if c == 0 then 0 else Times(c - 1, q) + q
  }

  lemma {:induction false} TimesIsProduct(c: nat, q: int)
    ensures Times(c, q) == c * q
  {
    if c > 0 {
      TimesIsProduct(c - 1, q);
    }
  }

  lemma LastShare(capacity: int, n: nat, c: nat)
    requires capacity >= 0 && n > 0 && c == n - 1
    ensures capacity - Times(c, capacity / n) == capacity / n + capacity % n
  {
    ShareFacts(capacity, n);
    TimesIsProduct(c, capacity / n);
    assert c * (capacity / n) == n * (capacity / n) - capacity / n;
  }

  lemma SumAppend(xs: seq<int>, x: int)
    ensures Sum(xs + [x]) == Sum(xs) + x
  {
    assert (xs + [x])[..|xs|] == xs;
  }
}

=== FILE: hw1_mergesort.dfy ===
/** `merge_sort` and `merge` of Homework-1.  The array is a sequence value:
    each method returns the array as it is after the call. */
module MergeSort {
  import opened SortRecord
  import opened SortedMerge

  /** `records_compare(A, B) < 0` is "not greater", since the comparator
      only answers 1 or -1. */
  lemma CompareBelowZero(x: Record, y: Record)
    ensures RecordsCompare(x, y) < 0 <==> Le(x, y)
  {
    CompareMeaning(x, y);
  }

  lemma TakeLeft(a: seq<Record>, i: nat, middle: nat, j: nat, right: nat)
    requires i < middle <= j <= right <= |a|
    requires j >= right || Le(a[i], a[j])
    ensures MergeStable(a[i..middle], a[j..right]) == [a[i]] + MergeStable(a[i + 1..middle], a[j..right])
  {
    MergeUnfold(a[i..middle], a[j..right]);
    assert a[i..middle][1..] == a[i + 1..middle];
  }

  lemma TakeRight(a: seq<Record>, i: nat, middle: nat, j: nat, right: nat)
    requires i <= middle <= j < right <= |a|
    requires i >= middle || Gt(a[i], a[j])
    ensures MergeStable(a[i..middle], a[j..right]) == [a[j]] + MergeStable(a[i..middle], a[j + 1..right])
  {
    MergeUnfold(a[i..middle], a[j..right]);
    assert a[j..right][1..] == a[j + 1..right];
  }

  /** `merge`: the slices `[left, middle)` and `[middle, right)` are merged
      into a buffer, taking the left element while it compares below the
      right one, and the buffer is copied back over `[left, right)`. */
  method Merge(a: seq<Record>, left: nat, middle: nat, right: nat) returns (t: seq<Record>)
    requires left <= middle <= right <= |a|
    ensures |t| == |a|
    ensures t == a[..left] + MergeStable(a[left..middle], a[middle..right]) + a[right..]
  {
    ghost var whole := MergeStable(a[left..middle], a[middle..right]);
    var i, j := left, middle;
    var b: seq<Record> := [];
    for k := left to right
      invariant left <= i <= middle <= j <= right
      invariant k - left == (i - left) + (j - middle)
      invariant |b| == k - left
      invariant b + MergeStable(a[i..middle], a[j..right]) == whole
    {
      ghost var rest := MergeStable(a[i..middle], a[j..right]);
      if i < middle && (j >= right || RecordsCompare(a[i], a[j]) < 0) {
        if j < right {
          CompareBelowZero(a[i], a[j]);
        }
        TakeLeft(a, i, middle, j, right);
        Extend(b, a[i], rest, MergeStable(a[i + 1..middle], a[j..right]), whole);
        b := b + [a[i]];
        i := i + 1;
      } else {
        if i < middle {
          CompareBelowZero(a[i], a[j]);
        }
        TakeRight(a, i, middle, j, right);
        Extend(b, a[j], rest, MergeStable(a[i..middle], a[j + 1..right]), whole);
        b := b + [a[j]];
        j := j + 1;
      }
    }
    assert a[i..middle] == [] && a[j..right] == [];
    t := a[..left] + b + a[right..];
  }

  /** What one call guarantees about the slice `[start, finish)` it sorts. */
  ghost predicate SortsSlice(a: seq<Record>, t: seq<Record>, start: nat, finish: nat)
    requires start <= finish <= |a|
  {
    && |t| == |a|
    && t[..start] == a[..start] && t[finish..] == a[finish..]
    && Sorted(t[start..finish])
    && multiset(t[start..finish]) == multiset(a[start..finish])
    && (forall k :: KeyRun(t[start..finish], k) == KeyRun(a[start..finish], k))
  }

  /** `merge_sort(records, start, finish)`: a sorted, stable permutation of
      the slice, nothing outside it touched. */
  method MergeSortSlice(a: seq<Record>, start: nat, finish: nat) returns (t: seq<Record>)
    requires start <= finish <= |a|
    ensures SortsSlice(a, t, start, finish)
    decreases finish - start
  {
    if finish - start <= 1 {
      SortedShort(a[start..finish]);
      return a;
    }
    var mid := (start + finish) / 2;
    var t1 := MergeSortSlice(a, start, mid);
    var t2 := MergeSortSlice(t1, mid, finish);
    t := Merge(t2, start, mid, finish);
    MergeStep(a, t1, t2, t, start, mid, finish);
  }

  lemma SliceWithin(x: seq<Record>, y: seq<Record>, lo: nat, hi: nat, p: nat, q: nat)
    requires p <= lo <= hi <= q <= |x| && q <= |y|
    requires x[p..q] == y[p..q]
    ensures x[lo..hi] == y[lo..hi]
  {
    forall i | lo <= i < hi
      ensures x[i] == y[i]
    {
      assert x[i] == x[p..q][i - p];
      assert y[i] == y[p..q][i - p];
    }
  }

  /** The frame of the two recursive calls and the merge. */
  lemma MergeStepFrame(a: seq<Record>, t1: seq<Record>, t2: seq<Record>, t: seq<Record>, start: nat, mid: nat, finish: nat)
    requires start <= mid <= finish <= |a|
    requires SortsSlice(a, t1, start, mid) && SortsSlice(t1, t2, mid, finish)
    requires t == t2[..start] + MergeStable(t2[start..mid], t2[mid..finish]) + t2[finish..]
    ensures |t| == |a| && t[..start] == a[..start] && t[finish..] == a[finish..]
    ensures t2[start..mid] == t1[start..mid] && t1[mid..finish] == a[mid..finish]
    ensures t[start..finish] == MergeStable(t2[start..mid], t2[mid..finish])
  {
    MergePermutes(t2[start..mid], t2[mid..finish]);
    SliceWithin(t2, t1, start, mid, 0, mid);
    assert t1[mid..|a|] == a[mid..|a|];
    SliceWithin(t1, a, mid, finish, mid, |a|);
    SliceWithin(t2, t1, 0, start, 0, mid);
    SliceWithin(t1, a, 0, start, 0, start);
    assert t2[finish..|a|] == t1[finish..|a|];
    SliceWithin(t1, a, finish, |a|, mid, |a|);
  }

  lemma MergeStep(a: seq<Record>, t1: seq<Record>, t2: seq<Record>, t: seq<Record>, start: nat, mid: nat, finish: nat)
    requires start <= mid <= finish <= |a|
    requires SortsSlice(a, t1, start, mid) && SortsSlice(t1, t2, mid, finish)
    requires t == t2[..start] + MergeStable(t2[start..mid], t2[mid..finish]) + t2[finish..]
    ensures SortsSlice(a, t, start, finish)
  {
    MergeStepFrame(a, t1, t2, t, start, mid, finish);
    var left, right := t2[start..mid], t2[mid..finish];
    MergePermutes(left, right);
    MergeSorted(left, right);
    assert a[start..finish] == a[start..mid] + a[mid..finish];
    forall k
      ensures KeyRun(t[start..finish], k) == KeyRun(a[start..finish], k)
    {
      MergeKeepsTies(left, right, k);
      KeyRunAppend(a[start..mid], a[mid..finish], k);
    }
  }

  /** `merge_sort(records, 0, capacity)`: the coordinator's call sorts the
      whole array stably. */
  method SortRecords(a: seq<Record>) returns (t: seq<Record>)
    ensures Sorted(t) && multiset(t) == multiset(a)
    ensures forall k :: KeyRun(t, k) == KeyRun(a, k)
  {
    t := MergeSortSlice(a, 0, |a|);
    assert t[0..|a|] == t && a[0..|a|] == a;
  }
}

=== FILE: hw1_record.dfy ===
/** The record of Homework-1 and its comparison and swap. */
module SortRecord {

  /** `record`: the fixed-size character arrays are modelled as strings
      without a terminating NUL. */
  datatype Record = Record(id: int, surname: string, name: string, postalCode: string)

  /** Sign of C `strcmp` on NUL-free strings: the first differing character
      decides, and a proper prefix is smaller. */
  function StrCmp(a: string, b: string): (r: int)
    ensures r == -1 || r == 0 || r == 1
  {
    if |a| == 0 && |b| == 0 then 0
    else if |a| == 0 then -1
    else if |b| == 0 then 1
    else if a[0] < b[0] then -1
    else if a[0] > b[0] then 1
    else StrCmp(a[1..], b[1..])
  }

  /** Lexicographic "less than" stated independently of `StrCmp`. */
  predicate StrLess(a: string, b: string)
  {
    (|a| < |b| && a == b[..|a|]) ||
    exists k :: 0 <= k < |a| && k < |b| && a[..k] == b[..k] && a[k] < b[k]
  }

  lemma {:induction false} StrCmpMeaning(a: string, b: string)
    ensures StrCmp(a, b) == 0 <==> a == b
    ensures StrCmp(a, b) < 0 <==> StrLess(a, b)
  {
    if |a| > 0 && |b| > 0 {
      if a[0] < b[0] {
        assert a[..0] == b[..0];
      } else if a[0] > b[0] {
        if StrLess(a, b) {
          var k :| 0 <= k < |a| && k < |b| && a[..k] == b[..k] && a[k] < b[k];
          assert false;
        }
      } else {
        StrCmpMeaning(a[1..], b[1..]);
        if a[1..] == b[1..] {
          assert a == [a[0]] + a[1..] && b == [b[0]] + b[1..];
        }
        if StrLess(a[1..], b[1..]) {
          if |a[1..]| < |b[1..]| && a[1..] == b[1..][..|a[1..]|] {
            assert a == b[..|a|];
          } else {
            var k :| 0 <= k < |a[1..]| && k < |b[1..]| && a[1..][..k] == b[1..][..k] && a[1..][k] < b[1..][k];
            assert a[..k + 1] == [a[0]] + a[1..][..k];
            assert b[..k + 1] == [b[0]] + b[1..][..k];
          }
        }
        if StrLess(a, b) {
          if |a| < |b| && a == b[..|a|] {
            assert a[1..] == b[1..][..|a[1..]|];
          } else {
            var k :| 0 <= k < |a| && k < |b| && a[..k] == b[..k] && a[k] < b[k];
            if k == 0 {
              assert false;
            }
            assert a[1..][..k - 1] == a[..k][1..] == b[..k][1..] == b[1..][..k - 1];
            assert a[1..][k - 1] < b[1..][k - 1];
          }
        }
      }
    } else if |a| == 0 && |b| > 0 {
      assert a == b[..0];
    }
  }

  lemma {:induction false} StrCmpAntisymmetric(a: string, b: string)
    ensures StrCmp(a, b) == -StrCmp(b, a)
  {
    if |a| > 0 && |b| > 0 && a[0] == b[0] {
      StrCmpAntisymmetric(a[1..], b[1..]);
    }
  }

  lemma {:induction false} StrCmpTransitive(a: string, b: string, c: string)
    requires StrCmp(a, b) > 0 && StrCmp(b, c) > 0
    ensures StrCmp(a, c) > 0
  {
    if |a| > 0 && |b| > 0 && |c| > 0 && a[0] == b[0] && b[0] == c[0] {
      StrCmpTransitive(a[1..], b[1..], c[1..]);
    }
  }

  /** `records_compare`: 1 when A is greater than B in (surname, name, id)
      order, -1 otherwise, equal keys included. */
  function RecordsCompare(a: Record, b: Record): int
  {
    if StrCmp(a.surname, b.surname) > 0 then 1
    else if StrCmp(a.surname, b.surname) == 0 && StrCmp(a.name, b.name) > 0 then 1
    else if StrCmp(a.surname, b.surname) == 0 && StrCmp(a.name, b.name) == 0 && a.id > b.id then 1
    else -1
  }

  /** The sort key. */
  function Key(r: Record): (string, string, int)
  {
    (r.surname, r.name, r.id)
  }

  /** Lexicographic order on keys, from `StrLess`. */
  predicate KeyGreater(a: Record, b: Record)
  {
    StrLess(b.surname, a.surname) ||
    (a.surname == b.surname && (StrLess(b.name, a.name) || (a.name == b.name && a.id > b.id)))
  }

  /** The comparator answers 1 exactly for a greater key and -1 otherwise;
      it never answers 0. */
  lemma CompareMeaning(a: Record, b: Record)
    ensures RecordsCompare(a, b) == 1 <==> KeyGreater(a, b)
    ensures RecordsCompare(a, b) == 1 || RecordsCompare(a, b) == -1
  {
    StrCmpMeaning(b.surname, a.surname);
    StrCmpMeaning(b.name, a.name);
    StrCmpAntisymmetric(a.surname, b.surname);
    StrCmpAntisymmetric(a.name, b.name);
  }

  /** `records_compare(A, B) > 0`, the only way the sorts use it. */
  predicate Gt(a: Record, b: Record)
  {
    RecordsCompare(a, b) > 0
  }

  /** Not greater: the order the sorts produce. */
  predicate Le(a: Record, b: Record)
  {
    !Gt(a, b)
  }

  /** Distinct keys give opposite answers; equal keys give -1 both ways. */
  lemma CompareAntisymmetric(a: Record, b: Record)
    ensures Key(a) != Key(b) ==> RecordsCompare(a, b) == -RecordsCompare(b, a)
    ensures Key(a) == Key(b) ==> RecordsCompare(a, b) == -1 && RecordsCompare(b, a) == -1
  {
    StrCmpAntisymmetric(a.surname, b.surname);
    StrCmpAntisymmetric(a.name, b.name);
    StrCmpMeaning(a.surname, b.surname);
    StrCmpMeaning(a.name, b.name);
  }

  lemma GtTransitive(a: Record, b: Record, c: Record)
    requires Gt(a, b) && Gt(b, c)
    ensures Gt(a, c)
  {
    StrCmpMeaning(a.surname, b.surname);
    StrCmpMeaning(b.surname, c.surname);
    StrCmpMeaning(a.name, b.name);
    StrCmpMeaning(b.name, c.name);
    if StrCmp(a.surname, b.surname) > 0 && StrCmp(b.surname, c.surname) > 0 {
      StrCmpTransitive(a.surname, b.surname, c.surname);
    }
    if StrCmp(a.name, b.name) > 0 && StrCmp(b.name, c.name) > 0 {
      StrCmpTransitive(a.name, b.name, c.name);
    }
  }

  /** `Gt` is a strict total order on keys: irreflexive, and between
      records with different keys exactly one direction holds. */
  lemma GtStrictTotal(a: Record, b: Record)
    ensures !Gt(a, a)
    ensures Key(a) != Key(b) <==> (Gt(a, b) || Gt(b, a))
    ensures !(Gt(a, b) && Gt(b, a))
  {
    CompareAntisymmetric(a, b);
    CompareAntisymmetric(a, a);
  }

  lemma LeTotal(a: Record, b: Record)
    ensures Le(a, b) || Le(b, a)
  {
    GtStrictTotal(a, b);
  }

  lemma LeTransitive(a: Record, b: Record, c: Record)
    requires Le(a, b) && Le(b, c)
    ensures Le(a, c)
  {
    if Gt(a, c) {
      GtStrictTotal(b, c);
      CompareAntisymmetric(a, b);
      CompareAntisymmetric(a, c);
      if Gt(c, b) {
        GtTransitive(a, c, b);
      }
    }
  }

  /** Whatever is not below `a` is above everything `a` is above. */
  lemma GtLeTransitive(a: Record, b: Record, c: Record)
    requires Le(a, b) && Gt(a, c)
    ensures Gt(b, c)
  {
    if !Gt(b, c) {
      LeTransitive(a, b, c);
    }
  }

  /** `records_swap` on positions of a sequence. */
  function Swap(s: seq<Record>, i: nat, j: nat): (t: seq<Record>)
    requires i < |s| && j < |s|
    ensures |t| == |s| && t[i] == s[j] && t[j] == s[i]
    ensures forall k :: 0 <= k < |s| && k != i && k != j ==> t[k] == s[k]
    ensures multiset(t) == multiset(s)
  {
    s[i := s[j]][j := s[i]]
  }

  /** Swapping twice restores the sequence. */
  lemma SwapTwice(s: seq<Record>, i: nat, j: nat)
    requires i < |s| && j < |s|
    ensures Swap(Swap(s, i, j), i, j) == s
  {
  }
}

=== FILE: hw1_sorted.dfy ===
/** Sortedness and the stable two-way merge that the Homework-1 sorts and
    the merging of child results are measured against. */
module SortedMerge {
  import opened SortRecord

  /** Non-decreasing under `records_compare`. */
  predicate Sorted(s: seq<Record>)
  {
    forall i, j :: 0 <= i < j < |s| ==> Le(s[i], s[j])
  }

  /** Every element of `s` is at least `x`. */
  predicate AllAbove(x: Record, s: seq<Record>)
  {
    forall k :: 0 <= k < |s| ==> Le(x, s[k])
  }

  /** The stable merge: on a tie the element of `xs` comes first. */
  function MergeStable(xs: seq<Record>, ys: seq<Record>): seq<Record>
    decreases |xs| + |ys|
  {
    if |xs| == 0 then ys
    else if |ys| == 0 then xs
    else if Le(xs[0], ys[0]) then [xs[0]] + MergeStable(xs[1..], ys)
    else [ys[0]] + MergeStable(xs, ys[1..])
  }

  /** The records of `s` whose key is `k`, in order. */
  function KeyRun(s: seq<Record>, k: (string, string, int)): seq<Record>
  {
    if |s| == 0 then [] else (if Key(s[0]) == k then [s[0]] else []) + KeyRun(s[1..], k)
  }

  /** One step of the merge, whichever side is empty. */
  lemma MergeUnfold(xs: seq<Record>, ys: seq<Record>)
    ensures |xs| > 0 && (|ys| == 0 || Le(xs[0], ys[0])) ==>
      MergeStable(xs, ys) == [xs[0]] + MergeStable(xs[1..], ys)
    ensures |ys| > 0 && (|xs| == 0 || Gt(xs[0], ys[0])) ==>
      MergeStable(xs, ys) == [ys[0]] + MergeStable(xs, ys[1..])
  {
    if |xs| > 0 && |ys| == 0 {
      assert xs == [xs[0]] + xs[1..];
    }
    if |ys| > 0 && |xs| == 0 {
      assert ys == [ys[0]] + ys[1..];
    }
  }

  lemma {:induction false} MergePermutes(xs: seq<Record>, ys: seq<Record>)
    ensures |MergeStable(xs, ys)| == |xs| + |ys|
    ensures multiset(MergeStable(xs, ys)) == multiset(xs) + multiset(ys)
    decreases |xs| + |ys|
  {
    if |xs| > 0 && |ys| > 0 {
      if Le(xs[0], ys[0]) {
        MergePermutes(xs[1..], ys);
        assert xs == [xs[0]] + xs[1..];
      } else {
        MergePermutes(xs, ys[1..]);
        assert ys == [ys[0]] + ys[1..];
      }
    }
  }

  lemma AllAboveByMultiset(x: Record, s: seq<Record>, a: seq<Record>, b: seq<Record>)
    requires multiset(s) == multiset(a) + multiset(b)
    requires AllAbove(x, a) && AllAbove(x, b)
    ensures AllAbove(x, s)
  {
    forall k | 0 <= k < |s|
      ensures Le(x, s[k])
    {
      assert s[k] in multiset(s);
      if s[k] in multiset(a) {
        var i :| 0 <= i < |a| && a[i] == s[k];
      } else {
        assert s[k] in multiset(b);
        var i :| 0 <= i < |b| && b[i] == s[k];
      }
    }
  }

  lemma SortedCons(x: Record, s: seq<Record>)
    requires Sorted(s) && AllAbove(x, s)
    ensures Sorted([x] + s)
  {
    var t := [x] + s;
    forall i, j | 0 <= i < j < |t|
      ensures Le(t[i], t[j])
    {
      if i > 0 {
        assert t[i] == s[i - 1] && t[j] == s[j - 1];
      }
    }
  }

  /** Merging two sorted sequences gives a sorted sequence. */
  lemma {:induction false} MergeSorted(xs: seq<Record>, ys: seq<Record>)
    requires Sorted(xs) && Sorted(ys)
    ensures Sorted(MergeStable(xs, ys))
    decreases |xs| + |ys|
  {
    if |xs| > 0 && |ys| > 0 {
      var x, y := xs[0], ys[0];
      if Le(x, y) {
        var m := MergeStable(xs[1..], ys);
        MergeSorted(xs[1..], ys);
        MergePermutes(xs[1..], ys);
        forall k | 0 <= k < |ys|
          ensures Le(x, ys[k])
        {
          if k > 0 {
            LeTransitive(x, y, ys[k]);
          }
        }
        AllAboveByMultiset(x, m, xs[1..], ys);
        SortedCons(x, m);
      } else {
        var m := MergeStable(xs, ys[1..]);
        MergeSorted(xs, ys[1..]);
        MergePermutes(xs, ys[1..]);
        GtStrictTotal(x, y);
        forall k | 0 <= k < |xs|
          ensures Le(y, xs[k])
        {
          if k > 0 {
            LeTransitive(y, x, xs[k]);
          }
        }
        AllAboveByMultiset(y, m, xs, ys[1..]);
        SortedCons(y, m);
      }
    }
  }

  lemma {:induction false} KeyRunAppend(a: seq<Record>, b: seq<Record>, k: (string, string, int))
    ensures KeyRun(a + b, k) == KeyRun(a, k) + KeyRun(b, k)
  {
    if |a| > 0 {
      assert (a + b)[1..] == a[1..] + b;
      KeyRunAppend(a[1..], b, k);
    } else {
      assert a + b == b;
    }
  }

  lemma {:induction false} KeyRunAbsent(s: seq<Record>, k: (string, string, int))
    requires forall i :: 0 <= i < |s| ==> Key(s[i]) != k
    ensures KeyRun(s, k) == []
  {
    if |s| > 0 {
      KeyRunAbsent(s[1..], k);
    }
  }

  /** Stability: for every key, the merged records with that key are those
      of `xs` followed by those of `ys`, each in their original order. */
  lemma {:induction false} MergeKeepsTies(xs: seq<Record>, ys: seq<Record>, k: (string, string, int))
    requires Sorted(xs)
    ensures KeyRun(MergeStable(xs, ys), k) == KeyRun(xs, k) + KeyRun(ys, k)
    decreases |xs| + |ys|
  {
    if |xs| == 0 {
      assert KeyRun(xs, k) == [];
    } else if |ys| == 0 {
      assert KeyRun(ys, k) == [];
    } else {
      var x, y := xs[0], ys[0];
      if Le(x, y) {
        MergeKeepsTies(xs[1..], ys, k);
        assert xs == [x] + xs[1..];
        KeyRunAppend([x], xs[1..], k);
        KeyRunAppend([x], MergeStable(xs[1..], ys), k);
      } else {
        MergeKeepsTies(xs, ys[1..], k);
        assert ys == [y] + ys[1..];
        KeyRunAppend([y], ys[1..], k);
        KeyRunAppend([y], MergeStable(xs, ys[1..]), k);
        if Key(y) == k {
          forall i | 0 <= i < |xs|
            ensures Key(xs[i]) != k
          {
            if i > 0 {
              GtLeTransitive(x, xs[i], y);
            }
            GtStrictTotal(xs[i], y);
          }
          KeyRunAbsent(xs, k);
        } else {
          assert KeyRun([y], k) == [];
        }
      }
    }
  }

  /** Moving the head of the unmerged rest onto the output keeps
      `output + rest` equal to the whole merge. */
  lemma Extend(b: seq<Record>, x: Record, rest: seq<Record>, rest': seq<Record>, whole: seq<Record>)
    requires b + rest == whole && rest == [x] + rest'
    ensures (b + [x]) + rest' == whole
  {
  }

  lemma SortedShort(s: seq<Record>)
    requires |s| <= 1
    ensures Sorted(s)
  {
  }
}

=== FILE: hw2_args.dfy ===
/** Command-line handling of the Homework-2 reader and writer.

    `argv` is a sequence of strings with the program name at position 0,
    so `argc` is `|argv|`.  A C `exit(EXIT_FAILURE)` becomes an `Err`; an
    output variable that no flag assigns stays `None` (in C it is left
    uninitialised). */
module WorkerArgs {
  import opened Wrappers
  import opened Numerals

  /** MAX_TOTAL_ARGS of reader.c and TOTAL_ARGS of writer.c. */
  const READER_MAX_ARGS: nat := 11
  const WRITER_ARGS: nat := 11

  datatype ArgError =
    | WrongArgCount
    | MissingValue(flag: char)
    | BadNumber(flag: char)
    | Unrecognised(arg: string)
    | ReadPastEnd   // `argv[argc]` (a NULL pointer) handed to `strcmp`

  /** `validNumberOfArgs`. */
  predicate ValidNumberOfArgs(argc: int, totalArgs: int)
  {
    argc == totalArgs
  }

  /** `str_init`: the cursor `i` is on the flag; on success the value is the
      next argument and the cursor moves onto it. */
  function StrInit(argv: seq<string>, i: nat, flag: char): (r: Result<(string, nat), ArgError>)
    ensures r.Ok? <==> i + 1 < |argv|
    ensures r.Ok? ==> r.value.1 == i + 1 && r.value.0 == argv[i + 1]
  {
    if i + 1 >= |argv| then Err(MissingValue(flag)) else Ok((argv[i + 1], i + 1))
  }

  /** `num_init`: the next argument must pass `isValidInteger(_, option)`;
      its `atoi` value is stored and the cursor moves onto it.  Option 0
      yields a value >= 0 and option 1 a value >= 1. */
  function NumInit(argv: seq<string>, i: nat, option: int, flag: char): (r: Result<(int, nat), ArgError>)
    ensures r.Ok? <==> i + 1 < |argv| && IsValidInteger(argv[i + 1], option)
    ensures r.Ok? ==> r.value.1 == i + 1 && r.value.0 == Atoi(argv[i + 1])
    ensures r.Ok? && (option == 0 || option == 1) ==> r.value.0 >= option
  {
    if i + 1 >= |argv| then Err(MissingValue(flag))
    else if !IsValidInteger(argv[i + 1], option) then Err(BadNumber(flag))
    else
      AcceptedValueBound(argv[i + 1], option);
      Ok((Atoi(argv[i + 1]), i + 1))
  }

  lemma AcceptedValueBound(s: string, option: int)
    requires IsValidInteger(s, option)
    ensures option == 0 || option == 1 ==> Atoi(s) >= option
  {
    if option == 0 || option == 1 {
      ValidIntegerValue(s, option);
    }
  }

  // ---------------------------------------------------------------------
  // reader_args_init
  // ---------------------------------------------------------------------

  datatype ReaderArgs = ReaderArgs(
    fileName: Option<string>,
    recStart: Option<int>,
    recFinish: Option<int>,
    maxTime: Option<int>,
    shmPath: Option<string>)

  const NoReaderArgs := ReaderArgs(None, None, None, None, None)

  /** What the `-l` parser does when the start value is the last argument:
      the source compares `argv[argc]` with "," (`AsWritten`); the corrected
      parser treats it as a range without a `, finish` part (`Guarded`). */
  datatype Lookahead = AsWritten | Guarded

  /** The `-l start [, finish]` branch: 0-based start and finish and the
      cursor on the last argument consumed. */
  function RangeFlag(argv: seq<string>, i: nat, mode: Lookahead): (r: Result<(int, int, nat), ArgError>)
    ensures r.Ok? ==> i + 1 < |argv| && r.value.0 == Atoi(argv[i + 1]) - 1 >= 0
    ensures r.Ok? ==> r.value.1 >= 0 && i + 1 <= r.value.2 < |argv|
    ensures r.Ok? && r.value.2 == i + 1 ==> r.value.1 == r.value.0
    ensures r.Ok? && r.value.1 != r.value.0 ==>
      r.value.2 == i + 3 && argv[i + 2] == "," && r.value.1 == Atoi(argv[i + 3]) - 1 > 0
  {
    match NumInit(argv, i, 1, 'l')
    case Err(e) => Err(e)
    case Ok((v, j)) =>
      var start := v - 1;
      if j + 1 >= |argv| then
        (if mode == AsWritten then Err(ReadPastEnd) else Ok((start, start, j)))
      else if argv[j + 1] == "," then
        (match NumInit(argv, j + 1, 1, 'l')
         case Err(e) => Err(e)
         case Ok((w, k)) =>
           var finish := w - 1;
           Ok((start, if finish == 0 || finish == start then start else finish, k)))
      else Ok((start, start, j))
  }

  /** What every successful reader parse guarantees about its outputs. */
  predicate ReaderOutputsOk(a: ReaderArgs)
  {
    && (a.recStart.Some? <==> a.recFinish.Some?)
    && (a.recStart.Some? ==> a.recStart.value >= 0 && a.recFinish.value >= 0)
    && (a.maxTime.Some? ==> a.maxTime.value >= 0)
  }

  /** The flag loop of `reader_args_init` from cursor `i`. */
  function ReaderLoop(argv: seq<string>, i: nat, acc: ReaderArgs, mode: Lookahead): (r: Result<ReaderArgs, ArgError>)
    ensures ReaderOutputsOk(acc) && r.Ok? ==> ReaderOutputsOk(r.value)
    ensures r.Err? ==> r.error != WrongArgCount
    decreases |argv| - i
  {
    if i >= |argv| then Ok(acc)
    else if argv[i] == "-f" then
      match StrInit(argv, i, 'f')
      case Err(e) => Err(e)
      case Ok((s, j)) => ReaderLoop(argv, j + 1, acc.(fileName := Some(s)), mode)
    else if argv[i] == "-l" then
      match RangeFlag(argv, i, mode)
      case Err(e) => Err(e)
      case Ok((start, finish, j)) =>
        ReaderLoop(argv, j + 1, acc.(recStart := Some(start), recFinish := Some(finish)), mode)
    else if argv[i] == "-d" then
      match NumInit(argv, i, 0, 'd')
      case Err(e) => Err(e)
      case Ok((t, j)) => ReaderLoop(argv, j + 1, acc.(maxTime := Some(t)), mode)
    else if argv[i] == "-s" then
      match StrInit(argv, i, 's')
      case Err(e) => Err(e)
      case Ok((s, j)) => ReaderLoop(argv, j + 1, acc.(shmPath := Some(s)), mode)
    else Err(Unrecognised(argv[i]))
  }

  /** `reader_args_init` with the given treatment of the `-l` lookahead:
      `max_n_args` or `max_n_args - 2` arguments, then the flag loop. */
  function ReaderArgsWith(argv: seq<string>, mode: Lookahead): Result<ReaderArgs, ArgError>
  {
    if !ValidNumberOfArgs(|argv|, READER_MAX_ARGS) && !ValidNumberOfArgs(|argv|, READER_MAX_ARGS - 2) then
      Err(WrongArgCount)
    else ReaderLoop(argv, 1, NoReaderArgs, mode)
  }

  /** The parser as the source writes it. */
  function ReaderArgsAsWritten(argv: seq<string>): Result<ReaderArgs, ArgError>
  {
    ReaderArgsWith(argv, AsWritten)
  }

  /** The parser with the lookahead guarded. */
  function ReaderArgsInit(argv: seq<string>): Result<ReaderArgs, ArgError>
  {
    ReaderArgsWith(argv, Guarded)
  }

  /** The argument count is refused exactly when it is neither 11 nor 9, and
      an accepted line gives non-negative 0-based records and delay. */
  lemma ReaderArgsContract(argv: seq<string>, mode: Lookahead)
    ensures ReaderArgsWith(argv, mode) == Err(WrongArgCount) <==> |argv| != 11 && |argv| != 9
    ensures ReaderArgsWith(argv, mode).Ok? ==> ReaderOutputsOk(ReaderArgsWith(argv, mode).value)
  {
  }

  /** Guarding the lookahead changes nothing on any line the source handles:
      the two parsers differ only where the source reads past `argv`. */
  lemma {:induction false} ReaderLoopGuardAgrees(argv: seq<string>, i: nat, acc: ReaderArgs)
    ensures ReaderLoop(argv, i, acc, AsWritten).Ok? ==>
      ReaderLoop(argv, i, acc, Guarded) == ReaderLoop(argv, i, acc, AsWritten)
    ensures ReaderLoop(argv, i, acc, AsWritten) != ReaderLoop(argv, i, acc, Guarded) ==>
      ReaderLoop(argv, i, acc, AsWritten) == Err(ReadPastEnd)
    decreases |argv| - i
  {
    if i < |argv| {
      if argv[i] == "-f" || argv[i] == "-s" {
        if i + 1 < |argv| {
          var acc' := if argv[i] == "-f" then acc.(fileName := Some(argv[i + 1])) else acc.(shmPath := Some(argv[i + 1]));
          ReaderLoopGuardAgrees(argv, i + 2, acc');
        }
      } else if argv[i] == "-l" {
        var a := RangeFlag(argv, i, AsWritten);
        var g := RangeFlag(argv, i, Guarded);
        if a.Ok? {
          assert g == a;
          ReaderLoopGuardAgrees(argv, a.value.2 + 1, acc.(recStart := Some(a.value.0), recFinish := Some(a.value.1)));
        }
      } else if argv[i] == "-d" {
        var n := NumInit(argv, i, 0, 'd');
        if n.Ok? {
          ReaderLoopGuardAgrees(argv, i + 2, acc.(maxTime := Some(n.value.0)));
        }
      }
    }
  }

  /** The defect: with `-l N` last on a 9-argument line the source hands
      `argv[9]`, a NULL pointer, to `strcmp`; the guarded parser reads the
      single record N. */
  lemma ReaderLookaheadPastEnd()
    ensures var argv := ["reader", "-f", "a", "-d", "1", "-s", "x", "-l", "5"];
      && ReaderArgsAsWritten(argv) == Err(ReadPastEnd)
      && ReaderArgsInit(argv) == Ok(ReaderArgs(Some("a"), Some(4), Some(4), Some(1), Some("x")))
  {
    var argv := ["reader", "-f", "a", "-d", "1", "-s", "x", "-l", "5"];
    NumeralExamples();
    assert NumInit(argv, 3, 0, 'd') == Ok((1, 4));
    assert NumInit(argv, 7, 1, 'l') == Ok((5, 8));
    assert RangeFlag(argv, 7, AsWritten) == Err(ReadPastEnd);
    assert RangeFlag(argv, 7, Guarded) == Ok((4, 4, 8));
  }

  /** The single-digit numerals the examples use. */
  lemma NumeralExamples()
    ensures IsValidInteger("1", 0) && Atoi("1") == 1
    ensures IsValidInteger("5", 1) && Atoi("5") == 5
  {
    SingleDigit('1');
    SingleDigit('5');
  }

  /** `reader_capacity_init`: the number of records in `[start, finish]`;
      None where the source's `assert(capacity > 0)` fails. */
  function ReaderCapacityInit(finish: int, start: int): (r: Option<int>)
    ensures r.Some? <==> finish >= start
    ensures r.Some? ==> r.value == finish - start + 1 && r.value >= 1
  {
    var capacity := if finish != start then finish - start + 1 else 1;
    if capacity > 0 then Some(capacity) else None
  }

  // ---------------------------------------------------------------------
  // writer_args_init
  // ---------------------------------------------------------------------

  datatype WriterArgs = WriterArgs(
    fileName: Option<string>,
    recId: Option<int>,
    value: Option<int>,
    maxTime: Option<int>,
    shmPath: Option<string>)

  const NoWriterArgs := WriterArgs(None, None, None, None, None)

  predicate WriterOutputsOk(a: WriterArgs)
  {
    && (a.recId.Some? ==> a.recId.value >= 0)
    && (a.maxTime.Some? ==> a.maxTime.value >= 0)
  }

  /** The flag loop of `writer_args_init` from cursor `i`. */
  function WriterLoop(argv: seq<string>, i: nat, acc: WriterArgs): (r: Result<WriterArgs, ArgError>)
    ensures WriterOutputsOk(acc) && r.Ok? ==> WriterOutputsOk(r.value)
    ensures r.Err? ==> r.error != WrongArgCount && r.error != ReadPastEnd
    decreases |argv| - i
  {
    if i >= |argv| then Ok(acc)
    else if argv[i] == "-f" then
      match StrInit(argv, i, 'f')
      case Err(e) => Err(e)
      case Ok((s, j)) => WriterLoop(argv, j + 1, acc.(fileName := Some(s)))
    else if argv[i] == "-l" then
      match NumInit(argv, i, 1, 'l')
      case Err(e) => Err(e)
      case Ok((v, j)) => WriterLoop(argv, j + 1, acc.(recId := Some(v - 1)))
    else if argv[i] == "-d" then
      match NumInit(argv, i, 0, 'd')
      case Err(e) => Err(e)
      case Ok((t, j)) => WriterLoop(argv, j + 1, acc.(maxTime := Some(t)))
    else if argv[i] == "-v" then
      match NumInit(argv, i, -1, 'v')
      case Err(e) => Err(e)
      case Ok((v, j)) => WriterLoop(argv, j + 1, acc.(value := Some(v)))
    else if argv[i] == "-s" then
      match StrInit(argv, i, 's')
      case Err(e) => Err(e)
      case Ok((s, j)) => WriterLoop(argv, j + 1, acc.(shmPath := Some(s)))
    else Err(Unrecognised(argv[i]))
  }

  /** `writer_args_init`. */
  function WriterArgsInit(argv: seq<string>): Result<WriterArgs, ArgError>
  {
    if !ValidNumberOfArgs(|argv|, WRITER_ARGS) then Err(WrongArgCount)
    else WriterLoop(argv, 1, NoWriterArgs)
  }

  /** Exactly 11 arguments are accepted; a successful parse gives a
      non-negative 0-based record id and a non-negative delay. */
  lemma WriterArgsContract(argv: seq<string>)
    ensures WriterArgsInit(argv) == Err(WrongArgCount) <==> |argv| != WRITER_ARGS
    ensures WriterArgsInit(argv).Ok? ==> WriterOutputsOk(WriterArgsInit(argv).value)
  {
  }

  /** An argument in flag position that is none of -f -l -d -v -s stops the
      parse with that argument. */
  lemma WriterRejectsUnknownFlag(argv: seq<string>, i: nat, acc: WriterArgs)
    requires i < |argv|
    requires argv[i] !in ["-f", "-l", "-d", "-v", "-s"]
    ensures WriterLoop(argv, i, acc) == Err(Unrecognised(argv[i]))
  {
    assert argv[i] != "-f" && argv[i] != "-l" && argv[i] != "-d" && argv[i] != "-v" && argv[i] != "-s";
  }

  /** `-v` takes any integer, a negative one included: "-" followed by
      digits is accepted and read as the negated numeral. */
  lemma WriterValueMayBeNegative(argv: seq<string>, i: nat, digits: string)
    requires i + 1 < |argv| && |digits| > 0 && AllDigits(digits)
    requires argv[i + 1] == "-" + digits
    ensures NumInit(argv, i, -1, 'v') == Ok((-(DigitsValue(digits) as int), i + 1))
  {
    ValidIntegerShape(argv[i + 1]);
    assert argv[i + 1][1..] == digits;
    AtoiOfSignedNumeral('-', digits);
  }
}

=== FILE: hw2_race.dfy ===
/** The entry of `check_range_and_lock` in the order the source runs it.

    Registration and the entry scan run under the mutex.  The caller,
    however, reads its own `blocked_by` only after posting the mutex, and
    `init_proc_info` never resets a cell's `waiting_sem`.  So an exit that
    lands in that window can lower the count to 0 and post the semaphore,
    and the caller then skips `sem_wait`.  The post stays on the cell, and
    the next occupant of the cell passes its `sem_wait` even though an
    older conflicting writer is running.

    `SlotTable.Lock` decides the wait while still holding the mutex, which
    is the corrected entry; this module models the entry as written and
    exhibits a run that ends with two conflicting writers running. */
module SlotRace {
  import opened Wrappers
  import opened SlotTable

  /** The table and the workers, plus the cells whose occupant has posted
      the mutex but has not yet read its `blocked_by`. */
  datatype Racy = Racy(sys: System, pending: set<nat>)

  function RacyInit(nChildren: int): Racy
  {
    Racy(Init(nChildren), {})
  }

  /** `check_range_and_lock` up to `sem_post(&mutex)`: the caller registers
      in the lowest free cell and counts its blockers, but has not yet
      looked at the count. */
  function Register(w: Racy, pid: int, procType: ProcType, wanted: Range): Result<(Racy, nat), Abort>
    requires w.sys.holders > 0
    requires procType == Reader || procType == Writer
    requires wanted.start > -1 && wanted.finish > -1 && ValidRange(wanted)
  {
    match InitIndex(w.sys.shm.cells)
    case None => Err(TableFull)
    case Some(n) =>
      var shm := w.sys.shm;
      var cells' := EnterCells(shm.cells, n, pid, procType, wanted, shm.ticketNumber);
      var shm' := shm.(cells := cells', ticketNumber := shm.ticketNumber - 1);
      Ok((Racy(System(shm', w.sys.holders - 1, w.sys.running), w.pending + {n}), n))
  }

  /** The test `caller->blocked_by > 0` after the mutex is posted: a
      positive count sends the caller into `sem_wait`, where it stays until
      its semaphore holds a post; a count of 0 lets it run at once and
      leaves whatever the semaphore holds in place. */
  function Decide(w: Racy, i: nat): Racy
    requires i in w.pending && i < |w.sys.shm.cells|
  {
    if w.sys.shm.cells[i].blockedBy > 0 then w.(pending := w.pending - {i})
    else Racy(w.sys.(running := w.sys.running + {i}), w.pending - {i})
  }

  /** Registering and then reading the count with no other worker in
      between is exactly the corrected entry `SlotTable.Lock`: the same
      cell, the same table, and the caller runs exactly when it has no
      blocker. */
  lemma RegisterThenDecide(w: Racy, pid: int, procType: ProcType, wanted: Range)
    requires w.sys.holders > 0
    requires procType == Reader || procType == Writer
    requires wanted.start > -1 && wanted.finish > -1 && ValidRange(wanted)
    ensures Register(w, pid, procType, wanted).Ok? == Lock(w.sys, pid, procType, wanted).Ok?
    ensures Register(w, pid, procType, wanted).Ok? ==>
      var (w1, n) := Register(w, pid, procType, wanted).value;
      var e := Lock(w.sys, pid, procType, wanted).value;
      && n == e.index
      && Decide(w1, n).sys == e.sys
      && Decide(w1, n).pending == w.pending - {n}
  {
  }

  /** One worker action in the source's order. */
  datatype RacyStep =
    | RAdmit
    | RRegister(pid: int, procType: ProcType, wanted: Range)
    | RDecide(i: nat)
    | RResume(i: nat)
    | RUnlock(x: nat, capacity: int)
    | RLeave

  /** The step's effect, or None when it cannot happen in this state.  A
      sleeper is a live cell whose occupant is neither running nor about to
      read its count; it resumes once its semaphore holds a post. */
  function RacyApply(w: Racy, st: RacyStep): Option<Racy>
  {
    var c := w.sys.shm.cells;
    match st
    case RAdmit =>
      if w.sys.shm.concProc > 0 then Some(w.(sys := Admit(w.sys))) else None
    case RRegister(pid, procType, wanted) =>
      if w.sys.holders > 0 && (procType == Reader || procType == Writer)
         && wanted.start > -1 && wanted.finish > -1 && ValidRange(wanted)
      then
        match Register(w, pid, procType, wanted)
        case Ok(p) => Some(p.0)
        case Err(_) => None
      else None
    case RDecide(i) =>
      if i in w.pending && i < |c| then Some(Decide(w, i)) else None
    case RResume(i) =>
      if i < |c| && Live(c[i]) && i !in w.sys.running && i !in w.pending && c[i].waitingSem > 0
      then Some(w.(sys := Resume(w.sys, i))) else None
    case RUnlock(x, capacity) =>
      if x in w.sys.running && x < |c| then Some(w.(sys := Unlock(w.sys, x, capacity))) else None
    case RLeave =>
      if w.sys.holders > 0 then Some(w.(sys := Leave(w.sys))) else None
  }

  function RacyRun(w: Racy, steps: seq<RacyStep>): Option<Racy>
    decreases |steps|
  {
    if |steps| == 0 then Some(w)
    else match RacyApply(w, steps[0])
      case None => None
      case Some(w') => RacyRun(w', steps[1..])
  }

  // ---------------------------------------------------------------------
  // The run that breaks exclusion
  // ---------------------------------------------------------------------

  /** Record 0 alone. */
  const R0: Range := Range(0, 0)

  /** A table whose first two cells are `a` and `b` and whose other cells
      are as `shmem_init` left them. */
  function Table(a: ProcInfo, b: ProcInfo): seq<ProcInfo>
  {
    [a, b] + seq(MAX_CONCURRENT_PROCESSES - 2, _ => FreshCell)
  }

  /** A writer of record 0 in cell `idx`. */
  function Wr(pid: int, idx: int, prio: int, blocked: int, sem: nat): ProcInfo
  {
    ProcInfo(pid, sem, R0, Writer, idx, prio, blocked)
  }

  lemma TableShape(a: ProcInfo, b: ProcInfo)
    ensures |Table(a, b)| == MAX_CONCURRENT_PROCESSES
    ensures Table(a, b)[0] == a && Table(a, b)[1] == b
    ensures forall k :: 2 <= k < |Table(a, b)| ==> Table(a, b)[k] == FreshCell
  {
  }

  /** Only the first two cells can block anyone. */
  lemma TableBlockers(a: ProcInfo, b: ProcInfo, i: nat)
    requires i < 2
    ensures Blockers(Table(a, b), i) == if CountsOnEntry(Table(a, b), i, 1 - i) then {1 - i} else {}
  {
    TableShape(a, b);
  }

  lemma TableIndex(a: ProcInfo, b: ProcInfo)
    requires !Live(a) || !Live(b)
    ensures InitIndex(Table(a, b)) == Some(if !Live(a) then 0 else 1)
  {
    TableShape(a, b);
  }

  /** A writer of record 0 registering in a table with a free cell among the
      first two: it takes the first free one, keeps that cell's semaphore,
      and counts the other cell when that one is live and no younger. */
  lemma RegisterWriter(w: Racy, pid: int, a: ProcInfo, b: ProcInfo)
    requires w.sys.shm.cells == Table(a, b) && w.sys.holders > 0
    requires !Live(a) || !Live(b)
    requires ValidRange(a.wantedRange) && ValidRange(b.wantedRange)
    ensures var t := w.sys.shm.ticketNumber;
      var n: nat := if !Live(a) then 0 else 1;
      var other := if n == 0 then b else a;
      var k := if Live(other) && RangesConflict(other.wantedRange, R0) && other.priority >= t then 1 else 0;
      var e := Wr(pid, n, t, k, (if n == 0 then a else b).waitingSem);
      RacyApply(w, RRegister(pid, Writer, R0))
        == Some(Racy(System(w.sys.shm.(cells := if n == 0 then Table(e, b) else Table(a, e), ticketNumber := t - 1),
                            w.sys.holders - 1, w.sys.running),
                     w.pending + {n}))
  {
    TableIndex(a, b);
    var t := w.sys.shm.ticketNumber;
    if !Live(a) {
      var e0 := Wr(pid, 0, t, 0, a.waitingSem);
      assert Table(a, b)[0 := e0] == Table(e0, b);
      TableBlockers(e0, b, 0);
      var k := if Live(b) && RangesConflict(b.wantedRange, R0) && b.priority >= t then 1 else 0;
      assert Table(e0, b)[0 := e0.(blockedBy := k)] == Table(Wr(pid, 0, t, k, a.waitingSem), b);
    } else {
      var e0 := Wr(pid, 1, t, 0, b.waitingSem);
      assert Table(a, b)[1 := e0] == Table(a, e0);
      TableBlockers(a, e0, 1);
      var k := if Live(a) && RangesConflict(a.wantedRange, R0) && a.priority >= t then 1 else 0;
      assert Table(a, e0)[1 := e0.(blockedBy := k)] == Table(a, Wr(pid, 1, t, k, b.waitingSem));
    }
  }

  /** The exit of the running occupant of cell `x` (0 or 1): its cell is
      freed and the exit scan touches only the other of the two cells. */
  lemma UnlockTable(w: Racy, x: nat, capacity: int, a: ProcInfo, b: ProcInfo)
    requires w.sys.shm.cells == Table(a, b) && x < 2 && x in w.sys.running
    ensures RacyApply(w, RUnlock(x, capacity)) == Some(w.(sys := Unlock(w.sys, x, capacity)))
    ensures Unlock(w.sys, x, capacity).shm.cells
         == if x == 0 then Table(a.(index := -1), ExitCell(Table(a, b), 0, 1))
            else Table(ExitCell(Table(a, b), 1, 0), b.(index := -1))
    ensures Unlock(w.sys, x, capacity).running == w.sys.running - {x}
    ensures Unlock(w.sys, x, capacity).holders == w.sys.holders + 1
  {
    TableShape(a, b);
    var c := Table(a, b);
    LeaveCellsShape(c, x);
    var l := LeaveCells(c, x);
    var expected := if x == 0 then Table(a.(index := -1), ExitCell(c, 0, 1)) else Table(ExitCell(c, 1, 0), b.(index := -1));
    forall k | 0 <= k < |c|
      ensures l[k] == expected[k]
    {
      if k >= 2 {
        assert c[k] == FreshCell;
      }
    }
  }

  /** The run, with every worker a writer of record 0:
      - A registers in cell 0 and runs; B registers in cell 1, blocked by A;
      - A leaves before B reads its count, so the exit scan posts cell 1 and
        B finds 0 blockers and runs without consuming the post;
      - C registers in cell 0, blocked by B, and sleeps; B leaves, so C is
        posted and resumes;
      - D registers in cell 1, blocked by C, and goes to `sem_wait` on the
        semaphore B never consumed, which lets it through at once. */
  function StaleTrace(): seq<RacyStep>
  {
    [RAdmit, RAdmit, RAdmit, RAdmit,
     RRegister(1, Writer, R0), RDecide(0),
     RRegister(2, Writer, R0),
     RUnlock(0, 1), RDecide(1),
     RRegister(3, Writer, R0), RDecide(0),
     RUnlock(1, 1), RResume(0),
     RRegister(4, Writer, R0), RDecide(1), RResume(1)]
  }

  lemma RunStep(w: Racy, steps: seq<RacyStep>, k: nat, w': Racy)
    requires k < |steps| && RacyApply(w, steps[k]) == Some(w')
    ensures RacyRun(w, steps[k..]) == RacyRun(w', steps[k + 1..])
  {
    assert steps[k..][1..] == steps[k + 1..];
  }

  /** `w` holds cells `a` and `b` (the rest unused), with the given ticket,
      permits, running cells and cells about to read their count. */
  predicate At(w: Racy, a: ProcInfo, b: ProcInfo, ticket: int, holders: nat, running: set<nat>, pending: set<nat>)
  {
    && w.sys.shm.cells == Table(a, b) && w.sys.shm.ticketNumber == ticket
    && w.sys.holders == holders && w.sys.running == running && w.pending == pending
  }

  /** Four workers take a permit. */
  lemma PhaseAdmit(nChildren: int) returns (w: Racy)
    ensures RacyRun(RacyInit(nChildren), StaleTrace()) == RacyRun(w, StaleTrace()[4..])
    ensures At(w, FreshCell, FreshCell, nChildren, 4, {}, {})
  {
    var T := StaleTrace();
    var w0 := RacyInit(nChildren);
    assert w0.sys.shm.cells == Table(FreshCell, FreshCell);
    var w1 := w0.(sys := Admit(w0.sys));
    RunStep(w0, T, 0, w1);
    var w2 := w1.(sys := Admit(w1.sys));
    RunStep(w1, T, 1, w2);
    var w3 := w2.(sys := Admit(w2.sys));
    RunStep(w2, T, 2, w3);
    w := w3.(sys := Admit(w3.sys));
    RunStep(w3, T, 3, w);
  }

  /** A registers in cell 0 and, with no blocker, runs. */
  lemma PhaseA(w4: Racy, t: int) returns (w: Racy)
    requires At(w4, FreshCell, FreshCell, t, 4, {}, {})
    ensures RacyRun(w4, StaleTrace()[4..]) == RacyRun(w, StaleTrace()[6..])
    ensures At(w, Wr(1, 0, t, 0, 0), FreshCell, t - 1, 3, {0}, {})
  {
    var T := StaleTrace();
    var F := FreshCell;
    RegisterWriter(w4, 1, F, F);
    var w5 := RacyApply(w4, T[4]).value;
    assert At(w5, Wr(1, 0, t, 0, 0), F, t - 1, 3, {}, {0});
    RunStep(w4, T, 4, w5);
    w := Decide(w5, 0);
    assert w.sys.running == {0} && w.pending == {};
    RunStep(w5, T, 5, w);
  }

  /** B registers in cell 1, blocked by A. */
  lemma PhaseB(w6: Racy, t: int) returns (w: Racy)
    requires At(w6, Wr(1, 0, t, 0, 0), FreshCell, t - 1, 3, {0}, {})
    ensures RacyRun(w6, StaleTrace()[6..]) == RacyRun(w, StaleTrace()[7..])
    ensures At(w, Wr(1, 0, t, 0, 0), Wr(2, 1, t - 1, 1, 0), t - 2, 2, {0}, {1})
  {
    var T := StaleTrace();
    RegisterWriter(w6, 2, Wr(1, 0, t, 0, 0), FreshCell);
    w := RacyApply(w6, T[6]).value;
    assert At(w, Wr(1, 0, t, 0, 0), Wr(2, 1, t - 1, 1, 0), t - 2, 2, {0}, {1});
    RunStep(w6, T, 6, w);
  }

  /** A leaves before B reads its count: B's count drops to 0 and cell 1 is
      posted; B then reads 0 and runs, and the post stays on cell 1. */
  lemma PhaseStalePost(w7: Racy, t: int) returns (w: Racy)
    requires At(w7, Wr(1, 0, t, 0, 0), Wr(2, 1, t - 1, 1, 0), t - 2, 2, {0}, {1})
    ensures RacyRun(w7, StaleTrace()[7..]) == RacyRun(w, StaleTrace()[9..])
    ensures At(w, Wr(1, -1, t, 0, 0), Wr(2, 1, t - 1, 0, 1), t - 2, 3, {1}, {})
  {
    var T := StaleTrace();
    var A := Wr(1, 0, t, 0, 0);
    var B := Wr(2, 1, t - 1, 1, 0);
    UnlockTable(w7, 0, 1, A, B);
    var w8 := w7.(sys := Unlock(w7.sys, 0, 1));
    assert w8.sys.shm.cells == Table(Wr(1, -1, t, 0, 0), Wr(2, 1, t - 1, 0, 1));
    RunStep(w7, T, 7, w8);
    w := Decide(w8, 1);
    assert w.sys.running == {1} && w.pending == {};
    RunStep(w8, T, 8, w);
  }

  /** C registers in cell 0, blocked by B, and goes to sleep. */
  lemma PhaseCSleeps(w9: Racy, t: int) returns (w: Racy)
    requires At(w9, Wr(1, -1, t, 0, 0), Wr(2, 1, t - 1, 0, 1), t - 2, 3, {1}, {})
    ensures RacyRun(w9, StaleTrace()[9..]) == RacyRun(w, StaleTrace()[11..])
    ensures At(w, Wr(3, 0, t - 2, 1, 0), Wr(2, 1, t - 1, 0, 1), t - 3, 2, {1}, {})
  {
    var T := StaleTrace();
    var A' := Wr(1, -1, t, 0, 0);
    var B' := Wr(2, 1, t - 1, 0, 1);
    RegisterWriter(w9, 3, A', B');
    var C := Wr(3, 0, t - 2, 1, 0);
    var w10 := RacyApply(w9, T[9]).value;
    assert At(w10, C, B', t - 3, 2, {1}, {0});
    RunStep(w9, T, 9, w10);
    w := w10.(pending := {});
    RunStep(w10, T, 10, w);
  }

  /** B leaves, which posts cell 0, and C consumes that post and runs.
      Cell 1 keeps B's post. */
  lemma PhaseCResumes(w11: Racy, t: int) returns (w: Racy)
    requires At(w11, Wr(3, 0, t - 2, 1, 0), Wr(2, 1, t - 1, 0, 1), t - 3, 2, {1}, {})
    ensures RacyRun(w11, StaleTrace()[11..]) == RacyRun(w, StaleTrace()[13..])
    ensures At(w, Wr(3, 0, t - 2, 0, 0), Wr(2, -1, t - 1, 0, 1), t - 3, 3, {0}, {})
  {
    var T := StaleTrace();
    var C := Wr(3, 0, t - 2, 1, 0);
    var B' := Wr(2, 1, t - 1, 0, 1);
    UnlockTable(w11, 1, 1, C, B');
    var w12 := w11.(sys := Unlock(w11.sys, 1, 1));
    assert w12.sys.shm.cells == Table(Wr(3, 0, t - 2, 0, 1), Wr(2, -1, t - 1, 0, 1));
    RunStep(w11, T, 11, w12);
    w := w12.(sys := Resume(w12.sys, 0));
    assert w.sys.shm.cells == Table(Wr(3, 0, t - 2, 0, 0), Wr(2, -1, t - 1, 0, 1));
    RunStep(w12, T, 12, w);
  }

  /** D registers in cell 1, blocked by C, and goes to sleep on the
      semaphore that still holds B's post, so it resumes at once. */
  lemma PhaseD(w13: Racy, t: int) returns (w: Racy)
    requires At(w13, Wr(3, 0, t - 2, 0, 0), Wr(2, -1, t - 1, 0, 1), t - 3, 3, {0}, {})
    ensures RacyRun(w13, StaleTrace()[13..]) == Some(w)
    ensures At(w, Wr(3, 0, t - 2, 0, 0), Wr(4, 1, t - 3, 1, 0), t - 4, 2, {0, 1}, {})
  {
    var T := StaleTrace();
    var C := Wr(3, 0, t - 2, 0, 0);
    var B := Wr(2, -1, t - 1, 0, 1);
    RegisterWriter(w13, 4, C, B);
    var D := Wr(4, 1, t - 3, 1, 1);
    var w14 := RacyApply(w13, T[13]).value;
    assert At(w14, C, D, t - 4, 2, {0}, {1});
    RunStep(w13, T, 13, w14);
    var w15 := w14.(pending := {});
    RunStep(w14, T, 14, w15);
    w := w15.(sys := Resume(w15.sys, 1));
    assert w.sys.shm.cells == Table(C, Wr(4, 1, t - 3, 1, 0));
    RunStep(w15, T, 15, w);
    assert T[16..] == [];
  }

  /** The source's entry lets two writers of the same record run at once:
      after `StaleTrace` the occupants of cells 0 and 1 both run, both are
      writers, and their ranges overlap; the later one still counts the
      earlier one as a blocker.  `SlotTable.RunningAreCompatible` shows the
      corrected entry never reaches such a state. */
  lemma StalePostOvertakes(nChildren: int)
    ensures var r := RacyRun(RacyInit(nChildren), StaleTrace());
      && r.Some?
      && |r.value.sys.shm.cells| == MAX_CONCURRENT_PROCESSES
      && 0 in r.value.sys.running && 1 in r.value.sys.running
      && r.value.sys.shm.cells[0].procType == Writer && r.value.sys.shm.cells[1].procType == Writer
      && Overlapping(r.value.sys.shm.cells[0], r.value.sys.shm.cells[1])
      && r.value.sys.shm.cells[1].blockedBy > 0
  {
    var w4 := PhaseAdmit(nChildren);
    var w6 := PhaseA(w4, nChildren);
    var w7 := PhaseB(w6, nChildren);
    var w9 := PhaseStalePost(w7, nChildren);
    var w11 := PhaseCSleeps(w9, nChildren);
    var w13 := PhaseCResumes(w11, nChildren);
    var w := PhaseD(w13, nChildren);
    TableShape(Wr(3, 0, nChildren - 2, 0, 0), Wr(4, 1, nChildren - 3, 1, 0));
  }
}

=== FILE: hw2_random.dfy ===
/** `gen_num` of Homework-2, with the value of `rand()` as a parameter. */
module RandomRange {

  /** C's `%`: the remainder takes the sign of the dividend. */
  function CRem(a: int, b: int): (r: int)
    requires b != 0
    ensures a >= 0 ==> 0 <= r < if b > 0 then b else -b
    ensures a < 0 ==> -(if b > 0 then b else -b) < r <= 0
  {
    var m := if b > 0 then b else -b;
    if a >= 0 then a % m else -((-a) % m)
  }

  /** `gen_num(max_num, min_num)` for a value `r` of `rand()` (never
      negative).  A zero modulus is undefined behaviour in C, so it is
      excluded. */
  function GenNum(r: int, maxNum: int, minNum: int): int
    requires r >= 0
    requires maxNum + 1 - minNum != 0
  {
    CRem(r, maxNum + 1 - minNum) + minNum
  }

  /** With `max_num >= min_num` the result lies in `[min_num, max_num]`,
      and every value of that interval is produced by some `r`. */
  lemma GenNumRange(r: int, maxNum: int, minNum: int)
    requires r >= 0 && maxNum >= minNum
    ensures minNum <= GenNum(r, maxNum, minNum) <= maxNum
    ensures GenNum(r, maxNum, minNum) == r % (maxNum + 1 - minNum) + minNum
  {
  }

  lemma GenNumReachesAll(maxNum: int, minNum: int, v: int)
    requires minNum <= v <= maxNum
    ensures GenNum(v - minNum, maxNum, minNum) == v
  {
  }

  /** `gen_num(k, k)` is always k. */
  lemma GenNumFixed(r: int, k: int)
    requires r >= 0
    ensures GenNum(r, k, k) == k
  {
  }

  /** A negative modulus (`max_num < min_num - 1`) can give a value above
      both bounds: `gen_num(0, 5)` with `rand() == 1` is 6. */
  lemma GenNumNegativeModulus()
    ensures GenNum(1, 0, 5) == 6
  {
  }

  /** The reader ranges built by `run_reader`: the first record is
      `gen_num(n_records, 1)` and the last `gen_num(n_records, first)`, so
      `1 <= first <= last <= n_records`. */
  lemma GeneratedReaderRange(r1: int, r2: int, nRecords: int)
    requires r1 >= 0 && r2 >= 0 && nRecords >= 1
    ensures var first := GenNum(r1, nRecords, 1);
      && 1 <= first <= nRecords
      && first <= GenNum(r2, nRecords, first) <= nRecords
  {
    GenNumRange(r1, nRecords, 1);
    GenNumRange(r2, nRecords, GenNum(r1, nRecords, 1));
  }
}

=== FILE: hw2_record.dfy ===
/** The account record of Homework-2 and its balance operations. */
module BalanceRecord {

  /** `record`: the fixed-size character arrays are modelled as strings. */
  datatype Record = Record(id: int, surname: string, name: string, balance: int)

  /** `record_balance_update`: add `diff` to the balance. */
  function BalanceUpdate(r: Record, diff: int): (r': Record)
    ensures r'.balance - r.balance == diff
    ensures r'.id == r.id && r'.surname == r.surname && r'.name == r.name
  {
    r.(balance := r.balance + diff)
  }

  /** `record_get_balance`. */
  function GetBalance(r: Record): int
  {
    r.balance
  }

  /** Two updates add up to one. */
  lemma BalanceUpdateCompose(r: Record, a: int, b: int)
    ensures BalanceUpdate(BalanceUpdate(r, a), b) == BalanceUpdate(r, a + b)
    ensures GetBalance(BalanceUpdate(r, a)) == GetBalance(r) + a
  {
  }

  /** Sum of the balances, accumulated from the front. */
  function TotalBalance(rs: seq<Record>): int
  {
    if |rs| == 0 then 0 else TotalBalance(rs[..|rs| - 1]) + GetBalance(rs[|rs| - 1])
  }

  /** `reader_print_records` without the printing: add the balance of each
      of the first `capacity` records to `sumBalance`. */
  method SumBalances(sumBalance: int, capacity: int, records: seq<Record>) returns (sum: int)
    requires capacity <= |records|
    ensures capacity <= 0 ==> sum == sumBalance
    ensures capacity > 0 ==> sum == sumBalance + TotalBalance(records[..capacity])
  {
    sum := sumBalance;
    var i := 0;
    while i < capacity
      invariant 0 <= i <= |records| && (i == 0 || i <= capacity)
      invariant sum == sumBalance + TotalBalance(records[..i])
    {
      assert records[..i + 1][..i] == records[..i];
      sum := sum + GetBalance(records[i]);
      i := i + 1;
    }
  }

  lemma {:induction false} TotalBalanceAppend(xs: seq<Record>, ys: seq<Record>)
    ensures TotalBalance(xs + ys) == TotalBalance(xs) + TotalBalance(ys)
    decreases |ys|
  {
    if |ys| > 0 {
      var last := ys[|ys| - 1];
      assert (xs + ys)[..|xs + ys| - 1] == xs + ys[..|ys| - 1];
      TotalBalanceAppend(xs, ys[..|ys| - 1]);
    } else {
      assert xs + ys == xs;
    }
  }

  /** Updating one record by `diff` moves the total by exactly `diff`. */
  lemma TotalAfterUpdate(rs: seq<Record>, k: nat, diff: int)
    requires k < |rs|
    ensures TotalBalance(rs[k := BalanceUpdate(rs[k], diff)]) == TotalBalance(rs) + diff
  {
    var rs' := rs[k := BalanceUpdate(rs[k], diff)];
    assert rs == rs[..k] + [rs[k]] + rs[k + 1..];
    assert rs' == rs[..k] + [rs'[k]] + rs[k + 1..];
    TotalBalanceAppend(rs[..k] + [rs[k]], rs[k + 1..]);
    TotalBalanceAppend(rs[..k], [rs[k]]);
    TotalBalanceAppend(rs[..k] + [rs'[k]], rs[k + 1..]);
    TotalBalanceAppend(rs[..k], [rs'[k]]);
    assert TotalBalance([rs[k]]) == rs[k].balance by {
      assert [rs[k]][..0] == [];
    }
    assert TotalBalance([rs'[k]]) == rs'[k].balance by {
      assert [rs'[k]][..0] == [];
    }
  }
}

=== FILE: hw2_slots.dfy ===
/** The range-based reader/writer admission table of Homework-2.

    The shared segment holds MAX_CONCURRENT_PROCESSES `proc_info` cells, a
    ticket counter and the statistics registry.  Every scan of the cells runs
    under the segment's mutex, so each of `check_range_and_lock` and
    `check_range_and_unlock` is one atomic transition here.  Semaphores are
    counters: the admission semaphore `conc_proc` is `concProc`, and each
    cell's `waiting_sem` is the cell's `waitingSem`.  What a worker does
    outside the segment (holding an admission permit without a cell, having
    passed its own semaphore) is kept beside the segment in `System`. */
module SlotTable {
  import opened Wrappers

  const MAX_CONCURRENT_PROCESSES: nat := 256
  const MSG_LENGTH: nat := 256

  /** `proc_type`: -1 before first use, then READER or WRITER. */
  datatype ProcType = Unset | Reader | Writer

  /** Inclusive range of 0-based record indices. */
  datatype Range = Range(start: int, finish: int)

  /** One `proc_info` cell.  `index == -1` marks the cell free. */
  datatype ProcInfo = ProcInfo(
    pid: int,
    waitingSem: nat,
    wantedRange: Range,
    procType: ProcType,
    index: int,
    priority: int,
    blockedBy: int)

  /** The integer part of the registry; the float timing fields are not modelled. */
  datatype Registry = Registry(
    msg: string,
    readersDone: int,
    writersDone: int,
    recordsProcessed: int,
    readerRecords: int,
    writerRecords: int)

  /** The shared memory segment. */
  datatype Segment = Segment(
    registry: Registry,
    concProc: int,
    ticketNumber: int,
    mutex: int,
    cells: seq<ProcInfo>,
    accountantTerminated: bool,
    accountant: int,
    accountantJobDone: int)

  /** The segment together with the workers' own progress: `holders` counts
      workers that hold an admission permit but no cell, `running` the cells
      whose occupant has passed its own semaphore (is in its critical section). */
  datatype System = System(shm: Segment, holders: nat, running: set<nat>)

  /** Why a transition aborts (a failed `assert` in the source). */
  datatype Abort = TableFull

  /** Result of `check_range_and_lock`: the new system, the claimed cell and
      whether the caller goes to sleep on its own semaphore. */
  datatype Entry = Entry(sys: System, index: nat, mustWait: bool)

  // ---------------------------------------------------------------------
  // Initial state: shmem_init and registry_init
  // ---------------------------------------------------------------------

  /** A cell as `shmem_init` leaves it; `pid` and `blocked_by` are the zero
      bytes of the freshly truncated segment. */
  const FreshCell: ProcInfo := ProcInfo(0, 0, Range(-1, -1), Unset, -1, -1, 0)

  function RegistryInit(): Registry
  {
    Registry(seq(MSG_LENGTH, _ => '\0'), 0, 0, 0, 0, 0)
  }

  function ShmemInit(nChildren: int): Segment
  {
    Segment(RegistryInit(), MAX_CONCURRENT_PROCESSES, nChildren, 1,
            seq(MAX_CONCURRENT_PROCESSES, _ => FreshCell), false, 0, 0)
  }

  function Init(nChildren: int): System
  {
    System(ShmemInit(nChildren), 0, {})
  }

  // ---------------------------------------------------------------------
  // Conflicts
  // ---------------------------------------------------------------------

  predicate Live(c: ProcInfo) { c.index != -1 }

  predicate ValidRange(r: Range) { r.start <= r.finish }

  /** `ranges_conflict`; the source asserts both ranges are valid. */
  function RangesConflict(r1: Range, r2: Range): bool
    requires ValidRange(r1) && ValidRange(r2)
  {
    r1.start <= r2.finish && r1.finish >= r2.start
  }

  predicate Covers(r: Range, k: int) { r.start <= k <= r.finish }

  /** Two valid ranges conflict exactly when some record lies in both. */
  lemma RangesConflictMeansSharedRecord(r1: Range, r2: Range)
    requires ValidRange(r1) && ValidRange(r2)
    ensures RangesConflict(r1, r2) <==> exists k :: Covers(r1, k) && Covers(r2, k)
  {
    if RangesConflict(r1, r2) {
      var k := if r1.start < r2.start then r2.start else r1.start;
      assert Covers(r1, k) && Covers(r2, k);
    }
  }

  lemma RangesConflictSymmetric(r1: Range, r2: Range)
    requires ValidRange(r1) && ValidRange(r2)
    ensures RangesConflict(r1, r2) == RangesConflict(r2, r1)
  {
  }

  /** The role test of both scans: a writer caller always counts, a reader
      caller counts only a writer. */
  predicate WriterInvolved(caller: ProcInfo, other: ProcInfo)
  {
    caller.procType == Writer || (caller.procType == Reader && other.procType == Writer)
  }

  predicate WellFormed(c: ProcInfo)
  {
    ValidRange(c.wantedRange) && (c.procType == Reader || c.procType == Writer)
  }

  predicate Overlapping(a: ProcInfo, b: ProcInfo)
  {
    ValidRange(a.wantedRange) && ValidRange(b.wantedRange) &&
    RangesConflict(a.wantedRange, b.wantedRange)
  }

  /** Whether the entry scan of the caller in cell `i` counts cell `j`. */
  predicate CountsOnEntry(cells: seq<ProcInfo>, i: nat, j: nat)
    requires i < |cells| && j < |cells|
  {
    Live(cells[j]) && j != i && Overlapping(cells[j], cells[i])
    && !(cells[j].priority < cells[i].priority)
    && WriterInvolved(cells[i], cells[j])
  }

  /** Whether the exit scan of the caller in cell `x` decrements cell `j`. */
  predicate CountsOnExit(cells: seq<ProcInfo>, x: nat, j: nat)
    requires x < |cells| && j < |cells|
  {
    Live(cells[j]) && j != x && Overlapping(cells[j], cells[x])
    && !(cells[j].priority > cells[x].priority)
    && WriterInvolved(cells[x], cells[j])
  }

  /** The cells the occupant of cell `i` waits for. */
  function Blockers(cells: seq<ProcInfo>, i: nat): set<nat>
    requires i < |cells|
  {
    set j: nat | j < |cells| && CountsOnEntry(cells, i, j)
  }

  function LiveSet(cells: seq<ProcInfo>): set<nat>
  {
    set i: nat | i < |cells| && Live(cells[i])
  }

  // ---------------------------------------------------------------------
  // The scans, as the source writes them
  // ---------------------------------------------------------------------

  /** `init_index`: the lowest free cell, or None when every cell is taken
      (where the source's assert fails). */
  function InitIndex(cells: seq<ProcInfo>): (r: Option<nat>)
    ensures r.Some? ==> r.value < |cells| && !Live(cells[r.value])
    ensures r.Some? ==> forall j :: 0 <= j < r.value ==> Live(cells[j])
    ensures r.None? ==> forall j :: 0 <= j < |cells| ==> Live(cells[j])
  {
    FirstFreeFrom(cells, 0)
  }

  function FirstFreeFrom(cells: seq<ProcInfo>, i: nat): (r: Option<nat>)
    requires i <= |cells|
    requires forall j :: 0 <= j < i ==> Live(cells[j])
    ensures r.Some? ==> i <= r.value < |cells| && !Live(cells[r.value])
    ensures r.Some? ==> forall j :: 0 <= j < r.value ==> Live(cells[j])
    ensures r.None? ==> forall j :: 0 <= j < |cells| ==> Live(cells[j])
    decreases |cells| - i
  {
    if i == |cells| then None
    else if !Live(cells[i]) then Some(i)
    else FirstFreeFrom(cells, i + 1)
  }

  /** `check_range_entry`: the caller in cell `i` counts the live cells that
      it waits for. */
  method CheckRangeEntry(cells: seq<ProcInfo>, i: nat) returns (blockedBy: int)
    requires i < |cells|
    ensures blockedBy == |Blockers(cells, i)|
  {
    blockedBy := 0;
    for j := 0 to |cells|
      invariant blockedBy == |set k: nat | k < j && CountsOnEntry(cells, i, k)|
    {
      ghost var before := set k: nat | k < j && CountsOnEntry(cells, i, k);
      ghost var after := set k: nat | k < j + 1 && CountsOnEntry(cells, i, k);
      if CountsOnEntry(cells, i, j) {
        assert after == before + {j};
        blockedBy := blockedBy + 1;
      } else {
        assert after == before;
      }
    }
    assert (set k: nat | k < |cells| && CountsOnEntry(cells, i, k)) == Blockers(cells, i);
  }

  /** The effect of the exit scan of cell `x` on cell `j`: one conflict fewer,
      and a post on its semaphore when that was the last one. */
  function ExitCell(cells: seq<ProcInfo>, x: nat, j: nat): ProcInfo
    requires x < |cells| && j < |cells|
  {
    var c := cells[j];
    if CountsOnExit(cells, x, j) then
      var b := c.blockedBy - 1;
      c.(blockedBy := b, waitingSem := if b == 0 then c.waitingSem + 1 else c.waitingSem)
    else c
  }

  function ExitScan(cells: seq<ProcInfo>, x: nat): (r: seq<ProcInfo>)
    requires x < |cells|
  {
    seq(|cells|, j requires 0 <= j < |cells| => ExitCell(cells, x, j))
  }

  /** `check_range_exit`: the loop over the cells, returning the new cells
      and the cells whose semaphore it posted. */
  method CheckRangeExit(cells: seq<ProcInfo>, x: nat) returns (out: seq<ProcInfo>, woken: set<nat>)
    requires x < |cells|
    ensures |out| == |cells|
    ensures out == ExitScan(cells, x)
    ensures forall j: nat :: j in woken <==> j < |cells| && CountsOnExit(cells, x, j) && cells[j].blockedBy == 1
  {
    out := cells;
    woken := {};
    for j := 0 to |cells|
      invariant |out| == |cells|
      invariant forall k :: 0 <= k < j ==> out[k] == ExitCell(cells, x, k)
      invariant forall k :: j <= k < |cells| ==> out[k] == cells[k]
      invariant forall k: nat :: k in woken <==> k < j && CountsOnExit(cells, x, k) && cells[k].blockedBy == 1
    {
      if CountsOnExit(cells, x, j) {
        var b := out[j].blockedBy - 1;
        out := out[j := out[j].(blockedBy := b)];
        if b == 0 {
          out := out[j := out[j].(waitingSem := out[j].waitingSem + 1)];
          woken := woken + {j};
        }
      }
    }
  }

  // ---------------------------------------------------------------------
  // Transitions
  // ---------------------------------------------------------------------

  /** `sem_wait(&conc_proc)`: a worker takes an admission permit. */
  function Admit(sys: System): System
    requires sys.shm.concProc > 0
  {
    sys.(shm := sys.shm.(concProc := sys.shm.concProc - 1), holders := sys.holders + 1)
  }

  /** `sem_post(&conc_proc)`: a worker that has left its cell returns its permit. */
  function Leave(sys: System): System
    requires sys.holders > 0
  {
    sys.(shm := sys.shm.(concProc := sys.shm.concProc + 1), holders := sys.holders - 1)
  }

  /** `init_proc_info` and the entry scan: the caller takes cell `n` with
      priority `ticket` and `blocked_by` set to its number of blockers. */
  function EnterCells(cells: seq<ProcInfo>, n: nat, pid: int, procType: ProcType, wanted: Range, ticket: int): seq<ProcInfo>
    requires n < |cells|
  {
    var reg := cells[n := ProcInfo(pid, cells[n].waitingSem, wanted, procType, n, ticket, 0)];
    reg[n := reg[n].(blockedBy := |Blockers(reg, n)|)]
  }

  /** The exit scan of cell `x`, then `index = -1` frees the cell. */
  function LeaveCells(cells: seq<ProcInfo>, x: nat): seq<ProcInfo>
    requires x < |cells|
  {
    var scanned := ExitScan(cells, x);
    scanned[x := scanned[x].(index := -1)]
  }

  /** `check_range_and_lock` up to the sleep: register in the lowest free
      cell with `priority = ticket_number--`, count the blockers, and start
      running at once when there are none.  The caller holds a permit
      (reader.c and writer.c take it first) and its range is valid. */
  function Lock(sys: System, pid: int, procType: ProcType, wanted: Range): Result<Entry, Abort>
    requires sys.holders > 0
    requires procType == Reader || procType == Writer
    requires wanted.start > -1 && wanted.finish > -1 && ValidRange(wanted)
  {
    match InitIndex(sys.shm.cells)
    case None => Err(TableFull)
    case Some(n) =>
      var cells' := EnterCells(sys.shm.cells, n, pid, procType, wanted, sys.shm.ticketNumber);
      var blocked := cells'[n].blockedBy;
      var shm' := sys.shm.(cells := cells', ticketNumber := sys.shm.ticketNumber - 1);
      var running' := if blocked == 0 then sys.running + {n} else sys.running;
      Ok(Entry(System(shm', sys.holders - 1, running'), n, blocked > 0))
  }

  /** The sleeping occupant of cell `i` consumes the post on its semaphore. */
  function Resume(sys: System, i: nat): System
    requires i < |sys.shm.cells| && i !in sys.running && sys.shm.cells[i].waitingSem > 0
  {
    var c := sys.shm.cells;
    sys.(shm := sys.shm.(cells := c[i := c[i].(waitingSem := c[i].waitingSem - 1)]),
         running := sys.running + {i})
  }

  /** The integer counters of `stats_exit`. */
  function StatsExit(r: Registry, procType: ProcType, capacity: int): Registry
  {
    var r' := r.(recordsProcessed := r.recordsProcessed + capacity);
    if procType == Reader then
      r'.(readersDone := r.readersDone + 1, readerRecords := r.readerRecords + capacity)
    else if procType == Writer then
      r'.(writersDone := r.writersDone + 1, writerRecords := r.writerRecords + capacity)
    else r'
  }

  /** `check_range_and_unlock`: the exit scan, then the caller's cell is freed
      and the statistics are updated.  Only a running occupant leaves. */
  function Unlock(sys: System, x: nat, capacity: int): System
    requires x in sys.running && x < |sys.shm.cells|
  {
    var reg' := StatsExit(sys.shm.registry, sys.shm.cells[x].procType, capacity);
    System(sys.shm.(cells := LeaveCells(sys.shm.cells, x), registry := reg'),
           sys.holders + 1, sys.running - {x})
  }

  // ---------------------------------------------------------------------
  // The invariant
  // ---------------------------------------------------------------------

  ghost predicate CellsInv(c: seq<ProcInfo>, ticket: int)
  {
    && |c| == MAX_CONCURRENT_PROCESSES
    && (forall i :: 0 <= i < |c| && Live(c[i]) ==> c[i].index == i && WellFormed(c[i]) && c[i].priority > ticket)
    && (forall i, j :: 0 <= i < |c| && 0 <= j < |c| && i != j && Live(c[i]) && Live(c[j]) ==> c[i].priority != c[j].priority)
  }

  /** The headline invariant: every live cell's `blocked_by` is the number of
      live, older cells that conflict with it. */
  ghost predicate CountsInv(c: seq<ProcInfo>)
  {
    forall i :: 0 <= i < |c| && Live(c[i]) ==> c[i].blockedBy == |Blockers(c, i)|
  }

  /** Each semaphore holds 1 exactly for a sleeping occupant that has no
      blocker left, and 0 otherwise; running cells have no blockers. */
  ghost predicate WakeInv(c: seq<ProcInfo>, running: set<nat>)
  {
    && (forall i :: 0 <= i < |c| ==> c[i].waitingSem == (if Live(c[i]) && i !in running && c[i].blockedBy == 0 then 1 else 0))
    && (forall i :: i in running ==> i < |c| && Live(c[i]) && c[i].blockedBy == 0)
  }

  ghost predicate Inv(sys: System)
  {
    var s := sys.shm;
    && CellsInv(s.cells, s.ticketNumber)
    && CountsInv(s.cells)
    && WakeInv(s.cells, sys.running)
    && s.concProc >= 0
    && s.concProc + sys.holders + |LiveSet(s.cells)| == MAX_CONCURRENT_PROCESSES
    && s.registry.recordsProcessed == s.registry.readerRecords + s.registry.writerRecords
  }

  // ---------------------------------------------------------------------
  // Facts about the sets
  // ---------------------------------------------------------------------

  /** At most one live cell per position; all cells live when the count is full. */
  lemma {:induction false} LiveSetBound(cells: seq<ProcInfo>)
    ensures |LiveSet(cells)| <= |cells|
    ensures |LiveSet(cells)| == |cells| <==> forall i :: 0 <= i < |cells| ==> Live(cells[i])
  {
    if |cells| > 0 {
      var n := |cells| - 1;
      var front := cells[..n];
      LiveSetBound(front);
      if Live(cells[n]) {
        assert LiveSet(cells) == LiveSet(front) + {n};
      } else {
        assert LiveSet(cells) == LiveSet(front);
      }
      if |LiveSet(cells)| == |cells| {
        assert forall i :: 0 <= i < n ==> Live(front[i]);
      }
      if forall i :: 0 <= i < |cells| ==> Live(cells[i]) {
        assert forall i :: 0 <= i < n ==> Live(front[i]);
      }
    }
  }

  /** Fields the scans read: occupancy, range, role and priority. */
  function Statics(c: ProcInfo): (int, Range, ProcType, int)
  {
    (c.index, c.wantedRange, c.procType, c.priority)
  }

  lemma BlockersSameStatics(c1: seq<ProcInfo>, c2: seq<ProcInfo>, i: nat)
    requires |c1| == |c2| && i < |c1|
    requires forall k :: 0 <= k < |c1| ==> Statics(c1[k]) == Statics(c2[k])
    ensures Blockers(c1, i) == Blockers(c2, i)
  {
    forall k: nat | k < |c1|
      ensures CountsOnEntry(c1, i, k) == CountsOnEntry(c2, i, k)
    {
      assert Statics(c1[k]) == Statics(c2[k]);
      assert Statics(c1[i]) == Statics(c2[i]);
    }
  }

  // ---------------------------------------------------------------------
  // Entering
  // ---------------------------------------------------------------------

  lemma EnterCellsShape(c: seq<ProcInfo>, n: nat, pid: int, procType: ProcType, wanted: Range, ticket: int)
    requires n < |c|
    ensures |EnterCells(c, n, pid, procType, wanted, ticket)| == |c|
    ensures forall j :: 0 <= j < |c| && j != n ==> EnterCells(c, n, pid, procType, wanted, ticket)[j] == c[j]
    ensures EnterCells(c, n, pid, procType, wanted, ticket)[n]
         == ProcInfo(pid, c[n].waitingSem, wanted, procType, n, ticket,
                     |Blockers(EnterCells(c, n, pid, procType, wanted, ticket), n)|)
  {
    var reg := c[n := ProcInfo(pid, c[n].waitingSem, wanted, procType, n, ticket, 0)];
    BlockersSameStatics(reg, EnterCells(c, n, pid, procType, wanted, ticket), n);
  }

  /** A newcomer is younger than every occupant, so nobody already present
      starts waiting for it. */
  lemma EnterLeavesOthersBlockers(c: seq<ProcInfo>, n: nat, pid: int, procType: ProcType, wanted: Range, ticket: int, j: nat)
    requires CellsInv(c, ticket) && n < |c| && !Live(c[n])
    requires j < |c| && j != n && Live(c[j])
    ensures Blockers(EnterCells(c, n, pid, procType, wanted, ticket), j) == Blockers(c, j)
  {
    var c' := EnterCells(c, n, pid, procType, wanted, ticket);
    EnterCellsShape(c, n, pid, procType, wanted, ticket);
    forall k: nat | k < |c|
      ensures CountsOnEntry(c', j, k) == CountsOnEntry(c, j, k)
    {
      if k == n {
        assert c'[n].priority < c'[j].priority;
      } else {
        assert c'[k] == c[k];
      }
    }
  }

  lemma EnterPreservesCells(c: seq<ProcInfo>, n: nat, pid: int, procType: ProcType, wanted: Range, ticket: int)
    requires CellsInv(c, ticket) && CountsInv(c) && n < |c| && !Live(c[n])
    requires procType == Reader || procType == Writer
    requires ValidRange(wanted)
    ensures CellsInv(EnterCells(c, n, pid, procType, wanted, ticket), ticket - 1)
    ensures CountsInv(EnterCells(c, n, pid, procType, wanted, ticket))
    ensures LiveSet(EnterCells(c, n, pid, procType, wanted, ticket)) == LiveSet(c) + {n}
  {
    var c' := EnterCells(c, n, pid, procType, wanted, ticket);
    EnterCellsShape(c, n, pid, procType, wanted, ticket);
    forall j | 0 <= j < |c'| && Live(c'[j])
      ensures c'[j].blockedBy == |Blockers(c', j)|
    {
      if j != n {
        EnterLeavesOthersBlockers(c, n, pid, procType, wanted, ticket, j);
      }
    }
    assert LiveSet(c') == LiveSet(c) + {n};
  }

  /** Under the invariant a worker holding a permit always finds a free cell,
      so the assert of `init_index` never fires. */
  lemma LockNeverFails(sys: System, pid: int, procType: ProcType, wanted: Range)
    requires Inv(sys)
    requires sys.holders > 0
    requires procType == Reader || procType == Writer
    requires wanted.start > -1 && wanted.finish > -1 && ValidRange(wanted)
    ensures Lock(sys, pid, procType, wanted).Ok?
  {
    LiveSetBound(sys.shm.cells);
  }

  lemma EnterPreservesWake(c: seq<ProcInfo>, running: set<nat>, n: nat, pid: int, procType: ProcType, wanted: Range, ticket: int)
    requires WakeInv(c, running) && n < |c| && !Live(c[n])
    ensures var c' := EnterCells(c, n, pid, procType, wanted, ticket);
      WakeInv(c', if c'[n].blockedBy == 0 then running + {n} else running)
  {
    EnterCellsShape(c, n, pid, procType, wanted, ticket);
  }

  lemma LockPreservesInv(sys: System, pid: int, procType: ProcType, wanted: Range)
    requires Inv(sys)
    requires sys.holders > 0
    requires procType == Reader || procType == Writer
    requires wanted.start > -1 && wanted.finish > -1 && ValidRange(wanted)
    ensures Lock(sys, pid, procType, wanted).Ok?
    ensures Inv(Lock(sys, pid, procType, wanted).value.sys)
  {
    LockNeverFails(sys, pid, procType, wanted);
    var c := sys.shm.cells;
    var n := InitIndex(c).value;
    var t := sys.shm.ticketNumber;
    EnterPreservesCells(c, n, pid, procType, wanted, t);
    EnterPreservesWake(c, sys.running, n, pid, procType, wanted, t);
  }

  /** What one registration does: the lowest free cell is taken, the ticket
      goes down by one, nothing else in the table changes, and the caller
      sleeps exactly when some live, older, conflicting cell exists. */
  lemma LockEffect(sys: System, pid: int, procType: ProcType, wanted: Range)
    requires Inv(sys)
    requires sys.holders > 0
    requires procType == Reader || procType == Writer
    requires wanted.start > -1 && wanted.finish > -1 && ValidRange(wanted)
    ensures Lock(sys, pid, procType, wanted).Ok?
    ensures var e := Lock(sys, pid, procType, wanted).value;
      && e.index < |sys.shm.cells| && !Live(sys.shm.cells[e.index])
      && (forall j :: 0 <= j < e.index ==> Live(sys.shm.cells[j]))
      && e.sys.shm.ticketNumber == sys.shm.ticketNumber - 1
      && e.sys.shm.cells[e.index].priority == sys.shm.ticketNumber
      && (forall j :: 0 <= j < |sys.shm.cells| && j != e.index ==> e.sys.shm.cells[j] == sys.shm.cells[j])
      && (e.mustWait <==> exists j :: 0 <= j < |sys.shm.cells| && CountsOnEntry(e.sys.shm.cells, e.index, j))
  {
    LockNeverFails(sys, pid, procType, wanted);
    var c := sys.shm.cells;
    var n := InitIndex(c).value;
    var t := sys.shm.ticketNumber;
    EnterCellsShape(c, n, pid, procType, wanted, t);
    var e := Lock(sys, pid, procType, wanted).value;
    var b := Blockers(e.sys.shm.cells, n);
    if exists j :: 0 <= j < |c| && CountsOnEntry(e.sys.shm.cells, n, j) {
      var j :| 0 <= j < |c| && CountsOnEntry(e.sys.shm.cells, n, j);
      assert j in b;
    } else {
      assert b == {};
    }
  }

  // ---------------------------------------------------------------------
  // Leaving
  // ---------------------------------------------------------------------

  /** The cells an exiting occupant decrements are exactly those that
      counted it on entry. */
  lemma ExitMatchesEntry(c: seq<ProcInfo>, ticket: int, x: nat, j: nat)
    requires CellsInv(c, ticket)
    requires x < |c| && j < |c| && Live(c[x]) && Live(c[j])
    ensures CountsOnExit(c, x, j) <==> x in Blockers(c, j)
  {
    if x != j {
      assert c[x].priority != c[j].priority;
    }
  }

  /** The asserts `blocked_by > 0` and `blocked_by >= 0` of the exit scan
      hold for every cell it decrements. */
  lemma ExitAssertsHold(sys: System, x: nat, j: nat)
    requires Inv(sys) && x in sys.running
    requires j < |sys.shm.cells| && CountsOnExit(sys.shm.cells, x, j)
    ensures sys.shm.cells[j].blockedBy > 0
    ensures sys.shm.cells[j].blockedBy - 1 >= 0
    ensures j !in sys.running
  {
    ExitMatchesEntry(sys.shm.cells, sys.shm.ticketNumber, x, j);
  }

  lemma LeaveCellsShape(c: seq<ProcInfo>, x: nat)
    requires x < |c|
    ensures |LeaveCells(c, x)| == |c|
    ensures LeaveCells(c, x)[x] == c[x].(index := -1)
    ensures forall j :: 0 <= j < |c| && j != x ==> LeaveCells(c, x)[j] == ExitCell(c, x, j)
    ensures forall j :: 0 <= j < |c| && j != x ==> Statics(LeaveCells(c, x)[j]) == Statics(c[j])
  {
  }

  /** After an exit each remaining occupant's blockers are its old ones
      without the leaver. */
  lemma LeaveBlockers(c: seq<ProcInfo>, x: nat, j: nat)
    requires x < |c| && j < |c| && j != x
    ensures Blockers(LeaveCells(c, x), j) == Blockers(c, j) - {x}
  {
    var c' := LeaveCells(c, x);
    LeaveCellsShape(c, x);
    forall k: nat | k < |c|
      ensures CountsOnEntry(c', j, k) == (CountsOnEntry(c, j, k) && k != x)
    {
      assert Statics(c'[j]) == Statics(c[j]);
      if k != x {
        assert Statics(c'[k]) == Statics(c[k]);
      }
    }
  }

  lemma LeavePreservesCounts(sys: System, x: nat)
    requires Inv(sys) && x in sys.running
    ensures CountsInv(LeaveCells(sys.shm.cells, x))
  {
    var c := sys.shm.cells;
    var c' := LeaveCells(c, x);
    LeaveCellsShape(c, x);
    forall j | 0 <= j < |c'| && Live(c'[j])
      ensures c'[j].blockedBy == |Blockers(c', j)|
    {
      ExitMatchesEntry(c, sys.shm.ticketNumber, x, j);
      LeaveBlockers(c, x, j);
    }
  }

  lemma LeavePreservesWake(sys: System, x: nat)
    requires Inv(sys) && x in sys.running
    ensures WakeInv(LeaveCells(sys.shm.cells, x), sys.running - {x})
  {
    var c := sys.shm.cells;
    var c' := LeaveCells(c, x);
    LeaveCellsShape(c, x);
    forall j | 0 <= j < |c'|
      ensures c'[j].waitingSem == (if Live(c'[j]) && j !in sys.running - {x} && c'[j].blockedBy == 0 then 1 else 0)
    {
      if j != x && CountsOnExit(c, x, j) {
        ExitAssertsHold(sys, x, j);
      }
    }
    forall j | j in sys.running - {x}
      ensures j < |c'| && Live(c'[j]) && c'[j].blockedBy == 0
    {
      if CountsOnExit(c, x, j) {
        ExitAssertsHold(sys, x, j);
      }
    }
  }

  lemma UnlockPreservesInv(sys: System, x: nat, capacity: int)
    requires Inv(sys) && x in sys.running
    ensures Inv(Unlock(sys, x, capacity))
  {
    var c := sys.shm.cells;
    LeaveCellsShape(c, x);
    LeavePreservesCounts(sys, x);
    LeavePreservesWake(sys, x);
    assert LiveSet(LeaveCells(c, x)) == LiveSet(c) - {x};
  }

  /** What one exit does: the leaver's cell is free, exactly the cells that
      counted it lose one blocker, and a cell's semaphore is posted exactly
      when its last blocker leaves. */
  lemma UnlockEffect(sys: System, x: nat, capacity: int, j: nat)
    requires Inv(sys) && x in sys.running && j < |sys.shm.cells| && j != x
    requires Live(sys.shm.cells[j])
    ensures var c' := Unlock(sys, x, capacity).shm.cells;
      && !Live(c'[x])
      && c'[j].blockedBy == sys.shm.cells[j].blockedBy - (if x in Blockers(sys.shm.cells, j) then 1 else 0)
      && (c'[j].waitingSem > sys.shm.cells[j].waitingSem <==> x in Blockers(sys.shm.cells, j) && sys.shm.cells[j].blockedBy == 1)
  {
    LeaveCellsShape(sys.shm.cells, x);
    ExitMatchesEntry(sys.shm.cells, sys.shm.ticketNumber, x, j);
  }

  /** Every exit adds its record count to the total and to its role's total. */
  lemma UnlockAccounting(sys: System, x: nat, capacity: int)
    requires Inv(sys) && x in sys.running
    ensures var r := sys.shm.registry; var r' := Unlock(sys, x, capacity).shm.registry;
      && r'.recordsProcessed == r.recordsProcessed + capacity
      && r'.readersDone + r'.writersDone == r.readersDone + r.writersDone + 1
      && (sys.shm.cells[x].procType == Reader ==> r'.readerRecords == r.readerRecords + capacity && r'.writerRecords == r.writerRecords)
      && (sys.shm.cells[x].procType == Writer ==> r'.writerRecords == r.writerRecords + capacity && r'.readerRecords == r.readerRecords)
  {
  }

  lemma ResumePreservesInv(sys: System, i: nat)
    requires Inv(sys)
    requires i < |sys.shm.cells| && i !in sys.running && sys.shm.cells[i].waitingSem > 0
    ensures Inv(Resume(sys, i))
  {
    var c := sys.shm.cells;
    var c' := Resume(sys, i).shm.cells;
    forall j | 0 <= j < |c'| && Live(c'[j])
      ensures c'[j].blockedBy == |Blockers(c', j)|
    {
      BlockersSameStatics(c, c', j);
    }
    assert LiveSet(c') == LiveSet(c);
  }

  lemma AdmitLeavePreserveInv(sys: System)
    requires Inv(sys)
    ensures sys.shm.concProc > 0 ==> Inv(Admit(sys))
    ensures sys.holders > 0 ==> Inv(Leave(sys))
  {
  }

  lemma InitEstablishesInv(nChildren: int)
    ensures Inv(Init(nChildren))
  {
    var c := Init(nChildren).shm.cells;
    assert LiveSet(c) == {};
  }

  /** The freshly initialised segment: no cell is occupied or has a waiter,
      so the first registration takes cell 0; the ticket starts at the
      number of children, every counter and the message are cleared, and
      the admission counter allows 256 workers. */
  lemma InitialState(nChildren: int)
    ensures var s := Init(nChildren).shm;
      && |s.cells| == MAX_CONCURRENT_PROCESSES
      && LiveSet(s.cells) == {}
      && (forall i :: 0 <= i < |s.cells| ==> s.cells[i].waitingSem == 0 && s.cells[i].priority == -1 && s.cells[i].procType == Unset)
      && InitIndex(s.cells) == Some(0)
      && s.ticketNumber == nChildren
      && s.concProc == MAX_CONCURRENT_PROCESSES && s.mutex == 1
      && s.accountant == 0 && s.accountantJobDone == 0 && !s.accountantTerminated
      && s.registry.readersDone == 0 && s.registry.writersDone == 0
      && s.registry.recordsProcessed == 0 && s.registry.readerRecords == 0 && s.registry.writerRecords == 0
      && (forall k :: 0 <= k < |s.registry.msg| ==> s.registry.msg[k] == '\0')
  {
    var c := Init(nChildren).shm.cells;
    assert LiveSet(c) == {};
  }

  // ---------------------------------------------------------------------
  // Consequences of the invariant
  // ---------------------------------------------------------------------

  /** No overtaking: while an older conflicting occupant is present, a
      younger one does not run. */
  lemma NoOvertaking(sys: System, i: nat, j: nat)
    requires Inv(sys)
    requires j < |sys.shm.cells| && Live(sys.shm.cells[j])
    requires i < |sys.shm.cells| && CountsOnEntry(sys.shm.cells, j, i)
    ensures j !in sys.running
  {
    assert i in Blockers(sys.shm.cells, j);
  }

  /** Two running occupants never have overlapping ranges with a writer
      among them; in particular a running writer's records are its own. */
  lemma RunningAreCompatible(sys: System, i: nat, j: nat)
    requires Inv(sys)
    requires i in sys.running && j in sys.running && i != j
    ensures !(Overlapping(sys.shm.cells[i], sys.shm.cells[j])
              && (sys.shm.cells[i].procType == Writer || sys.shm.cells[j].procType == Writer))
  {
    var c := sys.shm.cells;
    if c[i].priority <= c[j].priority {
      assert !(j in Blockers(c, i));
    } else {
      assert !(i in Blockers(c, j));
    }
  }

  /** Readers never count each other, whatever their ranges. */
  lemma ReadersShareRecords(c: seq<ProcInfo>, i: nat, j: nat)
    requires i < |c| && j < |c|
    requires c[i].procType == Reader && c[j].procType == Reader
    ensures !CountsOnEntry(c, i, j) && !CountsOnExit(c, i, j)
  {
  }

  /** No deadlock: the oldest occupant (highest priority) has no blockers,
      so it is running or its semaphore has been posted. */
  lemma OldestIsNeverBlocked(sys: System, i: nat)
    requires Inv(sys)
    requires i < |sys.shm.cells| && Live(sys.shm.cells[i])
    requires forall j :: 0 <= j < |sys.shm.cells| && Live(sys.shm.cells[j]) ==> sys.shm.cells[j].priority <= sys.shm.cells[i].priority
    ensures sys.shm.cells[i].blockedBy == 0
    ensures i in sys.running || sys.shm.cells[i].waitingSem == 1
  {
    assert Blockers(sys.shm.cells, i) == {};
  }

  // ---------------------------------------------------------------------
  // Runs
  // ---------------------------------------------------------------------

  /** One worker action on the table. */
  datatype Step =
    | AdmitStep
    | LockStep(pid: int, procType: ProcType, wanted: Range)
    | ResumeStep(i: nat)
    | UnlockStep(x: nat, capacity: int)
    | LeaveStep

  /** The step's effect, or None when it cannot happen in this state. */
  function Apply(sys: System, st: Step): Option<System>
  {
    match st
    case AdmitStep => if sys.shm.concProc > 0 then Some(Admit(sys)) else None
    case LockStep(pid, procType, wanted) =>
      if sys.holders > 0 && (procType == Reader || procType == Writer)
         && wanted.start > -1 && wanted.finish > -1 && ValidRange(wanted)
      then
        match Lock(sys, pid, procType, wanted)
        case Ok(e) => Some(e.sys)
        case Err(_) => None
      else None
    case ResumeStep(i) =>
      if i < |sys.shm.cells| && i !in sys.running && sys.shm.cells[i].waitingSem > 0
      then Some(Resume(sys, i)) else None
    case UnlockStep(x, capacity) =>
      if x in sys.running && x < |sys.shm.cells| then Some(Unlock(sys, x, capacity)) else None
    case LeaveStep => if sys.holders > 0 then Some(Leave(sys)) else None
  }

  function Run(sys: System, steps: seq<Step>): Option<System>
    decreases |steps|
  {
    if |steps| == 0 then Some(sys)
    else match Apply(sys, steps[0])
      case None => None
      case Some(s) => Run(s, steps[1..])
  }

  /** Registrations in a run. */
  function Locks(steps: seq<Step>): nat
  {
    if |steps| == 0 then 0 else (if steps[0].LockStep? then 1 else 0) + Locks(steps[1..])
  }

  /** Records reported by the exits of a run. */
  function Reported(steps: seq<Step>): int
  {
    if |steps| == 0 then 0 else (if steps[0].UnlockStep? then steps[0].capacity else 0) + Reported(steps[1..])
  }

  lemma ApplyPreservesInv(sys: System, st: Step)
    requires Inv(sys) && Apply(sys, st).Some?
    ensures Inv(Apply(sys, st).value)
    ensures Apply(sys, st).value.shm.ticketNumber == sys.shm.ticketNumber - (if st.LockStep? then 1 else 0)
    ensures Apply(sys, st).value.shm.registry.recordsProcessed
         == sys.shm.registry.recordsProcessed + (if st.UnlockStep? then st.capacity else 0)
  {
    match st
    case AdmitStep => AdmitLeavePreserveInv(sys);
    case LockStep(pid, procType, wanted) => LockPreservesInv(sys, pid, procType, wanted);
    case ResumeStep(i) => ResumePreservesInv(sys, i);
    case UnlockStep(x, capacity) => UnlockPreservesInv(sys, x, capacity);
    case LeaveStep => AdmitLeavePreserveInv(sys);
  }

  /** Every run keeps the invariant; the ticket drops by one per registration
      and the processed-record total grows by what the exits report. */
  lemma {:induction false} RunPreservesInv(sys: System, steps: seq<Step>)
    requires Inv(sys) && Run(sys, steps).Some?
    ensures Inv(Run(sys, steps).value)
    ensures Run(sys, steps).value.shm.ticketNumber == sys.shm.ticketNumber - Locks(steps)
    ensures Run(sys, steps).value.shm.registry.recordsProcessed
         == sys.shm.registry.recordsProcessed + Reported(steps)
    decreases |steps|
  {
    if |steps| > 0 {
      ApplyPreservesInv(sys, steps[0]);
      RunPreservesInv(Apply(sys, steps[0]).value, steps[1..]);
    }
  }

  /** The initializer's final check: once each of the `n` children has
      registered exactly once, `ticket_number` is 0. */
  lemma TicketAfterAllRegistered(n: int, steps: seq<Step>)
    requires Run(Init(n), steps).Some?
    requires Locks(steps) == n
    ensures Run(Init(n), steps).value.shm.ticketNumber == 0
  {
    InitEstablishesInv(n);
    RunPreservesInv(Init(n), steps);
  }

  /** In every reachable state each running pair is compatible and the
      registry's per-role totals add up to the overall total. */
  lemma ReachableStatesAreSafe(n: int, steps: seq<Step>, i: nat, j: nat)
    requires Run(Init(n), steps).Some?
    requires i in Run(Init(n), steps).value.running && j in Run(Init(n), steps).value.running && i != j
    ensures var s := Run(Init(n), steps).value.shm;
      && i < |s.cells| && j < |s.cells|
      && !(Overlapping(s.cells[i], s.cells[j]) && (s.cells[i].procType == Writer || s.cells[j].procType == Writer))
      && s.registry.recordsProcessed == s.registry.readerRecords + s.registry.writerRecords
  {
    InitEstablishesInv(n);
    RunPreservesInv(Init(n), steps);
    RunningAreCompatible(Run(Init(n), steps).value, i, j);
  }
}

=== FILE: numerals.dfy ===
/** Character classes, C `atoi` and `sscanf("%d")`, and the numeral
    validators that the three homeworks use on command-line arguments and
    command tokens. */
module Numerals {
  import opened Wrappers

  predicate IsDigit(c: char) { '0' <= c <= '9' }

  /** C `isspace` in the "C" locale: blank, and `\t` `\n` `\v` `\f` `\r`. */
  predicate IsSpace(c: char) { c == ' ' || '\t' <= c <= '\r' }

  predicate AllDigits(s: string) { forall i :: 0 <= i < |s| ==> IsDigit(s[i]) }

  function DigitValue(c: char): nat
    requires IsDigit(c)
  {
    (c as int) - ('0' as int)
  }

  /** Value of a decimal numeral, most significant digit first. */
  function DigitsValue(s: string): nat
    requires AllDigits(s)
  {
    if |s| == 0 then 0 else DigitsValue(s[..|s| - 1]) * 10 + DigitValue(s[|s| - 1])
  }

  /** The longest prefix of `s` made of digits. */
  function DigitPrefix(s: string): (p: string)
    ensures p <= s && AllDigits(p)
    ensures |p| < |s| ==> !IsDigit(s[|p|])
  {
    if |s| == 0 || !IsDigit(s[0]) then [] else [s[0]] + DigitPrefix(s[1..])
  }

  /** `s` without its leading white space. */
  function SkipSpaces(s: string): (t: string)
    ensures |t| <= |s| && t == s[|s| - |t|..]
    ensures |t| > 0 ==> !IsSpace(t[0])
  {
    if |s| > 0 && IsSpace(s[0]) then SkipSpaces(s[1..]) else s
  }

  /** C `atoi`: leading white space, an optional sign, then the longest run of
      digits; 0 when there is none. */
  function Atoi(s: string): int
  {
    var t := SkipSpaces(s);
    if |t| > 0 && t[0] == '-' then -(DigitsValue(DigitPrefix(t[1..])) as int)
    else if |t| > 0 && t[0] == '+' then DigitsValue(DigitPrefix(t[1..]))
    else DigitsValue(DigitPrefix(t))
  }

  lemma {:induction false} DigitPrefixOfDigits(s: string)
    requires AllDigits(s)
    ensures DigitPrefix(s) == s
  {
    if |s| > 0 {
      DigitPrefixOfDigits(s[1..]);
    }
  }

  /** A numeral whose first digit is not '0' has a positive value. */
  lemma {:induction false} DigitsValuePositive(s: string)
    requires |s| > 0 && AllDigits(s) && s[0] != '0'
    ensures DigitsValue(s) > 0
  {
    if |s| > 1 {
      DigitsValuePositive(s[..|s| - 1]);
    }
  }

  /** On a plain numeral `atoi` is the numeral's value. */
  lemma AtoiOfNumeral(s: string)
    requires |s| > 0 && AllDigits(s)
    ensures Atoi(s) == DigitsValue(s)
  {
    assert SkipSpaces(s) == s;
    DigitPrefixOfDigits(s);
  }

  /** After a sign character `atoi` reads the numeral that follows it. */
  lemma AtoiOfSignedNumeral(sign: char, s: string)
    requires sign == '-' || sign == '+'
    requires AllDigits(s)
    ensures Atoi([sign] + s) == if sign == '-' then -(DigitsValue(s) as int) else DigitsValue(s)
  {
    var t := [sign] + s;
    assert SkipSpaces(t) == t;
    assert t[1..] == s;
    DigitPrefixOfDigits(s);
  }

  // ---------------------------------------------------------------------
  // isPositiveIntegerNumber (Homework-0 utils.c, identical in Homework-1)
  // ---------------------------------------------------------------------

  /** The character loop of `isPositiveIntegerNumber` from position `i` on. */
  predicate PositiveScan(s: string, i: nat)
    decreases |s| - i
  {
    if i >= |s| then true
    else if i == 0 && s[i] == '+' then PositiveScan(s, i + 1)
    else if i == 0 && s[i] == '0' then false
    else if !IsDigit(s[i]) then false
    else PositiveScan(s, i + 1)
  }

  /** `isPositiveIntegerNumber` on a non-NULL string. */
  predicate IsPositiveIntegerNumber(s: string)
  {
    if |s| == 0 then false
    else if s[0] == '-' then false
    else PositiveScan(s, 0)
  }

  /** The check the usage messages of both programs ask for: a
      positive-integer string whose value is at least one. */
  predicate IsStrictlyPositive(s: string)
  {
    IsPositiveIntegerNumber(s) && Atoi(s) >= 1
  }

  lemma {:induction false} PositiveScanTail(s: string, i: nat)
    requires 1 <= i
    ensures PositiveScan(s, i) <==> forall j :: i <= j < |s| ==> IsDigit(s[j])
    decreases |s| - i
  {
    if i < |s| {
      PositiveScanTail(s, i + 1);
    }
  }

  /** The accepted strings are exactly: a leading '+' or non-zero digit,
      followed by digits only.  So "+" and "+0" pass while "0" does not. */
  lemma PositiveIntegerShape(s: string)
    ensures IsPositiveIntegerNumber(s) <==>
      |s| > 0 && (s[0] == '+' || '1' <= s[0] <= '9') &&
      forall j :: 1 <= j < |s| ==> IsDigit(s[j])
  {
    if |s| > 0 {
      PositiveScanTail(s, 1);
    }
  }

  /** What `atoi` makes of an accepted string: never negative, and positive
      unless the string starts with '+'. */
  lemma PositiveIntegerValue(s: string)
    requires IsPositiveIntegerNumber(s)
    ensures Atoi(s) >= 0
    ensures s[0] != '+' ==> Atoi(s) > 0
  {
    PositiveIntegerShape(s);
    if s[0] == '+' {
      assert AllDigits(s[1..]);
      DigitPrefixOfDigits(s[1..]);
    } else {
      assert AllDigits(s);
      DigitPrefixOfDigits(s);
      DigitsValuePositive(s);
    }
  }

  /** A bare "+" passes `isPositiveIntegerNumber` but has value zero, so
      the strict check refuses it. */
  lemma BarePlusNotStrict(s: string)
    requires s == "+"
    ensures IsPositiveIntegerNumber(s) && Atoi(s) == 0 && !IsStrictlyPositive(s)
  {
    PositiveIntegerShape(s);
    AtoiOfSignedNumeral('+', "");
    assert ['+'] + "" == s;
  }

  /** A single non-zero digit passes the strict check. */
  lemma NonZeroDigitStrict(s: string)
    requires |s| == 1 && '1' <= s[0] <= '9'
    ensures IsStrictlyPositive(s) && Atoi(s) == DigitValue(s[0])
  {
    assert IsPositiveIntegerNumber(s) by {
      assert PositiveScan(s, 1);
    }
    assert Atoi(s) == DigitValue(s[0]) by {
      assert AllDigits(s);
      AtoiOfNumeral(s);
      assert s[..0] == [];
    }
  }

  // ---------------------------------------------------------------------
  // isValidInteger (Homework-2 inputUtils.c)
  // ---------------------------------------------------------------------

  /** The first loop of `isValidInteger`: a '-' is skipped at position 0 only,
      every other character must be a digit. */
  predicate SignedScan(s: string, i: nat)
    decreases |s| - i
  {
    if i >= |s| then true
    else if i == 0 && s[i] == '-' then SignedScan(s, i + 1)
    else if !IsDigit(s[i]) then false
    else SignedScan(s, i + 1)
  }

  /** `isValidInteger(str, option)` on a non-NULL string.  The source's second
      loop (meant to skip a leading '+') has an empty body, so it is absent. */
  predicate IsValidInteger(s: string, option: int)
  {
    if |s| == 0 then false
    else if !SignedScan(s, 0) then false
    else if option == -1 then true
    else if s[0] == '-' then false
    else if option == 0 then true
    else if s[0] == '0' then false
    else true
  }

  lemma {:induction false} SignedScanTail(s: string, i: nat)
    requires 1 <= i
    ensures SignedScan(s, i) <==> forall j :: i <= j < |s| ==> IsDigit(s[j])
    decreases |s| - i
  {
    if i < |s| {
      SignedScanTail(s, i + 1);
    }
  }

  /** A one-character numeral: valid under options 0 and, unless it is
      '0', 1, and read by `atoi` as its digit's value. */
  lemma SingleDigit(c: char)
    requires IsDigit(c)
    ensures IsValidInteger([c], 0) && Atoi([c]) == DigitValue(c)
    ensures c != '0' ==> IsValidInteger([c], 1)
  {
    var s := [c];
    assert s[0] == c && |s| == 1;
    assert SignedScan(s, 1);
    assert SignedScan(s, 0);
    assert AllDigits(s);
    AtoiOfNumeral(s);
    assert DigitsValue(s) == DigitValue(c) by {
      assert s[..0] == [];
    }
  }

  /** Option -1 accepts digit strings with an optional single leading '-'
      (so "-" alone passes); option 0 accepts digit strings only; option 1
      also refuses a leading '0'. */
  lemma ValidIntegerShape(s: string)
    ensures IsValidInteger(s, -1) <==>
      |s| > 0 && (s[0] == '-' || IsDigit(s[0])) && forall j :: 1 <= j < |s| ==> IsDigit(s[j])
    ensures IsValidInteger(s, 0) <==> |s| > 0 && AllDigits(s)
    ensures IsValidInteger(s, 1) <==> |s| > 0 && AllDigits(s) && s[0] != '0'
  {
    if |s| > 0 {
      SignedScanTail(s, 1);
    }
  }

  /** Whatever the comment in the source says, a leading '+' is refused
      under every option. */
  lemma ValidIntegerRefusesPlus(s: string, option: int)
    requires |s| > 0 && s[0] == '+'
    ensures !IsValidInteger(s, option)
  {
  }

  /** What `atoi` makes of an accepted string: option 0 gives a value >= 0,
      option 1 a value >= 1. */
  lemma ValidIntegerValue(s: string, option: int)
    requires option == 0 || option == 1
    requires IsValidInteger(s, option)
    ensures Atoi(s) >= option
  {
    ValidIntegerShape(s);
    AtoiOfNumeral(s);
    if option == 1 {
      DigitsValuePositive(s);
    }
  }

  // ---------------------------------------------------------------------
  // sscanf "%d" (Homework-0 DataBase.c)
  // ---------------------------------------------------------------------

  /** `sscanf(line, "%d")`: after white space and an optional sign there
      must be at least one digit; the value read is the one `atoi` gives. */
  function ScanInt(s: string): (r: Option<int>)
  {
    var t := SkipSpaces(s);
    var digits := if |t| > 0 && (t[0] == '-' || t[0] == '+') then t[1..] else t;
    if |DigitPrefix(digits)| == 0 then None else Some(Atoi(s))
  }

  lemma {:induction false} DigitPrefixStops(s: string, rest: string)
    requires AllDigits(s) && (|rest| == 0 || !IsDigit(rest[0]))
    ensures DigitPrefix(s + rest) == s
  {
    if |s| == 0 {
      assert s + rest == rest;
    } else {
      assert (s + rest)[1..] == s[1..] + rest;
      DigitPrefixStops(s[1..], rest);
    }
  }

  /** `atoi` of a line starting with a numeral is the numeral's value. */
  lemma AtoiOfNumeralPrefix(s: string, rest: string)
    requires |s| > 0 && AllDigits(s) && (|rest| == 0 || !IsDigit(rest[0]))
    ensures SkipSpaces(s + rest) == s + rest && DigitPrefix(s + rest) == s
    ensures Atoi(s + rest) == DigitsValue(s)
  {
    var t := s + rest;
    assert t[0] == s[0];
    DigitPrefixStops(s, rest);
  }

  /** A line starting with a numeral scans to the numeral's value. */
  lemma ScanIntOfNumeral(s: string, rest: string)
    requires |s| > 0 && AllDigits(s) && (|rest| == 0 || !IsDigit(rest[0]))
    ensures ScanInt(s + rest) == Some(DigitsValue(s))
  {
    AtoiOfNumeralPrefix(s, rest);
    assert (s + rest)[0] == s[0];
  }

  /** A line with no digit at all does not scan. */
  lemma ScanIntNeedsADigit(s: string)
    requires forall i :: 0 <= i < |s| ==> !IsDigit(s[i])
    ensures ScanInt(s).None?
  {
    var t := SkipSpaces(s);
    var digits := if |t| > 0 && (t[0] == '-' || t[0] == '+') then t[1..] else t;
    if |digits| > 0 {
      assert digits[0] == s[|s| - |digits|];
    }
  }

}

=== FILE: wrappers.dfy ===
/** Failure-carrying result types shared by every module of the model. */
module Wrappers {

  /** A value that may be absent: the model's stand-in for a C `NULL` pointer. */
  datatype Option<+T> = None | Some(value: T)

  /** Either a value or the reason an operation stopped (a C `exit`, a failed
      `assert`, or an error return). */
  datatype Result<+R, +E> = Ok(value: R) | Err(error: E)
}
